=== FILE: README.md ===
# English–Hebrew tutor: a Dafny model of its text-processing core

This project models the logic of an Angular tutoring app. The learner chats in
English with a language model, and the app turns each completion into an
English reply, a Hebrew translation and a list of learning blocks.

The centre of the model covers two parts:

- **The enhanced tutor's response parser.** It cuts the `BLOCKS:` section off
  a completion and splits the rest into English and Hebrew by one of three
  tiers. It strips protocol artifacts from both halves, decodes the
  `[GRAMMAR]`/`[USAGE]`/`[WARNING]`/`[PRACTICE]`/`[VOCABULARY]` segments into
  learning blocks, and falls back to a markdown heuristic when none are
  declared. It also maps every transport failure to a canned bilingual
  message.
- **The markdown pipe.** It renders the tutor's markdown to HTML line by line.
  HTML is escaped before inline formatting, at most one list is open at a
  time, and tables are gathered row by row.

Around it the model covers these services and components:

- the older feedback parser of the chat service;
- the flash-card store with its spaced-review schedule and statistics;
- the normalisation of model-suggested vocabulary;
- the vocabulary screen's sort, filter and review state machine;
- experience points, levels and the daily streak;
- the daily challenge and its 32-bit date hash;
- the session summary;
- the conversation-mode catalogue;
- the avatar's mood machine;
- the self-assessment form;
- the rule-based language analyser.

The models are organised as follows:

- Each source file is one module. `Text` holds the JavaScript string
  primitives they share: `trim`, the `\s` and `\w` classes, ASCII case
  folding and `split`.
- `Json` holds the values `JSON.parse` returns, with JavaScript's coercions.
- `Calendar` holds ISO calendar dates.
- Every regular expression is written as a hand-made matcher. It keeps the
  expression's leftmost, greedy or lazy choice.
- Strings are `seq<char>`.
- Times are integer milliseconds passed in by the caller.
- `localStorage` and the RxJS subjects are plain state values.
- `JSON.parse` and the model provider are function parameters or given inputs.

## Model

| member | source | states |
|---|---|---|
| Blocks.TypeName | src/app/services/enhanced-claude.service.ts:287-288 | every block type has a non-empty name with no upper-case letter, the lower-cased tag the parser reads |
| ResponseText.FinalBracket | src/app/services/enhanced-claude.service.ts:186 | finds the `]` that ends the completion up to trailing whitespace, and reports none exactly when the completion does not end that way |
| ResponseText.FinalBracketIs | src/app/services/enhanced-claude.service.ts:186 | the closing `]` anchored at the end of the text is unique |
| ResponseText.FirstMatch | src/app/services/enhanced-claude.service.ts:186-190 | finds the leftmost position where a pattern matches, and none exactly when it matches nowhere |
| ResponseText.Cut | src/app/services/enhanced-claude.service.ts:186-190 | a trailing-section removal keeps a prefix of the text; when it cuts, a match starts after the whitespace at the cut and none starts earlier; when it does not, the pattern matches nowhere |
| ResponseText.CutIsLeftmostMatch | src/app/services/enhanced-claude.service.ts:186-190 | the cut point is the earliest position from which only whitespace leads to a match |
| ResponseText.CutRemovesPattern | src/app/services/enhanced-claude.service.ts:188-190 | after the cut, the text holds no blocks opener and no word of the cut pattern |
| ResponseText.CleanedText | src/app/services/enhanced-claude.service.ts:183-192 | the text with the blocks section removed is trimmed |
| ResponseText.CleanedTextFacts | src/app/services/enhanced-claude.service.ts:183-192 | the cleaned text is the trimmed version of a prefix of the completion, and holds no `BLOCKS: [` opener and no display block tag |
| ResponseText.MatchEnd | src/app/services/enhanced-claude.service.ts:238-239 | a removed tag or field match stops at the end of its line or at the end of the text |
| ResponseText.Strip | src/app/services/enhanced-claude.service.ts:238-239 | a global line removal never makes the text longer |
| ResponseText.StripStartsAtNewline | src/app/services/enhanced-claude.service.ts:238-239 | what is left after a removed match begins with the newline that ended it |
| ResponseText.StripRemovesWords | src/app/services/enhanced-claude.service.ts:238-239 | after a global removal, no tag or field marker of that removal is left |
| ResponseText.StripKeepsAbsent | src/app/services/enhanced-claude.service.ts:238-239 | a removal creates no tag or marker the text did not already hold |
| ResponseText.StripOfPlain | src/app/services/enhanced-claude.service.ts:238-239 | a removal finds nothing to do in text without its words |
| ResponseText.CleanDisplay | src/app/services/enhanced-claude.service.ts:235-241 | the display text is trimmed, holds no block tag and no `EN:`/`HE:`/`EX:` field, and is no longer than its input |
| ResponseText.StripArtifacts | src/app/services/enhanced-claude.service.ts:236-239 | the three removals leave no block tag and no field marker, and never lengthen the text |
| ResponseText.CleanDisplayOfPlain | src/app/services/enhanced-claude.service.ts:235-241 | text with no blocks tail, tag or field is only trimmed |
| ResponseText.DropOpenBracket | src/app/services/enhanced-claude.service.ts:245 | removes at most one `[`, the first non-whitespace character, along with the whitespace before it |
| ResponseText.DropCloseBracket | src/app/services/enhanced-claude.service.ts:245 | removes at most the final `]` and the whitespace after it |
| ResponseText.StripBrackets | src/app/services/enhanced-claude.service.ts:243-246 | the result is trimmed |
| ResponseText.StripBracketsOfBracketed | src/app/services/enhanced-claude.service.ts:243-246 | a trimmed text wrapped in brackets, with whitespace around them, comes back unchanged |
| ResponseText.StripBracketsOfPlain | src/app/services/enhanced-claude.service.ts:243-246 | text without surrounding brackets is only trimmed |
| ResponseText.DropEnglishLabel | src/app/services/enhanced-claude.service.ts:214 | removes a leading `English:` label in any letter case, with the whitespace around it, or changes nothing |
| ResponseText.LastHebrewTail | src/app/services/enhanced-claude.service.ts:197-199 | finds the last position in a range where `] Hebrew: [` begins a tail that runs to the final `]` |
| ResponseText.GreedyEnd | src/app/services/enhanced-claude.service.ts:197-199 | for a given `English: [`, the greedy English group ends at the last position where the Hebrew tail matches |
| ResponseText.FindBracket | src/app/services/enhanced-claude.service.ts:197-199 | the bracket format matches at the leftmost `English:` for which it can match at all |
| ResponseText.BracketFlags | src/app/services/enhanced-claude.service.ts:197-199 | records, for every position, whether the bracket format matches there |
| ResponseText.BracketMatchesAtIff | src/app/services/enhanced-claude.service.ts:197-199 | the bracket format matches at a position exactly when some end of the English group works |
| ResponseText.FirstHebrewLine | src/app/services/enhanced-claude.service.ts:209-211 | finds the first line that begins with `Hebrew:`, the end of the lazy English group |
| ResponseText.BracketParts | src/app/services/enhanced-claude.service.ts:200-205 | the bracket format's English and Hebrew halves are ready for display |
| ResponseText.LineParts | src/app/services/enhanced-claude.service.ts:212-221 | the line format's English and Hebrew halves are ready for display |
| ResponseText.AllEnglish | src/app/services/enhanced-claude.service.ts:224-227 | in the last-resort format the Hebrew half is empty and the English half is ready for display |
| ResponseText.ParseContent | src/app/services/enhanced-claude.service.ts:180-232 | both displayed halves of any completion are trimmed and hold no block tag and no field marker |
| ResponseText.BracketTier | src/app/services/enhanced-claude.service.ts:195-206 | when the bracket format matches, its leftmost `English:` and greedy English group decide the split |
| ResponseText.LineTier | src/app/services/enhanced-claude.service.ts:208-222 | without the bracket format, the first `Hebrew:` line splits the text |
| ResponseText.AllEnglishTier | src/app/services/enhanced-claude.service.ts:224-227 | without either format, the whole cleaned text is English and the Hebrew half is empty |
| ResponseText.HebrewNeedsLabel | src/app/services/enhanced-claude.service.ts:180-232 | Hebrew text is found only after a `Hebrew:` label |
| StructuredBlocks.ClosedPayload | src/app/services/enhanced-claude.service.ts:253-257 | with no `BLOCKS: [` opener the payload is empty; after the first opener it is the trimmed text from its bracket to the final `]` |
| StructuredBlocks.OpenPayload | src/app/services/enhanced-claude.service.ts:259-265 | with no `BLOCKS:` opener the payload is empty; after the first opener it is the trimmed text that follows it |
| StructuredBlocks.AfterLastBracket | src/app/services/enhanced-claude.service.ts:269-270 | the text after the last `]` holds no `]` |
| StructuredBlocks.NoBracketNoTag | src/app/services/enhanced-claude.service.ts:271 | a text without `]` holds no block tag |
| StructuredBlocks.TagPayloadNeverFires | src/app/services/enhanced-claude.service.ts:267-274 | the third way of finding a payload never yields one, since every tag after the last `]` would hold a later `]` |
| StructuredBlocks.BlocksPayload | src/app/services/enhanced-claude.service.ts:251-274 | a non-empty payload is found only after a `BLOCKS: [` opener |
| StructuredBlocks.SectionPayload | src/app/services/enhanced-claude.service.ts:251-274 | text without a `BLOCKS:` label followed by `BLOCKS: [ body ]` and trailing blanks yields the trimmed body as payload |
| StructuredBlocks.FirstMatchIsFirst | src/app/services/enhanced-claude.service.ts:253-265 | the search for a section opener finds its first occurrence |
| StructuredBlocks.SplitAtTags | src/app/services/enhanced-claude.service.ts:281 | the lookahead split yields at least one segment |
| StructuredBlocks.SplitAtTagsParts | src/app/services/enhanced-claude.service.ts:281 | the segments joined back give the text, every segment but the first starts with a tag, and no segment holds a tag after its start |
| StructuredBlocks.TagsDoNotOverlap | src/app/services/enhanced-claude.service.ts:281 | a block tag cannot start inside another one |
| StructuredBlocks.TagUnique | src/app/services/enhanced-claude.service.ts:284 | at most one block tag matches at a position, in any letter case |
| StructuredBlocks.ParseHeader | src/app/services/enhanced-claude.service.ts:284-289 | a header is found only on a segment that starts with a tag; its type is that tag's, with `[VOCABULARY]` read as usage, and its title is trimmed and one line |
| StructuredBlocks.HeaderNeedsTag | src/app/services/enhanced-claude.service.ts:284-285 | a segment that does not start with a tag yields no block |
| StructuredBlocks.HeaderTitle | src/app/services/enhanced-claude.service.ts:284-289 | the title is the first non-blank text after the tag, even when it is on the next line |
| StructuredBlocks.HeaderNeedsText | src/app/services/enhanced-claude.service.ts:284-285 | a tag followed only by line breaks has no header |
| StructuredBlocks.FieldValue | src/app/services/enhanced-claude.service.ts:299-303 | the value after a field marker is trimmed |
| StructuredBlocks.ExampleOf | src/app/services/enhanced-claude.service.ts:303-312 | an example without `|` is all English with an empty translation; otherwise it splits at the first `|` into trimmed halves |
| StructuredBlocks.ReadLineField | src/app/services/enhanced-claude.service.ts:296-301 | one line sets the `EN:` or `HE:` value exactly when it carries that marker |
| StructuredBlocks.LastFieldWins | src/app/services/enhanced-claude.service.ts:296-301 | of several `EN:` (or `HE:`) lines the last one gives the value |
| StructuredBlocks.AbsentFieldEmpty | src/app/services/enhanced-claude.service.ts:292-301 | without an `EN:` (or `HE:`) line the value stays empty |
| StructuredBlocks.MarkersExclusive | src/app/services/enhanced-claude.service.ts:298-302 | a line carries at most one of the three markers |
| StructuredBlocks.ReadFieldsExamples | src/app/services/enhanced-claude.service.ts:294-313 | every `EX:` line adds one example, in line order, and no other line adds any |
| StructuredBlocks.BlockOf | src/app/services/enhanced-claude.service.ts:284-323 | a block comes only from a segment that starts with a tag; its English is never empty, its examples are absent rather than empty, and its title is trimmed and one line |
| StructuredBlocks.BlocksOfParts | src/app/services/enhanced-claude.service.ts:283-326 | at most one block per segment, each of them well formed as above |
| StructuredBlocks.ParseStructuredBlocks | src/app/services/enhanced-claude.service.ts:248-331 | every block is well formed, and blocks are found only after a `BLOCKS: [` opener whose payload is not `none` |
| StructuredBlocks.NoLabelNoBlocks | src/app/services/enhanced-claude.service.ts:248-277 | without a `BLOCKS: [` opener there are no structured blocks |
| StructuredBlocks.KindTag | src/app/services/enhanced-claude.service.ts:287-288 | every block type has a tag that declares it |
| StructuredBlocks.ExampleRoundTrip | src/app/services/enhanced-claude.service.ts:303-312 | an example written as `english | hebrew`, or as its English alone, reads back as itself |
| StructuredBlocks.PairRoundTrip | src/app/services/enhanced-claude.service.ts:303-309 | `english | hebrew` splits back into its two halves when the English holds no `|` |
| StructuredBlocks.ExampleLinesRoundTrip | src/app/services/enhanced-claude.service.ts:302-313 | a list of written `EX:` lines reads back as the examples, in order |
| StructuredBlocks.RenderedHeader | src/app/services/enhanced-claude.service.ts:284-289 | the header line of a written block gives back its type and title |
| StructuredBlocks.RenderedLines | src/app/services/enhanced-claude.service.ts:290 | splitting a written block at line breaks gives back its lines |
| StructuredBlocks.RenderedFields | src/app/services/enhanced-claude.service.ts:292-314 | the field lines of a written block read back as its English, Hebrew and examples |
| StructuredBlocks.BlockRoundTrip | src/app/services/enhanced-claude.service.ts:283-323 | a well-formed block written in the line format the tutor's instructions ask for reads back as itself |
| StructuredBlocks.DeclaredBlocksRoundTrip | src/app/services/enhanced-claude.service.ts:248-331 | a non-empty list of well-formed blocks, written one after another in the line format inside a `BLOCKS: [ … ]` section, is parsed back as exactly that list |
| HeuristicBlocks.CorrectionBlock | src/app/services/enhanced-claude.service.ts:338-348 | a "Correction" grammar block exists exactly when a correction phrase occurs in any letter case; its English is the text from the first such phrase on, cut to 300 characters, with no Hebrew and no examples |
| HeuristicBlocks.CorrectionSearch | src/app/services/enhanced-claude.service.ts:339 | the phrase search succeeds exactly when a phrase occurs, and finds it inside the text |
| HeuristicBlocks.KeywordStart | src/app/services/enhanced-claude.service.ts:351 | the topic word of a heading starts after its `#` run and inside the text |
| HeuristicBlocks.KindByOccurs | src/app/services/enhanced-claude.service.ts:356-360 | the block type follows the `includes` chains: usage, then warning, then practice, else grammar |
| HeuristicBlocks.KeywordKindTable | src/app/services/enhanced-claude.service.ts:356-360 | vocabulary, usage and tip give the usage type; warning, note and important the warning type; practice its own; every other topic grammar |
| HeuristicBlocks.SectionOf | src/app/services/enhanced-claude.service.ts:351-366 | a heading match runs from its `#`s to the end of its line, and its title is trimmed |
| HeuristicBlocks.SectionKind | src/app/services/enhanced-claude.service.ts:356-360 | a section's type is the one the `includes` chains give its topic word |
| HeuristicBlocks.SectionFlags | src/app/services/enhanced-claude.service.ts:351 | records, for every position, whether a heading match starts there |
| HeuristicBlocks.NextSection | src/app/services/enhanced-claude.service.ts:355 | finds the first heading at or after a position, and none exactly when there is none |
| HeuristicBlocks.Sections | src/app/services/enhanced-claude.service.ts:353-367 | every reported section lies inside the text, from where the scan started |
| HeuristicBlocks.SectionsComplete | src/app/services/enhanced-claude.service.ts:353-367 | the global scan reports headings in text order without overlap, and misses only headings that start inside an earlier match |
| HeuristicBlocks.ExcerptEnd | src/app/services/enhanced-claude.service.ts:372-374 | a section's excerpt ends at the next heading, or at most 500 characters on for the last one |
| HeuristicBlocks.AddSections | src/app/services/enhanced-claude.service.ts:369-386 | keeps the blocks already found; each added block is a section's block (its type, title and trimmed excerpt as English) with a title not yet taken; every section's title ends up present |
| HeuristicBlocks.SectionBlock | src/app/services/enhanced-claude.service.ts:369-386 | a section's block carries its type and title and the trimmed excerpt up to where it ends, with no Hebrew; the last section's English is at most 500 characters |
| HeuristicBlocks.TitleIndex | src/app/services/enhanced-claude.service.ts:370-379 | the first section from a position on that has the title, or none |
| HeuristicBlocks.AddSectionsInOrder | src/app/services/enhanced-claude.service.ts:369-386 | each added block is the block of the first section with its title, and the added blocks follow the order of those sections |
| HeuristicBlocks.HintBlocks | src/app/services/enhanced-claude.service.ts:388-415 | the correction, tip and practice blocks appear exactly when their hint patterns occur, in that order, each with a Hebrew note |
| HeuristicBlocks.ExtractBlocksFromMarkdown | src/app/services/enhanced-claude.service.ts:334-418 | empty text gives no blocks; titles are distinct; a correction block comes first; after it, each block is the trimmed excerpt block of the first heading with its title, in heading order; the generic hint blocks appear only when no correction phrase and no heading was found; every heading's title is present |
| HeuristicBlocks.SectionsInText | src/app/services/enhanced-claude.service.ts:353-367 | the sections of the whole text lie inside it, in order |
| HeuristicBlocks.HeadingSection | src/app/services/enhanced-claude.service.ts:351-366 | a heading line of one to three `#`s and a topic word yields a section of that word's type, titled by the trimmed line, ending at the line's end |
| EnhancedTutor.TurnsOf | src/app/services/enhanced-claude.service.ts:109-111 | one turn per earlier message, keeping its sender and English text |
| EnhancedTutor.History | src/app/services/enhanced-claude.service.ts:97-114 | the new message always closes the history; a first message goes alone; otherwise the earlier messages come first in order, at most the last one dropped |
| EnhancedTutor.HistoryDropsEcho | src/app/services/enhanced-claude.service.ts:103-107 | an earlier last message whose English is the new message is not sent twice |
| EnhancedTutor.HistoryKeepsAll | src/app/services/enhanced-claude.service.ts:103-113 | without such an echo every earlier message is sent, in order, before the new one |
| EnhancedTutor.ClassifyError | src/app/services/enhanced-claude.service.ts:421-444 | a 429 status means rate limited; else status 0 or type `unknown_error` means unreachable; else a status from 500 up means unavailable; anything else asks to rephrase |
| EnhancedTutor.ErrorMessage | src/app/services/enhanced-claude.service.ts:421-444 | every error gets the canned answer of its class, non-empty in both languages |
| EnhancedTutor.KindMessageInjective | src/app/services/enhanced-claude.service.ts:422-443 | the four canned answers differ, so the English tells which check fired |
| EnhancedTutor.MessageLengths | src/app/services/enhanced-claude.service.ts:422-443 | the English answers have four different lengths and none of the answers is empty |
| EnhancedTutor.LocalErrorRephrases | src/app/services/enhanced-claude.service.ts:126-128 | the service's own errors carry no status and get the request to rephrase |
| EnhancedTutor.RateLimitFirst | src/app/services/enhanced-claude.service.ts:422-433 | a rate limit is reported even when the error's type alone would mean unreachable, and `unknown_error` wins over a 5xx status |
| EnhancedTutor.ParseReply | src/app/services/enhanced-claude.service.ts:150-178 | the English and Hebrew are those of the content parser; declared blocks are kept; when the section declares none (or is absent) the blocks are the heuristic's on the English |
| EnhancedTutor.HeuristicOnlyAsFallback | src/app/services/enhanced-claude.service.ts:162-169 | the blocks are the declared ones when there are any, and otherwise exactly the ones the heuristic finds in the English |
| EnhancedTutor.DeclaredNoneFallsBack | src/app/services/enhanced-claude.service.ts:162-169 | a `BLOCKS: [none]` section (in any case) decodes to no blocks, so the heuristic supplies them |
| EnhancedTutor.NoLabelHeuristic | src/app/services/enhanced-claude.service.ts:162-169 | without a `BLOCKS: [` opener every block comes from the heuristic |
| EnhancedTutor.StructuredBlocksAreEmitted | src/app/services/enhanced-claude.service.ts:162-169 | a declared block list comes back whole, with no heuristic block mixed in |
| EnhancedTutor.CompletionText | src/app/services/enhanced-claude.service.ts:126-155 | a reply yields text exactly when its content has a first part and that part is text; a missing or empty content, or a non-text first part, is the service's own error |
| EnhancedTutor.SendMessage | src/app/services/enhanced-claude.service.ts:95-147 | the answer is always an assistant message stamped now, the first-message flag is cleared, an error gives the canned answer with no blocks, and a reply gives the parsed English, Hebrew and blocks |
| EnhancedTutor.FailureIsCanned | src/app/services/enhanced-claude.service.ts:136-146 | a failed call always comes back as a canned answer with an empty block list |
| EnhancedTutor.MalformedReplyRephrases | src/app/services/enhanced-claude.service.ts:126-128 | a reply with no parts, or whose first part is not text, asks the learner to rephrase |
| Markdown.ReplaceChar | src/app/pipes/markdown.pipe.ts:171-174 | a global replacement leaves a character out when the replacement lacks it, and keeps out every character neither the text nor the replacement holds |
| Markdown.ReplaceAbsent | src/app/pipes/markdown.pipe.ts:171-174 | replacing a character the text does not hold changes nothing |
| Markdown.ReplaceConcat | src/app/pipes/markdown.pipe.ts:171-174 | a global replacement distributes over concatenation |
| Markdown.EscapeHtml | src/app/pipes/markdown.pipe.ts:169-175 | escaped text holds no `<`, `>` or `"` |
| Markdown.EscapeHtmlIsCharwise | src/app/pipes/markdown.pipe.ts:169-175 | the four passes, ampersand first, escape each character independently: the later passes never touch the entities the earlier ones wrote |
| Markdown.EscapeConcat | src/app/pipes/markdown.pipe.ts:169-175 | escaping distributes over concatenation |
| Markdown.EscapeOneChar | src/app/pipes/markdown.pipe.ts:171-174 | each of `&`, `<`, `>`, `"` becomes its entity and every other character stays |
| Markdown.EscapeRoundTrip | src/app/pipes/markdown.pipe.ts:169-175 | escaping loses nothing: decoding the entities gives the text back |
| Markdown.ClosingAt | src/app/pipes/markdown.pipe.ts:155-159 | a match opens at a delimiter and closes at a later one, with only the same line between them |
| Markdown.ClosingIsFirst | src/app/pipes/markdown.pipe.ts:155-159 | the lazy `(.*?)` match closes at the first delimiter after the opening one |
| Markdown.UnwrapPlain | src/app/pipes/markdown.pipe.ts:155-159 | text without `<` passes the tag decoder unchanged |
| Markdown.WrapRoundTrip | src/app/pipes/markdown.pipe.ts:155-159 | on escaped text, turning the tags back into the delimiter gives the text: wrapping loses no text |
| Markdown.WrapTagged | src/app/pipes/markdown.pipe.ts:155-159 | a delimiter with a closing one on its line becomes an element around the text between them |
| Markdown.WrapCopied | src/app/pipes/markdown.pipe.ts:155-159 | a position with no closing delimiter is copied as it is |
| Markdown.WrapSegmentBack | src/app/pipes/markdown.pipe.ts:155-159 | one wrapped element decodes back to its delimited stretch of input |
| Markdown.UnwrapSegment | src/app/pipes/markdown.pipe.ts:155-159 | an element decodes to its contents between two delimiters |
| Markdown.WrapWithoutDelimiter | src/app/pipes/markdown.pipe.ts:155-159 | text without the delimiter comes through unchanged |
| Markdown.WrapAddsNoQuote | src/app/pipes/markdown.pipe.ts:155-159 | the inline tags add no double quote |
| Markdown.InlineHasNoQuote | src/app/pipes/markdown.pipe.ts:153-175 | escaped, inline-formatted text holds no double quote, so no attribute can be opened from the text |
| Markdown.TextAfterSpace | src/app/pipes/markdown.pipe.ts:70 | `\s+(.+)$` captures the text after the shortest whitespace run that leaves a one-line rest |
| Markdown.TrimAll | src/app/pipes/markdown.pipe.ts:43 | each cell is trimmed |
| Markdown.TableCells | src/app/pipes/markdown.pipe.ts:41-43 | a table row starts and ends with `|` and gives at least one trimmed cell |
| Markdown.TextOf | src/app/pipes/markdown.pipe.ts:70 | the captured text is a non-empty, one-line suffix of the line after the marker |
| Markdown.HeadingOf | src/app/pipes/markdown.pipe.ts:70 | a heading has one to four `#`s, exactly the line's `#` run, then whitespace and text |
| Markdown.BulletOf | src/app/pipes/markdown.pipe.ts:80 | a bullet starts with `-` or `*`, then whitespace and text |
| Markdown.NumberedOf | src/app/pipes/markdown.pipe.ts:89 | an ordered item is a digit run, a dot, whitespace and text |
| Markdown.Classify | src/app/pipes/markdown.pipe.ts:29-111 | rules come first, then table rows; a heading, bullet or item keeps the text after its marker; blank lines are all whitespace and paragraphs are not |
| Markdown.HeadingLine | src/app/pipes/markdown.pipe.ts:70-76 | one to four `#`s, whitespace and text make a heading of that level with that text |
| Markdown.BulletLine | src/app/pipes/markdown.pipe.ts:80-85 | `-` or `*`, whitespace and text make an unordered item with that text |
| Markdown.NumberedLine | src/app/pipes/markdown.pipe.ts:89-94 | digits, a dot, whitespace and text make an ordered item with that text |
| Markdown.LetterLine | src/app/pipes/markdown.pipe.ts:108-110 | a line that starts with a letter is a paragraph |
| Markdown.BuildTable | src/app/pipes/markdown.pipe.ts:120-146 | no rows give no markup; otherwise the markup opens the table and starts with a head exactly when the table had an alignment row |
| Markdown.LastListOpen | src/app/pipes/markdown.pipe.ts:162-167 | finds the last list opening pushed, or `</ul>` when there is none |
| Markdown.EndList | src/app/pipes/markdown.pipe.ts:34 | closing a list clears the list flag and leaves the table state alone |
| Markdown.FlushTable | src/app/pipes/markdown.pipe.ts:61-67 | a pending table is pushed as one piece and its rows and header flag cleared; without one nothing changes |
| Markdown.Transform | src/app/pipes/markdown.pipe.ts:14-19 | no text, or the empty text, renders as the empty string |
| Markdown.LastOpenIsOpenList | src/app/pipes/markdown.pipe.ts:148-151 | with a list open, the closing tag matches the tag that opened it |
| Markdown.StepInv | src/app/pipes/markdown.pipe.ts:29-111 | every line keeps the list tags paired with at most the last one open, and never a list and a table open at once |
| Markdown.RunInv | src/app/pipes/markdown.pipe.ts:29-111 | the invariant holds after any number of lines |
| Markdown.ListsBalanced | src/app/pipes/markdown.pipe.ts:21-118 | every list the renderer opens is closed, by the tag that matches the one that opened it |
| Markdown.RuleLine | src/app/pipes/markdown.pipe.ts:33-37 | a rule closes the list, flushes the table and ends the output with `<hr>` |
| Markdown.BlankLine | src/app/pipes/markdown.pipe.ts:60-106 | a blank line flushes a pending table, closes the open list with its matching tag, and adds nothing else |
| Markdown.ParagraphLine | src/app/pipes/markdown.pipe.ts:108-110 | a paragraph line first closes an open table and an open list, then adds one `<p>` piece with the escaped, formatted line |
| Markdown.OrderedItemContinuesList | src/app/pipes/markdown.pipe.ts:60-94 | a numbered line inside an open bulleted list, after flushing any pending table, adds an item to that list rather than opening an ordered one |
| Markdown.TableRowLine | src/app/pipes/markdown.pipe.ts:42-58 | inside a table, an alignment row marks the header and any other row is appended; nothing is output |
| Markdown.EmptyRendersEmpty | src/app/pipes/markdown.pipe.ts:15 | no text renders as nothing |
| LegacyFeedback.AddLevels | src/app/services/claude.service.ts:134-146 | the sum is produced exactly when every level is a number in [1, 4], and then lies between one and four per level |
| LegacyFeedback.Fixed2 | src/app/services/claude.service.ts:152 | in exact arithmetic, rounding to two decimals gives a whole number of hundredths within half a hundredth of the input |
| LegacyFeedback.Fixed2IsNearest | src/app/services/claude.service.ts:152 | in exact arithmetic, no hundredth lies closer to the input than the rounded value |
| LegacyFeedback.Fixed2OfHundredths | src/app/services/claude.service.ts:152 | a value that is already whole hundredths is kept |
| LegacyFeedback.SkillLevels | src/app/services/claude.service.ts:127-130 | the reducer reads exactly four levels |
| LegacyFeedback.AverageLevel | src/app/services/claude.service.ts:119-159 | the average lies in [1, 4]; a missing level object, or any level that is not a number in [1, 4], gives 1 |
| LegacyFeedback.FourLevels | src/app/services/claude.service.ts:134-146 | four valid levels add up to their sum |
| LegacyFeedback.AverageIsRoundedMean | src/app/services/claude.service.ts:149-152 | four valid levels give their mean to within half a hundredth |
| LegacyFeedback.WholeLevelsExactMean | src/app/services/claude.service.ts:149-152 | whole levels give their exact mean |
| LegacyFeedback.IdentifyFeedbackType | src/app/services/claude.service.ts:357-380 | grammar words win, then vocabulary words, then pronunciation words; grammar is the default |
| LegacyFeedback.DetermineImportance | src/app/services/claude.service.ts:382-399 | high words win over low words; medium is the default |
| LegacyFeedback.ClassifiersIgnoreCase | src/app/services/claude.service.ts:358-383 | both classifiers give the same answer for the lower-cased text |
| LegacyFeedback.NextCut | src/app/services/claude.service.ts:314 | finds the next position where the lookahead matches, or the end of the text |
| LegacyFeedback.CutsFrom | src/app/services/claude.service.ts:314 | lists, in increasing order, exactly the positions where the lookahead matches |
| LegacyFeedback.PiecesAtCuts | src/app/services/claude.service.ts:314 | each piece is the slice between consecutive cut positions |
| LegacyFeedback.SplitCutsAtEveryMatch | src/app/services/claude.service.ts:314 | a lookahead split cuts the text before every match except one at its very start |
| LegacyFeedback.SplitLosesNothing | src/app/services/claude.service.ts:314 | the pieces of a lookahead split concatenate back to the text |
| LegacyFeedback.FirstPiece | src/app/services/claude.service.ts:324-329 | without the separator the whole point is the first piece |
| LegacyFeedback.SecondPiece | src/app/services/claude.service.ts:324-330 | the second piece is missing exactly when the separator does not occur |
| LegacyFeedback.StripMarker | src/app/services/claude.service.ts:329 | a leading `n.` marker and the whitespace after it are removed; a point without marker or star is kept |
| LegacyFeedback.LabelCapture | src/app/services/claude.service.ts:336-347 | a label's capture exists exactly when the label occurs in any case, and is the rest of that line after the whitespace |
| LegacyFeedback.ReadSuggestion | src/app/services/claude.service.ts:338-342 | the English half holds no `|` and is trimmed; the Hebrew half is never empty, with the placeholder when there is no `|` |
| LegacyFeedback.MessageOf | src/app/services/claude.service.ts:324-331 | the message halves are trimmed and the Hebrew is never empty, the placeholder when the separator is missing |
| LegacyFeedback.ParsePoint | src/app/services/claude.service.ts:317-351 | a point's type and importance come from its words, its message from the separator, a suggestion exactly when `Suggestion:` occurs, and an example only with a suggestion and exactly when `Example:` occurs |
| LegacyFeedback.NonBlank | src/app/services/claude.service.ts:317-318 | exactly the points that are not blank are kept, each non-blank |
| LegacyFeedback.NonBlankAppend | src/app/services/claude.service.ts:317-318 | dropping blank points distributes over concatenation, so the kept points stay in their order |
| LegacyFeedback.ParsePoints | src/app/services/claude.service.ts:317-352 | one item per point, in order |
| LegacyFeedback.ParseFeedbackContent | src/app/services/claude.service.ts:312-355 | one item per non-blank piece of the point split, in order |
| LegacyFeedback.BlankFeedbackHasNoItems | src/app/services/claude.service.ts:312-355 | blank feedback gives no items |
| LegacyFeedback.MessageRoundTrip | src/app/services/claude.service.ts:324-331 | a numbered point followed by a separator line reads back as the English and Hebrew it was written from |
| LegacyFeedback.HeadRoundTrip | src/app/services/claude.service.ts:329 | the number, its dot and space are removed and the line break is trimmed away |
| LegacyFeedback.NumberedPointRoundTrip | src/app/services/claude.service.ts:312-355 | a numbered point with a `Hebrew explanation:` line yields exactly that English and Hebrew |
| LegacyFeedback.SuggestionRoundTrip | src/app/services/claude.service.ts:338-342 | a suggestion written `english | hebrew` reads back as its two halves |
| LegacyFeedback.LabelsDiffer | src/app/services/claude.service.ts:805 | at most one section label starts a section |
| LegacyFeedback.Classify | src/app/services/claude.service.ts:814-843 | a section is unlabelled exactly when its trimmed text starts with none of the labels in their exact case; a labelled section's text is trimmed |
| LegacyFeedback.ClassifyReadsLabel | src/app/services/claude.service.ts:814-843 | a label followed by a space and trimmed text classifies as that label's section with that text |
| LegacyFeedback.LowerCaseLabelIgnored | src/app/services/claude.service.ts:805-818 | the split ignores case but the label test does not, so an `english:` section is dropped |
| LegacyFeedback.ClassifyAll | src/app/services/claude.service.ts:813-814 | every section is classified on its own |
| LegacyFeedback.LastText | src/app/services/claude.service.ts:816-821 | finds the last English (or Hebrew) section, and none exactly when there is none |
| LegacyFeedback.NotesOf | src/app/services/claude.service.ts:822-843 | the `Learn:` sections give grammar notes and the `Practice:` sections vocabulary notes, in order, each with its prefixed Hebrew |
| LegacyFeedback.FoldIsLastWins | src/app/services/claude.service.ts:813-844 | after the loop the English and Hebrew are the last such sections' text, empty when there is none, and the notes are those of all sections |
| LegacyFeedback.ParseEnhancedResponse | src/app/services/claude.service.ts:797-851 | the last English and Hebrew sections win; feedback is absent exactly when no `Learn:` or `Practice:` section occurs, and otherwise lists their notes in order |
| VocabCards.AddCard | src/app/services/vocabulary.service.ts:189-202 | the store gains one card at the end, carrying every field of the draft (English, Hebrew, pronunciation, examples, tags, level, category, review dates), the fresh id, zeroed counters and both timestamps now; the earlier cards stay |
| VocabCards.Apply | src/app/services/vocabulary.service.ts:207 | a patch never changes a card's id or timestamps |
| VocabCards.UpdateCard | src/app/services/vocabulary.service.ts:204-212 | cards with the id get the patch and a new update time; every other card stays as it was, in place |
| VocabCards.DeleteCard | src/app/services/vocabulary.service.ts:214-218 | exactly the cards without the id remain |
| VocabCards.DeleteAbsent | src/app/services/vocabulary.service.ts:214-218 | deleting an id no card has changes nothing |
| VocabCards.AddThenDelete | src/app/services/vocabulary.service.ts:189-218 | adding a card under a fresh id and deleting that id restores the store |
| VocabCards.UpdateThenDelete | src/app/services/vocabulary.service.ts:204-218 | updating a card and then deleting it is the same as deleting it |
| VocabCards.DeleteIdempotent | src/app/services/vocabulary.service.ts:214-218 | deleting twice is deleting once |
| VocabCards.FindCard | src/app/services/vocabulary.service.ts:231 | finds a card with the id, and none exactly when no card has it |
| VocabCards.Accuracy | src/app/services/vocabulary.service.ts:246-247 | the accuracy counting this answer lies in [0, 1] |
| VocabCards.BaseInterval | src/app/services/vocabulary.service.ts:249-254 | the base spacing is 30, 14, 7 or 3 days; 30 exactly from 90% accuracy, 3 exactly below 50% |
| VocabCards.LevelFactor | src/app/services/vocabulary.service.ts:257 | the level factor is the larger of 1 and half the level |
| VocabCards.IntervalDays | src/app/services/vocabulary.service.ts:244-258 | the interval is at least 3 days, and at most 60 for a level in [1, 4] |
| VocabCards.NextReview | src/app/services/vocabulary.service.ts:259 | the next review is at least three days after now |
| VocabCards.BaseMonotone | src/app/services/vocabulary.service.ts:249-254 | a better accuracy never gives a shorter base interval |
| VocabCards.RightWaitsLonger | src/app/services/vocabulary.service.ts:244-258 | a right answer never brings the next review sooner than a wrong one |
| VocabCards.RecordReviewResult | src/app/services/vocabulary.service.ts:230-242 | an unknown id changes nothing; cards with other ids are untouched |
| VocabCards.ReviewCountsOne | src/app/services/vocabulary.service.ts:230-242 | a review counts exactly one more answer, on the side of its outcome, records now as the last review and schedules the next one at least three days on |
| VocabCards.RejectSuggestion | src/app/services/vocabulary.service.ts:75-85 | exactly the suggestions with a different English text remain |
| VocabCards.RejectAppend | src/app/services/vocabulary.service.ts:75-85 | rejecting distributes over concatenation, so the other suggestions keep their order |
| VocabCards.FilterExistingVocab | src/app/services/vocabulary.service.ts:88-95 | exactly the suggestions whose word the store does not hold, ignoring case, remain |
| VocabCards.EnsureValidLevel | src/app/services/vocabulary.service.ts:125-130 | the level is kept exactly when it lies in [1, 4], otherwise it becomes 1 |
| VocabCards.Words | src/app/services/vocabulary.service.ts:155 | the non-empty pieces of the split are runs of word characters found in the text |
| VocabCards.LongWords | src/app/services/vocabulary.service.ts:156 | only words longer than three characters are kept |
| VocabCards.GenerateTags | src/app/services/vocabulary.service.ts:152-158 | at most five tags, each a lower-case word of the context longer than three characters |
| VocabCards.WordsOfJoin | src/app/services/vocabulary.service.ts:153-154 | words joined by spaces split at non-word runs back into the same words |
| VocabCards.TagsOfWords | src/app/services/vocabulary.service.ts:152-158 | lower-case words longer than three characters, written with spaces, come back as the tags: all of them, or the first five in order |
| VocabCards.AddSuggestedCard | src/app/services/vocabulary.service.ts:97-123 | one card is appended with the suggestion's word, translation and category, its own examples or else the generated ones, a valid level, the generated tags and no review history; every suggestion with that word is removed |
| VocabCards.AddedIsKnown | src/app/services/vocabulary.service.ts:88-123 | once a suggestion is added, its word is never suggested again |
| VocabCards.CardsForReview | src/app/services/vocabulary.service.ts:362-367 | exactly the cards whose next review is set and due |
| VocabCards.SearchCards | src/app/services/vocabulary.service.ts:352-359 | exactly the cards whose English, Hebrew or a tag contains the lower-cased query |
| VocabCards.GetCardStats | src/app/services/vocabulary.service.ts:369-385 | the total is the number of cards, and each of the four levels counts the cards at that level |
| VocabCards.LevelCountsAddUp | src/app/services/vocabulary.service.ts:369-385 | when every level is 1 to 4, the per-level counts add up to the total |
| VocabCards.TotalCorrect | src/app/services/vocabulary.service.ts:287-290 | no more answers are right than were given |
| VocabCards.CategoryBreakdown | src/app/services/vocabulary.service.ts:268-271 | a category has an entry exactly when a card has it, and the entry counts those cards |
| VocabCards.LevelBreakdown | src/app/services/vocabulary.service.ts:274-277 | a level has an entry exactly when a card has it, and the entry counts those cards |
| VocabCards.GetLearningStats | src/app/services/vocabulary.service.ts:263-301 | the totals count the cards, the mastered cards and the cards due; the accuracy is the share of right answers as a percentage, 0 without answers; the category and level breakdowns hold exactly the values in use, each with its count |
| VocabCards.Percent | src/app/services/vocabulary.service.ts:296 | a share of correct answers is a percentage |
| VocabCards.CountCategoryPositive | src/app/services/vocabulary.service.ts:268-271 | a category's count is positive exactly when some card has it |
| VocabCards.CategoryCountsAddUp | src/app/services/vocabulary.service.ts:268-271 | every card falls in exactly one category: the nine counts add up to the total |
| VocabCards.CountMastered | src/app/services/vocabulary.service.ts:279-282 | no more cards are mastered than there are cards |
| VocabCards.CardsByCategory | src/app/services/vocabulary.service.ts:344-346 | exactly the cards of that category, as many as the category count |
| VocabCards.CardsByLevel | src/app/services/vocabulary.service.ts:348-350 | exactly the cards at that level, as many as the level count |
| VocabCards.Share | src/app/services/vocabulary.service.ts:222 | the share of right answers lies in [0, 1] and is 0 before any answer |
| VocabCards.ReviewPriority | src/app/services/vocabulary.service.ts:221-228 | infinite exactly for a card never reviewed; otherwise the days since the last review plus at most 100, the full 100 before any answer |
| VocabCards.StalerFirst | src/app/services/vocabulary.service.ts:221-228 | of two cards answered equally well, the one reviewed longer ago ranks higher |
| VocabCards.WorseFirst | src/app/services/vocabulary.service.ts:221-228 | of two cards reviewed at the same time, the one answered worse ranks higher |
| VocabExtraction.StripFence | src/app/services/vocabulary-claude.service.ts:71-72 | removing a fence and the newline after it never lengthens the text |
| VocabExtraction.StripKeepsFirst | src/app/services/vocabulary-claude.service.ts:72 | a text that does not open with a backtick keeps its first character |
| VocabExtraction.StripLeavesNoTicks | src/app/services/vocabulary-claude.service.ts:72 | after the bare fences are removed, no three backticks in a row remain |
| VocabExtraction.Substring | src/app/services/vocabulary-claude.service.ts:82 | the slice between the two positions, whichever comes first |
| VocabExtraction.ValidateCategory | src/app/services/vocabulary-claude.service.ts:136-140 | always one of the five accepted categories |
| VocabExtraction.CategoryFromName | src/app/services/vocabulary-claude.service.ts:137-139 | the lower-cased name selects one of the five accepted categories |
| VocabExtraction.ValidateCategoryMeaning | src/app/services/vocabulary-claude.service.ts:136-140 | the category is the lower-cased text's own exactly when that text names an accepted category, and nouns when it names none |
| VocabExtraction.NameSelectsCategory | src/app/services/vocabulary-claude.service.ts:137-139 | each accepted category's name selects that category |
| VocabExtraction.CategoryRoundTrip | src/app/services/vocabulary-claude.service.ts:136-140 | an accepted name comes back as its own category |
| VocabExtraction.CategoryIgnoresCase | src/app/services/vocabulary-claude.service.ts:136-140 | an accepted name in any mix of cases gives its category |
| VocabExtraction.OtherCategoriesBecomeNouns | src/app/services/vocabulary-claude.service.ts:136-140 | a category the store knows but extraction does not accept falls back to nouns |
| VocabExtraction.Clamp | src/app/services/vocabulary-claude.service.ts:102-104 | the clamped value lies in the range and equals the input when it already did |
| VocabExtraction.MapExamples | src/app/services/vocabulary-claude.service.ts:96-101 | one example per entry, and the mapping fails exactly when an entry is null |
| VocabExtraction.MapItem | src/app/services/vocabulary-claude.service.ts:92-105 | a mapped item has a level in [1, 4], a confidence in [0, 1] and an accepted category; a null item throws |
| VocabExtraction.MapItems | src/app/services/vocabulary-claude.service.ts:91-105 | every item maps in order, or the whole mapping fails exactly when one item does |
| VocabExtraction.KeepNamed | src/app/services/vocabulary-claude.service.ts:106 | exactly the suggestions with both an English and a Hebrew text remain |
| VocabExtraction.BraceSpan | src/app/services/vocabulary-claude.service.ts:76-82 | no span exactly when the text lacks an opening or a closing brace; otherwise the `substring` from the first `{` to the last `}`, both included |
| VocabExtraction.JsonSpan | src/app/services/vocabulary-claude.service.ts:76-82 | no JSON text is found exactly when the cleaned reply lacks an opening or a closing brace; otherwise the text runs from the first `{` to the last `}`, both included |
| VocabExtraction.ParseVocabularyResponse | src/app/services/vocabulary-claude.service.ts:67-111 | every suggestion returned is named in both languages, has a level in [1, 4], a confidence in [0, 1] and an accepted category; a reply without braces gives none |
| VocabExtraction.FromRootIsNormal | src/app/services/vocabulary-claude.service.ts:85-106 | every suggestion read from a parsed value is named in both languages, with a level in [1, 4], a confidence in [0, 1] and an accepted category |
| VocabExtraction.NotArrayNoSuggestions | src/app/services/vocabulary-claude.service.ts:85-89 | a reply whose vocabulary is missing or not an array gives no suggestions |
| VocabExtraction.NullItemDropsAll | src/app/services/vocabulary-claude.service.ts:91-110 | a single null item makes the call throw and return no suggestions at all |
| VocabExtraction.ExamplesRoundTrip | src/app/services/vocabulary-claude.service.ts:96-101 | examples written as JSON map back to themselves |
| VocabExtraction.ExampleFieldsBack | src/app/services/vocabulary-claude.service.ts:96-101 | one example written as an object reads back through its English and Hebrew fields |
| VocabExtraction.ItemRoundTrip | src/app/services/vocabulary-claude.service.ts:92-105 | a normal suggestion written as JSON maps back to itself |
| VocabExtraction.ItemWithExamples | src/app/services/vocabulary-claude.service.ts:92-105 | an item's texts default to empty, its level and confidence are clamped and its category validated |
| VocabExtraction.KeepNamedKeepsAll | src/app/services/vocabulary-claude.service.ts:106 | a list of named suggestions passes the filter unchanged |
| VocabExtraction.MapItemsRoundTrip | src/app/services/vocabulary-claude.service.ts:91-105 | items written from normal suggestions map back to them, in order |
| VocabExtraction.RootRoundTrip | src/app/services/vocabulary-claude.service.ts:85-106 | a `vocabulary` array of normal, named suggestions reads back as exactly those suggestions, in order |
| VocabExtraction.ResponseRoundTrip | src/app/services/vocabulary-claude.service.ts:67-111 | a reply whose JSON lists normal, named suggestions yields exactly those suggestions, in order |
| VocabView.ToggleSort | src/app/components/vocabulary/vocabulary.component.ts:468-475 | the chosen criterion becomes current; the same criterion flips the direction, a new one starts ascending; the other controls stay |
| VocabView.ToggleTwice | src/app/components/vocabulary/vocabulary.component.ts:468-475 | clicking the current criterion twice restores the controls |
| VocabView.NewCriterionTwice | src/app/components/vocabulary/vocabulary.component.ts:468-475 | clicking a new criterion twice leaves it descending |
| VocabView.ClearFilters | src/app/components/vocabulary/vocabulary.component.ts:477-483 | no query, category or level filter remains and the order is back to date, descending |
| VocabView.LexCompare | src/app/components/vocabulary/vocabulary.component.ts:460 | the comparison of two names is -1, 0 or 1, and 0 exactly for equal names |
| VocabView.LexAntisymmetric | src/app/components/vocabulary/vocabulary.component.ts:460 | swapping the names negates the comparison |
| VocabView.LexTransitive | src/app/components/vocabulary/vocabulary.component.ts:460 | the name order is transitive |
| VocabView.RankIsAlphabetical | src/app/components/vocabulary/vocabulary.component.ts:459-460 | one category's name sorts before another's exactly when its rank is lower, and ties only with itself |
| VocabView.CompareBySortValue | src/app/components/vocabulary/vocabulary.component.ts:449-465 | the comparator says before, tie or after exactly as the cards' sort values do, in both directions |
| VocabView.Insert | src/app/components/vocabulary/vocabulary.component.ts:449-465 | inserting a card into a sorted list keeps it sorted and adds exactly that card |
| VocabView.SortCards | src/app/components/vocabulary/vocabulary.component.ts:448-466 | the result is sorted by the chosen criterion and direction, and a permutation of the input |
| VocabView.SortedAgreesWithComparator | src/app/components/vocabulary/vocabulary.component.ts:449-465 | the comparator never puts a later card of the result before an earlier one |
| VocabView.DefaultOrderIsOldestFirst | src/app/components/vocabulary/vocabulary.component.ts:453-454 | the default order, date descending, lists the oldest card first |
| VocabView.FilterCategory | src/app/components/vocabulary/vocabulary.component.ts:428-430 | exactly the cards of that category remain |
| VocabView.FilterLevel | src/app/components/vocabulary/vocabulary.component.ts:432-436 | exactly the cards of that level remain |
| VocabView.ApplyFilters | src/app/components/vocabulary/vocabulary.component.ts:425-446 | a card is listed exactly when it matches the query, the category filter and the level filter; the list is sorted by the controls |
| VocabView.EmptyQueryFindsAll | src/app/components/vocabulary/vocabulary.component.ts:426 | the empty query matches every card |
| VocabView.ClearedShowsAll | src/app/components/vocabulary/vocabulary.component.ts:477-483 | after clearing the controls every card is listed, each once |
| VocabView.StartReviewSession | src/app/components/vocabulary/vocabulary.component.ts:326-334 | the session runs from the first card with nothing answered, over exactly the cards that are due, and the review date is now |
| VocabView.StartedSessionWaitsFourHours | src/app/components/vocabulary/vocabulary.component.ts:326-334 | right after a session starts the timer says the next review is in 4 hours |
| VocabView.ReviewAnswer | src/app/components/vocabulary/vocabulary.component.ts:336-355 | without a session nothing changes; past the last card the lookup fails; otherwise the card's review is recorded, one answer is counted on its side, the session goes on exactly while cards remain, and the review date stays |
| VocabView.NothingDueCrashes | src/app/components/vocabulary/vocabulary.component.ts:326-340 | starting a session with nothing due and answering reads past the end |
| VocabView.CountTrue | src/app/components/vocabulary/vocabulary.component.ts:343-347 | no more answers are right than were given |
| VocabView.RunToEnd | src/app/components/vocabulary/vocabulary.component.ts:336-355 | answering each remaining card once ends the session with every answer counted on its side |
| VocabView.FullSession | src/app/components/vocabulary/vocabulary.component.ts:326-366 | a session over the due cards answered once each completes, its tally covering every card |
| VocabView.Round | src/app/components/vocabulary/vocabulary.component.ts:369-371 | the rounded value is the nearest integer, halves rounding up |
| VocabView.Percent | src/app/components/vocabulary/vocabulary.component.ts:369-371 | a share of a positive total in whole percent lies in [0, 100], 0 for none and 100 for all |
| VocabView.CardProgress | src/app/components/vocabulary/vocabulary.component.ts:498-502 | a card's progress is a percentage, 0 before any answer and 100 with no wrong answer |
| VocabView.ProgressIsNearest | src/app/components/vocabulary/vocabulary.component.ts:498-502 | in exact arithmetic, the progress is the whole percent nearest to the share of right answers, a tie rounding up |
| VocabView.SessionAccuracy | src/app/components/vocabulary/vocabulary.component.ts:368-371 | the reported accuracy is a percentage, 100 when every card was right |
| VocabView.ProcessExamples | src/app/components/vocabulary/vocabulary.component.ts:274-282 | every example kept is trimmed, with non-empty English and Hebrew and a trimmed context or none, and there are no more examples than rows |
| VocabView.ProcessExamplesSound | src/app/components/vocabulary/vocabulary.component.ts:274-282 | every example kept is the processed form of a row with non-blank English and Hebrew |
| VocabView.ProcessExamplesComplete | src/app/components/vocabulary/vocabulary.component.ts:274-282 | every row with non-blank English and Hebrew gives its processed example |
| VocabView.FilledRowKept | src/app/components/vocabulary/vocabulary.component.ts:274-282 | one row with non-blank English and Hebrew gives its processed example |
| VocabView.ProcessExamplesAppend | src/app/components/vocabulary/vocabulary.component.ts:274-282 | processing distributes over concatenation, so the kept rows stay in order |
| VocabView.EditForms | src/app/components/vocabulary/vocabulary.component.ts:298-304 | one form row per example |
| VocabView.EditThenSaveKeepsExamples | src/app/components/vocabulary/vocabulary.component.ts:274-304 | opening a card for editing and saving it keeps its tidy examples exactly |
| VocabView.EditThenSaveOne | src/app/components/vocabulary/vocabulary.component.ts:277-281 | a tidy example survives the round trip through its form row |
| VocabView.ProcessExamplesIdempotent | src/app/components/vocabulary/vocabulary.component.ts:274-304 | saving twice is saving once |
| VocabView.TrimAll | src/app/components/vocabulary/vocabulary.component.ts:252-254 | each kept piece is trimmed and non-empty, and there are no more pieces than in the input |
| VocabView.TrimAllKeeps | src/app/components/vocabulary/vocabulary.component.ts:252-254 | the kept pieces are exactly the non-empty trimmed pieces of the input |
| VocabView.TrimAllAppend | src/app/components/vocabulary/vocabulary.component.ts:252-254 | trimming the pieces distributes over concatenation, so the kept pieces stay in order |
| VocabView.ParseTags | src/app/components/vocabulary/vocabulary.component.ts:252-254 | every tag is trimmed, non-empty and holds no comma |
| VocabView.JoinSpaced | src/app/components/vocabulary/vocabulary.component.ts:288 | joining with comma and space is joining with commas after moving each space into the next tag |
| VocabView.TagsRoundTrip | src/app/components/vocabulary/vocabulary.component.ts:252-254 | editing a card and saving it keeps its tags, when each is trimmed, non-empty and comma-free |
| VocabView.HoursLeft | src/app/components/vocabulary/vocabulary.component.ts:399 | the hours left round the remaining time up to a whole hour, at least one |
| VocabView.TimeUntilNextReview | src/app/components/vocabulary/vocabulary.component.ts:392-404 | with no review, or one four hours ago or more, the learner is ready for review |
| VocabView.TimerCountsDown | src/app/components/vocabulary/vocabulary.component.ts:395-401 | within four hours of a review the message names between one and four hours, rounded up, in singular for one |
| Gamification.ThresholdsIncrease | src/app/services/gamification.service.ts:22-33 | the ten level thresholds strictly increase |
| Gamification.LevelFor | src/app/services/gamification.service.ts:117-125 | the level for an XP total is the highest level whose threshold it reaches, and 1 below every threshold |
| Gamification.LevelUnique | src/app/services/gamification.service.ts:117-125 | each XP total has exactly one such level |
| Gamification.GetLevelFromXP | src/app/services/gamification.service.ts:117-125 | the loop that keeps the last threshold reached returns that level |
| Gamification.LevelMonotone | src/app/services/gamification.service.ts:117-125 | more XP never gives a lower level |
| Gamification.AddXP | src/app/services/gamification.service.ts:49-59 | the XP grows by the amount, the level is recomputed from it, the day is stamped and nothing else changes; the flag is set exactly when a threshold lies between the old and the new total |
| Gamification.LevelGain | src/app/services/gamification.service.ts:51-58 | the new level exceeds the old exactly when a threshold lies in the added stretch of XP |
| Gamification.NoGainWithoutXP | src/app/services/gamification.service.ts:49-59 | adding zero or negative XP never reports a level gain |
| Gamification.IncrementMessages | src/app/services/gamification.service.ts:61-66 | the message count grows by one and nothing else changes |
| Gamification.IncrementWords | src/app/services/gamification.service.ts:68-73 | the learned-word count grows by one and nothing else changes |
| Gamification.XPToNextLevel | src/app/services/gamification.service.ts:75-89 | without a next level (level 10 or a level not in the table) the XP is reported twice at 100%; otherwise the XP into the level, the positive span of the level, and a percentage capped at 100 |
| Gamification.ProgressWithinLevel | src/app/services/gamification.service.ts:75-89 | when the stored level is the one the XP earns, the bar reads from 0% up to below 100% |
| Gamification.CheckStreak | src/app/services/gamification.service.ts:91-115 | the streak check stamps today's date and changes nothing but the streak and that date; with no earlier activity the streak is 0, and a second visit on the same day keeps it |
| Gamification.NextDayExtends | src/app/services/gamification.service.ts:100-106 | activity recorded the day before extends the streak by one |
| Gamification.GapResets | src/app/services/gamification.service.ts:100-109 | activity recorded two or more days before resets the streak to 0 |
| Gamification.CheckStreakIdempotent | src/app/services/gamification.service.ts:91-115 | a second check on the same day changes nothing |
| Gamification.StreakNonNegative | src/app/services/gamification.service.ts:96-109 | a non-negative streak stays non-negative |
| Calendar.Next | src/app/services/gamification.service.ts:100-105 | the day after a date is a valid date |
| Calendar.NextIsOneDayLater | src/app/services/gamification.service.ts:101-105 | the day after is exactly one whole day later, so the millisecond distance divided by a day is 1 |
| Calendar.DayNumberGrows | src/app/services/gamification.service.ts:101-108 | a later date has a larger day number, so the whole-day distance is positive |
| Calendar.MonthsFillYear | src/app/services/gamification.service.ts:101-103 | the twelve month lengths add up to the year length |
| Calendar.IsoDate | src/app/services/gamification.service.ts:93 | the date is written as ten characters, four-digit year, dash, two-digit month, dash, two-digit day |
| Calendar.ParseIso | src/app/services/gamification.service.ts:101-102 | a stored date text reads back only as a valid date |
| Calendar.IsoRoundTrip | src/app/services/gamification.service.ts:93-102 | writing a date and reading it back gives the date |
| Calendar.IsoParseBack | src/app/services/gamification.service.ts:94-102 | a text that reads as a date is exactly that date written out |
| Calendar.IsoInjective | src/app/services/gamification.service.ts:93-98 | distinct dates are written differently, so "same text" means "same day" |
| Json.Get | src/app/services/vocabulary-claude.service.ts:85 | a property read finds a value exactly when the value is an object holding that key |
| Json.Or | src/app/services/vocabulary-claude.service.ts:93-95 | the left value when it is truthy, otherwise the default |
| Json.StringOf | src/app/services/vocabulary-claude.service.ts:93-95 | converting a string gives the string itself |
| Json.NumberOr | src/app/services/vocabulary-claude.service.ts:102-104 | the number read, when it is a number other than 0, otherwise the default |
| Json.NumberOfNatText | src/app/services/vocabulary-claude.service.ts:102 | the decimal digits of a natural number read back as that number |
| Json.NumberOfNegativeText | src/app/services/vocabulary-claude.service.ts:102 | a minus sign before the digits of a natural number reads back as its negation |
| DailyChallenge.ToInt32 | src/app/services/daily-challenge.service.ts:102 | the 32-bit wrap lies in the signed 32-bit range and leaves numbers already in it alone |
| DailyChallenge.ToInt32Shift | src/app/services/daily-challenge.service.ts:102 | numbers that differ by a multiple of 2^32 wrap to the same value |
| DailyChallenge.HashFold | src/app/services/daily-challenge.service.ts:99-103 | the running hash stays a signed 32-bit integer |
| DailyChallenge.HashIsPolynomial | src/app/services/daily-challenge.service.ts:98-103 | the loop computes the base-31 polynomial of the character codes, wrapped to 32 bits |
| DailyChallenge.SimpleHash | src/app/services/daily-challenge.service.ts:98-105 | the hash is the absolute value of the wrapped base-31 polynomial, at most 2^31 |
| DailyChallenge.HashOfIsPolynomial | src/app/services/daily-challenge.service.ts:98-105 | the hash of a text is the absolute value of its wrapped base-31 polynomial |
| DailyChallenge.Plain | src/app/services/daily-challenge.service.ts:22-47 | one exercise per sentence, with its kind's instructions and no hint |
| DailyChallenge.Hinted | src/app/services/daily-challenge.service.ts:48-60 | one exercise per item, with its kind's instructions and the item's hint |
| DailyChallenge.CountKindAppend | src/app/services/daily-challenge.service.ts:21-61 | the count of a kind over two blocks is the sum of their counts |
| DailyChallenge.AssembleCount | src/app/services/daily-challenge.service.ts:21-61 | each block adds its size to its own kind's count and nothing to the others |
| DailyChallenge.AssembleUniform | src/app/services/daily-challenge.service.ts:21-61 | every exercise shows its kind's instructions and has a hint exactly when it asks for a word or a blank |
| DailyChallenge.PoolShape | src/app/services/daily-challenge.service.ts:21-61 | thirty exercises: eight grammar fixes, six translations each way, five words and five blanks, each well formed |
| DailyChallenge.TodayChallenge | src/app/services/daily-challenge.service.ts:86-92 | today's challenge is an exercise of the pool, named after today's date |
| DailyChallenge.JsonMatch | src/app/services/daily-challenge.service.ts:169 | a match runs from a brace to a brace, and there is none without both braces |
| DailyChallenge.MatchFindsObject | src/app/services/daily-challenge.service.ts:169 | with prose around one JSON object, the match is exactly the object |
| DailyChallenge.ParseCheckResponse | src/app/services/daily-challenge.service.ts:167-182 | no match, or text that does not parse, gives the "could not check" verdict |
| DailyChallenge.VerdictRoundTrip | src/app/services/daily-challenge.service.ts:161-182 | a reply carrying a verdict in the requested form, with prose around it, reads back as that verdict |
| DailyChallenge.ReadVerdictOf | src/app/services/daily-challenge.service.ts:171-176 | the verdict fields of the requested object read back as the verdict |
| DailyChallenge.SubmitAnswer | src/app/services/daily-challenge.service.ts:107-145 | without an open challenge nothing happens; a failed request changes nothing and says so; otherwise the verdict is the one parsed from the reply, the day completes with the answer, the verdict and both feedback texts, nothing else in the state changes, and a correct answer earns 25 XP |
| DailyChallenge.AnsweredOnce | src/app/services/daily-challenge.service.ts:107-145 | a day's challenge pays out at most once: a second answer changes nothing |
| DailyChallenge.LoadState | src/app/services/daily-challenge.service.ts:184-197 | a state is restored only when it is dated today |
| DailyChallenge.Initialize | src/app/services/daily-challenge.service.ts:70-84 | either a state dated today is restored, or a fresh, open challenge for today starts, named after the date |
| DailyChallenge.NewDayNewChallenge | src/app/services/daily-challenge.service.ts:70-92 | a state saved on another day is never restored: the new day starts a new challenge |
| SessionSummary.Flatten | src/app/components/summary/summary.component.ts:51-57 | a listed block keeps the block's type, title, English and Hebrew, and its examples, or none when it has no examples |
| SessionSummary.FlattenAll | src/app/components/summary/summary.component.ts:50-58 | a message's blocks are listed one for one, in order |
| SessionSummary.BlocksOfMessage | src/app/components/summary/summary.component.ts:47-59 | a learner's message and a message without blocks contribute nothing; a tutor message contributes all its blocks |
| SessionSummary.UserMessages | src/app/components/summary/summary.component.ts:44 | only the learner's messages are kept, and no more than the conversation holds |
| SessionSummary.AssistantMessages | src/app/components/summary/summary.component.ts:43 | only the tutor's messages are kept, and no more than the conversation holds |
| SessionSummary.SenderFiltersKeep | src/app/components/summary/summary.component.ts:43-44 | each filter keeps exactly the conversation's messages from its sender |
| SessionSummary.SenderFiltersAppend | src/app/components/summary/summary.component.ts:43-44 | both filters distribute over concatenation, so each keeps the conversation's order |
| SessionSummary.Corrections | src/app/components/summary/summary.component.ts:62 | the corrections are the grammar and warning blocks, no more than the blocks listed |
| SessionSummary.BuildSummary | src/app/components/summary/summary.component.ts:42-63 | the message count is the learner's messages; the blocks are those of the tutor's messages in order; the correction count is the grammar blocks plus the warning blocks |
| SessionSummary.UsersAndAssistants | src/app/components/summary/summary.component.ts:43-44 | learner messages and tutor messages together are all the messages |
| SessionSummary.CorrectionsByKind | src/app/components/summary/summary.component.ts:62 | the correction count splits into grammar blocks and warning blocks |
| SessionSummary.AssistantsCarryTheBlocks | src/app/components/summary/summary.component.ts:43-60 | filtering out the learner's messages first changes no block |
| SessionSummary.CollectAppend | src/app/components/summary/summary.component.ts:47-60 | the blocks of a longer conversation are the blocks of its parts, in order |
| SessionSummary.EveryBlockListed | src/app/components/summary/summary.component.ts:47-60 | every block of every tutor message appears in the summary, after the blocks of the earlier messages |
| SessionSummary.OnlyAssistantBlocks | src/app/components/summary/summary.component.ts:47-60 | every listed block is some block of some tutor message |
| SessionSummary.LearnerOnly | src/app/components/summary/summary.component.ts:42-63 | a conversation where only the learner spoke has no blocks, no corrections, and counts every message |
| SessionSummary.TypeLabel | src/app/components/summary/summary.component.ts:65-73 | the four known types get their capitalised labels; a name of an inherited `Object.prototype` member yields that member, not a text; any other type is shown as it is |
| SessionSummary.TypeLabelCapitalises | src/app/components/summary/summary.component.ts:65-73 | the label of each block type is its name with an upper-case first letter |
| ConversationModes.IdsDistinct | src/app/services/conversation-mode.service.ts:10-137 | the catalogue holds seven modes and no two share an id |
| ConversationModes.GetMode | src/app/services/conversation-mode.service.ts:143-145 | a lookup returns a catalogue mode with the requested id, and nothing exactly when no mode has that id |
| ConversationModes.GetModeById | src/app/services/conversation-mode.service.ts:143-145 | looking a mode up by its own id gives that mode |
| ConversationModes.SelectMode | src/app/services/conversation-mode.service.ts:147-152 | a known id makes its mode the selection; an unknown id changes nothing |
| ConversationModes.ClearSelection | src/app/services/conversation-mode.service.ts:158-160 | clearing returns to the initial state with no selection |
| ConversationModes.SelectionStaysInCatalogue | src/app/services/conversation-mode.service.ts:147-160 | selecting and clearing keep the selection a catalogue mode or empty |
| ConversationModes.SelectByIdSelects | src/app/services/conversation-mode.service.ts:147-156 | selecting a mode's id from any state makes that mode the selection |
| ConversationModes.UnknownIdKeepsSelection | src/app/services/conversation-mode.service.ts:147-156 | selecting an unknown id after a known one keeps the earlier selection |
| Avatar.Initial | src/app/services/virtual-avatar.service.ts:19-24 | the avatar starts silent, not thinking, in the normal mood, stamped with its creation time |
| Avatar.UpdateState | src/app/services/virtual-avatar.service.ts:71-77 | the patched fields take their new values, the unpatched ones keep theirs, and the time becomes now |
| Avatar.EmptyPatchKeepsState | src/app/services/virtual-avatar.service.ts:71-77 | an empty patch changes only the time |
| Avatar.UpdatesCompose | src/app/services/virtual-avatar.service.ts:71-77 | two updates in a row equal one update in which the later patch wins on every field both set |
| Avatar.SetMood | src/app/services/virtual-avatar.service.ts:67-69 | only the mood and the time change |
| Avatar.StartSpeaking | src/app/services/virtual-avatar.service.ts:30-31 | the avatar speaks and stops thinking; its mood is untouched |
| Avatar.StopSpeaking | src/app/services/virtual-avatar.service.ts:33-38 | the timer ends speaking and changes nothing else but the time |
| Avatar.StartThinking | src/app/services/virtual-avatar.service.ts:41-45 | the avatar thinks and takes the thinking mood; speaking is untouched |
| Avatar.StopThinking | src/app/services/virtual-avatar.service.ts:47-55 | the timer ends thinking and puts the mood back to normal |
| Avatar.SpeakingTurn | src/app/services/virtual-avatar.service.ts:30-39 | a whole speaking turn leaves the avatar silent, not thinking, in the mood it had |
| Avatar.ThinkingTurn | src/app/services/virtual-avatar.service.ts:41-56 | a whole thinking turn ends in the normal mood whatever the mood was, and leaves speaking as it was |
| Avatar.ThinkingWhileSpeaking | src/app/services/virtual-avatar.service.ts:30-56 | starting to think does not stop speaking: both flags can be set at once |
| Avatar.AnalyzeAndUpdateMood | src/app/services/virtual-avatar.service.ts:59-102 | a reply with a positive keyword (any letter case) makes the avatar happy; else one with a negative keyword makes it concerned; else the state is unchanged, time included |
| Avatar.KeywordsAreLowerCase | src/app/services/virtual-avatar.service.ts:80-101 | the keywords have no upper-case letters, so lower-casing them changes nothing |
| Avatar.IncorrectCountsAsPositive | src/app/services/virtual-avatar.service.ts:79-102 | a reply containing "incorrect" contains "correct", so it makes the avatar happy rather than concerned |
| Avatar.AnalyzeResponsePattern | src/app/services/virtual-avatar.service.ts:105-126 | the correction group is reported when one of its phrases occurs ignoring case; else praise when one of its phrases does; else nothing |
| Avatar.PatternIgnoresCase | src/app/services/virtual-avatar.service.ts:105-126 | the reported pattern is the same for a reply and its lower-cased form |
| Avatar.PraiseMakesHappy | src/app/services/virtual-avatar.service.ts:59-116 | every praise phrase holds a positive keyword, so a reply reported as praise makes the avatar happy |
| Assessment.SkillsListEveryKeyOnce | src/app/components/assessment/assessment.component.ts:17-22 | the four listed skills are exactly the four keys of a level record, each listed once |
| Assessment.InitialIsBlank | src/app/components/assessment/assessment.component.ts:15-22 | the form starts with every level at 0 and no skill assessed |
| Assessment.SetLevel | src/app/components/assessment/assessment.component.ts:33 | writing a skill's level changes that skill and keeps the other three |
| Assessment.SelectLevel | src/app/components/assessment/assessment.component.ts:31-34 | choosing a level records it both on the skill's entry and in the shared levels; every other skill keeps its entry and level |
| Assessment.AllAssessedIff | src/app/components/assessment/assessment.component.ts:36-38 | the check over the listed skills holds exactly when every skill has a level |
| Assessment.OnComplete | src/app/components/assessment/assessment.component.ts:40-44 | the form hands on a copy of the levels exactly when every skill is assessed, and nothing otherwise |
| Assessment.SelectKeepsConsistent | src/app/components/assessment/assessment.component.ts:31-34 | choosing keeps every assessed skill's entry equal to its shared level |
| Assessment.ChoicesDecide | src/app/components/assessment/assessment.component.ts:31-38 | after a run of choices from the blank form, a skill is assessed exactly when it was chosen, and its level is the last choice for it (0 if none) |
| Assessment.CompleteAfterEverySkill | src/app/components/assessment/assessment.component.ts:36-44 | the form completes exactly when every skill was chosen at least once, and hands on the last choice for each |
| LanguageAnalysis.IssuesFrom | src/app/services/language-analysis.service.ts:92-106 | the issues found are grammar rules whose pattern matches the text, in table order, at most one per rule |
| LanguageAnalysis.CheckGrammar | src/app/services/language-analysis.service.ts:92-106 | one issue per matching pattern, the continuous-tense rule before the "am like" rule; no issue exactly when neither pattern matches |
| LanguageAnalysis.GrammarLines | src/app/services/language-analysis.service.ts:127-131 | one "Grammar tip" line per issue, in the issues' order |
| LanguageAnalysis.AnalyzeResponse | src/app/services/language-analysis.service.ts:73-89 | grammar feedback is present exactly when a grammar pattern matches and splits into one line per issue; vocabulary feedback is present exactly when "very" precedes a word and is the one suggestion line; improvement tips are always present |
| LanguageAnalysis.AmIngTextsHaveNoNewline | src/app/services/language-analysis.service.ts:47-52 | the continuous-tense rule's correction and example are single lines |
| LanguageAnalysis.AmLikeTextsHaveNoNewline | src/app/services/language-analysis.service.ts:53-57 | the "am like" rule's correction and example are single lines |
| LanguageAnalysis.GrammarLinesHaveNoNewline | src/app/services/language-analysis.service.ts:127-131 | every grammar tip line is a single line |
| LanguageAnalysis.GrammarLinesSplit | src/app/services/language-analysis.service.ts:127-131 | the newline-joined grammar feedback splits back into exactly its tip lines |
| LanguageAnalysis.LengthTip | src/app/services/language-analysis.service.ts:143-151 | the "expand" tip exactly when there is a sentence and the average length is under 10, the "break up" tip exactly when it is over 30, never both |
| LanguageAnalysis.AverageBounds | src/app/services/language-analysis.service.ts:146-150 | comparing the real-valued average with 10 and 30 is the same as comparing the total with 10 and 30 times the sentence count |
| LanguageAnalysis.SplitCount | src/app/services/language-analysis.service.ts:153 | splitting on a character gives one more piece than the text has of that character |
| LanguageAnalysis.SentencesCounted | src/app/services/language-analysis.service.ts:142 | the sentences are the maximal runs between sentence stops: one per run start, none empty, together holding every non-stop character |
| LanguageAnalysis.Tips | src/app/services/language-analysis.service.ts:141-158 | the length tips are decided by total non-stop characters against sentence count, the "more information" tip by fewer than four spaces; at most two tips, "more information" last |
| LanguageAnalysis.ImprovementTipsSplit | src/app/services/language-analysis.service.ts:157 | the tips text is empty exactly when no tip applies, and otherwise splits back into the tip lines |
| LanguageAnalysis.ExamplesFlagged | src/app/services/language-analysis.service.ts:47-69 | each rule flags the mistake its own example corrects |
| LanguageAnalysis.CorrectContinuousFlagged | src/app/services/language-analysis.service.ts:49 | the continuous-tense pattern also flags the correct sentence "I am going home" |
| LanguageAnalysis.AnalyzeIgnoresCase | src/app/services/language-analysis.service.ts:49-69 | the patterns are case-insensitive: lower-casing the text leaves the whole analysis unchanged |
| LanguageAnalysis.TipsDecidedByCounts | src/app/services/language-analysis.service.ts:141-158 | two texts with the same length, stop count, sentence count and space count get the same tips |
| LanguageAnalysis.TipsShape | src/app/services/language-analysis.service.ts:141-158 | the tips are the length tip, if any, followed by the "more information" tip, if any |

## Left out

- Network calls to the model provider (`sendMessage`, `analyzeConversation`, `generateExamples`, the HTTP client): a completion is an input string or a failure value.
- Prompt construction: the system prompt, level instructions, the current-message prompt, the check prompt of the daily challenge and the chat service's prompt builders. They are configuration text with no logic to verify.
- Storage, subjects, dialogs and logging (`localStorage`, `BehaviorSubject`, `confirm`, `alert`, `console`): state is passed in and returned.
- Timers (`setTimeout` in the avatar service): the step each timer runs is a separate operation the caller applies.
- `JSON.parse` and `JSON.stringify`: parsed values are inputs. The clock is a parameter. The one `Date` round trip the streak check relies on is modelled: `Calendar.IsoDate` writes a day the way `toISOString().split('T')[0]` does, and `Calendar.ParseIso` reads it back the way `new Date(text)` does.
- Calendar.ParseIso: accepts only the strict `YYYY-MM-DD` form and gives `None` for anything else. V8's `Date` parser also accepts other forms, such as `2024-1-5` or `Jan 5 2024`, and reads them in local time. The stored text is always written by `toISOString`, so only the strict form reaches it.
- `calculateDailyProgress` in the card store: it builds the last seven days at local midnight with `setDate` and `setHours`, which depends on the host's time zone.
- `processConversation` in the card store: it only chains the provider call into `FilterExistingVocab`, which is modelled.
- Code that the chat service keeps commented out, and its dead historical revisions.
- Text is indexed by character, not by UTF-16 code unit. Offsets agree with JavaScript only for text in the Basic Multilingual Plane, which covers English and Hebrew.
- Case folding covers ASCII letters only. The patterns involved are ASCII, and `toLowerCase` on other scripts is left out.
- Json.StringOf: `String(x)` of a number that is not an integer below 10^21 needs floating-point formatting; the model writes it as the empty string.
- Json.NumberOf: exponents, `Infinity` and hexadecimal, octal and binary literals read as NaN; `Number` would accept them.
- VocabView.SortCards: `Array.prototype.sort` is modelled as a stable insertion sort. The contract states sortedness and permutation, which any correct sort meets; engine-specific tie order is not modelled.
- Calendar.IsoDate: years are 0 to 9999; the six-digit signed years `toISOString` writes outside that range are not modelled.
- VocabView.Percent: computes `Math.round(part / total * 100)` with exact rationals, not doubles. The results differ where the double product falls just below a half. `23 / 40 * 100` is `57.49999999999999` in JavaScript, so the page shows 57 where the model gives 58. The same happens for 46/80, 69/120 and 92/160, for 29/200 (14 against 15) and for 57/200 (28 against 29).
- VocabView.CardProgress: the same exact-rational rounding as `VocabView.Percent`. A card with 23 right answers out of 40 shows 57% in JavaScript and 58% in the model.
- VocabView.ProgressIsNearest: states nearest-whole-percent rounding of the exact share. JavaScript's double arithmetic breaks it for shares such as 23/40, where it gives 57 and the nearest whole percent of 57.5, rounding the tie up, is 58.
- VocabView.SessionAccuracy: the same exact-rational rounding as `VocabView.Percent`. A session with 23 right cards out of 40 reports 57% in JavaScript and 58% in the model.
- VocabCards.Percent: `correct / attempts * 100` is an exact rational. JavaScript gives the nearest double, for example `33.33333333333333` for 1 of 3.
- LegacyFeedback.Fixed2: `toFixed(2)` is modelled as rounding the exact value to the nearest hundredth, a tie rounding up. JavaScript rounds the double. The mean of the levels 1, 1, 1 and 1.02 is the double just below 1.005, which `toFixed(2)` writes as "1.00", while the model gives 1.01. `LegacyFeedback.Fixed2IsNearest` is likewise about the exact value.
- LegacyFeedback.AverageLevel: the sum and the division by four are exact, and rounding goes through `LegacyFeedback.Fixed2`. For the levels 1, 1, 1 and 1.02 the source reports 1 and the model 1.01.
- StructuredBlocks.DeclaredBlocksRoundTrip: covers blocks whose title, English, Hebrew and examples hold no `[`, and a list whose last block ends with a Hebrew line or an example. A `[` inside a text can start a tag that cuts the block, and a trailing blank `HE:` field is trimmed off with the section. The text before the section must not hold the `BLOCKS:` label.
- VocabCards.ReviewPriority: `Infinity` is `None`, and the sum is exact real arithmetic rather than a double.
- VocabCards.GetCardStats: returns the four counts for levels 1 to 4 only. In the source, a card whose level lies outside 1..4 makes `stats.byLevel[card.level]++` add an extra key whose value is NaN; that key is not modelled. `UpdateCard` can store such a level.
- DailyChallenge.ReadVerdict: the feedback fields go through `String`, where the source hands on whatever value the fields hold; for the string fields the reply is asked for, the two agree.

## Behaviour as written

The model follows the code where it differs from what its comments or its
users might expect:

- A reply containing "incorrect" makes the avatar happy, because "incorrect" contains "correct" and the positive check runs first (`Avatar.IncorrectCountsAsPositive`).
- Starting to think does not stop the avatar speaking (`Avatar.ThinkingWhileSpeaking`).
- A reply with neither kind of keyword leaves the avatar's mood as it was.
- The display-side tag strip cuts from the first block tag to the end of the text, so a tag before the Hebrew section swallows it.
- A block header's title may come from the next line, because `\s*` crosses the line break (`StructuredBlocks.HeaderTitle`).
- The third way of finding a block payload can never succeed (`StructuredBlocks.TagPayloadNeverFires`).
- A numbered item inside an open bulleted list stays in that `<ul>` (`Markdown.OrderedItemContinuesList`).
- The language analyser's continuous-tense rule flags the correct sentence "I am going home" (`LanguageAnalysis.CorrectContinuousFlagged`).
- The vocabulary screen's default order, date descending, lists the oldest card first (`VocabView.DefaultOrderIsOldestFirst`).
- Answering in a review session with no card due reads past the end of the list (`VocabView.NothingDueCrashes`).
- The suggestion filter accepts five categories. The store's other categories fall back to nouns (`VocabExtraction.OtherCategoriesBecomeNouns`).
- One `null` item in the model's vocabulary list drops every suggestion (`VocabExtraction.NullItemDropsAll`).
- The chat service splits its sections ignoring case but tests their labels case-sensitively, so an `english:` section is dropped (`LegacyFeedback.LowerCaseLabelIgnored`).
- `parseFeedbackContent` and its two classifiers, `identifyFeedbackType` and `determineFeedbackImportance`, are reachable only from code that is commented out. They are modelled as the chat service's feedback parser.

=== FILE: assessment.dfy ===
/**
 * The self-assessment form (`AssessmentComponent`): the learner picks a level
 * for each of four skills, and the form hands the levels on only when every
 * skill has one.
 */
module Assessment {
  import opened Text

  datatype SkillKey = Speaking | Writing | Grammar | Vocabulary

  /** `skillsToAssess`, by key, in display order. */
  const Skills: seq<SkillKey> := [Speaking, Writing, Grammar, Vocabulary]

  lemma SkillsListEveryKeyOnce()
    ensures forall k: SkillKey :: k in Skills
    ensures forall i, j :: 0 <= i < j < |Skills| ==> Skills[i] != Skills[j]
  {
    forall k: SkillKey ensures k in Skills {
      match k
      case Speaking => assert Skills[0] == k;
      case Writing => assert Skills[1] == k;
      case Grammar => assert Skills[2] == k;
      case Vocabulary => assert Skills[3] == k;
    }
  }

  /** `UserLevel`: one number per skill. */
  datatype UserLevel = UserLevel(speaking: int, writing: int, grammar: int, vocabulary: int)

  function LevelOf(u: UserLevel, k: SkillKey): int {
    match k
    case Speaking => u.speaking
    case Writing => u.writing
    case Grammar => u.grammar
    case Vocabulary => u.vocabulary
  }

  /** `userLevel[key] = level`: that skill takes the level, the others keep theirs. */
  function SetLevel(u: UserLevel, k: SkillKey, level: int): (r: UserLevel)
    ensures LevelOf(r, k) == level
    ensures forall j :: j != k ==> LevelOf(r, j) == LevelOf(u, j)
  {
    match k
    case Speaking => u.(speaking := level)
    case Writing => u.(writing := level)
    case Grammar => u.(grammar := level)
    case Vocabulary => u.(vocabulary := level)
  }

  /**
   * The form: the levels so far and, per skill, the `selectedLevel` its
   * entry in `skillsToAssess` carries (absent until the learner picks one).
   */
  datatype Form = Form(userLevel: UserLevel, selected: map<SkillKey, int>)

  /** Every level starts at 0 and no skill is assessed. */
  const Initial: Form := Form(UserLevel(0, 0, 0, 0), map[])

  lemma InitialIsBlank()
    ensures forall k :: LevelOf(Initial.userLevel, k) == 0 && k !in Initial.selected
  {
  }

  /** `selectLevel`: the skill's own entry and the shared levels both record the choice. */
  function SelectLevel(f: Form, k: SkillKey, level: int): (r: Form)
    ensures k in r.selected && r.selected[k] == level && LevelOf(r.userLevel, k) == level
    ensures forall j :: j != k ==> LevelOf(r.userLevel, j) == LevelOf(f.userLevel, j)
    ensures forall j :: j != k ==> (j in r.selected <==> j in f.selected)
    ensures forall j :: j != k && j in f.selected ==> r.selected[j] == f.selected[j]
  {
    Form(SetLevel(f.userLevel, k, level), f.selected[k := level])
  }

  /** `areAllSkillsAssessed`: every skill in the list has a level. */
  predicate AllAssessed(f: Form) {
    forall i :: 0 <= i < |Skills| ==> Skills[i] in f.selected
  }

  /** The list covers every skill, so its entries are all assessed exactly when every skill is. */
  lemma AllAssessedIff(f: Form)
    ensures AllAssessed(f) <==> forall k :: k in f.selected
  {
    if AllAssessed(f) {
      assert Skills[0] in f.selected && Skills[1] in f.selected;
      assert Skills[2] in f.selected && Skills[3] in f.selected;
      forall k: SkillKey ensures k in f.selected {
        match k
        case Speaking =>
        case Writing =>
        case Grammar =>
        case Vocabulary =>
      }
    }
  }

  /** `onComplete`: a copy of the levels, only once every skill is assessed. */
  function OnComplete(f: Form): (r: Option<UserLevel>)
    ensures r.Some? <==> forall k :: k in f.selected
    ensures r.Some? ==> r.value == f.userLevel
  {
    AllAssessedIff(f);
    if AllAssessed(f) then Some(f.userLevel) else None
  }

  /** The shared levels agree with every skill's own entry. */
  predicate Consistent(f: Form) {
    forall k :: k in f.selected ==> f.selected[k] == LevelOf(f.userLevel, k)
  }

  lemma SelectKeepsConsistent(f: Form, k: SkillKey, level: int)
    requires Consistent(f)
    ensures Consistent(SelectLevel(f, k, level))
  {
  }

  /** The form after the learner's choices, in order. */
  function Choose(f: Form, choices: seq<(SkillKey, int)>): Form
    decreases |choices|
  {
    if choices == [] then f
    else Choose(SelectLevel(f, choices[0].0, choices[0].1), choices[1..])
  }

  /** The level last chosen for skill `k`, if any. */
  function LastChoice(choices: seq<(SkillKey, int)>, k: SkillKey): Option<int> {
    if choices == [] then None
    else if choices[|choices| - 1].0 == k then Some(choices[|choices| - 1].1)
    else LastChoice(choices[..|choices| - 1], k)
  }

  lemma {:induction false} ChooseSnoc(f: Form, choices: seq<(SkillKey, int)>, c: (SkillKey, int))
    ensures Choose(f, choices + [c]) == SelectLevel(Choose(f, choices), c.0, c.1)
    decreases |choices|
  {
    if choices == [] {
      assert choices + [c] == [c];
    } else {
      assert (choices + [c])[1..] == choices[1..] + [c];
      ChooseSnoc(SelectLevel(f, choices[0].0, choices[0].1), choices[1..], c);
    }
  }

  /**
   * From the blank form, a skill is assessed exactly when the learner chose a
   * level for it, and its level is the last one chosen.
   */
  lemma {:induction false} ChoicesDecide(choices: seq<(SkillKey, int)>, k: SkillKey)
    ensures var f := Choose(Initial, choices);
      && (k in f.selected <==> LastChoice(choices, k).Some?)
      && (LastChoice(choices, k).Some? ==> f.selected[k] == LastChoice(choices, k).value)
      && LevelOf(f.userLevel, k) == (if LastChoice(choices, k).Some? then LastChoice(choices, k).value else 0)
    decreases |choices|
  {
    if choices != [] {
      var init := choices[..|choices| - 1];
      var c := choices[|choices| - 1];
      assert choices == init + [c];
      ChooseSnoc(Initial, init, c);
      ChoicesDecide(init, k);
    }
  }

  /** The learner chose a level for every skill at least once. */
  predicate EverySkillChosen(choices: seq<(SkillKey, int)>) {
    forall k :: LastChoice(choices, k).Some?
  }

  /** The form completes exactly when every skill was chosen, and hands on the last choice for each. */
  lemma CompleteAfterEverySkill(choices: seq<(SkillKey, int)>)
    ensures OnComplete(Choose(Initial, choices)).Some? <==> EverySkillChosen(choices)
    ensures OnComplete(Choose(Initial, choices)).Some? ==>
      forall k :: LevelOf(OnComplete(Choose(Initial, choices)).value, k) == LastChoice(choices, k).value
  {
    var f := Choose(Initial, choices);
    if OnComplete(f).Some? {
      forall k ensures LastChoice(choices, k).Some? {
        ChoicesDecide(choices, k);
      }
    }
    if EverySkillChosen(choices) {
      forall k ensures k in f.selected {
        ChoicesDecide(choices, k);
      }
    }
    forall k | LastChoice(choices, k).Some? ensures LevelOf(f.userLevel, k) == LastChoice(choices, k).value {
      ChoicesDecide(choices, k);
    }
  }
}

=== FILE: avatar.dfy ===
/**
 * The tutor's avatar (`VirtualAvatarService`): whether it is speaking or
 * thinking, its mood, and when it last changed. Times are milliseconds passed
 * in by the caller; the timers that end speaking and thinking are the caller's
 * second step.
 */
module Avatar {
  import opened Text

  datatype Mood = Normal | Happy | Thinking | Concerned

  datatype AvatarState = AvatarState(
    isSpeaking: bool,
    isThinking: bool,
    mood: Mood,
    lastInteractionTime: int)

  /** A `Partial<AvatarState>`: the fields to overwrite. */
  datatype Patch = Patch(isSpeaking: Option<bool>, isThinking: Option<bool>, mood: Option<Mood>)

  /** The state the service starts in, created at time `now`. */
  function Initial(now: int): (r: AvatarState)
    ensures !r.isSpeaking && !r.isThinking && r.mood == Normal
    ensures r.lastInteractionTime == now
  {
    AvatarState(false, false, Normal, now)
  }

  /** `updateState`: the patched fields take their new values, the others keep theirs, and the time is `now`. */
  function UpdateState(st: AvatarState, p: Patch, now: int): (r: AvatarState)
    ensures r.isSpeaking == (if p.isSpeaking.Some? then p.isSpeaking.value else st.isSpeaking)
    ensures r.isThinking == (if p.isThinking.Some? then p.isThinking.value else st.isThinking)
    ensures r.mood == (if p.mood.Some? then p.mood.value else st.mood)
    ensures r.lastInteractionTime == now
  {
    AvatarState(
      match p.isSpeaking case Some(b) => b case None => st.isSpeaking,
      match p.isThinking case Some(b) => b case None => st.isThinking,
      match p.mood case Some(m) => m case None => st.mood,
      now)
  }

  /** An empty patch only touches the time. */
  lemma EmptyPatchKeepsState(st: AvatarState, now: int)
    ensures UpdateState(st, Patch(None, None, None), now) == st.(lastInteractionTime := now)
  {
  }

  /** Two patches in a row, the later one winning where both set a field. */
  lemma UpdatesCompose(st: AvatarState, p: Patch, q: Patch, t1: int, t2: int)
    ensures UpdateState(UpdateState(st, p, t1), q, t2) ==
      UpdateState(st, Patch(
        if q.isSpeaking.Some? then q.isSpeaking else p.isSpeaking,
        if q.isThinking.Some? then q.isThinking else p.isThinking,
        if q.mood.Some? then q.mood else p.mood), t2)
  {
  }

  /** `setMood`: only the mood and the time change. */
  function SetMood(st: AvatarState, m: Mood, now: int): (r: AvatarState)
    ensures r == st.(mood := m, lastInteractionTime := now)
  {
    UpdateState(st, Patch(None, None, Some(m)), now)
  }

  /** The start of `startSpeaking`: speaking, and no longer thinking. */
  function StartSpeaking(st: AvatarState, now: int): (r: AvatarState)
    ensures r == st.(isSpeaking := true, isThinking := false, lastInteractionTime := now)
  {
    UpdateState(st, Patch(Some(true), Some(false), None), now)
  }

  /** The timer that ends `startSpeaking`. */
  function StopSpeaking(st: AvatarState, now: int): (r: AvatarState)
    ensures r == st.(isSpeaking := false, lastInteractionTime := now)
  {
    UpdateState(st, Patch(Some(false), None, None), now)
  }

  /** The start of `startThinking`: thinking, with the thinking mood. */
  function StartThinking(st: AvatarState, now: int): (r: AvatarState)
    ensures r == st.(isThinking := true, mood := Thinking, lastInteractionTime := now)
  {
    UpdateState(st, Patch(None, Some(true), Some(Thinking)), now)
  }

  /** The timer that ends `startThinking`: no longer thinking, and the mood back to normal. */
  function StopThinking(st: AvatarState, now: int): (r: AvatarState)
    ensures r == st.(isThinking := false, mood := Normal, lastInteractionTime := now)
  {
    UpdateState(st, Patch(None, Some(false), Some(Normal)), now)
  }

  /** A whole speaking turn leaves the avatar silent and not thinking, in the mood it had. */
  lemma SpeakingTurn(st: AvatarState, t1: int, t2: int)
    ensures var r := StopSpeaking(StartSpeaking(st, t1), t2);
      !r.isSpeaking && !r.isThinking && r.mood == st.mood && r.lastInteractionTime == t2
  {
  }

  /** A whole thinking turn resets the mood to normal, whatever it was before, and keeps speaking as it was. */
  lemma ThinkingTurn(st: AvatarState, t1: int, t2: int)
    ensures var r := StopThinking(StartThinking(st, t1), t2);
      !r.isThinking && r.mood == Normal && r.isSpeaking == st.isSpeaking
  {
  }

  /** Thinking does not stop speaking: a speaking avatar that starts thinking does both. */
  lemma ThinkingWhileSpeaking(t0: int, t1: int, t2: int)
    ensures var r := StartThinking(StartSpeaking(Initial(t0), t1), t2);
      r.isSpeaking && r.isThinking
  {
  }

  const PositiveWords: seq<string> := ["correct", "well done", "great", "excellent", "perfect"]
  const NegativeWords: seq<string> := ["mistake", "error", "incorrect", "not quite"]

  /** `isPositiveResponse`: a positive keyword occurs, ignoring letter case. */
  predicate IsPositive(text: string) {
    Mentions(text, PositiveWords)
  }

  /** `isNegativeResponse`: a negative keyword occurs, ignoring letter case. */
  predicate IsNegative(text: string) {
    Mentions(text, NegativeWords)
  }

  /** `analyzeResponseAndUpdateMood`: positive wins over negative; a neutral reply changes nothing, not even the time. */
  function AnalyzeAndUpdateMood(st: AvatarState, text: string, now: int): (r: AvatarState)
    ensures ContainsAny(text, PositiveWords, true) ==> r == st.(mood := Happy, lastInteractionTime := now)
    ensures !ContainsAny(text, PositiveWords, true) && ContainsAny(text, NegativeWords, true) ==>
      r == st.(mood := Concerned, lastInteractionTime := now)
    ensures !ContainsAny(text, PositiveWords, true) && !ContainsAny(text, NegativeWords, true) ==> r == st
  {
    KeywordsAreLowerCase();
    MentionsIsCaseInsensitive(text, PositiveWords);
    MentionsIsCaseInsensitive(text, NegativeWords);
    if IsPositive(text) then SetMood(st, Happy, now)
    else if IsNegative(text) then SetMood(st, Concerned, now)
    else st
  }

  lemma KeywordsAreLowerCase()
    ensures NoUpper(PositiveWords) && NoUpper(NegativeWords)
  {
    assert NoUpper(PositiveWords) by {
      forall j, t | 0 <= j < |PositiveWords| && 0 <= t < |PositiveWords[j]| ensures !IsUpper(PositiveWords[j][t]) {
      }
    }
    assert NoUpper(NegativeWords) by {
      forall j, t | 0 <= j < |NegativeWords| && 0 <= t < |NegativeWords[j]| ensures !IsUpper(NegativeWords[j][t]) {
      }
    }
  }

  /**
   * "incorrect" ends in "correct", so a reply that calls the learner's answer
   * incorrect makes the avatar happy.
   */
  lemma IncorrectCountsAsPositive(st: AvatarState, text: string, now: int)
    requires Contains(text, "incorrect", true)
    ensures AnalyzeAndUpdateMood(st, text, now).mood == Happy
  {
    assert "incorrect"[2..9] == "correct";
    ContainsInner(text, "incorrect", 2, "correct", true);
    assert Contains(text, PositiveWords[0], true);
  }

  datatype PatternType = NeedsCorrection | Praise

  const CorrectionPhrases: seq<string> := ["that's not quite right", "let me help you with that", "there's a small mistake"]
  const PraisePhrases: seq<string> := ["excellent work", "that's perfect", "well done"]

  /** `analyzeResponsePattern`: the first group, in declaration order, one of whose phrases occurs ignoring case. */
  function AnalyzeResponsePattern(text: string): (r: Option<PatternType>)
    ensures r == Some(NeedsCorrection) <==> ContainsAny(text, CorrectionPhrases, true)
    ensures r == Some(Praise) <==> !ContainsAny(text, CorrectionPhrases, true) && ContainsAny(text, PraisePhrases, true)
    ensures r.None? <==> !ContainsAny(text, CorrectionPhrases, true) && !ContainsAny(text, PraisePhrases, true)
  {
    if ContainsAny(text, CorrectionPhrases, true) then Some(NeedsCorrection)
    else if ContainsAny(text, PraisePhrases, true) then Some(Praise)
    else None
  }

  /** Case-insensitive search gives the same answer on the lower-cased text. */
  lemma CaseInsensitiveOnLower(s: string, w: string)
    ensures Contains(ToLower(s), w, true) <==> Contains(s, w, true)
  {
    var l := ToLower(s);
    forall k | 0 <= k <= |s| ensures LitAt(l, k, w, true) <==> LitAt(s, k, w, true) {
      if k + |w| <= |s| {
        forall t | 0 <= t < |w| ensures CharEq(l[k + t], w[t], true) <==> CharEq(s[k + t], w[t], true) {
        }
      }
    }
    if Contains(l, w, true) {
      var k :| 0 <= k <= |l| && LitAt(l, k, w, true);
    }
    if Contains(s, w, true) {
      var k :| 0 <= k <= |s| && LitAt(s, k, w, true);
      assert LitAt(l, k, w, true);
    }
  }

  /** The pattern of a reply does not depend on its letter case. */
  lemma PatternIgnoresCase(text: string)
    ensures AnalyzeResponsePattern(ToLower(text)) == AnalyzeResponsePattern(text)
  {
    forall j | 0 <= j < |CorrectionPhrases| ensures Contains(ToLower(text), CorrectionPhrases[j], true) <==> Contains(text, CorrectionPhrases[j], true) {
      CaseInsensitiveOnLower(text, CorrectionPhrases[j]);
    }
    forall j | 0 <= j < |PraisePhrases| ensures Contains(ToLower(text), PraisePhrases[j], true) <==> Contains(text, PraisePhrases[j], true) {
      CaseInsensitiveOnLower(text, PraisePhrases[j]);
    }
  }

  /** Every praise phrase holds a positive keyword, so praise always makes the avatar happy. */
  lemma PraiseMakesHappy(st: AvatarState, text: string, now: int)
    requires AnalyzeResponsePattern(text) == Some(Praise)
    ensures AnalyzeAndUpdateMood(st, text, now).mood == Happy
  {
    var j :| 0 <= j < |PraisePhrases| && Contains(text, PraisePhrases[j], true);
    if j == 0 {
      assert PraisePhrases[0][0..9] == "excellent";
      ContainsInner(text, PraisePhrases[0], 0, "excellent", true);
      assert Contains(text, PositiveWords[3], true);
    } else if j == 1 {
      assert PraisePhrases[1][7..14] == "perfect";
      ContainsInner(text, PraisePhrases[1], 7, "perfect", true);
      assert Contains(text, PositiveWords[4], true);
    } else {
      assert Contains(text, PositiveWords[1], true);
    }
  }
}

=== FILE: blocks.dfy ===
/**
 * The records the tutor exchanges with the rest of the application: learning
 * blocks, bilingual text, and chat messages.
 */
module Blocks {
  import opened Text

  /** The `type` of a learning block. */
  datatype BlockType = Grammar | Usage | Warning | Practice

  /** A piece of text with its Hebrew counterpart. */
  datatype Bilingual = Bilingual(english: string, hebrew: string)

  /**
   * A titled teaching note attached to an assistant message. `examples` is
   * `None` when the source leaves the optional array out.
   */
  datatype LearningBlock = LearningBlock(
    kind: BlockType,
    title: string,
    content: Bilingual,
    examples: Option<seq<Bilingual>>)

  datatype Role = User | Assistant

  /** A chat message; `learningBlocks` is `None` when the message carries none. */
  datatype ChatMessage = ChatMessage(
    sender: Role,
    english: string,
    hebrew: string,
    learningBlocks: Option<seq<LearningBlock>>,
    timestamp: int)

  /** The lower-case spelling of a block type, as the source writes it. */
  function TypeName(t: BlockType): (r: string)
    ensures |r| > 0
    ensures forall k :: 0 <= k < |r| ==> !IsUpper(r[k])
  {
    match t
    case Grammar => "grammar"
    case Usage => "usage"
    case Warning => "warning"
    case Practice => "practice"
  }
}

=== FILE: calendar.dfy ===
/**
 * Calendar dates as the app stores them: the `YYYY-MM-DD` prefix of
 * `Date.prototype.toISOString`, and the whole-day distance that
 * `Math.floor((b.getTime() - a.getTime()) / 86400000)` yields for two such
 * dates read back as UTC midnights.
 */
module Calendar {
  import opened Text

  datatype Date = Date(year: nat, month: nat, day: nat)

  predicate IsLeap(y: nat) {
    y % 4 == 0 && (y % 100 != 0 || y % 400 == 0)
  }

  function YearLength(y: nat): nat {
    if IsLeap(y) then 366 else 365
  }

  function MonthLength(y: nat, m: nat): nat {
    if m == 2 then (if IsLeap(y) then 29 else 28)
    else if m == 4 || m == 6 || m == 9 || m == 11 then 30
    else 31
  }

  /** A day of the proleptic Gregorian calendar with a four-digit year. */
  predicate Valid(d: Date) {
    d.year <= 9999 && 1 <= d.month <= 12 && 1 <= d.day <= MonthLength(d.year, d.month)
  }

  function DaysBeforeYear(y: nat): nat {
    if y == 0 then 0 else DaysBeforeYear(y - 1) + YearLength(y - 1)
  }

  function DaysBeforeMonth(y: nat, m: nat): nat
    requires 1 <= m <= 12
  {
    if m == 1 then 0 else DaysBeforeMonth(y, m - 1) + MonthLength(y, m - 1)
  }

  /** Days since 0000-01-01: differences of these are what the millisecond arithmetic yields. */
  function DayNumber(d: Date): nat
    requires Valid(d)
  {
    DaysBeforeYear(d.year) + DaysBeforeMonth(d.year, d.month) + d.day - 1
  }

  /** The calendar day after `d`. */
  function Next(d: Date): (r: Date)
    requires Valid(d) && d.year < 9999
    ensures Valid(r)
  {
    if d.day < MonthLength(d.year, d.month) then Date(d.year, d.month, d.day + 1)
    else if d.month < 12 then Date(d.year, d.month + 1, 1)
    else Date(d.year + 1, 1, 1)
  }

  /** The twelve months fill the year. */
  lemma MonthsFillYear(y: nat)
    ensures DaysBeforeMonth(y, 12) + MonthLength(y, 12) == YearLength(y)
  {
    var f := if IsLeap(y) then 29 else 28;
    assert DaysBeforeMonth(y, 2) == 31;
    assert DaysBeforeMonth(y, 3) == 31 + f;
    assert DaysBeforeMonth(y, 4) == 62 + f;
    assert DaysBeforeMonth(y, 5) == 92 + f;
    assert DaysBeforeMonth(y, 6) == 123 + f;
    assert DaysBeforeMonth(y, 7) == 153 + f;
    assert DaysBeforeMonth(y, 8) == 184 + f;
    assert DaysBeforeMonth(y, 9) == 215 + f;
    assert DaysBeforeMonth(y, 10) == 245 + f;
    assert DaysBeforeMonth(y, 11) == 276 + f;
    assert DaysBeforeMonth(y, 12) == 306 + f;
  }

  /** The day after is exactly one day later. */
  lemma NextIsOneDayLater(d: Date)
    requires Valid(d) && d.year < 9999
    ensures DayNumber(Next(d)) == DayNumber(d) + 1
  {
    if d.day == MonthLength(d.year, d.month) && d.month == 12 {
      MonthsFillYear(d.year);
    }
  }

  /** Later in the calendar means a larger day number. */
  lemma {:induction false} DayNumberGrows(a: Date, b: Date)
    requires Valid(a) && Valid(b)
    requires a.year < b.year || (a.year == b.year && (a.month < b.month || (a.month == b.month && a.day < b.day)))
    ensures DayNumber(a) < DayNumber(b)
  {
    if a.year < b.year {
      assert DaysBeforeMonth(a.year, a.month) + a.day <= YearLength(a.year) by {
        MonthBound(a.year, a.month);
        MonthsFillYear(a.year);
      }
      YearsGrow(a.year + 1, b.year);
    } else if a.month < b.month {
      MonthsGrow(a.year, a.month, b.month);
    }
  }

  lemma {:induction false} MonthBound(y: nat, m: nat)
    requires 1 <= m <= 12
    ensures DaysBeforeMonth(y, m) + MonthLength(y, m) <= DaysBeforeMonth(y, 12) + MonthLength(y, 12)
    decreases 12 - m
  {
    if m < 12 {
      MonthBound(y, m + 1);
    }
  }

  lemma {:induction false} MonthsGrow(y: nat, m: nat, n: nat)
    requires 1 <= m < n <= 12
    ensures DaysBeforeMonth(y, m) + MonthLength(y, m) <= DaysBeforeMonth(y, n)
    decreases n - m
  {
    if m + 1 < n {
      MonthsGrow(y, m, n - 1);
    }
  }

  lemma {:induction false} YearsGrow(x: nat, y: nat)
    requires x <= y
    ensures DaysBeforeYear(x) <= DaysBeforeYear(y)
    decreases y - x
  {
    if x < y {
      YearsGrow(x, y - 1);
    }
  }

  /* ---------- the ISO 8601 date text ---------- */

  /** `n` in exactly `w` decimal digits, most significant first. */
  function Digits(n: nat, w: nat): (r: string)
    ensures |r| == w && forall k :: 0 <= k < w ==> IsDigit(r[k])
  {
    if w == 0 then [] else Digits(n / 10, w - 1) + [('0' as int + n % 10) as char]
  }

  lemma {:induction false} PaddedValue(n: nat, w: nat)
    requires n < Power10(w)
    ensures DigitsValue(Digits(n, w)) == n
  {
    if w > 0 {
      var r := Digits(n, w);
      assert r[..w - 1] == Digits(n / 10, w - 1);
      PaddedValue(n / 10, w - 1);
    }
  }

  lemma {:induction false} PaddedOfValue(s: string)
    requires forall k :: 0 <= k < |s| ==> IsDigit(s[k])
    ensures DigitsValue(s) < Power10(|s|) && Digits(DigitsValue(s), |s|) == s
  {
    if s != [] {
      var init := s[..|s| - 1];
      PaddedOfValue(init);
      var v := DigitsValue(s);
      assert v / 10 == DigitsValue(init) && v % 10 == (s[|s| - 1] as int - '0' as int);
      assert s == init + [s[|s| - 1]];
    }
  }

  /** `toISOString().split('T')[0]`: four-digit year, two-digit month and day. */
  function IsoDate(d: Date): (r: string)
    ensures |r| == 10 && r[4] == '-' && r[7] == '-'
  {
    Digits(d.year, 4) + "-" + Digits(d.month, 2) + "-" + Digits(d.day, 2)
  }

  /**
   * How a stored `YYYY-MM-DD` text reads back as a date; `None` stands for
   * the invalid date, whose time value is NaN.
   */
  function ParseIso(s: string): (r: Option<Date>)
    ensures r.Some? ==> Valid(r.value)
  {
    if |s| == 10 && s[4] == '-' && s[7] == '-' && AllDigits(s[..4]) && AllDigits(s[5..7]) && AllDigits(s[8..])
    then
      var d := Date(DigitsValue(s[..4]), DigitsValue(s[5..7]), DigitsValue(s[8..]));
      if Valid(d) then Some(d) else None
    else None
  }

  /** Writing a date and reading it back gives the date. */
  lemma IsoRoundTrip(d: Date)
    requires Valid(d)
    ensures ParseIso(IsoDate(d)) == Some(d)
  {
    var s := IsoDate(d);
    assert s[..4] == Digits(d.year, 4);
    assert s[5..7] == Digits(d.month, 2);
    assert s[8..] == Digits(d.day, 2);
    PaddedValue(d.year, 4);
    PaddedValue(d.month, 2);
    PaddedValue(d.day, 2);
  }

  /** A text that reads as a date is exactly that date written out. */
  lemma IsoParseBack(s: string)
    requires ParseIso(s).Some?
    ensures IsoDate(ParseIso(s).value) == s
  {
    PaddedOfValue(s[..4]);
    PaddedOfValue(s[5..7]);
    PaddedOfValue(s[8..]);
    assert s == s[..4] + "-" + s[5..7] + "-" + s[8..];
  }

  /** Distinct dates are written differently. */
  lemma IsoInjective(a: Date, b: Date)
    requires Valid(a) && Valid(b)
    ensures IsoDate(a) == IsoDate(b) ==> a == b
  {
    IsoRoundTrip(a);
    IsoRoundTrip(b);
  }
}

=== FILE: conversation_modes.dfy ===
/**
 * The practice scenarios (`ConversationModeService`): a fixed catalogue of
 * modes, looked up by id, and the one the learner has selected, if any.
 */
module ConversationModes {
  import opened Text

  /** A scenario, by its id and its English and Hebrew names. */
  datatype Mode = Mode(id: string, nameEn: string, nameHe: string)

  /** `MODES`, in the order the service lists them. */
  const Modes: seq<Mode> := [
    Mode("free", "Free Conversation", "שיחה חופשית"),
    Mode("job-interview", "Job Interview", "ראיון עבודה"),
    Mode("travel", "Travel & Airport", "טיסה ושדה תעופה"),
    Mode("restaurant", "Restaurant", "מסעדה והזמנה"),
    Mode("business", "Business Meeting", "פגישה עסקית"),
    Mode("doctor", "Doctor Visit", "ביקור רופא"),
    Mode("shopping", "Shopping", "קניות")
  ]

  /** No two modes share an id, so a lookup by id is unambiguous. */
  lemma IdsDistinct()
    ensures |Modes| == 7
    ensures forall i, j :: 0 <= i < j < |Modes| ==> Modes[i].id != Modes[j].id
  {
    assert forall i :: 0 <= i < |Modes| ==> |Modes[i].id| > 0;
    var firsts := ['f', 'j', 't', 'r', 'b', 'd', 's'];
    assert forall i :: 0 <= i < |Modes| ==> Modes[i].id[0] == firsts[i];
  }

  /** The first mode, from index `k` on, with id `id`: `Array.prototype.find`. */
  function FindFrom(id: string, k: nat): (r: Option<Mode>)
    requires k <= |Modes|
    ensures r.Some? ==> r.value.id == id && r.value in Modes[k..]
    ensures r.None? <==> forall i :: k <= i < |Modes| ==> Modes[i].id != id
    decreases |Modes| - k
  {
    if k == |Modes| then None
    else if Modes[k].id == id then Some(Modes[k])
    else FindFrom(id, k + 1)
  }

  /** `getMode`: the mode with this id, and nothing when no mode has it. */
  function GetMode(id: string): (r: Option<Mode>)
    ensures r.Some? ==> r.value.id == id && r.value in Modes
    ensures r.None? <==> forall i :: 0 <= i < |Modes| ==> Modes[i].id != id
  {
    FindFrom(id, 0)
  }

  /** Looking up a mode by its own id gives that mode back. */
  lemma {:induction false} GetModeById(i: nat)
    requires i < |Modes|
    ensures GetMode(Modes[i].id) == Some(Modes[i])
  {
    IdsDistinct();
    var r := GetMode(Modes[i].id);
    assert r.Some?;
    var j :| 0 <= j < |Modes| && Modes[j] == r.value;
    assert Modes[j].id == Modes[i].id;
  }

  /** The service's state: the selected mode, `null` at start. */
  datatype Selection = Selection(selected: Option<Mode>)

  const Initial: Selection := Selection(None)

  /** `selectMode`: the mode with this id becomes the selection; an unknown id changes nothing. */
  function SelectMode(st: Selection, id: string): (r: Selection)
    ensures GetMode(id).Some? ==> r.selected == GetMode(id)
    ensures GetMode(id).None? ==> r == st
  {
    match GetMode(id)
    case Some(m) => Selection(Some(m))
    case None => st
  }

  /** `getSelectedMode` */
  function Selected(st: Selection): Option<Mode> {
    st.selected
  }

  /** `clearSelection`: back to the initial state whatever was selected. */
  function ClearSelection(st: Selection): (r: Selection)
    ensures r == Initial && Selected(r).None?
  {
    Selection(None)
  }

  /** Starting from no selection, every reachable selection is a catalogue mode. */
  predicate SelectsCatalogue(st: Selection) {
    st.selected.Some? ==> st.selected.value in Modes
  }

  lemma SelectionStaysInCatalogue(st: Selection, id: string)
    requires SelectsCatalogue(st)
    ensures SelectsCatalogue(SelectMode(st, id))
    ensures SelectsCatalogue(ClearSelection(st))
  {
  }

  /** Selecting the mode at index `i` makes it the selection, from any state. */
  lemma SelectByIdSelects(st: Selection, i: nat)
    requires i < |Modes|
    ensures Selected(SelectMode(st, Modes[i].id)) == Some(Modes[i])
  {
    GetModeById(i);
  }

  /** An unknown id, selected after a known one, keeps the earlier selection. */
  lemma UnknownIdKeepsSelection(i: nat, id: string)
    requires i < |Modes|
    requires forall j :: 0 <= j < |Modes| ==> Modes[j].id != id
    ensures Selected(SelectMode(SelectMode(Initial, Modes[i].id), id)) == Some(Modes[i])
  {
    GetModeById(i);
  }
}

=== FILE: daily_challenge.dfy ===
/**
 * The daily challenge (`DailyChallengeService`): one exercise per calendar
 * day, picked by a 32-bit string hash of the date, answered once, checked by
 * the model, and worth 25 XP when correct. The model's reply, `JSON.parse`,
 * storage and the clock are parameters.
 */
module DailyChallenge {
  import opened Text
  import opened Json
  import opened Calendar
  import Gamification

  /* ---------- the 32-bit hash ---------- */

  const TwoTo32: int := 0x1_0000_0000
  const TwoTo31: int := 0x8000_0000

  /** `x | 0`: the signed 32-bit integer congruent to `x` modulo 2^32. */
  function ToInt32(x: int): (r: int)
    ensures -TwoTo31 <= r < TwoTo31
    ensures -TwoTo31 <= x < TwoTo31 ==> r == x
  {
    var m := x % TwoTo32;
    if m >= TwoTo31 then m - TwoTo32 else m
  }

  /** Numbers that differ by a multiple of 2^32 wrap to the same 32-bit integer. */
  lemma ToInt32Shift(x: int, k: int)
    ensures ToInt32(x + k * TwoTo32) == ToInt32(x)
  {
    var q := x / TwoTo32;
    var m := x % TwoTo32;
    assert x + k * TwoTo32 == (q + k) * TwoTo32 + m;
    ModUnique(x + k * TwoTo32, q + k, m);
  }

  lemma ModUnique(x: int, q: int, m: int)
    requires x == q * TwoTo32 + m && 0 <= m < TwoTo32
    ensures x % TwoTo32 == m
  {
    var d := q - x / TwoTo32;
    assert d * TwoTo32 == x % TwoTo32 - m;
  }

  /** `ToInt32(x)` differs from `x` by a whole number of 2^32 steps. */
  lemma ToInt32Offset(x: int) returns (k: int)
    ensures x == ToInt32(x) + k * TwoTo32
  {
    var q := x / TwoTo32;
    var m := x % TwoTo32;
    if m >= TwoTo31 { k := q + 1; } else { k := q; }
  }

  /** One step of the loop: `((hash << 5) - hash) + code`, then `| 0`. */
  function HashStep(h: int, c: char): int {
    ToInt32(ToInt32(h * 32) - h + c as int)
  }

  /** The loop's value after the whole text (before `Math.abs`). */
  function HashFold(s: string): (r: int)
    ensures -TwoTo31 <= r < TwoTo31
  {
    if s == [] then 0 else HashStep(HashFold(s[..|s| - 1]), s[|s| - 1])
  }

  /** The polynomial hash with base 31, unbounded. */
  function Polynomial(s: string): int {
    if s == [] then 0 else 31 * Polynomial(s[..|s| - 1]) + s[|s| - 1] as int
  }

  lemma StepIsPolynomialStep(h: int, p: int, c: char)
    requires h == ToInt32(p)
    ensures HashStep(h, c) == ToInt32(31 * p + c as int)
  {
    var k1 := ToInt32Offset(h * 32);
    var k2 := ToInt32Offset(p);
    assert ToInt32(h * 32) - h + c as int == 31 * h + c as int - k1 * TwoTo32;
    ToInt32Shift(31 * h + c as int, -k1);
    assert 31 * p + c as int == 31 * h + c as int + (31 * k2) * TwoTo32;
    ToInt32Shift(31 * h + c as int, 31 * k2);
  }

  /** The loop computes the base-31 polynomial of the character codes, wrapped to 32 bits. */
  lemma {:induction false} HashIsPolynomial(s: string)
    ensures HashFold(s) == ToInt32(Polynomial(s))
  {
    if s != [] {
      HashIsPolynomial(s[..|s| - 1]);
      StepIsPolynomialStep(HashFold(s[..|s| - 1]), Polynomial(s[..|s| - 1]), s[|s| - 1]);
    }
  }

  /** `simpleHash`: the loop over the characters, then the absolute value. */
  method SimpleHash(s: string) returns (r: nat)
    ensures r <= TwoTo31
    ensures r as int == ToInt32(Polynomial(s)) || r as int == -ToInt32(Polynomial(s))
  {
    var hash := 0;
    var i := 0;
    while i < |s|
      invariant 0 <= i <= |s|
      invariant hash == HashFold(s[..i])
    {
      assert s[..i + 1][..i] == s[..i];
      hash := ToInt32(ToInt32(hash * 32) - hash + s[i] as int);
      i := i + 1;
    }
    assert s[..|s|] == s;
    HashIsPolynomial(s);
    r := if hash < 0 then -hash else hash;
  }

  /** The same value as a function. */
  function HashOf(s: string): (r: nat)
    ensures r <= TwoTo31
  {
    var h := HashFold(s);
    if h < 0 then -h else h
  }

  /* ---------- the pool ---------- */

  datatype Kind = FixGrammar | TranslateHeEn | TranslateEnHe | UseWord | FillBlank

  datatype Template = Template(kind: Kind, promptEn: string, promptHe: string, sentence: string, hint: Option<string>)

  /** A day's challenge: the template, with the day's date as its id. */
  datatype Challenge = Challenge(id: string, template: Template)

  /** The instruction each kind of exercise shows. */
  function PromptEn(k: Kind): string {
    match k
    case FixGrammar => "Fix the grammar error in this sentence:"
    case TranslateHeEn => "Translate this sentence to English:"
    case TranslateEnHe => "Translate this sentence to Hebrew:"
    case UseWord => "Write a sentence using this word:"
    case FillBlank => "Fill in the blank with the correct word:"
  }

  function PromptHe(k: Kind): string {
    match k
    case FixGrammar => "תקן את שגיאת הדקדוק במשפט:"
    case TranslateHeEn => "תרגם את המשפט לאנגלית:"
    case TranslateEnHe => "תרגם את המשפט לעברית:"
    case UseWord => "כתוב משפט עם המילה:"
    case FillBlank => "השלם את המילה החסרה:"
  }

  /** Exercises of one kind without a hint. */
  function Plain(k: Kind, sentences: seq<string>): (r: seq<Template>)
    ensures |r| == |sentences|
    ensures forall i :: 0 <= i < |r| ==> r[i] == Template(k, PromptEn(k), PromptHe(k), sentences[i], None)
  {
    if sentences == [] then []
    else [Template(k, PromptEn(k), PromptHe(k), sentences[0], None)] + Plain(k, sentences[1..])
  }

  /** Exercises of one kind, each with its hint. */
  function Hinted(k: Kind, items: seq<(string, string)>): (r: seq<Template>)
    ensures |r| == |items|
    ensures forall i :: 0 <= i < |r| ==> r[i] == Template(k, PromptEn(k), PromptHe(k), items[i].0, Some(items[i].1))
  {
    if items == [] then []
    else [Template(k, PromptEn(k), PromptHe(k), items[0].0, Some(items[0].1))] + Hinted(k, items[1..])
  }

  const GrammarSentences: seq<string> := [
    "She don't like coffee in the morning.",
    "I have went to the store yesterday.",
    "He is more taller than his brother.",
    "They was playing football when it started to rain.",
    "The informations are not correct.",
    "I am agree with your opinion.",
    "She suggested me to go home early.",
    "We have been living here since three years."]

  const HebrewSentences: seq<string> := [
    "אני אוהב ללמוד דברים חדשים כל יום.",
    "מזג האוויר היום יפה מאוד.",
    "היא עובדת כרופאה בבית חולים גדול.",
    "אנחנו הולכים למסעדה הערב.",
    "הספר הזה מעניין מאוד, אני ממליץ עליו.",
    "הילדים משחקים בגינה אחרי בית הספר."]

  const EnglishSentences: seq<string> := [
    "I usually wake up at seven in the morning.",
    "Can you help me find the nearest bus stop?",
    "My favorite hobby is reading books before bed.",
    "She has been studying English for two years.",
    "We need to buy groceries before the store closes.",
    "The meeting was cancelled because of the weather."]

  const Words: seq<(string, string)> := [
    ("although", "Shows contrast between two ideas"),
    ("accomplish", "Means to successfully complete something"),
    ("furthermore", "Used to add more information"),
    ("opportunity", "A chance to do something good"),
    ("essential", "Absolutely necessary")]

  const Blanks: seq<(string, string)> := [
    ("If I ___ (know) about the party, I would have come.", "Past perfect tense"),
    ("She is looking forward ___ meeting you.", "Preposition needed"),
    ("By the time we arrived, the movie ___ already started.", "Auxiliary verb needed"),
    ("He ___ to the gym every day last year.", "Simple past of \"go\""),
    ("I wish I ___ speak more languages.", "Subjunctive mood")]

  /** `CHALLENGE_POOL`, in its order. */
  const Pool: seq<Template> := Assemble(GrammarSentences, HebrewSentences, EnglishSentences, Words, Blanks)

  function CountKind(ts: seq<Template>, k: Kind): (r: nat)
    ensures r <= |ts|
  {
    if ts == [] then 0 else (if ts[0].kind == k then 1 else 0) + CountKind(ts[1..], k)
  }

  lemma {:induction false} CountKindAppend(a: seq<Template>, b: seq<Template>, k: Kind)
    ensures CountKind(a + b, k) == CountKind(a, k) + CountKind(b, k)
  {
    if a != [] {
      assert (a + b)[0] == a[0];
      assert (a + b)[1..] == a[1..] + b;
      CountKindAppend(a[1..], b, k);
    } else {
      assert a + b == b;
    }
  }

  lemma {:induction false} CountKindUniform(ts: seq<Template>, of: Kind, k: Kind)
    requires forall i :: 0 <= i < |ts| ==> ts[i].kind == of
    ensures CountKind(ts, k) == if of == k then |ts| else 0
  {
    if ts != [] {
      CountKindUniform(ts[1..], of, k);
    }
  }

  /** The pool built from blocks of each kind, in the order the source lists them. */
  function Assemble(g: seq<string>, he: seq<string>, en: seq<string>, w: seq<(string, string)>, b: seq<(string, string)>): seq<Template> {
    Plain(FixGrammar, g) + Plain(TranslateHeEn, he) + Plain(TranslateEnHe, en) + Hinted(UseWord, w) + Hinted(FillBlank, b)
  }

  /** Each block contributes its size to its own kind's count and nothing to the others. */
  lemma {:induction false} AssembleCount(g: seq<string>, he: seq<string>, en: seq<string>, w: seq<(string, string)>, b: seq<(string, string)>, k: Kind)
    ensures CountKind(Assemble(g, he, en, w, b), k) ==
      (if k == FixGrammar then |g| else 0) + (if k == TranslateHeEn then |he| else 0)
      + (if k == TranslateEnHe then |en| else 0) + (if k == UseWord then |w| else 0) + (if k == FillBlank then |b| else 0)
  {
    var p1, p2, p3 := Plain(FixGrammar, g), Plain(TranslateHeEn, he), Plain(TranslateEnHe, en);
    var p4, p5 := Hinted(UseWord, w), Hinted(FillBlank, b);
    CountKindBlocks(p1, p2, p3, p4, p5, k);
    CountKindUniform(p1, FixGrammar, k);
    CountKindUniform(p2, TranslateHeEn, k);
    CountKindUniform(p3, TranslateEnHe, k);
    CountKindUniform(p4, UseWord, k);
    CountKindUniform(p5, FillBlank, k);
  }

  /** The count over five blocks in a row is the sum of their counts. */
  lemma CountKindBlocks(p1: seq<Template>, p2: seq<Template>, p3: seq<Template>, p4: seq<Template>, p5: seq<Template>, k: Kind)
    ensures CountKind(p1 + p2 + p3 + p4 + p5, k) ==
      CountKind(p1, k) + CountKind(p2, k) + CountKind(p3, k) + CountKind(p4, k) + CountKind(p5, k)
  {
    CountKindAppend(p1, p2, k);
    CountKindAppend(p1 + p2, p3, k);
    CountKindAppend(p1 + p2 + p3, p4, k);
    CountKindAppend(p1 + p2 + p3 + p4, p5, k);
  }

  /** An exercise shows its kind's instruction, and has a hint exactly when it is a word or blank exercise. */
  predicate WellFormed(t: Template) {
    && t.promptEn == PromptEn(t.kind) && t.promptHe == PromptHe(t.kind)
    && (t.hint.Some? <==> t.kind == UseWord || t.kind == FillBlank)
  }

  lemma AssembleUniform(g: seq<string>, he: seq<string>, en: seq<string>, w: seq<(string, string)>, b: seq<(string, string)>)
    ensures forall t :: t in Assemble(g, he, en, w, b) ==> WellFormed(t)
  {
    var p1, p2, p3 := Plain(FixGrammar, g), Plain(TranslateHeEn, he), Plain(TranslateEnHe, en);
    var p4, p5 := Hinted(UseWord, w), Hinted(FillBlank, b);
    assert forall t :: t in p1 ==> WellFormed(t);
    assert forall t :: t in p2 ==> WellFormed(t);
    assert forall t :: t in p3 ==> WellFormed(t);
    assert forall t :: t in p4 ==> WellFormed(t);
    assert forall t :: t in p5 ==> WellFormed(t);
    assert Assemble(g, he, en, w, b) == p1 + p2 + p3 + p4 + p5;
  }

  lemma BlockSizes()
    ensures |GrammarSentences| == 8 && |HebrewSentences| == 6 && |EnglishSentences| == 6 && |Words| == 5 && |Blanks| == 5
  {
  }

  /**
   * Thirty exercises: eight grammar fixes, six translations each way, five
   * words to use and five blanks; each shows its kind's instruction, and only
   * the word and blank exercises carry a hint.
   */
  lemma PoolShape()
    ensures |Pool| == 30
    ensures CountKind(Pool, FixGrammar) == 8 && CountKind(Pool, TranslateHeEn) == 6
    ensures CountKind(Pool, TranslateEnHe) == 6 && CountKind(Pool, UseWord) == 5 && CountKind(Pool, FillBlank) == 5
    ensures forall t :: t in Pool ==> WellFormed(t)
  {
    BlockSizes();
    assert Pool == Assemble(GrammarSentences, HebrewSentences, EnglishSentences, Words, Blanks);
    AssembleCount(GrammarSentences, HebrewSentences, EnglishSentences, Words, Blanks, FixGrammar);
    AssembleCount(GrammarSentences, HebrewSentences, EnglishSentences, Words, Blanks, TranslateHeEn);
    AssembleCount(GrammarSentences, HebrewSentences, EnglishSentences, Words, Blanks, TranslateEnHe);
    AssembleCount(GrammarSentences, HebrewSentences, EnglishSentences, Words, Blanks, UseWord);
    AssembleCount(GrammarSentences, HebrewSentences, EnglishSentences, Words, Blanks, FillBlank);
    AssembleUniform(GrammarSentences, HebrewSentences, EnglishSentences, Words, Blanks);
  }

  /** `getTodayString` for the day `today`. */
  function TodayString(today: Date): string {
    IsoDate(today)
  }

  /** `getTodayChallenge`: the template at the date's hash modulo the pool size, named after the date. */
  function TodayChallenge(today: Date): (r: Challenge)
    ensures r.id == TodayString(today)
    ensures r.template in Pool
  {
    Challenge(TodayString(today), Pool[HashOf(TodayString(today)) % |Pool|])
  }

  /** The hash of a text is the absolute value of its base-31 polynomial, wrapped to 32 bits. */
  lemma HashOfIsPolynomial(s: string)
    ensures HashOf(s) == ToInt32Abs(Polynomial(s))
  {
    HashIsPolynomial(s);
  }

  function ToInt32Abs(x: int): nat {
    var h := ToInt32(x);
    if h < 0 then -h else h
  }

  /* ---------- checking an answer ---------- */

  datatype CheckResult = CheckResult(correct: bool, feedbackEn: string, feedbackHe: string)

  const CouldNotCheck: CheckResult := CheckResult(false, "Could not check your answer.", "לא ניתן לבדוק את התשובה.")
  const CheckFailed: CheckResult := CheckResult(false, "Error checking answer. Please try again.", "שגיאה בבדיקת התשובה. נסה שוב.")
  const NotOpen: CheckResult := CheckResult(false, "", "")

  /** `text.match(/\{[\s\S]*\}/)`: from the first `{` to the last `}` after it. */
  function JsonMatch(text: string): (r: Option<string>)
    ensures r.Some? ==> |r.value| >= 2 && r.value[0] == '{' && r.value[|r.value| - 1] == '}'
    ensures ('{' !in text || '}' !in text) ==> r.None?
  {
    match (IndexOfChar(text, '{'), LastIndexOfChar(text, '}'))
    case (Some(i), Some(j)) => if i < j then Some(text[i..j + 1]) else None
    case _ => None
  }

  /** A reply with prose around one JSON object: the match is exactly the object. */
  lemma MatchFindsObject(pre: string, body: string, post: string)
    requires '{' !in pre && '}' !in post
    requires |body| >= 2 && body[0] == '{' && body[|body| - 1] == '}'
    ensures JsonMatch(pre + body + post) == Some(body)
  {
    var text := pre + body + post;
    var i, j := |pre|, |pre| + |body| - 1;
    assert text[i] == '{' && text[j] == '}';
    assert text[..i] == pre;
    assert text[j + 1..] == post;
    IndexOfCharAt(text, '{', i);
    LastIndexOfCharAt(text, '}', j);
    assert text[i..j + 1] == body;
  }

  /**
   * `parseCheckResponse`: `correct` is the truthiness of the object's field,
   * English feedback falls back to `feedback`, then to "". No match, a text
   * that does not parse, or `null` give the "could not check" answer.
   */
  function ParseCheckResponse(text: string, parse: string -> Option<Value>): (r: CheckResult)
    ensures JsonMatch(text).None? ==> r == CouldNotCheck
    ensures JsonMatch(text).Some? && parse(JsonMatch(text).value).None? ==> r == CouldNotCheck
  {
    match JsonMatch(text)
    case None => CouldNotCheck
    case Some(span) =>
      match parse(span)
      case None => CouldNotCheck
      case Some(Null) => CouldNotCheck
      case Some(p) => ReadVerdict(p)
  }

  /** The verdict fields of a parsed object that is not `null`. */
  function ReadVerdict(p: Value): CheckResult {
    CheckResult(
      Truthy(Get(p, "correct")),
      StringOf(Or(Get(p, "feedbackEn"), Or(Get(p, "feedback"), Str("")))),
      StringOf(Or(Get(p, "feedbackHe"), Str(""))))
  }

  /** The object the model is asked to reply with when it checks an answer. */
  function VerdictJson(v: CheckResult): Value {
    Obj(map["correct" := Bool(v.correct), "feedbackEn" := Str(v.feedbackEn), "feedbackHe" := Str(v.feedbackHe)])
  }

  /** A reply carrying a verdict in the requested form reads back as that verdict. */
  lemma VerdictRoundTrip(pre: string, body: string, post: string, parse: string -> Option<Value>, v: CheckResult)
    requires '{' !in pre && '}' !in post
    requires |body| >= 2 && body[0] == '{' && body[|body| - 1] == '}'
    requires parse(body) == Some(VerdictJson(v))
    ensures ParseCheckResponse(pre + body + post, parse) == v
  {
    MatchFindsObject(pre, body, post);
    ReadVerdictOf(v);
  }

  lemma ReadVerdictOf(v: CheckResult)
    ensures ReadVerdict(VerdictJson(v)) == v
  {
    var p := VerdictJson(v);
    assert Get(p, "correct") == Some(Bool(v.correct));
    assert Get(p, "feedbackEn") == Some(Str(v.feedbackEn));
    assert Get(p, "feedbackHe") == Some(Str(v.feedbackHe));
  }

  /** The stored state of the day (`DailyChallengeState`). */
  datatype DayState = DayState(
    date: string,
    challenge: Challenge,
    completed: bool,
    userAnswer: Option<string>,
    isCorrect: Option<bool>,
    feedbackEn: Option<string>,
    feedbackHe: Option<string>)

  const ChallengeXP: int := 25

  /** The outcome of `submitAnswer`: its answer, the day's state and the XP state. */
  datatype Submitted = Submitted(result: CheckResult, state: Option<DayState>, progress: Gamification.State)

  /**
   * `submitAnswer`: without an open challenge nothing happens; a failed
   * request (`reply == None`) changes nothing and says so; otherwise the
   * verdict completes the day, and a correct one earns 25 XP.
   */
  function SubmitAnswer(
    st: Option<DayState>, answer: string, reply: Option<string>,
    parse: string -> Option<Value>, progress: Gamification.State, today: Date): (r: Submitted)
    ensures st.None? || st.value.completed ==> r == Submitted(NotOpen, st, progress)
    ensures st.Some? && !st.value.completed && reply.None? ==> r == Submitted(CheckFailed, st, progress)
    ensures st.Some? && !st.value.completed && reply.Some? ==>
              && r.result == ParseCheckResponse(reply.value, parse)
              && r.state.Some? && r.state.value.completed
              && r.state.value.userAnswer == Some(answer)
              && r.state.value.isCorrect == Some(r.result.correct)
              && r.state.value.feedbackEn == Some(r.result.feedbackEn)
              && r.state.value.feedbackHe == Some(r.result.feedbackHe)
              && r.state.value.(completed := false, userAnswer := st.value.userAnswer, isCorrect := st.value.isCorrect,
                                feedbackEn := st.value.feedbackEn, feedbackHe := st.value.feedbackHe) == st.value
              && r.progress.xp == progress.xp + (if r.result.correct then ChallengeXP else 0)
  {
    if st.None? || st.value.completed then Submitted(NotOpen, st, progress)
    else match reply
      case None => Submitted(CheckFailed, st, progress)
      case Some(text) =>
        var result := ParseCheckResponse(text, parse);
        var s := st.value.(completed := true, userAnswer := Some(answer), isCorrect := Some(result.correct),
                           feedbackEn := Some(result.feedbackEn), feedbackHe := Some(result.feedbackHe));
        var p := if result.correct then Gamification.AddXP(progress, ChallengeXP, today).0 else progress;
        Submitted(result, Some(s), p)
  }

  /** A day's challenge pays out at most once: a second answer changes nothing. */
  lemma AnsweredOnce(
    st: Option<DayState>, a1: string, a2: string, reply1: Option<string>, reply2: Option<string>,
    parse: string -> Option<Value>, progress: Gamification.State, today: Date)
    requires st.Some? && !st.value.completed && reply1.Some?
    ensures var first := SubmitAnswer(st, a1, reply1, parse, progress, today);
            SubmitAnswer(first.state, a2, reply2, parse, first.progress, today)
              == Submitted(NotOpen, first.state, first.progress)
  {
  }

  /* ---------- loading the day ---------- */

  /**
   * `loadState`: the stored text, parsed, when its `date` is today's; a
   * missing or empty entry, a parse error, `null`, or another day give `None`.
   */
  function LoadState(stored: Option<string>, parse: string -> Option<Value>, today: Date): (r: Option<Value>)
    ensures r.Some? ==> Get(r.value, "date") == Some(Str(TodayString(today)))
  {
    match stored
    case None => None
    case Some(text) =>
      if text == [] then None
      else match parse(text)
        case None => None
        case Some(v) =>
          if v.Null? then None
          else if Get(v, "date") == Some(Str(TodayString(today))) then Some(v) else None
  }

  /** What `initialize` shows: the stored day, or a fresh, open challenge for today. */
  datatype Loaded = Restored(stored: Value) | Fresh(state: DayState)

  function Initialize(stored: Option<string>, parse: string -> Option<Value>, today: Date): (r: Loaded)
    ensures r.Fresh? ==> r.state.date == TodayString(today) && !r.state.completed
                         && r.state.challenge == TodayChallenge(today) && r.state.challenge.id == r.state.date
    ensures r.Restored? ==> Get(r.stored, "date") == Some(Str(TodayString(today)))
  {
    match LoadState(stored, parse, today)
    case Some(v) => Restored(v)
    case None => Fresh(DayState(TodayString(today), TodayChallenge(today), false, None, None, None, None))
  }

  /** A state saved on another day is never restored: the next day starts a new challenge. */
  lemma NewDayNewChallenge(stored: string, parse: string -> Option<Value>, saved: Date, today: Date, v: Value)
    requires Valid(saved) && Valid(today) && saved != today
    requires parse(stored) == Some(v) && Get(v, "date") == Some(Str(IsoDate(saved)))
    ensures Initialize(Some(stored), parse, today).Fresh?
  {
    IsoInjective(saved, today);
  }
}

=== FILE: enhanced_tutor.dfy ===
/**
 * The enhanced tutor's round trip: the chat history sent to the model, the
 * parse of its completion into a bilingual message with learning blocks, and
 * the canned bilingual messages that replace every failure, so that sending a
 * message always yields an assistant message.
 */
module EnhancedTutor {
  import opened Text
  import opened Blocks
  import opened ResponseText
  import opened StructuredBlocks
  import opened HeuristicBlocks

  /* ---------- the conversation history ---------- */

  /** One entry of the `messages` array of a completion request. */
  datatype Turn = Turn(role: Role, content: string)

  /** The parts of the service context that sending a message reads and writes. */
  datatype Context = Context(previous: seq<ChatMessage>, isFirstMessage: bool)

  /** Each earlier message as a turn: its sender and its English text. */
  function TurnsOf(ms: seq<ChatMessage>): (r: seq<Turn>)
    ensures |r| == |ms|
    ensures forall i :: 0 <= i < |r| ==> r[i].role == ms[i].sender && r[i].content == ms[i].english
  {
    if ms == [] then [] else [Turn(ms[0].sender, ms[0].english)] + TurnsOf(ms[1..])
  }

  /**
   * The request history. The first message of a conversation goes alone.
   * Otherwise the earlier messages go first, without the last one when its
   * English text is the new message (the caller may already have appended
   * it), and the new message closes the list.
   */
  function History(message: string, ctx: Context): (r: seq<Turn>)
    ensures |r| >= 1 && r[|r| - 1] == Turn(User, message)
    ensures ctx.isFirstMessage ==> |r| == 1
    ensures !ctx.isFirstMessage ==> |ctx.previous| <= |r| <= |ctx.previous| + 1
    ensures !ctx.isFirstMessage ==> forall i :: 0 <= i < |r| - 1 ==>
              r[i].role == ctx.previous[i].sender && r[i].content == ctx.previous[i].english
  {
    if ctx.isFirstMessage then [Turn(User, message)]
    else
      var kept := if |ctx.previous| > 0 && ctx.previous[|ctx.previous| - 1].english == message
                  then ctx.previous[..|ctx.previous| - 1] else ctx.previous;
      TurnsOf(kept) + [Turn(User, message)]
  }

  /** A message the caller already appended is not sent twice in a row. */
  lemma HistoryDropsEcho(message: string, earlier: seq<ChatMessage>, echo: ChatMessage)
    requires echo.english == message
    ensures History(message, Context(earlier + [echo], false)) == TurnsOf(earlier) + [Turn(User, message)]
  {
    assert (earlier + [echo])[..|earlier|] == earlier;
  }

  /** Otherwise every earlier message is sent, in order, before the new one. */
  lemma HistoryKeepsAll(message: string, ctx: Context)
    requires !ctx.isFirstMessage
    requires ctx.previous == [] || ctx.previous[|ctx.previous| - 1].english != message
    ensures History(message, ctx) == TurnsOf(ctx.previous) + [Turn(User, message)]
  {
  }

  /* ---------- failures ---------- */

  /**
   * What the service can see of a thrown error: its numeric `status` and its
   * `type`, each absent when the error has none (as for the errors the
   * service throws itself).
   */
  datatype ApiError = ApiError(status: Option<int>, errorType: Option<string>)

  /** The error the service throws itself for an empty or malformed reply. */
  const LocalError: ApiError := ApiError(None, None)

  /** The four canned answers. */
  datatype ErrorKind = RateLimited | Unreachable | Unavailable | Rephrase

  /** The status that section 4 of RFC 6585 defines for too many requests. */
  const TooManyRequests: int := 429

  /** The first status of the server-error class of section 15.6 of RFC 9110. */
  const ServerErrorFloor: int := 500

  /** The checks of `getErrorMessage`, in order. */
  function ClassifyError(e: ApiError): (k: ErrorKind)
    ensures k == RateLimited <==> e.status == Some(TooManyRequests)
    ensures k == Unreachable <==>
              e.status != Some(TooManyRequests) && (e.status == Some(0) || e.errorType == Some("unknown_error"))
    ensures k == Unavailable <==>
              e.status.Some? && e.status.value >= ServerErrorFloor && e.status.value != TooManyRequests
              && e.errorType != Some("unknown_error")
    ensures k == Rephrase <==>
              (e.status.None? || (e.status.value != 0 && e.status.value < ServerErrorFloor && e.status.value != TooManyRequests))
              && e.errorType != Some("unknown_error")
  {
    if e.status == Some(TooManyRequests) then RateLimited
    else if e.status == Some(0) || e.errorType == Some("unknown_error") then Unreachable
    else if e.status.Some? && e.status.value >= ServerErrorFloor then Unavailable
    else Rephrase
  }

  const RateLimitedText: Bilingual := Bilingual(
    "I'm receiving too many requests right now. Please wait a moment and try again.",
    "יש יותר מדי בקשות כרגע. אנא המתן רגע ונסה שוב.")
  const UnreachableText: Bilingual := Bilingual(
    "I can't reach the server. Please check your internet connection and make sure the backend is running.",
    "לא ניתן להתחבר לשרת. אנא בדוק את חיבור האינטרנט ושהשרת פועל.")
  const UnavailableText: Bilingual := Bilingual(
    "The AI service is temporarily unavailable. Please try again in a few moments.",
    "שירות ה-AI לא זמין זמנית. אנא נסה שוב בעוד מספר רגעים.")
  const RephraseText: Bilingual := Bilingual(
    "I'm having difficulty processing that. Could you please rephrase?",
    "אני מתקשה לעבד את זה. האם תוכל לנסח מחדש?")

  /** The bilingual text of each canned answer. */
  function KindMessage(k: ErrorKind): Bilingual {
    match k
    case RateLimited => RateLimitedText
    case Unreachable => UnreachableText
    case Unavailable => UnavailableText
    case Rephrase => RephraseText
  }

  /** `getErrorMessage`: every error gets one of the four canned answers, in both languages. */
  function ErrorMessage(e: ApiError): (r: Bilingual)
    ensures |r.english| > 0 && |r.hebrew| > 0
    ensures r == KindMessage(ClassifyError(e))
  {
    MessageLengths(ClassifyError(e));
    KindMessage(ClassifyError(e))
  }

  /** The canned answers differ, so the English text tells which check fired. */
  lemma KindMessageInjective(k1: ErrorKind, k2: ErrorKind)
    requires KindMessage(k1).english == KindMessage(k2).english
    ensures k1 == k2
  {
    MessageLengths(k1);
    MessageLengths(k2);
  }

  /** The English answers have four different lengths, and no answer is empty in either language. */
  lemma MessageLengths(k: ErrorKind)
    ensures |KindMessage(k).english| == match k
      case RateLimited => 78 case Unreachable => 101 case Unavailable => 77 case Rephrase => 65
    ensures |KindMessage(k).hebrew| > 0
  {
    match k
    case RateLimited => RateLimitedLengths();
    case Unreachable => UnreachableLengths();
    case Unavailable => UnavailableLengths();
    case Rephrase => RephraseLengths();
  }

  lemma RateLimitedLengths()
    ensures |RateLimitedText.english| == 78 && |RateLimitedText.hebrew| > 0
  {
  }

  lemma UnreachableLengths()
    ensures |UnreachableText.english| == 101 && |UnreachableText.hebrew| > 0
  {
  }

  lemma UnavailableLengths()
    ensures |UnavailableText.english| == 77 && |UnavailableText.hebrew| > 0
  {
  }

  lemma RephraseLengths()
    ensures |RephraseText.english| == 65 && |RephraseText.hebrew| > 0
  {
  }

  /** The service's own errors carry no status, so they get the request to rephrase. */
  lemma LocalErrorRephrases()
    ensures ErrorMessage(LocalError) == KindMessage(Rephrase)
  {
  }

  /** A rate limit wins over a `type` that alone would mean the server is unreachable. */
  lemma RateLimitFirst(t: Option<string>)
    ensures ClassifyError(ApiError(Some(TooManyRequests), t)) == RateLimited
    ensures ClassifyError(ApiError(Some(503), Some("unknown_error"))) == Unreachable
  {
  }

  /* ---------- the completion ---------- */

  /** One element of the completion's `content` array. */
  datatype ContentPart = TextPart(text: string) | OtherPart

  /** What the provider call gives back: a completion (whose `content` may be missing), or an error. */
  datatype ProviderResult = Answered(content: Option<seq<ContentPart>>) | Failed(error: ApiError)

  /** A parsed completion: the two display texts and the learning blocks. */
  datatype Reply = Reply(english: string, hebrew: string, blocks: seq<LearningBlock>)

  /**
   * `parseClaudeResponse` on the text of the first content part: the split
   * into English and Hebrew, the blocks the `BLOCKS:` section declares, and,
   * only when it declares none, the blocks the heuristic finds in the English.
   */
  function ParseReply(content: string): (r: Reply)
    ensures BothReady(Bilingual(r.english, r.hebrew))
    ensures Bilingual(r.english, r.hebrew) == ParseContent(content)
    ensures ParseStructuredBlocks(content) != [] ==> r.blocks == ParseStructuredBlocks(content)
    ensures ParseStructuredBlocks(content) == [] ==> r.blocks == ExtractBlocksFromMarkdown(r.english)
    ensures r.english == [] ==> r.blocks == ParseStructuredBlocks(content)
  {
    var text := ParseContent(content);
    var structured := ParseStructuredBlocks(content);
    Reply(text.english, text.hebrew,
          if structured != [] then structured else ExtractBlocksFromMarkdown(text.english))
  }

  /**
   * The heuristic blocks appear exactly when the structured decoding found none,
   * even when a `BLOCKS:` section is present.
   */
  lemma HeuristicOnlyAsFallback(content: string)
    ensures ParseStructuredBlocks(content) != [] ==> ParseReply(content).blocks == ParseStructuredBlocks(content)
    ensures ParseStructuredBlocks(content) == [] ==>
              ParseReply(content).blocks == ExtractBlocksFromMarkdown(ParseReply(content).english)
  {
  }

  /** A section that declares `none` (in any case) falls back to the heuristic blocks. */
  lemma DeclaredNoneFallsBack(pre: string, body: string, ws: string)
    requires forall q :: !LitAt(pre, q, "BLOCKS:", false)
    requires AllSpace(ws) && IsNone(Trim(body))
    ensures var content := StructuredBlocks.Section(pre, body, ws);
            && ParseStructuredBlocks(content) == []
            && ParseReply(content).blocks == ExtractBlocksFromMarkdown(ParseReply(content).english)
  {
    assert Trim(body) != [];
    SectionPayload(pre, body, ws);
  }

  /** Without a `BLOCKS:` label every block comes from the heuristic. */
  lemma NoLabelHeuristic(content: string)
    requires forall q :: !OpenerAt(content, q)
    ensures ParseReply(content).blocks == ExtractBlocksFromMarkdown(ParseReply(content).english)
  {
    NoLabelNoBlocks(content);
  }

  /** A declared block list comes back whole: no heuristic block is mixed in. */
  lemma StructuredBlocksAreEmitted(content: string)
    requires ParseStructuredBlocks(content) != []
    ensures forall i :: 0 <= i < |ParseReply(content).blocks| ==> Emitted(ParseReply(content).blocks[i])
  {
  }

  /**
   * The text of the completion, or the error that the service throws or
   * receives before it gets one: a missing or empty `content`, or a first
   * part that is not text.
   */
  function CompletionText(p: ProviderResult): (r: Result)
    ensures p.Failed? ==> r == Err(p.error)
    ensures p.Answered? && p.content.Some? && |p.content.value| > 0 && p.content.value[0].TextPart?
            <==> r.Ok?
    ensures r.Ok? ==> r.text == p.content.value[0].text
    ensures p.Answered? && r.Err? ==> r.error == LocalError
  {
    match p
    case Failed(e) => Err(e)
    case Answered(c) =>
      if c.None? || |c.value| == 0 then Err(LocalError)
      else if !c.value[0].TextPart? then Err(LocalError)
      else Ok(c.value[0].text)
  }

  datatype Result = Ok(text: string) | Err(error: ApiError)

  /**
   * `sendEnhancedMessage`: builds the history (clearing the first-message
   * flag), then turns the provider's result into an assistant message. It
   * never fails: every error becomes a canned answer with an empty block list.
   */
  function SendMessage(message: string, ctx: Context, provider: ProviderResult, now: int)
    : (out: (ChatMessage, Context, seq<Turn>))
    ensures out.0.sender == Assistant && out.0.timestamp == now && out.0.learningBlocks.Some?
    ensures out.1 == Context(ctx.previous, false)
    ensures out.2 == History(message, ctx)
    ensures CompletionText(provider).Err? ==>
              out.0.learningBlocks == Some([])
              && Bilingual(out.0.english, out.0.hebrew) == ErrorMessage(CompletionText(provider).error)
    ensures CompletionText(provider).Ok? ==>
              var reply := ParseReply(CompletionText(provider).text);
              out.0 == ChatMessage(Assistant, reply.english, reply.hebrew, Some(reply.blocks), now)
  {
    var turns := History(message, ctx);
    var ctx' := Context(ctx.previous, false);
    match CompletionText(provider)
    case Err(e) =>
      var m := ErrorMessage(e);
      (ChatMessage(Assistant, m.english, m.hebrew, Some([]), now), ctx', turns)
    case Ok(text) =>
      var reply := ParseReply(text);
      (ChatMessage(Assistant, reply.english, reply.hebrew, Some(reply.blocks), now), ctx', turns)
  }

  /** A failed call always comes back as a canned answer with no blocks, whatever the error. */
  lemma FailureIsCanned(message: string, ctx: Context, e: ApiError, now: int)
    ensures var m := SendMessage(message, ctx, Failed(e), now).0;
            m.learningBlocks == Some([])
            && exists k :: Bilingual(m.english, m.hebrew) == KindMessage(k)
  {
    var m := SendMessage(message, ctx, Failed(e), now).0;
    assert Bilingual(m.english, m.hebrew) == KindMessage(ClassifyError(e));
  }

  /** A reply whose first part is not text, or that has no parts, asks the learner to rephrase. */
  lemma MalformedReplyRephrases(message: string, ctx: Context, c: seq<ContentPart>, now: int)
    requires c == [] || c[0].OtherPart?
    ensures var m := SendMessage(message, ctx, Answered(Some(c)), now).0;
            Bilingual(m.english, m.hebrew) == KindMessage(Rephrase) && m.learningBlocks == Some([])
  {
  }
}

=== FILE: gamification.dfy ===
/**
 * Experience points, levels and the daily streak (`GamificationService`).
 * Storage is left out: every operation maps the current state to the next one.
 */
module Gamification {
  import opened Text
  import opened Calendar

  datatype State = State(
    xp: int,
    level: int,
    streak: int,
    lastActivityDate: string,
    messagesCount: int,
    wordsLearned: int)

  /** `LEVEL_THRESHOLDS`: the XP needed for level `i + 1` is `Thresholds[i]`. */
  const Thresholds: seq<int> := [0, 100, 300, 600, 1000, 1500, 2200, 3000, 4000, 5500]
  const MaxLevel: nat := 10

  lemma ThresholdsIncrease()
    ensures |Thresholds| == MaxLevel
    ensures forall i, j :: 0 <= i < j < |Thresholds| ==> Thresholds[i] < Thresholds[j]
  {
  }

  /** The XP that level `level` needs. */
  function ThresholdOf(level: int): int
    requires 1 <= level <= MaxLevel
  {
    Thresholds[level - 1]
  }

  /** The state `loadState` falls back to. */
  const Initial: State := State(0, 1, 0, "", 0, 0)

  /** The level `xp` earns: the highest whose threshold `xp` reaches, and 1 below every threshold. */
  predicate IsLevelOf(xp: int, level: int) {
    && 1 <= level <= MaxLevel
    && (level == 1 || ThresholdOf(level) <= xp)
    && forall j :: level < j <= MaxLevel ==> xp < ThresholdOf(j)
  }

  /** The same as a search from the top. */
  function LevelFor(xp: int): (r: int)
    ensures IsLevelOf(xp, r)
  {
    ThresholdsIncrease();
    TopLevelFrom(xp, MaxLevel)
  }

  function TopLevelFrom(xp: int, n: nat): (r: int)
    requires 1 <= n <= MaxLevel
    requires forall j :: n < j <= MaxLevel ==> xp < ThresholdOf(j)
    ensures IsLevelOf(xp, r) && r <= n
  {
    if n == 1 || Thresholds[n - 1] <= xp then n else TopLevelFrom(xp, n - 1)
  }

  /** There is exactly one level for each XP total. */
  lemma LevelUnique(xp: int, a: int, b: int)
    requires IsLevelOf(xp, a) && IsLevelOf(xp, b)
    ensures a == b
  {
    ThresholdsIncrease();
  }

  /** `getLevelFromXP`: the loop over the thresholds, keeping the last one reached. */
  method GetLevelFromXP(xp: int) returns (level: int)
    ensures IsLevelOf(xp, level)
    ensures level == LevelFor(xp)
  {
    ThresholdsIncrease();
    level := 1;
    var i := 0;
    while i < |Thresholds|
      invariant 0 <= i <= MaxLevel
      invariant 1 <= level <= (if i == 0 then 1 else i)
      invariant level == 1 || Thresholds[level - 1] <= xp
      invariant forall j :: level < j <= i ==> xp < ThresholdOf(j)
    {
      if xp >= Thresholds[i] {
        level := i + 1;
      }
      i := i + 1;
    }
    LevelUnique(xp, level, LevelFor(xp));
  }

  /** More XP never means a lower level. */
  lemma LevelMonotone(a: int, b: int)
    requires a <= b
    ensures LevelFor(a) <= LevelFor(b)
  {
  }

  /**
   * `addXP`: the XP grows by `amount`, the level follows it, the day is
   * stamped; the flag says whether a level was gained.
   */
  function AddXP(st: State, amount: int, today: Date): (r: (State, bool))
    ensures r.0 == st.(xp := st.xp + amount, level := r.0.level, lastActivityDate := IsoDate(today))
    ensures IsLevelOf(st.xp + amount, r.0.level)
    ensures r.1 <==> exists j :: 1 < j <= MaxLevel && st.xp < ThresholdOf(j) <= st.xp + amount
  {
    var oldLevel := LevelFor(st.xp);
    var level := LevelFor(st.xp + amount);
    LevelGain(st.xp, st.xp + amount);
    (st.(xp := st.xp + amount, level := level, lastActivityDate := IsoDate(today)), level > oldLevel)
  }

  /** A level is gained exactly when a threshold lies in the new stretch of XP. */
  lemma LevelGain(a: int, b: int)
    ensures LevelFor(b) > LevelFor(a) <==> exists j :: 1 < j <= MaxLevel && a < ThresholdOf(j) <= b
  {
    var la, lb := LevelFor(a), LevelFor(b);
    if lb > la {
      assert 1 < lb <= MaxLevel && a < ThresholdOf(lb) <= b;
    }
    if j :| 1 < j <= MaxLevel && a < ThresholdOf(j) <= b {
      ThresholdsIncrease();
      assert la < j;
    }
  }

  /** Spending or adding nothing never gains a level. */
  lemma NoGainWithoutXP(st: State, amount: int, today: Date)
    requires amount <= 0
    ensures !AddXP(st, amount, today).1
  {
  }

  /** `incrementMessages`. */
  function IncrementMessages(st: State): (r: State)
    ensures r.messagesCount == st.messagesCount + 1
    ensures r.(messagesCount := st.messagesCount) == st
  {
    st.(messagesCount := st.messagesCount + 1)
  }

  /** `incrementWords`. */
  function IncrementWords(st: State): (r: State)
    ensures r.wordsLearned == st.wordsLearned + 1
    ensures r.(wordsLearned := st.wordsLearned) == st
  {
    st.(wordsLearned := st.wordsLearned + 1)
  }

  /** The progress bar's numbers: XP into the level, XP the level spans, and the percentage. */
  datatype Progress = Progress(current: int, required: int, percentage: real)

  /**
   * `getXPToNextLevel`, from the stored level: without a next level (level
   * 10, or a level that is no table entry) it reports the XP twice and 100%.
   */
  function XPToNextLevel(st: State): (r: Progress)
    ensures !(1 <= st.level < MaxLevel) ==> r == Progress(st.xp, st.xp, 100.0)
    ensures 1 <= st.level < MaxLevel ==>
              && r.required == Thresholds[st.level] - Thresholds[st.level - 1] > 0
              && r.current == st.xp - Thresholds[st.level - 1]
              && r.percentage <= 100.0
  {
    if 1 <= st.level < MaxLevel then
      var cur := st.xp - Thresholds[st.level - 1];
      var req := Thresholds[st.level] - Thresholds[st.level - 1];
      var pct := (cur as real / req as real) * 100.0;
      Progress(cur, req, if pct < 100.0 then pct else 100.0)
    else Progress(st.xp, st.xp, 100.0)
  }

  /** When the stored level is the one the XP earns, the bar sits inside the level: 0% up to below 100%. */
  lemma ProgressWithinLevel(st: State)
    requires st.xp >= 0 && st.level == LevelFor(st.xp) && st.level < MaxLevel
    ensures var r := XPToNextLevel(st);
            0 <= r.current < r.required && 0.0 <= r.percentage < 100.0
  {
    var r := XPToNextLevel(st);
    assert ThresholdOf(st.level) <= st.xp < ThresholdOf(st.level + 1);
    assert 0 <= r.current < r.required;
    var q := r.current as real / r.required as real;
    assert q * r.required as real == r.current as real;
    assert 0.0 <= q < 1.0;
  }

  /**
   * `checkStreak` on `today`: no recorded day resets the streak, the same day
   * keeps it, the day before extends it, an older day resets it; a stored
   * day that does not read as a date (NaN distance) or lies in the future
   * keeps it. The day is stamped in every case.
   */
  function CheckStreak(st: State, today: Date): (r: State)
    ensures r.lastActivityDate == IsoDate(today)
    ensures r.(streak := st.streak, lastActivityDate := st.lastActivityDate) == st
    ensures st.lastActivityDate == [] ==> r.streak == 0
    ensures st.lastActivityDate == IsoDate(today) ==> r.streak == st.streak
  {
    var last := st.lastActivityDate;
    var streak :=
      if last == [] then 0
      else if last == IsoDate(today) then st.streak
      else match ParseIso(last)
        case None => st.streak
        case Some(d) =>
          if Valid(today) then
            var diff := DayNumber(today) - DayNumber(d);
            if diff == 1 then st.streak + 1 else if diff > 1 then 0 else st.streak
          else st.streak;
    st.(streak := streak, lastActivityDate := IsoDate(today))
  }

  /** Coming back the next day extends the streak by one. */
  lemma NextDayExtends(st: State, d: Date)
    requires Valid(d) && d.year < 9999 && st.lastActivityDate == IsoDate(d)
    ensures CheckStreak(st, Next(d)).streak == st.streak + 1
  {
    var today := Next(d);
    IsoRoundTrip(d);
    NextIsOneDayLater(d);
    IsoInjective(d, today);
    assert st.lastActivityDate != [] && st.lastActivityDate != IsoDate(today);
    assert ParseIso(st.lastActivityDate) == Some(d);
    assert DayNumber(today) - DayNumber(d) == 1;
  }

  /** Skipping a day or more resets the streak. */
  lemma GapResets(st: State, d: Date, today: Date)
    requires Valid(d) && Valid(today) && st.lastActivityDate == IsoDate(d)
    requires DayNumber(today) > DayNumber(d) + 1
    ensures CheckStreak(st, today).streak == 0
  {
    IsoRoundTrip(d);
    IsoInjective(d, today);
  }

  /** Checking twice on one day changes nothing the second time. */
  lemma CheckStreakIdempotent(st: State, today: Date)
    ensures CheckStreak(CheckStreak(st, today), today) == CheckStreak(st, today)
  {
  }

  /** A streak never goes negative. */
  lemma StreakNonNegative(st: State, today: Date)
    requires st.streak >= 0
    ensures CheckStreak(st, today).streak >= 0
  {
  }
}

=== FILE: heuristic_blocks.dfy ===
/**
 * `extractBlocksFromMarkdown`: the fallback that guesses learning blocks
 * from the English text of a completion that declared none. It looks for a
 * correction phrase, then for markdown headings that name a learning topic,
 * and, only when both searches come up empty, for words that hint at a
 * correction, a tip or an exercise.
 */
module HeuristicBlocks {
  import opened Text
  import opened Blocks
  import opened ResponseText

  /* ---------- the correction excerpt ---------- */

  /** `/(?:did you mean|corrected|correction|here'?s the breakdown)/i`, the optional apostrophe written out. */
  const CorrectionWords: seq<string> :=
    ["did you mean", "corrected", "correction", "here's the breakdown", "heres the breakdown"]

  /** How much of the text from the correction phrase on the correction block keeps. */
  const CorrectionExcerpt: nat := 300

  /** The block for the first correction phrase: the text from there on, cut to 300 characters. */
  function CorrectionBlock(s: string): (r: Option<LearningBlock>)
    ensures r.Some? ==> |r.value.content.english| <= CorrectionExcerpt && r.value.title == "Correction"
    ensures r.Some? <==> exists q :: 0 <= q <= |s| && AnyAt(s, q, CorrectionWords, true)
    ensures r.Some? ==> r.value.kind == Grammar && r.value.content.hebrew == [] && r.value.examples.None?
    ensures r.Some? ==>
              exists q: nat :: FirstCorrectionAt(s, q) && r.value.content.english == s[q..][..Min(CorrectionExcerpt, |s| - q)]
  {
    var m := FirstMatch(s, Words(CorrectionWords, true), 0);
    CorrectionSearch(s);
    if m.None? then None
    else
      var q := m.value;
      assert FirstCorrectionAt(s, q) by { FirstWords(s, CorrectionWords, true); }
      var english := s[q..][..Min(CorrectionExcerpt, |s| - q)];
      Some(LearningBlock(Grammar, "Correction", Bilingual(english, []), None))
  }

  /** `q` is where the leftmost correction phrase of `s` starts. */
  predicate FirstCorrectionAt(s: string, q: nat) {
    && q < |s| && AnyAt(s, q, CorrectionWords, true)
    && forall p :: 0 <= p < q ==> !AnyAt(s, p, CorrectionWords, true)
  }

  /** A word search stops at the leftmost position where one of the words occurs. */
  lemma FirstWords(s: string, ws: seq<string>, ci: bool)
    requires FirstMatch(s, Words(ws, ci), 0).Some?
    ensures var q := FirstMatch(s, Words(ws, ci), 0).value;
      && AnyAt(s, q, ws, ci) && forall p :: 0 <= p < q ==> !AnyAt(s, p, ws, ci)
  {
    var q := FirstMatch(s, Words(ws, ci), 0).value;
    forall p | 0 <= p < q ensures !AnyAt(s, p, ws, ci) {
      assert !MatchAt(s, Words(ws, ci), p);
    }
  }

  /** The search for a correction phrase finds one exactly when there is one, and inside the text. */
  lemma CorrectionSearch(s: string)
    ensures var m := FirstMatch(s, Words(CorrectionWords, true), 0);
      && (m.Some? <==> exists q :: 0 <= q <= |s| && AnyAt(s, q, CorrectionWords, true))
      && (m.Some? ==> m.value < |s|)
  {
    var m := FirstMatch(s, Words(CorrectionWords, true), 0);
    if m.Some? {
      var q := m.value;
      assert AnyAt(s, q, CorrectionWords, true);
      var t :| 0 <= t < |CorrectionWords| && LitAt(s, q, CorrectionWords[t], true);
    } else {
      forall q | 0 <= q <= |s| ensures !AnyAt(s, q, CorrectionWords, true) {
        assert !MatchAt(s, Words(CorrectionWords, true), q);
      }
    }
  }

  function Min(a: nat, b: nat): nat {
    if a <= b then a else b
  }

  /* ---------- headings ---------- */

  /** The topic words of `#{1,3}\s*\d*\.?\s*(Grammar|…|Expression)`, in the order of the alternation. */
  const SectionKeywords: seq<string> :=
    ["grammar", "vocabulary", "usage", "warning", "practice", "tip", "note",
     "important", "correction", "verb", "tense", "capital", "time", "expression"]

  /** How far past its heading the last section's excerpt may reach. */
  const SectionExcerpt: nat := 500

  /**
   * Where the topic word must start for a heading whose `#` run begins at
   * `p`: past the `#`s, whitespace, a number, an optional dot and more
   * whitespace. None of these characters is a letter, so backtracking never
   * offers the word another place to start.
   */
  function KeywordStart(s: string, p: nat): (r: nat)
    requires p <= |s|
    ensures p + HashRun(s, p) <= r <= |s|
  {
    var v1 := SkipSpace(s, p + HashRun(s, p));
    var v2 := SkipDigits(s, v1);
    var v3 := if v2 < |s| && s[v2] == '.' then v2 + 1 else v2;
    SkipSpace(s, v3)
  }

  /**
   * A heading match starts at `p`: one to three `#`s (a fourth `#` could
   * not be matched by anything that follows), then a topic word.
   */
  predicate SectionAt(s: string, p: nat) {
    p <= |s| && 1 <= HashRun(s, p) <= 3
    && FirstWordAt(s, KeywordStart(s, p), SectionKeywords, true, 0).Some?
  }

  /** `keyword.includes(…)` chains that turn the lower-cased topic word into a block type. */
  function KeywordKind(kw: string): BlockType {
    if Contains(kw, "usage", false) || Contains(kw, "vocabulary", false) || Contains(kw, "tip", false) then Usage
    else if Contains(kw, "warning", false) || Contains(kw, "important", false) || Contains(kw, "note", false) then Warning
    else if Contains(kw, "practice", false) then Practice
    else Grammar
  }

  /** The type of each topic word, in the order of `SectionKeywords`. */
  const KeywordKinds: seq<BlockType> :=
    [Grammar, Usage, Usage, Warning, Practice, Usage, Warning,
     Warning, Grammar, Grammar, Grammar, Grammar, Grammar, Grammar]

  /** `KeywordKind` with each `includes` decided by the recursive test. */
  lemma KindByOccurs(kw: string)
    ensures KeywordKind(kw) ==
      if Occurs(kw, "usage", 0, false) || Occurs(kw, "vocabulary", 0, false) || Occurs(kw, "tip", 0, false) then Usage
      else if Occurs(kw, "warning", 0, false) || Occurs(kw, "important", 0, false) || Occurs(kw, "note", 0, false) then Warning
      else if Occurs(kw, "practice", 0, false) then Practice
      else Grammar
  {
    ContainsByOccurs(kw, "usage", false);
    ContainsByOccurs(kw, "vocabulary", false);
    ContainsByOccurs(kw, "tip", false);
    ContainsByOccurs(kw, "warning", false);
    ContainsByOccurs(kw, "important", false);
    ContainsByOccurs(kw, "note", false);
    ContainsByOccurs(kw, "practice", false);
  }

  /**
   * The `includes` chains give vocabulary, usage and tip the usage type,
   * warning, note and important the warning type, practice its own, and
   * every other topic grammar.
   */
  lemma KeywordKindTable()
    ensures forall t :: 0 <= t < |SectionKeywords| ==> KeywordKind(SectionKeywords[t]) == KeywordKinds[t]
  {
    forall t | 0 <= t < |SectionKeywords| ensures KeywordKind(SectionKeywords[t]) == KeywordKinds[t] {
      if t == 0 { KindOfGrammar(); }
      else if t == 1 { KindOfVocabulary(); }
      else if t == 2 { KindOfUsage(); }
      else if t == 3 { KindOfWarning(); }
      else if t == 4 { KindOfPractice(); }
      else if t == 5 { KindOfTip(); }
      else if t == 6 { KindOfNote(); }
      else if t == 7 { KindOfImportant(); }
      else if t == 8 { KindOfCorrection(); }
      else if t == 9 { KindOfVerb(); }
      else if t == 10 { KindOfTense(); }
      else if t == 11 { KindOfCapital(); }
      else if t == 12 { KindOfTime(); }
      else if t == 13 { KindOfExpression(); }
    }
  }

  lemma KindOfGrammar()
    ensures KeywordKind("grammar") == Grammar
  {
    KindByOccurs("grammar");
  }

  lemma KindOfVocabulary()
    ensures KeywordKind("vocabulary") == Usage
  {
    KindByOccurs("vocabulary");
  }

  lemma KindOfUsage()
    ensures KeywordKind("usage") == Usage
  {
    KindByOccurs("usage");
  }

  lemma KindOfWarning()
    ensures KeywordKind("warning") == Warning
  {
    KindByOccurs("warning");
  }

  lemma KindOfPractice()
    ensures KeywordKind("practice") == Practice
  {
    KindByOccurs("practice");
  }

  lemma KindOfTip()
    ensures KeywordKind("tip") == Usage
  {
    KindByOccurs("tip");
  }

  lemma KindOfNote()
    ensures KeywordKind("note") == Warning
  {
    KindByOccurs("note");
  }

  lemma KindOfImportant()
    ensures KeywordKind("important") == Warning
  {
    KindByOccurs("important");
  }

  lemma KindOfCorrection()
    ensures KeywordKind("correction") == Grammar
  {
    KindByOccurs("correction");
  }

  lemma KindOfVerb()
    ensures KeywordKind("verb") == Grammar
  {
    KindByOccurs("verb");
  }

  lemma KindOfTense()
    ensures KeywordKind("tense") == Grammar
  {
    KindByOccurs("tense");
  }

  lemma KindOfCapital()
    ensures KeywordKind("capital") == Grammar
  {
    KindByOccurs("capital");
  }

  lemma KindOfTime()
    ensures KeywordKind("time") == Grammar
  {
    KindByOccurs("time");
  }

  lemma KindOfExpression()
    ensures KeywordKind("expression") == Grammar
  {
    KindByOccurs("expression");
  }

  /** A heading found by the scan: its type, title, and where its match starts and stops. */
  datatype Section = Section(kind: BlockType, title: string, start: nat, stop: nat)

  /** The heading that starts at `p`: `[^\n]*` runs the match to the end of the line. */
  function SectionOf(s: string, p: nat): (r: Section)
    requires SectionAt(s, p)
    ensures r.start == p < r.stop <= |s| && (r.stop == |s| || s[r.stop] == '\n')
    ensures IsTrimmed(r.title)
  {
    var v := KeywordStart(s, p);
    var t := FirstWordAt(s, v, SectionKeywords, true, 0).value;
    var e := NextNewline(s, v);
    Section(KeywordKinds[t], Trim(s[v..e]), p, e)
  }

  /** The section's type is the one the `includes` chains give its topic word. */
  lemma SectionKind(s: string, p: nat)
    requires SectionAt(s, p)
    ensures var t := FirstWordAt(s, KeywordStart(s, p), SectionKeywords, true, 0).value;
      SectionOf(s, p).kind == KeywordKind(SectionKeywords[t])
  {
    KeywordKindTable();
  }

  /** Whether a heading match starts at each position of `s`, end included. */
  function SectionFlags(s: string): (r: seq<bool>)
    ensures |r| == |s| + 1
    ensures forall k :: 0 <= k <= |s| ==> r[k] == SectionAt(s, k)
  {
    seq(|s| + 1, k requires 0 <= k <= |s| => SectionAt(s, k))
  }

  /** The first heading that starts at or after `i`. */
  function NextSection(s: string, i: nat): (r: Option<nat>)
    requires i <= |s|
    ensures r.Some? ==> i <= r.value && SectionAt(s, r.value)
    ensures r.Some? ==> forall k :: i <= k < r.value ==> !SectionAt(s, k)
    ensures r.None? ==> forall k :: i <= k <= |s| ==> !SectionAt(s, k)
  {
    var flags := SectionFlags(s);
    var r := FirstTrue(flags, i);
    assert r.Some? ==> flags[r.value];
    r
  }

  /** The `exec` loop of the global heading pattern: each search resumes where the last match stopped. */
  function Sections(s: string, i: nat): (r: seq<Section>)
    requires i <= |s|
    ensures forall k :: 0 <= k < |r| ==> i <= r[k].start < r[k].stop <= |s|
    decreases |s| - i
  {
    match NextSection(s, i)
    case None => []
    case Some(p) =>
      var sec := SectionOf(s, p);
      var rest := Sections(s, sec.stop);
      BoundsCons(sec, rest, i, |s|);
      [sec] + rest
  }

  /** A section in bounds, followed by sections that start after it, keeps every section in bounds. */
  lemma BoundsCons(sec: Section, rest: seq<Section>, i: nat, n: nat)
    requires i <= sec.start < sec.stop <= n
    requires forall k :: 0 <= k < |rest| ==> sec.stop <= rest[k].start < rest[k].stop <= n
    ensures forall k :: 0 <= k < |[sec] + rest| ==> i <= ([sec] + rest)[k].start < ([sec] + rest)[k].stop <= n
  {
  }

  /** The sections come in text order and do not overlap. */
  predicate Ordered(r: seq<Section>) {
    forall k :: 0 <= k < |r| - 1 ==> r[k].stop <= r[k + 1].start
  }

  /** Heading position `q` lies inside a match the scan reported. */
  predicate Covered(r: seq<Section>, q: nat) {
    exists k :: 0 <= k < |r| && r[k].start <= q < r[k].stop
  }

  /**
   * The scan reports headings in order, without overlap, and misses only
   * headings that start inside an earlier match (a second `##` on the same
   * line as a reported one).
   */
  lemma {:induction false} SectionsComplete(s: string, i: nat)
    requires i <= |s|
    ensures Ordered(Sections(s, i))
    ensures forall q :: i <= q <= |s| && SectionAt(s, q) ==> Covered(Sections(s, i), q)
    decreases |s| - i
  {
    match NextSection(s, i)
    case None =>
    case Some(p) =>
      var sec := SectionOf(s, p);
      var rest := Sections(s, sec.stop);
      assert Sections(s, i) == [sec] + rest;
      SectionsComplete(s, sec.stop);
      forall q | i <= q <= |s| && SectionAt(s, q) ensures Covered([sec] + rest, q) {
        CoveredCons(sec, rest, q);
      }
      OrderedCons(sec, rest);
  }

  lemma CoveredCons(sec: Section, rest: seq<Section>, q: nat)
    requires sec.start <= q < sec.stop || Covered(rest, q)
    ensures Covered([sec] + rest, q)
  {
    var r := [sec] + rest;
    if sec.start <= q < sec.stop {
      assert r[0] == sec;
    } else {
      var k :| 0 <= k < |rest| && rest[k].start <= q < rest[k].stop;
      assert r[k + 1] == rest[k];
    }
  }

  lemma OrderedCons(sec: Section, rest: seq<Section>)
    requires Ordered(rest) && (|rest| > 0 ==> sec.stop <= rest[0].start)
    ensures Ordered([sec] + rest)
  {
    var r := [sec] + rest;
    forall k | 0 <= k < |r| - 1 ensures r[k].stop <= r[k + 1].start {
      if k > 0 {
        assert r[k] == rest[k - 1] && r[k + 1] == rest[k];
      }
    }
  }

  /** Whether a block with this title is already in the list. */
  predicate HasTitle(bs: seq<LearningBlock>, title: string) {
    exists k :: 0 <= k < |bs| && bs[k].title == title
  }

  /** No two blocks share a title. */
  predicate DistinctTitles(bs: seq<LearningBlock>) {
    forall i, j :: 0 <= i < j < |bs| ==> bs[i].title != bs[j].title
  }

  /** The block is the one the second loop builds for one of the sections. */
  predicate FromSection(b: LearningBlock, s: string, secs: seq<Section>)
    requires InText(s, secs)
  {
    exists j :: 0 <= j < |secs| && b == SectionBlock(s, secs, j)
  }

  /**
   * The block the second loop builds for section `j`: its type and title, and
   * as English the trimmed excerpt from its heading to where the excerpt ends.
   */
  function SectionBlock(s: string, secs: seq<Section>, j: nat): (r: LearningBlock)
    requires InText(s, secs) && j < |secs|
    ensures r.kind == secs[j].kind && r.title == secs[j].title
    ensures r.content == Bilingual(Trim(s[secs[j].start..ExcerptEnd(s, secs, j)]), []) && r.examples.None?
    ensures j + 1 == |secs| ==> |r.content.english| <= SectionExcerpt
  {
    LearningBlock(secs[j].kind, secs[j].title, Bilingual(Trim(s[secs[j].start..ExcerptEnd(s, secs, j)]), []), None)
  }

  /** The first section from `i` on with the title `t`, or `|secs|` when there is none. */
  function TitleIndex(secs: seq<Section>, i: nat, t: string): (r: nat)
    requires i <= |secs|
    ensures i <= r <= |secs|
    ensures r < |secs| ==> secs[r].title == t
    ensures forall j :: i <= j < r ==> secs[j].title != t
    decreases |secs| - i
  {
    if i == |secs| then |secs|
    else if secs[i].title == t then i
    else TitleIndex(secs, i + 1, t)
  }

  /**
   * From position `from` on, every block is the block of the first section
   * (from `i` on) that has its title, and the blocks follow the sections' order.
   */
  predicate InSectionOrder(s: string, secs: seq<Section>, i: nat, bs: seq<LearningBlock>, from: nat) {
    && InText(s, secs) && i <= |secs|
    && (forall k :: from <= k < |bs| ==>
          TitleIndex(secs, i, bs[k].title) < |secs| && bs[k] == SectionBlock(s, secs, TitleIndex(secs, i, bs[k].title)))
    && (forall k1, k2 :: from <= k1 < k2 < |bs| ==>
          TitleIndex(secs, i, bs[k1].title) < TitleIndex(secs, i, bs[k2].title))
  }

  /** Where the excerpt of section `i` ends: at the next heading, or 500 characters on for the last. */
  function ExcerptEnd(s: string, secs: seq<Section>, i: nat): (r: nat)
    requires i < |secs| && secs[i].start <= |s|
    requires i + 1 < |secs| ==> secs[i].start <= secs[i + 1].start <= |s|
    ensures secs[i].start <= r <= |s|
    ensures i + 1 == |secs| ==> r - secs[i].start <= SectionExcerpt
  {
    if i + 1 < |secs| then secs[i + 1].start
    else Min(secs[i].start + SectionExcerpt, |s|)
  }

  /** The sections a scan of `s` may report: each inside the text, in order. */
  predicate InText(s: string, secs: seq<Section>) {
    && (forall k :: 0 <= k < |secs| ==> secs[k].start < secs[k].stop <= |s|)
    && Ordered(secs)
  }

  /**
   * The second loop: one usage/warning/… block per section from `i` on, its
   * content the trimmed excerpt, skipped when its title is already taken.
   */
  function AddSections(s: string, secs: seq<Section>, i: nat, acc: seq<LearningBlock>): (r: seq<LearningBlock>)
    requires InText(s, secs) && i <= |secs|
    ensures DistinctTitles(acc) ==> DistinctTitles(r)
    ensures |acc| <= |r| && r[..|acc|] == acc
    ensures forall k :: |acc| <= k < |r| ==> r[k].content.hebrew == [] && r[k].examples.None?
    ensures forall k :: |acc| <= k < |r| ==> FromSection(r[k], s, secs) && !HasTitle(acc, r[k].title)
    ensures forall j :: i <= j < |secs| ==> HasTitle(r, secs[j].title)
    decreases |secs| - i
  {
    if i == |secs| then acc
    else
      var sec := secs[i];
      if HasTitle(acc, sec.title) then
        var r := AddSections(s, secs, i + 1, acc);
        assert HasTitle(r, sec.title) by {
          var k :| 0 <= k < |acc| && acc[k].title == sec.title;
          assert r[k] == r[..|acc|][k];
        }
        r
      else
        var b := SectionBlock(s, secs, i);
        var r := AddSections(s, secs, i + 1, acc + [b]);
        assert (acc + [b])[..|acc|] == acc;
        assert r[..|acc|] == r[..|acc + [b]|][..|acc|];
        assert r[|acc|] == (acc + [b])[|acc|];
        assert HasTitle(r, sec.title) by { assert r[|acc|].title == sec.title; }
        AddedFromSections(s, secs, i, acc, b, r);
        r
  }

  /** A skipped section changes no first index of the titles added after it. */
  lemma SkippedKeepsOrder(s: string, secs: seq<Section>, i: nat, acc: seq<LearningBlock>, r: seq<LearningBlock>)
    requires InText(s, secs) && i < |secs| && HasTitle(acc, secs[i].title) && |acc| <= |r|
    requires forall k :: |acc| <= k < |r| ==> !HasTitle(acc, r[k].title)
    requires InSectionOrder(s, secs, i + 1, r, |acc|)
    ensures InSectionOrder(s, secs, i, r, |acc|)
  {
    forall k | |acc| <= k < |r| ensures TitleIndex(secs, i, r[k].title) == TitleIndex(secs, i + 1, r[k].title) {
      assert secs[i].title != r[k].title;
    }
  }

  /** The block added for section `i`, and the blocks after it, come from the sections and carry new titles. */
  lemma AddedFromSections(
    s: string, secs: seq<Section>, i: nat, acc: seq<LearningBlock>, b: LearningBlock, r: seq<LearningBlock>)
    requires InText(s, secs) && i < |secs| && b == SectionBlock(s, secs, i)
    requires |acc| < |r| && r[|acc|] == b && !HasTitle(acc, b.title)
    requires forall k :: |acc| + 1 <= k < |r| ==> FromSection(r[k], s, secs) && !HasTitle(acc + [b], r[k].title)
    ensures forall k :: |acc| <= k < |r| ==> FromSection(r[k], s, secs) && !HasTitle(acc, r[k].title)
  {
    forall k | |acc| <= k < |r| ensures FromSection(r[k], s, secs) && !HasTitle(acc, r[k].title) {
      if k == |acc| {
        assert r[k] == SectionBlock(s, secs, i);
      } else {
        NotInPrefix(acc, b, r[k].title);
      }
    }
  }

  /** The block added for section `i` comes first, and every later one has a later first section. */
  lemma AddedKeepsOrder(
    s: string, secs: seq<Section>, i: nat, acc: seq<LearningBlock>, b: LearningBlock, r: seq<LearningBlock>)
    requires InText(s, secs) && i < |secs| && b == SectionBlock(s, secs, i)
    requires |acc| < |r| && r[|acc|] == b
    requires forall k :: |acc| + 1 <= k < |r| ==> !HasTitle(acc + [b], r[k].title)
    requires InSectionOrder(s, secs, i + 1, r, |acc| + 1)
    ensures InSectionOrder(s, secs, i, r, |acc|)
  {
    assert TitleIndex(secs, i, b.title) == i;
    forall k | |acc| + 1 <= k < |r| ensures TitleIndex(secs, i, r[k].title) == TitleIndex(secs, i + 1, r[k].title) {
      assert (acc + [b])[|acc|].title == b.title;
      assert r[k].title != secs[i].title;
    }
  }

  /**
   * The blocks the second loop adds follow the sections: each is the block of
   * the first section with its title, in the order of those sections.
   */
  lemma {:induction false} AddSectionsInOrder(s: string, secs: seq<Section>, i: nat, acc: seq<LearningBlock>)
    requires InText(s, secs) && i <= |secs|
    ensures InSectionOrder(s, secs, i, AddSections(s, secs, i, acc), |acc|)
    decreases |secs| - i
  {
    if i < |secs| {
      var sec := secs[i];
      if HasTitle(acc, sec.title) {
        AddSectionsInOrder(s, secs, i + 1, acc);
        SkippedKeepsOrder(s, secs, i, acc, AddSections(s, secs, i + 1, acc));
      } else {
        var b := SectionBlock(s, secs, i);
        var r := AddSections(s, secs, i + 1, acc + [b]);
        AddSectionsInOrder(s, secs, i + 1, acc + [b]);
        assert r[|acc|] == (acc + [b])[|acc|];
        AddedKeepsOrder(s, secs, i, acc, b, r);
      }
    }
  }

  lemma NotInPrefix(acc: seq<LearningBlock>, b: LearningBlock, t: string)
    requires !HasTitle(acc + [b], t)
    ensures !HasTitle(acc, t)
  {
    forall k | 0 <= k < |acc| ensures acc[k].title != t {
      assert (acc + [b])[k] == acc[k];
    }
  }

  /* ---------- the generic hints ---------- */

  /** `~~[^~]+~~`: two `~~` marks with at least one other character between them. */
  predicate Strikethrough(s: string) {
    exists i, j :: 0 <= i && i + 2 < j <= |s| && LitAt(s, i, "~~", false) && LitAt(s, j, "~~", false)
      && forall k :: i + 2 <= k < j ==> s[k] != '~'
  }

  /** `a.*b`: `b` follows `a` on the same line. */
  predicate FollowsOnLine(s: string, a: string, b: string) {
    exists i, j :: 0 <= i && i + |a| <= j <= |s| && LitAt(s, i, a, true) && LitAt(s, j, b, true)
      && forall k :: i + |a| <= k < j ==> !IsLineTerminator(s[k])
  }

  /** `/~~[^~]+~~|strikethrough|original.*corrected|incorrect.*correct/i`. */
  predicate HintsCorrection(s: string) {
    || Strikethrough(s) || Contains(s, "strikethrough", true)
    || FollowsOnLine(s, "original", "corrected") || FollowsOnLine(s, "incorrect", "correct")
  }

  const TipWords: seq<string> := ["remember", "important", "note that", "keep in mind", "tip:"]
  const PracticeWords: seq<string> := ["try", "practice", "exercise", "your turn", "can you"]

  const CorrectionHintBlock: LearningBlock := LearningBlock(Grammar, "Grammar Correction",
    Bilingual("Corrections provided in the response above", "תיקונים מופיעים בתשובה למעלה"), None)
  const TipHintBlock: LearningBlock := LearningBlock(Usage, "Learning Tip",
    Bilingual("Tips provided in the response above", "טיפים מופיעים בתשובה למעלה"), None)
  const PracticeHintBlock: LearningBlock := LearningBlock(Practice, "Practice",
    Bilingual("Practice exercises in the response above", "תרגול מופיע בתשובה למעלה"), None)

  /** The position of a block type in the order grammar, usage, practice, warning. */
  function KindRank(k: BlockType): nat {
    match k
    case Grammar => 0
    case Usage => 1
    case Practice => 2
    case Warning => 3
  }

  /** The generic blocks, in the order correction, tip, practice. */
  function HintBlocks(s: string): (r: seq<LearningBlock>)
    ensures |r| <= 3 && DistinctTitles(r)
    ensures forall i, j :: 0 <= i < j < |r| ==> KindRank(r[i].kind) < KindRank(r[j].kind)
    ensures forall i :: 0 <= i < |r| ==> r[i].content.hebrew != []
    ensures (CorrectionHintBlock in r <==> HintsCorrection(s))
    ensures (TipHintBlock in r <==> ContainsAny(s, TipWords, true))
    ensures (PracticeHintBlock in r <==> ContainsAny(s, PracticeWords, true))
  {
    (if HintsCorrection(s) then [CorrectionHintBlock] else [])
    + (if ContainsAny(s, TipWords, true) then [TipHintBlock] else [])
    + (if ContainsAny(s, PracticeWords, true) then [PracticeHintBlock] else [])
  }

  /* ---------- the whole fallback ---------- */

  /** `extractBlocksFromMarkdown`. */
  function ExtractBlocksFromMarkdown(s: string): (r: seq<LearningBlock>)
    ensures s == [] ==> r == []
    ensures DistinctTitles(r)
    ensures CorrectionBlock(s).Some? ==> |r| > 0 && r[0] == CorrectionBlock(s).value
    ensures s != [] && CorrectionBlock(s).None? && Sections(s, 0) == [] ==> r == HintBlocks(s)
    ensures (exists k :: 0 <= k < |r| && r[k].content.hebrew != [])
              ==> CorrectionBlock(s).None? && Sections(s, 0) == []
    ensures forall j :: 0 <= j < |Sections(s, 0)| ==> HasTitle(r, Sections(s, 0)[j].title)
    ensures CorrectionBlock(s).Some? || Sections(s, 0) != [] ==>
              InSectionOrder(s, Sections(s, 0), 0, r, if CorrectionBlock(s).Some? then 1 else 0)
  {
    if s == [] then []
    else
      SectionsInText(s);
      var found := FoundBlocks(s, Sections(s, 0), CorrectionSeed(s));
      if found != [] then found else HintBlocks(s)
  }

  /** The two loops together: the seed (the correction block, if any), then one block per new section title. */
  function FoundBlocks(s: string, secs: seq<Section>, seed: seq<LearningBlock>): (r: seq<LearningBlock>)
    requires InText(s, secs) && |seed| <= 1
    ensures DistinctTitles(r)
    ensures seed != [] ==> |r| > 0 && r[0] == seed[0]
    ensures seed == [] && secs == [] ==> r == []
    ensures seed == [] || seed[0].content.hebrew == [] ==> forall k :: 0 <= k < |r| ==> r[k].content.hebrew == []
    ensures forall j :: 0 <= j < |secs| ==> HasTitle(r, secs[j].title)
    ensures forall k :: |seed| <= k < |r| ==> FromSection(r[k], s, secs)
    ensures |seed| <= |r| && InSectionOrder(s, secs, 0, r, |seed|)
  {
    var r := AddSections(s, secs, 0, seed);
    AddSectionsInOrder(s, secs, 0, seed);
    assert seed != [] ==> r[0] == r[..|seed|][0];
    assert seed == [] || seed[0].content.hebrew == [] ==> forall k :: 0 <= k < |r| ==> r[k].content.hebrew == [] by {
      if seed == [] || seed[0].content.hebrew == [] {
        forall k | 0 <= k < |r| ensures r[k].content.hebrew == [] {
          if k < |seed| { assert k == 0; }
        }
      }
    }
    r
  }

  /** The list the second loop starts from: the correction block, or nothing. */
  function CorrectionSeed(s: string): (r: seq<LearningBlock>)
    ensures |r| <= 1 && DistinctTitles(r)
    ensures r == [] <==> CorrectionBlock(s).None?
    ensures r != [] ==> r[0] == CorrectionBlock(s).value && r[0].content.hebrew == []
  {
    match CorrectionBlock(s)
    case Some(b) => [b]
    case None => []
  }

  lemma SectionsInText(s: string)
    ensures InText(s, Sections(s, 0))
  {
    SectionsComplete(s, 0);
  }

  /** Every topic word starts with a lower-case letter and is a single line. */
  lemma KeywordLetters()
    ensures forall t :: 0 <= t < |SectionKeywords| ==> 'a' <= SectionKeywords[t][0] <= 'z'
    ensures forall t :: 0 <= t < |SectionKeywords| ==> Lacks(SectionKeywords[t], '\n')
  {
    forall t | 0 <= t < |SectionKeywords|
      ensures 'a' <= SectionKeywords[t][0] <= 'z' && Lacks(SectionKeywords[t], '\n')
    {
      LacksByOccurs(SectionKeywords[t], '\n');
    }
  }

  /**
   * A heading line: one to three `#`s, whitespace, then a line that starts
   * with topic word `t` (the first alternative that matches there). The
   * section found at its start takes the word's type and the trimmed line as
   * its title, and its match runs to the end of the line.
   */
  lemma HeadingSection(h: string, gap: string, line: string, rest: string, t: nat)
    requires 1 <= |h| <= 3 && forall i :: 0 <= i < |h| ==> h[i] == '#'
    requires AllSpace(gap)
    requires t < |SectionKeywords| && LitAt(line, 0, SectionKeywords[t], true)
    requires forall u :: 0 <= u < t ==> !LitAt(line, 0, SectionKeywords[u], true)
    requires Lacks(line, '\n') && (rest == [] || rest[0] == '\n')
    ensures SectionAt(h + gap + line + rest, 0)
    ensures SectionOf(h + gap + line + rest, 0)
              == Section(KeywordKinds[t], Trim(line), 0, |h| + |gap| + |line|)
  {
    var s := h + gap + line + rest;
    var v := |h| + |gap|;
    var e := v + |line|;
    assert s[v..e] == line;
    HeadingStart(s, h, gap, line, rest, t);
    assert FirstWordAt(s, v, SectionKeywords, true, 0) == Some(t) by {
      HeadingWord(s, v, line, t);
    }
    LineEnd(h + gap, line, rest);
    SectionOfParts(s, v, e, t);
  }

  /** A line without a newline, followed by nothing or a newline, ends where the line does. */
  lemma LineEnd(pre: string, line: string, rest: string)
    requires Lacks(line, '\n') && (rest == [] || rest[0] == '\n')
    ensures NextNewline(pre + line + rest, |pre|) == |pre| + |line|
  {
    var s, v, e := pre + line + rest, |pre|, |pre| + |line|;
    assert e < |s| ==> s[e] == '\n' by {
      if e < |s| { assert s[e] == rest[0]; }
    }
    forall k | v <= k < e ensures s[k] != '\n' { assert s[k] == line[k - v]; }
    NextNewlineIs(s, v, e);
  }

  /** The section at 0 once its keyword start, topic word and line end are known. */
  lemma SectionOfParts(s: string, v: nat, e: nat, t: nat)
    requires 1 <= HashRun(s, 0) <= 3 && v == KeywordStart(s, 0) <= e <= |s|
    requires t < |SectionKeywords| && FirstWordAt(s, v, SectionKeywords, true, 0) == Some(t)
    requires NextNewline(s, v) == e
    ensures SectionAt(s, 0)
    ensures SectionOf(s, 0) == Section(KeywordKinds[t], Trim(s[v..e]), 0, e)
  {
  }

  /** Past the `#` run and the whitespace of a heading the topic word starts. */
  lemma HeadingStart(s: string, h: string, gap: string, line: string, rest: string, t: nat)
    requires s == h + gap + line + rest
    requires 1 <= |h| <= 3 && forall i :: 0 <= i < |h| ==> h[i] == '#'
    requires AllSpace(gap)
    requires t < |SectionKeywords| && LitAt(line, 0, SectionKeywords[t], true)
    ensures HashRun(s, 0) == |h| && KeywordStart(s, 0) == |h| + |gap|
  {
    var v := |h| + |gap|;
    KeywordLetters();
    assert CharEq(line[0 + 0], SectionKeywords[t][0], true);
    assert s[v] == line[0];
    assert 'a' <= Lower(s[v]) <= 'z';
    assert s[v] != '#' && !IsSpace(s[v]) && !IsDigit(s[v]) && s[v] != '.';
    forall k | 0 <= k < |h| ensures s[k] == '#' { assert s[k] == h[k]; }
    assert s[|h|] != '#' by {
      if |gap| > 0 { assert s[|h|] == gap[0]; } else { assert s[|h|] == s[v]; }
    }
    HashRunIs(s, 0, |h|);
    forall k | |h| <= k < v ensures IsSpace(s[k]) { assert s[k] == gap[k - |h|]; }
    SkipSpaceIs(s, |h|, v);
    SkipSpaceIs(s, v, v);
  }

  /** The first topic word that matches the heading line is the one found in the text. */
  lemma HeadingWord(s: string, v: nat, line: string, t: nat)
    requires v + |line| <= |s| && s[v..v + |line|] == line
    requires v + |line| < |s| ==> s[v + |line|] == '\n'
    requires t < |SectionKeywords| && LitAt(line, 0, SectionKeywords[t], true)
    requires forall u :: 0 <= u < t ==> !LitAt(line, 0, SectionKeywords[u], true)
    ensures FirstWordAt(s, v, SectionKeywords, true, 0) == Some(t)
  {
    KeywordLetters();
    forall u | 0 <= u < |SectionKeywords|
      ensures LitAt(s, v, SectionKeywords[u], true) <==> LitAt(line, 0, SectionKeywords[u], true)
    {
      LitAtShift(s, v, line, SectionKeywords[u]);
    }
  }

  /** A word matches at `v` in `s` exactly when it matches at the start of the text `s` holds from `v` on. */
  lemma LitAtShift(s: string, v: nat, line: string, w: string)
    requires v + |line| <= |s| && s[v..v + |line|] == line
    requires v + |line| < |s| ==> s[v + |line|] == '\n'
    requires Lacks(w, '\n')
    ensures LitAt(s, v, w, true) <==> LitAt(line, 0, w, true)
  {
    if |w| > |line| && v + |w| <= |s| {
      assert s[v + |line|] == '\n';
      assert !CharEq(s[v + |line|], w[|line|], true);
    } else if |w| <= |line| {
      forall i | 0 <= i < |w| ensures s[v + i] == line[i] {
        assert s[v..v + |line|][i] == s[v + i];
      }
    }
  }
}

=== FILE: json.dfy ===
/**
 * The JavaScript values `JSON.parse` yields, and the coercions the app
 * applies to them: truthiness, `String(x)`, `Number(x)` and property reads.
 * `JSON.parse` itself is a parameter wherever it is called.
 */
module Json {
  import opened Text

  datatype Value =
    | Null
    | Bool(b: bool)
    | Num(n: real)
    | Str(s: string)
    | Arr(items: seq<Value>)
    | Obj(fields: map<string, Value>)

  /** A property read `v[key]` on a value that is not `null`: `None` is `undefined`. */
  function Get(v: Value, key: string): (r: Option<Value>)
    ensures r.Some? <==> v.Obj? && key in v.fields
  {
    if v.Obj? && key in v.fields then Some(v.fields[key]) else None
  }

  /** JavaScript truthiness; `None` is `undefined`. */
  predicate Truthy(v: Option<Value>) {
    match v
    case None => false
    case Some(Null) => false
    case Some(Bool(b)) => b
    case Some(Num(n)) => n != 0.0
    case Some(Str(s)) => s != []
    case Some(_) => true
  }

  /** `a || b`. */
  function Or(a: Option<Value>, b: Value): (r: Value)
    ensures Truthy(a) ==> Some(r) == a
    ensures !Truthy(a) ==> r == b
  {
    if Truthy(a) then a.value else b
  }

  /** The decimal text of an integer, as `String` writes integers below 10^21. */
  function IntText(i: int): string {
    if i < 0 then "-" + NatToString(-i) else NatToString(i)
  }

  /**
   * `String(v)`. Integral numbers below 10^21 are written exactly; the
   * shortest round-trip digits of other numbers are floating-point
   * formatting, which this model leaves out (it writes them as "").
   */
  function StringOf(v: Value): (r: string)
    ensures v.Str? ==> r == v.s
    decreases v
  {
    match v
    case Null => "null"
    case Bool(b) => if b then "true" else "false"
    case Num(n) =>
      if n.Floor as real == n && -1000000000000000000000 < n.Floor < 1000000000000000000000
      then IntText(n.Floor) else ""
    case Str(s) => s
    case Arr(items) => JoinItems(items)
    case Obj(_) => "[object Object]"
  }

  /** `Array.prototype.toString`: the items joined with commas, `null` written as nothing. */
  function JoinItems(items: seq<Value>): string
    decreases items
  {
    if items == [] then []
    else
      var first := if items[0].Null? then "" else StringOf(items[0]);
      if |items| == 1 then first else first + "," + JoinItems(items[1..])
  }

  /* ---------- Number(x) ---------- */

  /** A run of decimal digits and its value as a real. */
  function FractionValue(f: string): real
    requires forall k :: 0 <= k < |f| ==> IsDigit(f[k])
  {
    DigitsValue(f) as real / Power10(|f|) as real
  }

  /**
   * An unsigned decimal literal `digits`, `digits.digits`, `digits.` or
   * `.digits`; `None` for anything else.
   */
  function UnsignedDecimal(t: string): (r: Option<real>)
    ensures r.Some? ==> r.value >= 0.0
  {
    match IndexOfChar(t, '.')
    case None => if t != [] && AllDigits(t) then Some(DigitsValue(t) as real) else None
    case Some(d) =>
      var ip, fp := t[..d], t[d + 1..];
      if (ip != [] || fp != []) && AllDigits(ip) && AllDigits(fp)
      then Some(DigitsValue(ip) as real + FractionValue(fp)) else None
  }

  /**
   * `Number(s)` for a string: whitespace around it is ignored, the empty
   * string is 0, an optionally signed decimal literal is its value, and
   * anything else is NaN (`None`). Exponents, `Infinity` and the hexadecimal,
   * octal and binary forms are not modelled and read as NaN.
   */
  function NumberOfText(s: string): (r: Option<real>)
  {
    var t := Trim(s);
    if t == [] then Some(0.0)
    else if t[0] == '-' then
      match UnsignedDecimal(t[1..]) case Some(x) => Some(-x) case None => None
    else if t[0] == '+' then UnsignedDecimal(t[1..])
    else UnsignedDecimal(t)
  }

  /** `Number(v)`; `None` stands for NaN, and `v == None` for `undefined`. */
  function NumberOf(v: Option<Value>): (r: Option<real>)
  {
    match v
    case None => None
    case Some(Null) => Some(0.0)
    case Some(Bool(b)) => Some(if b then 1.0 else 0.0)
    case Some(Num(n)) => Some(n)
    case Some(Str(s)) => NumberOfText(s)
    case Some(Arr(items)) =>
      if items == [] then Some(0.0)
      else if |items| == 1 then
        match items[0]
        case Null => Some(0.0)
        case Num(n) => Some(n)
        case Obj(_) => None
        case _ => NumberOfText(StringOf(items[0]))
      else NumberOfText(JoinItems(items))
    case Some(Obj(_)) => None
  }

  /** `Number(v) || d`: NaN and 0 fall back to `d`. */
  function NumberOr(v: Option<Value>, d: real): (r: real)
    ensures r == d || (NumberOf(v).Some? && r == NumberOf(v).value != 0.0)
  {
    match NumberOf(v)
    case Some(x) => if x != 0.0 then x else d
    case None => d
  }

  /** Reading back the digits `String` writes for a natural number gives the number. */
  lemma NumberOfNatText(n: nat)
    ensures NumberOfText(NatToString(n)) == Some(n as real)
  {
    var t := NatToString(n);
    TrimOfDigits(t);
    UnsignedOfNat(n);
  }

  lemma UnsignedOfNat(n: nat)
    ensures UnsignedDecimal(NatToString(n)) == Some(n as real)
  {
    var t := NatToString(n);
    NatToStringRoundTrip(n);
    assert IndexOfChar(t, '.') == None by {
      assert forall k :: 0 <= k < |t| ==> t[k] != '.';
    }
  }

  /** A run of digits is its own trim. */
  lemma TrimOfDigits(t: string)
    requires |t| > 0 && AllDigits(t)
    ensures Trim(t) == t
  {
    assert t[..0] == [] && t[|t|..] == [];
    assert t[0..|t|] == t;
    TrimIs(t, 0, |t|);
  }

  /** A minus sign before the digits of `n` reads back as `-n`: with `NumberOfNatText`, `Number` reads back every `IntText`. */
  lemma NumberOfNegativeText(n: nat)
    ensures NumberOfText("-" + NatToString(n)) == Some(-(n as real))
  {
    var d := NatToString(n);
    var t := "-" + d;
    TrimOfSigned(d);
    assert t[0] == '-' && t[1..] == d;
    UnsignedOfNat(n);
  }

  lemma TrimOfSigned(t: string)
    requires |t| > 0 && AllDigits(t)
    ensures Trim("-" + t) == "-" + t
  {
    var s := "-" + t;
    assert s[..0] == [] && s[|s|..] == [];
    assert s[0..|s|] == s;
    assert s[|s| - 1] == t[|t| - 1];
    TrimIs(s, 0, |s|);
  }
}

=== FILE: language_analysis.dfy ===
/**
 * The rule-based feedback on a learner's sentence (`LanguageAnalysisService`):
 * two grammar patterns, one vocabulary pattern, and tips on sentence length
 * and on how much the learner wrote.
 */
module LanguageAnalysis {
  import opened Text

  /* ---------- The three regular expressions ---------- */

  /** `\b` at position `k`: a word character on exactly one side. */
  predicate Boundary(s: string, k: nat) {
    (0 < k <= |s| && IsWordChar(s[k - 1])) != (k < |s| && IsWordChar(s[k]))
  }

  /**
   * `/\bi am.+ing\b/i`: "i am" at a word start, then one or more characters
   * on the same line, then "ing" at a word end.
   */
  predicate AmIngMatch(s: string) {
    exists k: nat, e: nat :: k + 5 <= e <= |s| && AmIngAt(s, k, e)
  }

  predicate AmIngAt(s: string, k: nat, e: nat) {
    && k + 5 <= e && e + 3 <= |s|
    && WordAt(s, k, "i am") && NoLineTerminator(s[k + 4..e]) && WordEndsAt(s, e, "ing")
  }

  /** `w` at a word start `k`. */
  predicate WordAt(s: string, k: nat, w: string) {
    Boundary(s, k) && LitAt(s, k, w, true)
  }

  /** `w` at `k`, ending at a word end. */
  predicate WordEndsAt(s: string, k: nat, w: string) {
    LitAt(s, k, w, true) && Boundary(s, k + |w|)
  }

  /** `/\bi am like\b/i` */
  predicate AmLikeMatch(s: string) {
    exists k: nat :: k <= |s| && AmLikeAt(s, k)
  }

  predicate AmLikeAt(s: string, k: nat) {
    Boundary(s, k) && LitAt(s, k, "i am like", true) && Boundary(s, k + 9)
  }

  /**
   * `/\bvery (\w+)\b/i`: "very " at a word start followed by a word character;
   * the greedy `\w+` then always ends at a boundary.
   */
  predicate VeryWordMatch(s: string) {
    exists k: nat :: k <= |s| && VeryWordAt(s, k)
  }

  predicate VeryWordAt(s: string, k: nat) {
    Boundary(s, k) && LitAt(s, k, "very ", true) && k + 5 < |s| && IsWordChar(s[k + 5])
  }

  /* ---------- Grammar and vocabulary feedback ---------- */

  datatype GrammarPattern = AmIng | AmLike

  predicate Matches(p: GrammarPattern, s: string) {
    match p
    case AmIng => AmIngMatch(s)
    case AmLike => AmLikeMatch(s)
  }

  datatype GrammarRule = GrammarRule(pattern: GrammarPattern, correction: string, example: string)

  const AmIngCorrection := "When using 'I am', we usually " + "don't use continuous tense for state verbs"
  const AmIngExample := "'I am knowing' → 'I know'"
  const AmLikeCorrection := "Instead of 'I am like', " + "consider using 'I like'"
  const AmLikeExample := "'I am like pizza' → 'I like pizza'"
  const VeryWordSuggestion := "Consider using a stronger single word instead of 'very'"

  /** `commonErrors.grammar`, in order. */
  const GrammarRules: seq<GrammarRule> := [
    GrammarRule(AmIng, AmIngCorrection, AmIngExample),
    GrammarRule(AmLike, AmLikeCorrection, AmLikeExample)
  ]

  /** The rules, from index `i` on, whose pattern matches, in table order. */
  function IssuesFrom(s: string, i: nat): (r: seq<GrammarRule>)
    requires i <= |GrammarRules|
    ensures |r| <= |GrammarRules| - i
    ensures forall j :: 0 <= j < |r| ==> r[j] in GrammarRules[i..] && Matches(r[j].pattern, s)
    decreases |GrammarRules| - i
  {
    if i == |GrammarRules| then []
    else (if Matches(GrammarRules[i].pattern, s) then [GrammarRules[i]] else []) + IssuesFrom(s, i + 1)
  }

  /** `checkGrammar`: one issue per matching pattern, the continuous-tense one first. */
  function CheckGrammar(s: string): (r: seq<GrammarRule>)
    ensures r == (if AmIngMatch(s) then [GrammarRules[0]] else []) + (if AmLikeMatch(s) then [GrammarRules[1]] else [])
    ensures r == [] <==> !AmIngMatch(s) && !AmLikeMatch(s)
  {
    IssuesFrom(s, 0)
  }

  /** One line of `formatGrammarFeedback`. */
  function GrammarLine(rule: GrammarRule): string {
    "Grammar tip: " + rule.correction + ". For example: " + rule.example
  }

  function GrammarLines(rules: seq<GrammarRule>): (r: seq<string>)
    ensures |r| == |rules|
    ensures forall i :: 0 <= i < |rules| ==> r[i] == GrammarLine(rules[i])
  {
    if rules == [] then [] else [GrammarLine(rules[0])] + GrammarLines(rules[1..])
  }

  /** `formatVocabularySuggestions` for the one vocabulary rule. */
  const VocabularyLine := "Vocabulary tip: " + VeryWordSuggestion

  datatype LanguageFeedback = LanguageFeedback(
    grammarFeedback: Option<string>,
    vocabularyFeedback: Option<string>,
    improvement: Option<string>)

  /**
   * `analyzeResponse`: grammar feedback exactly when a grammar pattern
   * matches, one line per matching pattern; vocabulary feedback exactly when
   * "very" precedes a word; improvement tips always.
   */
  function AnalyzeResponse(s: string): (r: LanguageFeedback)
    ensures r.grammarFeedback.Some? <==> AmIngMatch(s) || AmLikeMatch(s)
    ensures r.grammarFeedback.Some? ==> Split(r.grammarFeedback.value, '\n') == GrammarLines(CheckGrammar(s))
    ensures r.vocabularyFeedback.Some? <==> VeryWordMatch(s)
    ensures r.vocabularyFeedback.Some? ==> r.vocabularyFeedback.value == VocabularyLine
    ensures r.improvement == Some(ImprovementTips(s))
  {
    var issues := CheckGrammar(s);
    var grammar := if |issues| > 0 then Some(Join(GrammarLines(issues), "\n")) else None;
    if grammar.Some? then
      GrammarLinesSplit(issues);
      LanguageFeedback(grammar, if VeryWordMatch(s) then Some(VocabularyLine) else None, Some(ImprovementTips(s)))
    else
      LanguageFeedback(grammar, if VeryWordMatch(s) then Some(VocabularyLine) else None, Some(ImprovementTips(s)))
  }

  lemma AmIngTextsHaveNoNewline()
    ensures '\n' !in AmIngCorrection && '\n' !in AmIngExample
  {
  }

  lemma AmLikeTextsHaveNoNewline()
    ensures '\n' !in AmLikeCorrection && '\n' !in AmLikeExample
  {
  }

  lemma GrammarLinesHaveNoNewline()
    ensures forall i :: 0 <= i < |GrammarRules| ==> '\n' !in GrammarLine(GrammarRules[i])
  {
    assert '\n' !in "Grammar tip: " && '\n' !in ". For example: ";
    assert '\n' !in GrammarLine(GrammarRules[0]) by {
      AmIngTextsHaveNoNewline();
    }
    assert '\n' !in GrammarLine(GrammarRules[1]) by {
      AmLikeTextsHaveNoNewline();
    }
  }

  /** The grammar feedback splits back into its lines. */
  lemma {:induction false} GrammarLinesSplit(issues: seq<GrammarRule>)
    requires |issues| > 0
    requires forall j :: 0 <= j < |issues| ==> issues[j] in GrammarRules
    ensures Split(Join(GrammarLines(issues), "\n"), '\n') == GrammarLines(issues)
  {
    GrammarLinesHaveNoNewline();
    var ls := GrammarLines(issues);
    forall j | 0 <= j < |ls| ensures '\n' !in ls[j] {
      var i :| 0 <= i < |GrammarRules| && GrammarRules[i] == issues[j];
    }
    SplitJoin(ls, '\n');
  }

  /* ---------- Improvement tips ---------- */

  /** The class `[.!?]`. */
  predicate IsStop(c: char) {
    c == '.' || c == '!' || c == '?'
  }

  /** The first stop character at or after `i`, or `|s|`. */
  function NextStop(s: string, i: nat): (r: nat)
    requires i <= |s|
    ensures i <= r <= |s|
    ensures forall k :: i <= k < r ==> !IsStop(s[k])
    ensures r < |s| ==> IsStop(s[r])
    decreases |s| - i
  {
    if i < |s| && !IsStop(s[i]) then NextStop(s, i + 1) else i
  }

  /** The end of the run of stop characters starting at `i`. */
  function SkipStops(s: string, i: nat): (r: nat)
    requires i <= |s|
    ensures i <= r <= |s|
    ensures forall k :: i <= k < r ==> IsStop(s[k])
    ensures r < |s| ==> !IsStop(s[r])
    decreases |s| - i
  {
    if i < |s| && IsStop(s[i]) then SkipStops(s, i + 1) else i
  }

  /** `s.split(/[.!?]+/)`: the text between maximal runs of stops, empty pieces included. */
  function StopSplit(s: string): (r: seq<string>)
    ensures |r| >= 1
    decreases |s|
  {
    var i := NextStop(s, 0);
    if i == |s| then [s] else [s[..i]] + StopSplit(s[SkipStops(s, i)..])
  }

  /** `.filter(Boolean)` on strings. */
  function NonEmpty(ps: seq<string>): (r: seq<string>)
    ensures forall i :: 0 <= i < |r| ==> |r[i]| > 0
  {
    if ps == [] then []
    else if |ps[0]| > 0 then [ps[0]] + NonEmpty(ps[1..])
    else NonEmpty(ps[1..])
  }

  function Sentences(s: string): seq<string> {
    NonEmpty(StopSplit(s))
  }

  /** The sum of the lengths. */
  function TotalLength(ps: seq<string>): nat {
    if ps == [] then 0 else |ps[0]| + TotalLength(ps[1..])
  }

  /** The number of stop characters. */
  function StopCount(s: string): nat {
    if s == [] then 0 else (if IsStop(s[0]) then 1 else 0) + StopCount(s[1..])
  }

  /** The number of characters `c`. */
  function CountChar(s: string, c: char): nat {
    if s == [] then 0 else (if s[0] == c then 1 else 0) + CountChar(s[1..], c)
  }

  /**
   * The number of sentence starts: non-stop characters at the start of the
   * text (when `afterStop`) or right after a stop.
   */
  function Starts(s: string, afterStop: bool): nat {
    if s == [] then 0
    else (if afterStop && !IsStop(s[0]) then 1 else 0) + Starts(s[1..], IsStop(s[0]))
  }

  const ExpandTip := "Try to expand your sentences " + "with more details."
  const BreakUpTip := "Consider breaking longer sentences " + "into smaller ones for clarity."
  const MoreInfoTip := "Try to provide more information " + "in your responses."

  datatype Tip = Expand | BreakUp | MoreInfo

  function TipText(t: Tip): string {
    match t
    case Expand => ExpandTip
    case BreakUp => BreakUpTip
    case MoreInfo => MoreInfoTip
  }

  function TipTexts(ts: seq<Tip>): (r: seq<string>)
    ensures |r| == |ts|
    ensures forall i :: 0 <= i < |ts| ==> r[i] == TipText(ts[i])
  {
    if ts == [] then [] else [TipText(ts[0])] + TipTexts(ts[1..])
  }

  /**
   * The tips `generateImprovementTips` gives. Over sentences of average
   * length below 10 or above 30 (and never both), with no tip about length
   * when there is no sentence, since the average is then `NaN`; and a request
   * for more when the text has fewer than five space-separated pieces.
   * Stated on character counts: the sentences hold every character but the
   * stops, and there are as many as there are runs of non-stop characters.
   */
  function Tips(s: string): (r: seq<Tip>)
    ensures var n := Starts(s, true);
      var total := |s| - StopCount(s);
      && (Expand in r <==> n > 0 && total < 10 * n)
      && (BreakUp in r <==> n > 0 && total > 30 * n)
    ensures MoreInfo in r <==> CountChar(s, ' ') < 4
    ensures !(Expand in r && BreakUp in r)
    ensures |r| <= 2 && (MoreInfo in r ==> r[|r| - 1] == MoreInfo)
  {
    SentencesCounted(s);
    SplitCount(s, ' ');
    LengthTip(Sentences(s)) + (if |Split(s, ' ')| < 5 then [MoreInfo] else [])
  }

  /** The tip on the average sentence length; none when there is no sentence. */
  function LengthTip(ss: seq<string>): (r: seq<Tip>)
    ensures r == [Expand] <==> |ss| > 0 && TotalLength(ss) < 10 * |ss|
    ensures r == [BreakUp] <==> |ss| > 0 && TotalLength(ss) > 30 * |ss|
    ensures r == [] || r == [Expand] || r == [BreakUp]
  {
    if |ss| == 0 then []
    else
      var avg := TotalLength(ss) as real / |ss| as real;
      AverageBounds(TotalLength(ss), |ss|);
      if avg < 10.0 then [Expand] else if avg > 30.0 then [BreakUp] else []
  }

  /** `tips.join('\n')` */
  function ImprovementTips(s: string): string {
    Join(TipTexts(Tips(s)), "\n")
  }

  lemma AverageBounds(total: nat, n: nat)
    requires n > 0
    ensures total as real / n as real < 10.0 <==> total < 10 * n
    ensures total as real / n as real > 30.0 <==> total > 30 * n
  {
    DivCompare(total as real, n as real, 10.0);
    DivCompare(total as real, n as real, 30.0);
    RealOfMultiple(10, n);
    RealOfMultiple(30, n);
  }

  lemma DivCompare(t: real, m: real, c: real)
    requires m > 0.0
    ensures t / m < c <==> t < c * m
    ensures t / m > c <==> t > c * m
  {
    var q := t / m;
    assert q * m == t;
    Scale(q, c, m);
    Scale(c, q, m);
  }

  lemma RealOfMultiple(c: nat, n: nat)
    ensures c as real * n as real == (c * n) as real
  {
  }

  lemma Scale(x: real, y: real, m: real)
    requires m > 0.0
    ensures x < y <==> x * m < y * m
  {
    assert (y - x) * m == y * m - x * m;
    if x < y {
      assert (y - x) * m > 0.0;
    }
    if x * m < y * m {
      assert (y - x) * m > 0.0;
    }
  }

  lemma {:induction false} CountCharAppend(a: string, b: string, c: char)
    ensures CountChar(a + b, c) == CountChar(a, c) + CountChar(b, c)
  {
    if a == [] {
      assert a + b == b;
    } else {
      assert (a + b)[1..] == a[1..] + b;
      CountCharAppend(a[1..], b, c);
    }
  }

  lemma {:induction false} CountCharAbsent(s: string, c: char)
    requires c !in s
    ensures CountChar(s, c) == 0
  {
    if s != [] {
      CountCharAbsent(s[1..], c);
    }
  }

  /** `s.split(c)` has one piece more than `s` has separators. */
  lemma {:induction false} SplitCount(s: string, c: char)
    ensures |Split(s, c)| == CountChar(s, c) + 1
    decreases |s|
  {
    match IndexOfChar(s, c)
    case None =>
      CountCharAbsent(s, c);
    case Some(i) =>
      assert s == s[..i] + ([c] + s[i + 1..]);
      CountCharAppend(s[..i], [c] + s[i + 1..], c);
      CountCharAppend([c], s[i + 1..], c);
      CountCharAbsent(s[..i], c);
      SplitCount(s[i + 1..], c);
  }

  lemma {:induction false} StopCountAppend(a: string, b: string)
    ensures StopCount(a + b) == StopCount(a) + StopCount(b)
  {
    if a == [] {
      assert a + b == b;
    } else {
      assert (a + b)[1..] == a[1..] + b;
      StopCountAppend(a[1..], b);
    }
  }

  lemma {:induction false} StartsAppend(a: string, b: string, f: bool)
    ensures Starts(a + b, f) == Starts(a, f) + Starts(b, if a == [] then f else IsStop(a[|a| - 1]))
  {
    if a == [] {
      assert a + b == b;
    } else {
      assert (a + b)[1..] == a[1..] + b;
      StartsAppend(a[1..], b, IsStop(a[0]));
    }
  }

  /** A stretch without stops: no stop counted, and one start if it is non-empty and follows a stop. */
  lemma {:induction false} NoStopsCounted(s: string, f: bool)
    requires forall k :: 0 <= k < |s| ==> !IsStop(s[k])
    ensures StopCount(s) == 0
    ensures Starts(s, f) == (if s != [] && f then 1 else 0)
  {
    if s != [] {
      NoStopsCounted(s[1..], false);
    }
  }

  /** A run of stops: every character counted, and no start. */
  lemma {:induction false} AllStopsCounted(s: string, f: bool)
    requires forall k :: 0 <= k < |s| ==> IsStop(s[k])
    ensures StopCount(s) == |s|
    ensures Starts(s, f) == 0
  {
    if s != [] {
      AllStopsCounted(s[1..], true);
    }
  }

  lemma {:induction false} NonEmptyAppend(a: seq<string>, b: seq<string>)
    ensures NonEmpty(a + b) == NonEmpty(a) + NonEmpty(b)
  {
    if a == [] {
      assert a + b == b;
    } else {
      assert (a + b)[1..] == a[1..] + b;
      NonEmptyAppend(a[1..], b);
    }
  }

  lemma {:induction false} TotalLengthAppend(a: seq<string>, b: seq<string>)
    ensures TotalLength(a + b) == TotalLength(a) + TotalLength(b)
  {
    if a == [] {
      assert a + b == b;
    } else {
      assert (a + b)[1..] == a[1..] + b;
      TotalLengthAppend(a[1..], b);
    }
  }

  /**
   * The sentences are the runs of non-stop characters: as many as there are
   * starts, and holding every character that is not a stop.
   */
  lemma {:induction false} SentencesCounted(s: string)
    ensures |Sentences(s)| == Starts(s, true)
    ensures TotalLength(Sentences(s)) == |s| - StopCount(s)
    ensures forall i :: 0 <= i < |Sentences(s)| ==> |Sentences(s)[i]| > 0
    decreases |s|
  {
    var i := NextStop(s, 0);
    if i == |s| {
      NoStopsCounted(s, true);
      assert StopSplit(s) == [s];
      if s == [] {
        assert Sentences(s) == NonEmpty([s][1..]);
      } else {
        assert Sentences(s) == [s] + NonEmpty([s][1..]);
      }
    } else {
      var j := SkipStops(s, i);
      SentencesUnfold(s);
      CountsUnfold(s, i, j);
      SentencesCounted(s[j..]);
      TotalLengthAppend(if i > 0 then [s[..i]] else [], Sentences(s[j..]));
    }
  }

  /** Past the first stop, the sentences are the text before it (when non-empty) and those after the run of stops. */
  lemma SentencesUnfold(s: string)
    requires NextStop(s, 0) < |s|
    ensures var i := NextStop(s, 0);
      Sentences(s) == (if i > 0 then [s[..i]] else []) + Sentences(s[SkipStops(s, i)..])
  {
    var i := NextStop(s, 0);
    var head, rest := s[..i], s[SkipStops(s, i)..];
    assert StopSplit(s) == [head] + StopSplit(rest);
    NonEmptyAppend([head], StopSplit(rest));
    NonEmptySingle(head);
  }

  lemma NonEmptySingle(x: string)
    ensures NonEmpty([x]) == if |x| > 0 then [x] else []
  {
    assert [x][1..] == [];
  }

  /** The counts over a text that starts with `i` non-stops and then stops up to `j`. */
  lemma CountsUnfold(s: string, i: nat, j: nat)
    requires i < j <= |s|
    requires forall k :: 0 <= k < i ==> !IsStop(s[k])
    requires forall k :: i <= k < j ==> IsStop(s[k])
    ensures StopCount(s) == (j - i) + StopCount(s[j..])
    ensures Starts(s, true) == (if i > 0 then 1 else 0) + Starts(s[j..], true)
  {
    var head, run, rest := s[..i], s[i..j], s[j..];
    assert s == head + (run + rest);
    NoStopsCounted(head, true);
    AllStopsCounted(run, i > 0);
    StopCountAppend(head, run + rest);
    StopCountAppend(run, rest);
    StartsAppend(head, run + rest, true);
    StartsAppend(run, rest, i > 0);
    assert run[|run| - 1] == s[j - 1];
    assert i > 0 ==> head[|head| - 1] == s[i - 1];
  }

  lemma TipTextHasNoNewline(t: Tip)
    ensures '\n' !in TipText(t) && |TipText(t)| > 0
  {
    match t
    case Expand => assert '\n' !in ExpandTip;
    case BreakUp => assert '\n' !in BreakUpTip;
    case MoreInfo => assert '\n' !in MoreInfoTip;
  }

  lemma TipTextsHaveNoNewline(ts: seq<Tip>)
    ensures forall i :: 0 <= i < |ts| ==> '\n' !in TipTexts(ts)[i] && |TipTexts(ts)[i]| > 0
  {
    forall i | 0 <= i < |ts| ensures '\n' !in TipTexts(ts)[i] && |TipTexts(ts)[i]| > 0 {
      TipTextHasNoNewline(ts[i]);
    }
  }

  /** The tips string splits back into the tips, and is empty exactly when no tip applies. */
  lemma ImprovementTipsSplit(s: string)
    ensures ImprovementTips(s) == "" <==> Tips(s) == []
    ensures Tips(s) != [] ==> Split(ImprovementTips(s), '\n') == TipTexts(Tips(s))
  {
    var ts := TipTexts(Tips(s));
    TipTextsHaveNoNewline(Tips(s));
    if |ts| > 0 {
      SplitJoin(ts, '\n');
      if |ts| == 1 {
        assert Join(ts, "\n") == ts[0];
      } else {
        assert |Join(ts, "\n")| > 0;
      }
    }
  }

  /* ---------- Examples and letter case ---------- */

  /** The grammar rules flag the sentences their own examples correct. */
  lemma ExamplesFlagged()
    ensures AmIngMatch("I am knowing")
    ensures AmLikeMatch("I am like pizza")
    ensures VeryWordMatch("very good")
  {
    var a := "I am knowing";
    assert AmIngAt(a, 0, 9) by {
      assert a[4..9] == " know";
    }
    assert AmLikeAt("I am like pizza", 0);
    assert VeryWordAt("very good", 0);
  }

  /** The continuous-tense pattern also flags a correct sentence. */
  lemma CorrectContinuousFlagged()
    ensures AmIngMatch("I am going home")
  {
    var a := "I am going home";
    assert AmIngAt(a, 0, 7) by {
      assert a[4..7] == " go";
    }
  }

  lemma LowerKeepsClasses(c: char)
    ensures IsWordChar(Lower(c)) <==> IsWordChar(c)
    ensures IsLineTerminator(Lower(c)) <==> IsLineTerminator(c)
    ensures IsStop(Lower(c)) <==> IsStop(c)
    ensures Lower(c) == ' ' <==> c == ' '
    ensures forall d :: CharEq(Lower(c), d, true) <==> CharEq(c, d, true)
  {
  }

  lemma LowerLitAt(s: string, j: nat, w: string)
    ensures LitAt(ToLower(s), j, w, true) <==> LitAt(s, j, w, true)
  {
    var l := ToLower(s);
    if j + |w| <= |s| {
      forall t | 0 <= t < |w| ensures CharEq(l[j + t], w[t], true) <==> CharEq(s[j + t], w[t], true) {
        LowerKeepsClasses(s[j + t]);
      }
    }
  }

  lemma LowerBoundary(s: string, j: nat)
    ensures Boundary(ToLower(s), j) <==> Boundary(s, j)
  {
    if 0 < j <= |s| {
      LowerKeepsClasses(s[j - 1]);
    }
    if j < |s| {
      LowerKeepsClasses(s[j]);
    }
  }

  lemma {:induction false} LowerNoLineTerminator(s: string, a: nat, b: nat)
    requires a <= b <= |s|
    ensures NoLineTerminator(ToLower(s)[a..b]) <==> NoLineTerminator(s[a..b])
  {
    var l := ToLower(s);
    forall t | 0 <= t < b - a ensures IsLineTerminator(l[a..b][t]) <==> IsLineTerminator(s[a..b][t]) {
      assert l[a..b][t] == Lower(s[a + t]) && s[a..b][t] == s[a + t];
      LowerKeepsClasses(s[a + t]);
    }
  }

  lemma LowerKeepsWord(s: string, k: nat, w: string)
    ensures WordAt(ToLower(s), k, w) <==> WordAt(s, k, w)
    ensures WordEndsAt(ToLower(s), k, w) <==> WordEndsAt(s, k, w)
  {
    LowerBoundary(s, k);
    LowerBoundary(s, k + |w|);
    LowerLitAt(s, k, w);
  }

  lemma LowerKeepsAmIng(s: string, k: nat, e: nat)
    ensures AmIngAt(ToLower(s), k, e) <==> AmIngAt(s, k, e)
  {
    var l := ToLower(s);
    LowerKeepsWord(s, k, "i am");
    LowerKeepsWord(s, e, "ing");
    if k + 5 <= e && e + 3 <= |s| {
      LowerNoLineTerminator(s, k + 4, e);
      assert AmIngAt(l, k, e) == (WordAt(l, k, "i am") && NoLineTerminator(l[k + 4..e]) && WordEndsAt(l, e, "ing"));
      assert AmIngAt(s, k, e) == (WordAt(s, k, "i am") && NoLineTerminator(s[k + 4..e]) && WordEndsAt(s, e, "ing"));
    } else {
      assert |l| == |s|;
      assert !AmIngAt(l, k, e) && !AmIngAt(s, k, e);
    }
  }

  lemma LowerKeepsAmLike(s: string, k: nat)
    ensures AmLikeAt(ToLower(s), k) <==> AmLikeAt(s, k)
  {
    LowerBoundary(s, k);
    LowerBoundary(s, k + 9);
    LowerLitAt(s, k, "i am like");
  }

  lemma LowerKeepsVeryWord(s: string, k: nat)
    ensures VeryWordAt(ToLower(s), k) <==> VeryWordAt(s, k)
  {
    LowerBoundary(s, k);
    LowerLitAt(s, k, "very ");
    if k + 5 < |s| {
      LowerKeepsClasses(s[k + 5]);
    }
  }

  lemma {:induction false} LowerKeepsCounts(s: string, f: bool)
    ensures StopCount(ToLower(s)) == StopCount(s)
    ensures Starts(ToLower(s), f) == Starts(s, f)
    ensures CountChar(ToLower(s), ' ') == CountChar(s, ' ')
  {
    if s != [] {
      LowerKeepsClasses(s[0]);
      assert ToLower(s)[1..] == ToLower(s[1..]);
      LowerKeepsCounts(s[1..], IsStop(s[0]));
    }
  }

  /** The analysis ignores letter case: the lower-cased text gets the same feedback. */
  lemma AnalyzeIgnoresCase(s: string)
    ensures AnalyzeResponse(ToLower(s)) == AnalyzeResponse(s)
  {
    var l := ToLower(s);
    forall k: nat, e: nat ensures AmIngAt(l, k, e) <==> AmIngAt(s, k, e) {
      LowerKeepsAmIng(s, k, e);
    }
    forall k: nat ensures (AmLikeAt(l, k) <==> AmLikeAt(s, k)) && (VeryWordAt(l, k) <==> VeryWordAt(s, k)) {
      LowerKeepsAmLike(s, k);
      LowerKeepsVeryWord(s, k);
    }
    assert AmIngMatch(l) <==> AmIngMatch(s);
    assert AmLikeMatch(l) <==> AmLikeMatch(s);
    assert VeryWordMatch(l) <==> VeryWordMatch(s);
    LowerKeepsCounts(s, true);
    TipsDecidedByCounts(l, s);
  }

  /** Two texts with the same character counts get the same tips. */
  lemma TipsDecidedByCounts(a: string, b: string)
    requires |a| == |b| && StopCount(a) == StopCount(b)
    requires Starts(a, true) == Starts(b, true) && CountChar(a, ' ') == CountChar(b, ' ')
    ensures Tips(a) == Tips(b)
  {
    var ta, tb := Tips(a), Tips(b);
    assert Expand in ta <==> Expand in tb;
    assert BreakUp in ta <==> BreakUp in tb;
    assert MoreInfo in ta <==> MoreInfo in tb;
    TipsShape(a);
    TipsShape(b);
  }

  /** The tips are determined by which of them apply, in the order length tip, then more-information tip. */
  lemma TipsShape(s: string)
    ensures var t := Tips(s);
      t == (if Expand in t then [Expand] else if BreakUp in t then [BreakUp] else [])
        + (if MoreInfo in t then [MoreInfo] else [])
  {
  }
}

=== FILE: legacy_feedback.dfy ===
/**
 * The older tutor reply parser of the chat service: the average of the
 * learner's four skill levels, the keyword classifiers for a feedback
 * point, the numbered-point feedback parser with its `Suggestion:` and
 * `Example:` fields, and the `English:`/`Hebrew:`/`Learn:`/`Practice:`
 * section router.
 */
module LegacyFeedback {
  import opened Text
  import opened Json

  /* ---------- calculateAverageLevel ---------- */

  /** A level the reducer accepts: a number in [1, 4]. `Num` never holds NaN. */
  predicate ValidLevel(v: Option<Value>) {
    v.Some? && v.value.Num? && 1.0 <= v.value.n <= 4.0
  }

  /** The reducer: adds the levels in order and throws (`None`) at the first invalid one. */
  function AddLevels(vs: seq<Option<Value>>, sum: real): (r: Option<real>)
    ensures r.Some? <==> forall i :: 0 <= i < |vs| ==> ValidLevel(vs[i])
    ensures r.Some? ==> sum + |vs| as real <= r.value <= sum + 4.0 * |vs| as real
    decreases |vs|
  {
    if vs == [] then Some(sum)
    else if !ValidLevel(vs[0]) then None
    else AddLevels(vs[1..], sum + vs[0].value.n)
  }

  /** `Number(x.toFixed(2))` for a non-negative `x`: the nearest hundredth, a tie rounding up. */
  function Fixed2(x: real): (r: real)
    requires x >= 0.0
    ensures (r * 100.0).Floor as real == r * 100.0
    ensures -0.005 < r - x <= 0.005
  {
    (x * 100.0 + 0.5).Floor as real / 100.0
  }

  /** No hundredth lies closer to `x` than `Fixed2(x)`. */
  lemma Fixed2IsNearest(x: real, h: real)
    requires x >= 0.0
    requires (h * 100.0).Floor as real == h * 100.0
    ensures Fixed2(x) - x <= h - x || Fixed2(x) - x <= x - h
    ensures x - Fixed2(x) <= h - x || x - Fixed2(x) <= x - h
  {
    var m := (x * 100.0 + 0.5).Floor;
    var n := (h * 100.0).Floor;
    assert Fixed2(x) * 100.0 == m as real;
    assert h * 100.0 == n as real;
    if n > m {
      assert n as real >= m as real + 1.0;
    } else if n < m {
      assert n as real <= m as real - 1.0;
    }
  }

  /** A number that is already a whole count of hundredths is left as it is. */
  lemma Fixed2OfHundredths(x: real)
    requires x >= 0.0
    requires (x * 100.0).Floor as real == x * 100.0
    ensures Fixed2(x) == x
  {
    var m := (x * 100.0).Floor;
    assert x * 100.0 + 0.5 == m as real + 0.5;
    assert (x * 100.0 + 0.5).Floor == m;
  }

  /** The four levels in the order the reducer reads them. */
  function SkillLevels(u: Value): (r: seq<Option<Value>>)
    ensures |r| == 4
  {
    [Get(u, "speaking"), Get(u, "writing"), Get(u, "grammar"), Get(u, "vocabulary")]
  }

  /**
   * `calculateAverageLevel`: 1 for a missing object or for any level that
   * is not a number in [1, 4]; otherwise the mean of the four levels,
   * rounded to two decimals. `None` is `undefined`.
   */
  function AverageLevel(u: Option<Value>): (r: real)
    ensures 1.0 <= r <= 4.0
    ensures u.None? ==> r == 1.0
    ensures u.Some? && (exists i :: 0 <= i < 4 && !ValidLevel(SkillLevels(u.value)[i])) ==> r == 1.0
  {
    if u.None? then 1.0
    else
      match AddLevels(SkillLevels(u.value), 0.0)
      case None => 1.0
      case Some(total) =>
        var r := Fixed2(total / 4.0);
        assert Fixed2(1.0) == 1.0 && Fixed2(4.0) == 4.0;
        assert (total / 4.0 * 100.0 + 0.5).Floor >= 100;
        assert (total / 4.0 * 100.0 + 0.5).Floor <= 400;
        r
  }

  lemma FourLevels(u: Value, a: real, b: real, c: real, d: real)
    requires SkillLevels(u) == [Some(Num(a)), Some(Num(b)), Some(Num(c)), Some(Num(d))]
    requires 1.0 <= a <= 4.0 && 1.0 <= b <= 4.0 && 1.0 <= c <= 4.0 && 1.0 <= d <= 4.0
    ensures AddLevels(SkillLevels(u), 0.0) == Some(a + b + c + d)
  {
    var v0 := SkillLevels(u);
    var v1, v2, v3 := v0[1..], v0[2..], v0[3..];
    assert v3[1..] == [] && v2[1..] == v3 && v1[1..] == v2 && v0[1..] == v1;
    assert AddLevels(v3, a + b + c) == Some(a + b + c + d);
    assert AddLevels(v2, a + b) == Some(a + b + c + d);
    assert AddLevels(v1, 0.0 + a) == Some(a + b + c + d);
  }

  /** Any four valid levels give their mean to within half a hundredth. */
  lemma AverageIsRoundedMean(u: Value, a: real, b: real, c: real, d: real)
    requires SkillLevels(u) == [Some(Num(a)), Some(Num(b)), Some(Num(c)), Some(Num(d))]
    requires 1.0 <= a <= 4.0 && 1.0 <= b <= 4.0 && 1.0 <= c <= 4.0 && 1.0 <= d <= 4.0
    ensures -0.005 < AverageLevel(Some(u)) - (a + b + c + d) / 4.0 <= 0.005
  {
    FourLevels(u, a, b, c, d);
  }

  /** Whole levels in [1, 4] give their exact mean, which lies in [1, 4]. */
  lemma WholeLevelsExactMean(u: Value, a: int, b: int, c: int, d: int)
    requires SkillLevels(u) == [Some(Num(a as real)), Some(Num(b as real)), Some(Num(c as real)), Some(Num(d as real))]
    requires 1 <= a <= 4 && 1 <= b <= 4 && 1 <= c <= 4 && 1 <= d <= 4
    ensures AverageLevel(Some(u)) == (a + b + c + d) as real / 4.0
    ensures 1.0 <= AverageLevel(Some(u)) <= 4.0
  {
    var total := (a + b + c + d) as real;
    FourLevels(u, a as real, b as real, c as real, d as real);
    var m := total / 4.0;
    assert m * 100.0 == ((a + b + c + d) * 25) as real;
    Fixed2OfHundredths(m);
  }

  /* ---------- Keyword classifiers ---------- */

  datatype FeedbackType = Grammar | Vocabulary | Pronunciation

  datatype Importance = High | Medium | Low

  const GrammarWords: seq<string> := ["grammar", "structure", "tense"]
  const VocabularyWords: seq<string> := ["vocabulary", "word choice", "expression"]
  const PronunciationWords: seq<string> := ["pronunciation", "sound", "accent"]
  const HighWords: seq<string> := ["critical", "important", "major"]
  const LowWords: seq<string> := ["minor", "subtle", "slight"]

  /** `identifyFeedbackType`: grammar words win, then vocabulary, then pronunciation; grammar is the default. */
  function IdentifyFeedbackType(s: string): (r: FeedbackType)
    ensures Mentions(s, GrammarWords) ==> r == Grammar
    ensures r == Vocabulary <==> !Mentions(s, GrammarWords) && Mentions(s, VocabularyWords)
    ensures r == Pronunciation <==>
      !Mentions(s, GrammarWords) && !Mentions(s, VocabularyWords) && Mentions(s, PronunciationWords)
    ensures r == Grammar <==>
      Mentions(s, GrammarWords) || (!Mentions(s, VocabularyWords) && !Mentions(s, PronunciationWords))
  {
    if Mentions(s, GrammarWords) then Grammar
    else if Mentions(s, VocabularyWords) then Vocabulary
    else if Mentions(s, PronunciationWords) then Pronunciation
    else Grammar
  }

  /** `determineFeedbackImportance`: high words win over low words; medium is the default. */
  function DetermineImportance(s: string): (r: Importance)
    ensures Mentions(s, HighWords) <==> r == High
    ensures r == Low <==> !Mentions(s, HighWords) && Mentions(s, LowWords)
    ensures r == Medium <==> !Mentions(s, HighWords) && !Mentions(s, LowWords)
  {
    if Mentions(s, HighWords) then High
    else if Mentions(s, LowWords) then Low
    else Medium
  }

  /** Both classifiers ignore letter case. */
  lemma ClassifiersIgnoreCase(s: string)
    ensures IdentifyFeedbackType(s) == IdentifyFeedbackType(ToLower(s))
    ensures DetermineImportance(s) == DetermineImportance(ToLower(s))
  {
    assert ToLower(ToLower(s)) == ToLower(s);
  }

  /* ---------- Splitting before a zero-width lookahead ---------- */

  /** A position where a split lookahead matches; the split never cuts at 0 or at the end. */
  type Cut = (string, nat) -> bool

  /** `(?=\d+\.|\*)`: a star, or a run of digits followed by a dot. */
  predicate PointCut(s: string, q: nat) {
    q < |s| && (s[q] == '*' || (IsDigit(s[q]) && SkipDigits(s, q) < |s| && s[SkipDigits(s, q)] == '.'))
  }

  const SectionLabels: seq<string> := ["English:", "Hebrew:", "Learn:", "Practice:"]

  /** `(?=English:|Hebrew:|Learn:|Practice:)` with the `i` flag. */
  predicate SectionCut(s: string, q: nat) {
    q < |s| && AnyAt(s, q, SectionLabels, true)
  }

  /** The first position at or after `q` where the lookahead matches, or `|s|`. */
  function NextCut(cut: Cut, s: string, q: nat): (r: nat)
    requires q <= |s|
    ensures q <= r <= |s|
    ensures forall k :: q <= k < r ==> !cut(s, k)
    ensures r < |s| ==> cut(s, r)
    decreases |s| - q
  {
    if q < |s| && !cut(s, q) then NextCut(cut, s, q + 1) else q
  }

  /** The pieces of `s[start..]`: a zero-width match at the start of a piece never cuts it. */
  function PiecesFrom(cut: Cut, s: string, start: nat): (r: seq<string>)
    requires start < |s|
    ensures |r| >= 1
    decreases |s| - start
  {
    var e := NextCut(cut, s, start + 1);
    if e == |s| then [s[start..]] else [s[start..e]] + PiecesFrom(cut, s, e)
  }

  /** `s.split(/(?=…)/)`. */
  function SplitBefore(cut: Cut, s: string): (r: seq<string>)
    ensures |r| >= 1
  {
    if s == [] then [s] else PiecesFrom(cut, s, 0)
  }

  /** The positions in `[q, |s|)` where the lookahead matches, in increasing order. */
  function CutsFrom(cut: Cut, s: string, q: nat): (r: seq<nat>)
    requires q <= |s|
    ensures forall i :: 0 <= i < |r| ==> q <= r[i] < |s| && cut(s, r[i])
    ensures forall k :: q <= k < |s| && cut(s, k) ==> k in r
    ensures forall i, j :: 0 <= i < j < |r| ==> r[i] < r[j]
    decreases |s| - q
  {
    if q == |s| then []
    else (if cut(s, q) then [q] else []) + CutsFrom(cut, s, q + 1)
  }

  lemma {:induction false} CutsSkip(cut: Cut, s: string, q: nat, e: nat)
    requires q <= e <= |s|
    requires forall k :: q <= k < e ==> !cut(s, k)
    ensures CutsFrom(cut, s, q) == CutsFrom(cut, s, e)
    decreases e - q
  {
    if q < e {
      CutsSkip(cut, s, q + 1, e);
    }
  }

  /** Piece `i` of `r` is the slice of `s` between bounds `i` and `i + 1`, and the bounds ascend. */
  predicate SlicedAt(s: string, b: seq<nat>, r: seq<string>) {
    && |r| + 1 == |b|
    && (forall i :: 0 <= i < |b| ==> b[i] <= |s|)
    && (forall i, j :: 0 <= i <= j < |b| ==> b[i] <= b[j])
    && (forall i :: 0 <= i < |r| ==> r[i] == s[b[i]..b[i + 1]])
  }

  lemma SlicedCons(s: string, start: nat, b: seq<nat>, r: seq<string>)
    requires SlicedAt(s, b, r) && |b| >= 1 && start <= b[0] <= |s|
    ensures SlicedAt(s, [start] + b, [s[start..b[0]]] + r)
  {
    var b', r' := [start] + b, [s[start..b[0]]] + r;
    assert forall i :: 0 < i < |r'| ==> r'[i] == r[i - 1] && b'[i] == b[i - 1] && b'[i + 1] == b[i];
  }

  lemma {:induction false} PiecesAtCuts(cut: Cut, s: string, start: nat)
    requires start < |s|
    ensures SlicedAt(s, [start] + CutsFrom(cut, s, start + 1) + [|s|], PiecesFrom(cut, s, start))
    decreases |s| - start
  {
    var e := NextCut(cut, s, start + 1);
    CutsSkip(cut, s, start + 1, e);
    if e == |s| {
      assert CutsFrom(cut, s, start + 1) == [];
      assert [start] + CutsFrom(cut, s, start + 1) + [|s|] == [start, |s|];
      assert PiecesFrom(cut, s, start) == [s[start..]];
      SingleSlice(s, start);
    } else {
      PiecesAtCuts(cut, s, e);
      CutsAtCut(cut, s, start, e);
    }
  }

  lemma SingleSlice(s: string, start: nat)
    requires start <= |s|
    ensures SlicedAt(s, [start, |s|], [s[start..]])
  {
  }

  /** One step of `PiecesAtCuts`: the piece up to the next cut, then the pieces from it. */
  lemma CutsAtCut(cut: Cut, s: string, start: nat, e: nat)
    requires start < e < |s| && e == NextCut(cut, s, start + 1)
    requires CutsFrom(cut, s, start + 1) == CutsFrom(cut, s, e)
    requires SlicedAt(s, [e] + CutsFrom(cut, s, e + 1) + [|s|], PiecesFrom(cut, s, e))
    ensures SlicedAt(s, [start] + CutsFrom(cut, s, start + 1) + [|s|], PiecesFrom(cut, s, start))
  {
    CutsStep(cut, s, e);
    PiecesStep(cut, s, start, e);
    SlicedBefore(s, start, e, CutsFrom(cut, s, e + 1), CutsFrom(cut, s, start + 1), PiecesFrom(cut, s, e));
  }

  lemma CutsStep(cut: Cut, s: string, e: nat)
    requires e < |s| && cut(s, e)
    ensures CutsFrom(cut, s, e) == [e] + CutsFrom(cut, s, e + 1)
  {
  }

  lemma PiecesStep(cut: Cut, s: string, start: nat, e: nat)
    requires start < e < |s| && e == NextCut(cut, s, start + 1)
    ensures PiecesFrom(cut, s, start) == [s[start..e]] + PiecesFrom(cut, s, e)
  {
  }

  /** Slicing at one more bound in front adds the slice up to the old first bound. */
  lemma SlicedBefore(s: string, start: nat, e: nat, c: seq<nat>, cs: seq<nat>, r: seq<string>)
    requires start <= e <= |s| && cs == [e] + c
    requires SlicedAt(s, [e] + c + [|s|], r)
    ensures SlicedAt(s, [start] + cs + [|s|], [s[start..e]] + r)
  {
    var b := [e] + c + [|s|];
    assert [start] + cs + [|s|] == [start] + b;
    SlicedCons(s, start, b, r);
  }

  /**
   * A non-empty string is cut exactly before the positions other than 0
   * where the lookahead matches: piece `i` runs from one cut to the next.
   */
  lemma SplitCutsAtEveryMatch(cut: Cut, s: string)
    requires s != []
    ensures SlicedAt(s, [0] + CutsFrom(cut, s, 1) + [|s|], SplitBefore(cut, s))
  {
    PiecesAtCuts(cut, s, 0);
  }

  lemma {:induction false} PiecesConcat(cut: Cut, s: string, start: nat)
    requires start < |s|
    ensures Join(PiecesFrom(cut, s, start), "") == s[start..]
    decreases |s| - start
  {
    var e := NextCut(cut, s, start + 1);
    if e < |s| {
      PiecesConcat(cut, s, e);
      var rest := PiecesFrom(cut, s, e);
      assert Join([s[start..e]] + rest, "") == s[start..e] + "" + Join(rest, "");
      assert s[start..] == s[start..e] + s[e..];
    }
  }

  /** Splitting loses no text: the pieces concatenate back to the string. */
  lemma SplitLosesNothing(cut: Cut, s: string)
    ensures Join(SplitBefore(cut, s), "") == s
  {
    if s != [] {
      PiecesConcat(cut, s, 0);
    }
  }

  /* ---------- parseFeedbackContent ---------- */

  const HebrewSeparator := "Hebrew explanation:"
  const MissingHebrew := "תרגום חסר למשוב זה"
  const MissingSuggestionHebrew := "תרגום חסר להצעה"

  datatype Message = Message(english: string, hebrew: string)

  /** The model nests `example` inside the suggestion, so no item carries an example without a suggestion. */
  datatype Suggestion = Suggestion(english: string, hebrew: string, example: Option<string>)

  datatype FeedbackItem = FeedbackItem(
    kind: FeedbackType,
    message: Message,
    suggestion: Option<Suggestion>,
    importance: Importance)

  /** `point.split(sep)[0]`. */
  function FirstPiece(s: string, sep: string): (r: string)
    ensures !Contains(s, sep, false) ==> r == s
  {
    match IndexOf(s, sep, 0, false)
    case None => s
    case Some(i) => s[..i]
  }

  /** `point.split(sep)[1]`, which is `undefined` (`None`) when `sep` does not occur. */
  function SecondPiece(s: string, sep: string): (r: Option<string>)
    ensures r.None? <==> !Contains(s, sep, false)
  {
    match IndexOf(s, sep, 0, false)
    case None => None
    case Some(i) =>
      var rest := s[i + |sep|..];
      match IndexOf(rest, sep, 0, false)
      case None => Some(rest)
      case Some(j) => Some(rest[..j])
  }

  // The marker replace of a point's English part: a leading number with its
  // dot or, failing that, the first star goes, with the whitespace after it.
  function StripMarker(h: string): (r: string)
    ensures |r| <= |h|
    ensures 0 < SkipDigits(h, 0) < |h| && h[SkipDigits(h, 0)] == '.' ==> r == h[SkipSpace(h, SkipDigits(h, 0) + 1)..]
    ensures !(0 < SkipDigits(h, 0) < |h| && h[SkipDigits(h, 0)] == '.') && '*' !in h ==> r == h
  {
    var d := SkipDigits(h, 0);
    if 0 < d < |h| && h[d] == '.' then h[SkipSpace(h, d + 1)..]
    else match IndexOfChar(h, '*')
      case None => h
      case Some(j) => h[..j] + h[SkipSpace(h, j + 1)..]
  }

  /**
   * The capture of `/<label>\s*([^]*?)(?=\n|$)/i`: from the first
   * case-insensitive occurrence of the label, past any whitespace
   * (newlines included), up to the next newline or the end.
   */
  function LabelCapture(s: string, key: string): (r: Option<string>)
    ensures r.None? <==> !Contains(s, key, true)
    ensures r.Some? ==> '\n' !in r.value && (r.value == [] || !IsSpace(r.value[0]))
  {
    match IndexOf(s, key, 0, true)
    case None => None
    case Some(i) =>
      var k := SkipSpace(s, i + |key|);
      var e := NextNewline(s, k);
      assert forall c :: k <= c < e ==> s[k..e][c - k] == s[c];
      Some(s[k..e])
  }

  /** The two halves of a suggestion: `capture.split('|').map(trim)`, with the Hebrew placeholder. */
  function ReadSuggestion(capture: string): (r: (string, string))
    ensures '|' !in r.0 && IsTrimmed(r.0)
    ensures r.1 != [] && IsTrimmed(r.1)
    ensures '|' !in capture ==> r.0 == Trim(capture) && r.1 == MissingSuggestionHebrew
  {
    var parts := Split(capture, '|');
    var english := Trim(parts[0]);
    assert forall c :: c in english ==> c in parts[0];
    var hebrew := if |parts| >= 2 && Trim(parts[1]) != [] then Trim(parts[1]) else MissingSuggestionHebrew;
    (english, hebrew)
  }

  /**
   * The message of a point split at `sep`: the first part without its
   * marker, trimmed, and the second part trimmed, with the placeholder when
   * it is missing or blank.
   */
  function MessageOf(point: string, sep: string): (r: Message)
    ensures IsTrimmed(r.english) && IsTrimmed(r.hebrew) && r.hebrew != []
    ensures !Contains(point, sep, false) ==> r.hebrew == MissingHebrew
  {
    var english := Trim(StripMarker(FirstPiece(point, sep)));
    var hebrew :=
      match SecondPiece(point, sep)
      case Some(t) => if Trim(t) != [] then Trim(t) else MissingHebrew
      case None => MissingHebrew;
    Message(english, hebrew)
  }

  /** One feedback point. */
  function ParsePoint(point: string): (r: FeedbackItem)
    ensures r.kind == IdentifyFeedbackType(point) && r.importance == DetermineImportance(point)
    ensures r.message == MessageOf(point, HebrewSeparator)
    ensures r.suggestion.Some? <==> Contains(point, "Suggestion:", true)
    ensures r.suggestion.Some? ==>
      (r.suggestion.value.example.Some? <==> Contains(point, "Example:", true))
    ensures r.suggestion.Some? ==> '|' !in r.suggestion.value.english && r.suggestion.value.hebrew != []
  {
    var suggestion :=
      match LabelCapture(point, "Suggestion:")
      case None => None
      case Some(c) =>
        var (e, h) := ReadSuggestion(c);
        var example := match LabelCapture(point, "Example:") case None => None case Some(x) => Some(Trim(x));
        Some(Suggestion(e, h, example));
    FeedbackItem(IdentifyFeedbackType(point), MessageOf(point, HebrewSeparator), suggestion, DetermineImportance(point))
  }

  /** The points that are not blank, in order: `if (!point.trim()) continue`. */
  function NonBlank(ps: seq<string>): (r: seq<string>)
    ensures forall i :: 0 <= i < |r| ==> Trim(r[i]) != []
    ensures forall x :: x in r ==> x in ps
    ensures forall x :: x in ps && Trim(x) != [] ==> x in r
    ensures |r| <= |ps|
  {
    if ps == [] then []
    else (if Trim(ps[0]) != [] then [ps[0]] else []) + NonBlank(ps[1..])
  }

  /** Dropping blank points distributes over concatenation, so the kept points stay in order. */
  lemma {:induction false} NonBlankAppend(a: seq<string>, b: seq<string>)
    ensures NonBlank(a + b) == NonBlank(a) + NonBlank(b)
  {
    if a == [] {
      assert a + b == b;
    } else {
      var head := if Trim(a[0]) != [] then [a[0]] else [];
      assert (a + b)[0] == a[0] && (a + b)[1..] == a[1..] + b;
      assert NonBlank(a + b) == head + NonBlank(a[1..] + b);
      NonBlankAppend(a[1..], b);
      assert NonBlank(a) == head + NonBlank(a[1..]);
      Regroup(head, NonBlank(a[1..]), NonBlank(b));
    }
  }

  function ParsePoints(ps: seq<string>): (r: seq<FeedbackItem>)
    ensures |r| == |ps|
    ensures forall i :: 0 <= i < |ps| ==> r[i] == ParsePoint(ps[i])
  {
    if ps == [] then [] else [ParsePoint(ps[0])] + ParsePoints(ps[1..])
  }

  /** `parseFeedbackContent`: one item per non-blank point, in order. */
  function ParseFeedbackContent(content: string): (r: seq<FeedbackItem>)
    ensures var points := NonBlank(SplitBefore(PointCut, content));
      |r| == |points| && forall i :: 0 <= i < |r| ==> r[i] == ParsePoint(points[i])
  {
    ParsePoints(NonBlank(SplitBefore(PointCut, content)))
  }

  /** Blank feedback gives no items. */
  lemma BlankFeedbackHasNoItems(content: string)
    requires AllSpace(content)
    ensures ParseFeedbackContent(content) == []
  {
    var ps := SplitBefore(PointCut, content);
    if content == [] {
      assert ps == [""];
    } else {
      SplitCutsAtEveryMatch(PointCut, content);
      var b := [0] + CutsFrom(PointCut, content, 1) + [|content|];
      forall i | 0 <= i < |ps| ensures Trim(ps[i]) == [] {
        assert ps[i] == content[b[i]..b[i + 1]];
        TrimEmptyIffAllSpace(ps[i]);
      }
      NonBlankOfBlank(ps);
    }
  }

  lemma NonBlankOfBlank(ps: seq<string>)
    requires forall i :: 0 <= i < |ps| ==> Trim(ps[i]) == []
    ensures NonBlank(ps) == []
  {
  }

  /** The first occurrence of `w` is at `i` when it occurs there and nowhere earlier. */
  lemma FirstOccurrence(s: string, w: string, ci: bool, i: nat)
    requires i <= |s| && LitAt(s, i, w, ci)
    requires forall k :: 0 <= k < i ==> !LitAt(s, k, w, ci)
    ensures IndexOf(s, w, 0, ci) == Some(i)
  {
  }

  /** No occurrence of `w` starts at `k` when one of its characters differs there. */
  lemma MismatchAt(s: string, k: nat, w: string, t: nat)
    requires t < |w| && k + t < |s| && s[k + t] != w[t]
    ensures !LitAt(s, k, w, false)
  {
  }

  /** An occurrence lying inside the copy of `x` at offset `o` is an occurrence in `x`, and back. */
  lemma LitAtShift(s: string, k: nat, w: string, ci: bool, x: string, o: nat)
    requires o <= k && k + |w| <= o + |x| <= |s| && s[o..o + |x|] == x
    ensures LitAt(s, k, w, ci) <==> LitAt(x, k - o, w, ci)
  {
    forall t | 0 <= t < |w| ensures CharEq(s[k + t], w[t], ci) <==> CharEq(x[k - o + t], w[t], ci) {
      assert s[o..o + |x|][k - o + t] == s[k + t];
    }
  }

  /** A numbered point `n. <english>` followed by a line starting with the separator. */
  function Numbered(n: nat, english: string, sep: string, hebrew: string): string {
    (NatToString(n) + ". " + english + "\n") + sep + (" " + hebrew)
  }

  /** What the round trip needs of a separator: it cannot start inside the number or the line break. */
  predicate PlainSeparator(sep: string) {
    sep != [] && !IsDigit(sep[0]) && sep[0] != '.' && !IsSpace(sep[0]) && '\n' !in sep
  }

  lemma NoSeparatorBefore(n: nat, english: string, sep: string, hebrew: string, k: nat)
    requires PlainSeparator(sep) && !Contains(english, sep, false)
    requires k <= |NatToString(n) + ". " + english|
    ensures !LitAt(Numbered(n, english, sep, hebrew), k, sep, false)
  {
    var s := Numbered(n, english, sep, hebrew);
    var pre := NatToString(n) + ". ";
    var rest := "\n" + sep + " " + hebrew;
    assert s == pre + english + rest;
    MiddleSlice(pre, english, rest);
    var m := |pre| + |english|;
    assert s[m] == '\n';
    if k < |pre| {
      NoSeparatorInNumber(n, s, sep, k);
    } else if k + |sep| <= m {
      LitAtShift(s, k, sep, false, english, |pre|);
      assert !LitAt(english, k - |pre|, sep, false);
    } else {
      assert k <= m < k + |sep|;
      assert sep[m - k] in sep;
      MismatchAt(s, k, sep, m - k);
    }
  }

  /** The separator cannot start among the digits, the dot or the space of the number. */
  lemma NoSeparatorInNumber(n: nat, s: string, sep: string, k: nat)
    requires PlainSeparator(sep)
    requires |NatToString(n) + ". "| <= |s| && s[..|NatToString(n) + ". "|] == NatToString(n) + ". "
    requires k < |NatToString(n) + ". "|
    ensures !LitAt(s, k, sep, false)
  {
    var digits := NatToString(n);
    var pre := digits + ". ";
    assert s[k] == pre[k];
    assert k < |digits| ==> pre[k] == digits[k];
    assert k >= |digits| ==> pre[k] == '.' || pre[k] == ' ';
    MismatchAt(s, k, sep, 0);
  }

  /** A numbered point's message reads back as the English and Hebrew it was written from. */
  lemma {:induction false} MessageRoundTrip(n: nat, english: string, sep: string, hebrew: string)
    requires PlainSeparator(sep)
    requires IsTrimmed(english) && IsTrimmed(hebrew) && hebrew != []
    requires !Contains(english, sep, false) && !Contains(hebrew, sep, false)
    ensures MessageOf(Numbered(n, english, sep, hebrew), sep) == Message(english, hebrew)
  {
    var s := Numbered(n, english, sep, hebrew);
    var head := NatToString(n) + ". " + english + "\n";
    var rest := " " + hebrew;
    var i := |head|;
    assert s == head + sep + rest;
    assert IndexOf(s, sep, 0, false) == Some(i) by {
      assert s[i..i + |sep|] == sep;
      LitAtShift(s, i, sep, false, sep, i);
      forall k | 0 <= k < i ensures !LitAt(s, k, sep, false) {
        NoSeparatorBefore(n, english, sep, hebrew, k);
      }
      FirstOccurrence(s, sep, false, i);
    }
    assert FirstPiece(s, sep) == head by {
      assert s[..i] == head;
    }
    assert Trim(StripMarker(head)) == english by {
      HeadRoundTrip(NatToString(n), english);
    }
    assert s[i + |sep|..] == rest;
    HebrewTail(sep, hebrew);
  }

  /** The text after the separator: no second separator, and a leading space that trims away. */
  lemma HebrewTail(sep: string, hebrew: string)
    requires PlainSeparator(sep) && IsTrimmed(hebrew) && hebrew != [] && !Contains(hebrew, sep, false)
    ensures IndexOf(" " + hebrew, sep, 0, false) == None
    ensures Trim(" " + hebrew) == hebrew
  {
    var rest := " " + hebrew;
    forall k | 0 <= k <= |rest| ensures !LitAt(rest, k, sep, false) {
      if k == 0 {
        MismatchAt(rest, 0, sep, 0);
      } else if k + |sep| <= |rest| {
        assert rest[1..1 + |hebrew|] == hebrew;
        LitAtShift(rest, k, sep, false, hebrew, 1);
        assert !LitAt(hebrew, k - 1, sep, false);
      }
    }
    assert rest[..1] == " " && rest[|rest|..] == [] && rest[1..|rest|] == hebrew;
    TrimIs(rest, 1, |rest|);
  }

  /** The number, its dot and the space go; the line break is trimmed. */
  lemma HeadRoundTrip(digits: string, english: string)
    requires digits != [] && AllDigits(digits) && IsTrimmed(english)
    ensures Trim(StripMarker(digits + ". " + english + "\n")) == english
  {
    var pre := digits + ". ";
    var head := pre + english + "\n";
    SkipDigitsIs(head, 0, |digits|);
    assert head[|digits|] == '.';
    if english != [] {
      SkipSpaceIs(head, |digits| + 1, |pre|);
      assert StripMarker(head) == english + "\n";
      assert (english + "\n")[..|english|] == english;
      assert (english + "\n")[|english|..] == "\n";
      assert (english + "\n")[0..|english|] == english;
      TrimIs(english + "\n", 0, |english|);
    } else {
      SkipSpaceIs(head, |digits| + 1, |head|);
      assert StripMarker(head) == [];
      assert Trim([]) == [];
    }
  }

  /** The point written `n. <english>` with a `Hebrew explanation:` line. */
  function NumberedPoint(n: nat, english: string, hebrew: string): string {
    Numbered(n, english, HebrewSeparator, hebrew)
  }

  /** A numbered point with a Hebrew explanation yields exactly that English and Hebrew. */
  lemma NumberedPointRoundTrip(n: nat, english: string, hebrew: string)
    requires IsTrimmed(english) && IsTrimmed(hebrew) && hebrew != []
    requires !Contains(english, HebrewSeparator, false) && !Contains(hebrew, HebrewSeparator, false)
    ensures ParsePoint(NumberedPoint(n, english, hebrew)).message == Message(english, hebrew)
  {
    assert PlainSeparator(HebrewSeparator) by {
      assert HebrewSeparator[0] == 'H';
      assert forall t :: 0 <= t < |HebrewSeparator| ==> HebrewSeparator[t] != '\n';
    }
    MessageRoundTrip(n, english, HebrewSeparator, hebrew);
  }

  /** A suggestion written `english | hebrew` reads back as its two halves. */
  lemma {:induction false} SuggestionRoundTrip(english: string, hebrew: string)
    requires IsTrimmed(english) && IsTrimmed(hebrew) && hebrew != []
    requires '|' !in english && '|' !in hebrew
    ensures ReadSuggestion(english + " | " + hebrew) == (english, hebrew)
  {
    var left, right := english + " ", " " + hebrew;
    assert Split(english + " | " + hebrew, '|') == [left, right] by {
      assert english + " | " + hebrew == Join([left, right], "|") by {
        assert Join([left, right], "|") == left + "|" + Join([right], "|");
      }
      SplitJoin([left, right], '|');
    }
    assert Trim(left) == english by {
      assert left[..|english|] == english && left[|english|..] == " " && left[0..|english|] == english;
      TrimIs(left, 0, |english|);
    }
    assert Trim(right) == hebrew by {
      assert right[..1] == " " && right[|right|..] == [] && right[1..|right|] == hebrew;
      TrimIs(right, 1, |right|);
    }
    ReadTwoParts(english + " | " + hebrew, left, right);
  }

  lemma ReadTwoParts(c: string, left: string, right: string)
    requires Split(c, '|') == [left, right] && Trim(right) != []
    ensures ReadSuggestion(c) == (Trim(left), Trim(right))
  {
  }

  /* ---------- parseEnhancedResponse ---------- */

  const LearnPrefix := "נקודות למידה: "
  const PracticePrefix := "תרגול: "

  /** `translateLearningPoints`. */
  function TranslateLearningPoints(points: string): string {
    LearnPrefix + points
  }

  /** `translatePractice`. */
  function TranslatePractice(practice: string): string {
    PracticePrefix + practice
  }

  /** What a section's label, matched case-sensitively after trimming, makes of it. */
  datatype Section =
    | EnglishText(text: string)
    | HebrewText(text: string)
    | LearnText(text: string)
    | PracticeText(text: string)
    | Unlabelled

  /** The feedback a `Learn:` or `Practice:` section adds. */
  datatype Note = Note(kind: FeedbackType, message: Message)

  /** The first characters of the labels differ, so at most one label starts a section. */
  lemma LabelsDiffer()
    ensures forall j :: 0 <= j < |SectionLabels| ==> |SectionLabels[j]| > 0 && !IsSpace(SectionLabels[j][0])
    ensures forall j, k :: 0 <= j < k < |SectionLabels| ==> SectionLabels[j][0] != SectionLabels[k][0]
  {
    assert SectionLabels[0][0] == 'E' && SectionLabels[1][0] == 'H';
    assert SectionLabels[2][0] == 'L' && SectionLabels[3][0] == 'P';
  }

  function SectionOf(j: nat, text: string): (r: Section)
    ensures !r.Unlabelled? && r.text == text
  {
    if j == 0 then EnglishText(text)
    else if j == 1 then HebrewText(text)
    else if j == 2 then LearnText(text)
    else PracticeText(text)
  }

  /**
   * One section: `startsWith` the labels in order, in exactly this case,
   * on the trimmed section; the text is what follows the label, trimmed.
   */
  function Classify(section: string): (r: Section)
    ensures r.Unlabelled? <==> forall j :: 0 <= j < |SectionLabels| ==> !LitAt(Trim(section), 0, SectionLabels[j], false)
    ensures !r.Unlabelled? ==> IsTrimmed(r.text)
  {
    var t := Trim(section);
    match FirstWordAt(t, 0, SectionLabels, false, 0)
    case None => Unlabelled
    case Some(j) =>
      assert LitAt(t, 0, SectionLabels[j], false);
      SectionOf(j, Trim(t[|SectionLabels[j]|..]))
  }

  /** The alternation picks alternative `j` when it matches and no earlier one does. */
  lemma FirstWordAtIs(s: string, k: nat, ws: seq<string>, ci: bool, t: nat, j: nat)
    requires t <= j < |ws| && LitAt(s, k, ws[j], ci)
    requires forall u :: t <= u < j ==> !LitAt(s, k, ws[u], ci)
    ensures FirstWordAt(s, k, ws, ci, t) == Some(j)
  {
  }

  /** A label followed by a space and trimmed text classifies as that label's section with that text. */
  lemma ClassifyReadsLabel(j: nat, text: string)
    requires j < |SectionLabels| && IsTrimmed(text)
    ensures Classify(SectionLabels[j] + " " + text) == SectionOf(j, text)
  {
    var lab := SectionLabels[j];
    var t := LabelledText(lab, text);
    LabelledTrim(j, text);
    LabelFirst(j, t);
    AfterLabel(lab, text);
  }

  /** A label and its text as the trimmed section holds them. */
  function LabelledText(lab: string, text: string): string {
    if text == [] then lab else lab + " " + text
  }

  /** Trimming drops only the space after a label whose text is empty. */
  lemma LabelledTrim(j: nat, text: string)
    requires j < |SectionLabels| && IsTrimmed(text)
    ensures Trim(SectionLabels[j] + " " + text) == LabelledText(SectionLabels[j], text)
  {
    LabelsDiffer();
    var lab := SectionLabels[j];
    var s := lab + " " + text;
    var n := if text == [] then |lab| else |s|;
    var t := s[0..n];
    assert t == LabelledText(lab, text);
    assert AllSpace(s[..0]) && AllSpace(s[n..]);
    assert t[0] == lab[0];
    assert n == |lab| ==> t[n - 1] == lab[|lab| - 1] && lab[|lab| - 1] == ':';
    assert n == |s| ==> t[n - 1] == text[|text| - 1];
    TrimIs(s, 0, n);
  }

  /** A section that starts with label `j` matches that label and none before it. */
  lemma LabelFirst(j: nat, t: string)
    requires j < |SectionLabels| && |SectionLabels[j]| <= |t| && t[..|SectionLabels[j]|] == SectionLabels[j]
    ensures FirstWordAt(t, 0, SectionLabels, false, 0) == Some(j)
  {
    LabelsDiffer();
    var lab := SectionLabels[j];
    LitAtShift(t, 0, lab, false, lab, 0);
    forall u | 0 <= u < j ensures !LitAt(t, 0, SectionLabels[u], false) {
      assert t[0] == lab[0];
      MismatchAt(t, 0, SectionLabels[u], 0);
    }
    FirstWordAtIs(t, 0, SectionLabels, false, 0, j);
  }

  /** What follows the label, trimmed, is the text. */
  lemma AfterLabel(lab: string, text: string)
    requires IsTrimmed(text)
    ensures Trim(LabelledText(lab, text)[|lab|..]) == text
  {
    var rest := LabelledText(lab, text)[|lab|..];
    if text == [] {
      assert rest == [];
    } else {
      assert rest == " " + text;
      assert rest[..1] == " " && rest[|rest|..] == [] && rest[1..|rest|] == text;
      TrimIs(rest, 1, |rest|);
    }
  }

  /**
   * The split is case-insensitive but the routing is not: a section
   * starting `english:` is cut off from its neighbours and then ignored.
   */
  lemma LowerCaseLabelIgnored(text: string)
    ensures Classify("english:" + text) == Unlabelled
  {
    assert SectionLabels[0][0] == 'E' && SectionLabels[1][0] == 'H';
    assert SectionLabels[2][0] == 'L' && SectionLabels[3][0] == 'P';
    var s := "english:" + text;
    var t := Trim(s);
    assert SkipSpace(s, 0) == 0;
    assert |t| > 0 && t[0] == 'e' by {
      TrimEmptyIffAllSpace(s);
      assert !IsSpace(s[0]);
    }
    forall u | 0 <= u < |SectionLabels| ensures !LitAt(t, 0, SectionLabels[u], false) {
      MismatchAt(t, 0, SectionLabels[u], 0);
    }
  }

  /** Each section classified on its own; the `forEach` below only reads these. */
  function ClassifyAll(secs: seq<string>): (r: seq<Section>)
    ensures |r| == |secs| && forall i :: 0 <= i < |secs| ==> r[i] == Classify(secs[i])
  {
    if secs == [] then [] else [Classify(secs[0])] + ClassifyAll(secs[1..])
  }

  datatype Acc = Acc(english: string, hebrew: string, items: seq<Note>)

  /** The body of the `forEach` over sections. */
  function Step(a: Acc, c: Section): Acc {
    match c
    case EnglishText(t) => a.(english := t)
    case HebrewText(t) => a.(hebrew := t)
    case LearnText(t) => a.(items := a.items + [Note(Grammar, Message(t, TranslateLearningPoints(t)))])
    case PracticeText(t) => a.(items := a.items + [Note(Vocabulary, Message(t, TranslatePractice(t)))])
    case Unlabelled => a
  }

  function Fold(a: Acc, cs: seq<Section>): Acc
    decreases |cs|
  {
    if cs == [] then a else Fold(Step(a, cs[0]), cs[1..])
  }

  /** The text of the last `English:` (or, when `english` is false, `Hebrew:`) section, searched from the end. */
  function LastText(cs: seq<Section>, english: bool): (r: Option<string>)
    ensures r.None? <==> forall i :: 0 <= i < |cs| ==> !(if english then cs[i].EnglishText? else cs[i].HebrewText?)
    decreases |cs|
  {
    if cs == [] then None
    else
      var last := cs[|cs| - 1];
      if english && last.EnglishText? then Some(last.text)
      else if !english && last.HebrewText? then Some(last.text)
      else LastText(cs[..|cs| - 1], english)
  }

  predicate IsNote(c: Section) {
    c.LearnText? || c.PracticeText?
  }

  /** The notes of the `Learn:` and `Practice:` sections, in order. */
  function NotesOf(cs: seq<Section>): (r: seq<Note>)
    ensures r == [] <==> forall i :: 0 <= i < |cs| ==> !IsNote(cs[i])
    ensures forall i :: 0 <= i < |r| ==> r[i].kind != Pronunciation
    ensures forall i :: 0 <= i < |r| && r[i].kind == Grammar ==>
      r[i].message.hebrew == LearnPrefix + r[i].message.english
    ensures forall i :: 0 <= i < |r| && r[i].kind == Vocabulary ==>
      r[i].message.hebrew == PracticePrefix + r[i].message.english
    decreases |cs|
  {
    if cs == [] then []
    else
      var here := match cs[0]
        case LearnText(t) => [Note(Grammar, Message(t, TranslateLearningPoints(t)))]
        case PracticeText(t) => [Note(Vocabulary, Message(t, TranslatePractice(t)))]
        case _ => [];
      here + NotesOf(cs[1..])
  }

  /** The last English (or Hebrew) section of `cs + [c]`. */
  lemma LastTextSnoc(cs: seq<Section>, c: Section, english: bool)
    ensures LastText(cs + [c], english) ==
      if english && c.EnglishText? then Some(c.text)
      else if !english && c.HebrewText? then Some(c.text)
      else LastText(cs, english)
  {
    assert (cs + [c])[..|cs|] == cs;
  }

  /** The notes of `cs + [c]`. */
  lemma {:induction false} NotesOfSnoc(cs: seq<Section>, c: Section)
    ensures NotesOf(cs + [c]) == NotesOf(cs) + NotesOf([c])
    decreases |cs|
  {
    if cs != [] {
      assert (cs + [c])[1..] == cs[1..] + [c];
      NotesOfSnoc(cs[1..], c);
    }
  }

  /**
   * The fold keeps the last English and Hebrew texts and appends the notes
   * in order; `done` are the sections already folded into `a`.
   */
  lemma {:induction false} FoldIsLastWins(done: seq<Section>, cs: seq<Section>)
    ensures var a := Fold(Acc("", "", []), done);
      var r := Fold(a, cs);
      && r.english == (match LastText(done + cs, true) case Some(t) => t case None => "")
      && r.hebrew == (match LastText(done + cs, false) case Some(t) => t case None => "")
      && r.items == NotesOf(done + cs)
    decreases |cs|
  {
    if cs == [] {
      assert done + cs == done;
      FoldFromStart(done);
    } else {
      FoldSnoc(done, cs[0]);
      assert done + cs == (done + [cs[0]]) + cs[1..];
      FoldIsLastWins(done + [cs[0]], cs[1..]);
    }
  }

  /** Folding one more section into the fold of `done`. */
  lemma FoldSnoc(done: seq<Section>, c: Section)
    ensures Fold(Acc("", "", []), done + [c]) == Step(Fold(Acc("", "", []), done), c)
  {
    FoldAppend(Acc("", "", []), done, [c]);
  }

  lemma {:induction false} FoldAppend(a: Acc, xs: seq<Section>, ys: seq<Section>)
    ensures Fold(a, xs + ys) == Fold(Fold(a, xs), ys)
    decreases |xs|
  {
    if xs != [] {
      assert (xs + ys)[1..] == xs[1..] + ys;
      FoldAppend(Step(a, xs[0]), xs[1..], ys);
    } else {
      assert xs + ys == ys;
    }
  }

  /** What the fold of `done` from the start holds. */
  lemma {:induction false} FoldFromStart(done: seq<Section>)
    ensures var r := Fold(Acc("", "", []), done);
      && r.english == (match LastText(done, true) case Some(t) => t case None => "")
      && r.hebrew == (match LastText(done, false) case Some(t) => t case None => "")
      && r.items == NotesOf(done)
    decreases |done|
  {
    if done != [] {
      var init := done[..|done| - 1];
      var c := done[|done| - 1];
      assert done == init + [c];
      FoldFromStart(init);
      FoldSnoc(init, c);
      LastTextSnoc(init, c, true);
      LastTextSnoc(init, c, false);
      NotesOfSnoc(init, c);
    }
  }

  datatype Enhanced = Enhanced(english: string, hebrew: string, feedback: Option<seq<Note>>)

  /**
   * `parseEnhancedResponse`: the last `English:` and `Hebrew:` sections
   * give the two texts (empty when absent), and the `Learn:` and
   * `Practice:` sections give the feedback, which is `undefined` (`None`)
   * when there is none.
   */
  function ParseEnhancedResponse(content: string): (r: Enhanced)
    ensures var cs := ClassifyAll(SplitBefore(SectionCut, content));
      && r.english == (match LastText(cs, true) case Some(t) => t case None => "")
      && r.hebrew == (match LastText(cs, false) case Some(t) => t case None => "")
      && (r.feedback.None? <==> forall i :: 0 <= i < |cs| ==> !IsNote(cs[i]))
      && (r.feedback.Some? ==> r.feedback.value == NotesOf(cs) && r.feedback.value != [])
  {
    var cs := ClassifyAll(SplitBefore(SectionCut, content));
    var a := Fold(Acc("", "", []), cs);
    FoldFromStart(cs);
    Enhanced(a.english, a.hebrew, if a.items == [] then None else Some(a.items))
  }
}

=== FILE: markdown.dfy ===
/**
 * The markdown pipe: a line-by-line renderer from the tutor's markdown to
 * HTML. Every piece of text taken from the input is HTML-escaped before the
 * inline markers (`**`, `*`, backticks, `~~`, `__`) become tags. At most one
 * list is open at a time, and table rows are gathered until the first
 * non-table line.
 */
module Markdown {
  import opened Text

  /* ---------- escaping ---------- */

  /** `s.replace(/c/g, rep)`. */
  function ReplaceChar(s: string, c: char, rep: string): (r: string)
    ensures Lacks(rep, c) ==> Lacks(r, c)
    ensures forall d :: Lacks(s, d) && Lacks(rep, d) ==> Lacks(r, d)
    decreases |s|
  {
    if s == [] then []
    else
      var head := if s[0] == c then rep else [s[0]];
      var tail := ReplaceChar(s[1..], c, rep);
      forall d | Lacks(s, d) && Lacks(rep, d) ensures Lacks(head, d) { assert s[0] == s[0]; }
      LacksConcatAll(head, tail);
      head + tail
  }

  /** Both halves lack every character each lacks. */
  lemma LacksConcatAll(a: string, b: string)
    ensures forall d :: Lacks(a, d) && Lacks(b, d) ==> Lacks(a + b, d)
  {
    forall d | Lacks(a, d) && Lacks(b, d) ensures Lacks(a + b, d) { LacksConcat(a, b, d); }
  }

  /** Replacing a character the text does not hold changes nothing. */
  lemma {:induction false} ReplaceAbsent(s: string, c: char, rep: string)
    requires Lacks(s, c)
    ensures ReplaceChar(s, c, rep) == s
    decreases |s|
  {
    if s != [] {
      ReplaceAbsent(s[1..], c, rep);
    }
  }

  /** Replacing distributes over concatenation. */
  lemma {:induction false} ReplaceConcat(a: string, b: string, c: char, rep: string)
    ensures ReplaceChar(a + b, c, rep) == ReplaceChar(a, c, rep) + ReplaceChar(b, c, rep)
    decreases |a|
  {
    if a != [] {
      assert (a + b)[0] == a[0];
      assert (a + b)[1..] == a[1..] + b;
      ReplaceConcat(a[1..], b, c, rep);
      var head := if a[0] == c then rep else [a[0]];
      assert ReplaceChar(a + b, c, rep) == head + ReplaceChar(a[1..] + b, c, rep);
      assert ReplaceChar(a, c, rep) == head + ReplaceChar(a[1..], c, rep);
    } else {
      assert a + b == b;
    }
  }

  /** `escapeHtml`: four global replacements, the ampersand first. */
  function EscapeHtml(s: string): (r: string)
    ensures Lacks(r, '<') && Lacks(r, '>') && Lacks(r, '"')
  {
    var s1 := ReplaceChar(s, '&', "&amp;");
    var s2 := ReplaceChar(s1, '<', "&lt;");
    var s3 := ReplaceChar(s2, '>', "&gt;");
    assert Lacks(s2, '<');
    assert Lacks(s3, '<') && Lacks(s3, '>');
    ReplaceChar(s3, '"', "&quot;")
  }

  /** The entity that stands for one character, or the character itself. */
  function EscapeChar(c: char): string {
    if c == '&' then "&amp;"
    else if c == '<' then "&lt;"
    else if c == '>' then "&gt;"
    else if c == '"' then "&quot;"
    else [c]
  }

  /** Escaping one character at a time. */
  function EscapeEach(s: string): string
    decreases |s|
  {
    if s == [] then [] else EscapeChar(s[0]) + EscapeEach(s[1..])
  }

  /** The later passes never touch the entities the earlier passes wrote. */
  lemma {:induction false} EscapeHtmlIsCharwise(s: string)
    ensures EscapeHtml(s) == EscapeEach(s)
    decreases |s|
  {
    if s != [] {
      EscapeHtmlIsCharwise(s[1..]);
      assert s == [s[0]] + s[1..];
      EscapeConcat([s[0]], s[1..]);
      EscapeOneChar(s[0]);
    }
  }

  lemma EscapeConcat(a: string, b: string)
    ensures EscapeHtml(a + b) == EscapeHtml(a) + EscapeHtml(b)
  {
    ReplaceConcat(a, b, '&', "&amp;");
    var a1, b1 := ReplaceChar(a, '&', "&amp;"), ReplaceChar(b, '&', "&amp;");
    ReplaceConcat(a1, b1, '<', "&lt;");
    var a2, b2 := ReplaceChar(a1, '<', "&lt;"), ReplaceChar(b1, '<', "&lt;");
    ReplaceConcat(a2, b2, '>', "&gt;");
    var a3, b3 := ReplaceChar(a2, '>', "&gt;"), ReplaceChar(b2, '>', "&gt;");
    ReplaceConcat(a3, b3, '"', "&quot;");
  }

  lemma EscapeOneChar(c: char)
    ensures EscapeHtml([c]) == EscapeChar(c)
  {
    if c == '&' {
      EscapeAmp();
    } else if c == '<' {
      EscapeLt();
    } else if c == '>' {
      EscapeGt();
    } else if c == '"' {
      EscapeQuote();
    } else {
      ReplaceOne(c, '&', "&amp;");
      ReplaceOne(c, '<', "&lt;");
      ReplaceOne(c, '>', "&gt;");
      ReplaceOne(c, '"', "&quot;");
    }
  }

  lemma EscapeAmp()
    ensures EscapeHtml("&") == "&amp;"
  {
    ReplaceOne('&', '&', "&amp;");
    LaterPassesKeep("&amp;");
  }

  /** Text without `<`, `>` and `"` passes the last three replacements unchanged. */
  lemma LaterPassesKeep(a: string)
    requires Lacks(a, '<') && Lacks(a, '>') && Lacks(a, '"')
    ensures ReplaceChar(ReplaceChar(ReplaceChar(a, '<', "&lt;"), '>', "&gt;"), '"', "&quot;") == a
  {
    ReplaceAbsent(a, '<', "&lt;");
    ReplaceAbsent(a, '>', "&gt;");
    ReplaceAbsent(a, '"', "&quot;");
  }

  lemma EscapeLt()
    ensures EscapeHtml("<") == "&lt;"
  {
    ReplaceOne('<', '&', "&amp;");
    ReplaceOne('<', '<', "&lt;");
    ReplaceAbsent("&lt;", '>', "&gt;");
    ReplaceAbsent("&lt;", '"', "&quot;");
  }

  lemma EscapeGt()
    ensures EscapeHtml(">") == "&gt;"
  {
    ReplaceOne('>', '&', "&amp;");
    ReplaceOne('>', '<', "&lt;");
    ReplaceOne('>', '>', "&gt;");
    ReplaceAbsent("&gt;", '"', "&quot;");
  }

  lemma EscapeQuote()
    ensures EscapeHtml("\"") == "&quot;"
  {
    ReplaceOne('"', '&', "&amp;");
    ReplaceOne('"', '<', "&lt;");
    ReplaceOne('"', '>', "&gt;");
    ReplaceOne('"', '"', "&quot;");
  }

  /** One character through one replacement pass. */
  lemma ReplaceOne(x: char, c: char, rep: string)
    ensures ReplaceChar([x], c, rep) == if x == c then rep else [x]
  {
    assert [x][1..] == [];
  }

  /** The entity decoder that undoes `EscapeHtml`. */
  function UnescapeHtml(s: string): string
    decreases |s|
  {
    if s == [] then []
    else if "&amp;" <= s then "&" + UnescapeHtml(s[5..])
    else if "&lt;" <= s then "<" + UnescapeHtml(s[4..])
    else if "&gt;" <= s then ">" + UnescapeHtml(s[4..])
    else if "&quot;" <= s then "\"" + UnescapeHtml(s[6..])
    else [s[0]] + UnescapeHtml(s[1..])
  }

  /** Escaping loses nothing: decoding the entities gives the text back. */
  lemma {:induction false} EscapeRoundTrip(s: string)
    ensures UnescapeHtml(EscapeHtml(s)) == s
  {
    EscapeHtmlIsCharwise(s);
    EachRoundTrip(s);
  }

  lemma {:induction false} EachRoundTrip(s: string)
    ensures UnescapeHtml(EscapeEach(s)) == s
    decreases |s|
  {
    if s != [] {
      var c, rest := s[0], EscapeEach(s[1..]);
      var e := EscapeChar(c) + rest;
      EachRoundTrip(s[1..]);
      if c == '&' {
        assert "&amp;" <= e && e[5..] == rest;
      } else if c == '<' {
        assert !("&amp;" <= e) by { assert e[1] == 'l'; }
        assert "&lt;" <= e && e[4..] == rest;
      } else if c == '>' {
        assert !("&amp;" <= e) && !("&lt;" <= e) by { assert e[1] == 'g'; }
        assert "&gt;" <= e && e[4..] == rest;
      } else if c == '"' {
        assert !("&amp;" <= e) && !("&lt;" <= e) && !("&gt;" <= e) by { assert e[1] == 'q'; }
        assert "&quot;" <= e && e[6..] == rest;
      } else {
        assert e[0] == c && e[1..] == rest;
      }
      assert s == [c] + s[1..];
    }
  }

  /* ---------- inline markers ---------- */

  /**
   * Where the lazy `d(.*?)d` closes when it opens at `i`: at the next `d`,
   * provided no line terminator comes first (`.` does not match one).
   */
  function ClosingAt(s: string, d: string, i: nat): (r: Option<nat>)
    requires i <= |s|
    ensures r.Some? ==> LitAt(s, i, d, false) && i + |d| <= r.value && LitAt(s, r.value, d, false)
    ensures r.Some? ==> r.value + |d| <= |s|
    ensures r.Some? ==> NoLineTerminator(s[i + |d|..r.value])
  {
    if !LitAt(s, i, d, false) then None
    else
      match IndexOf(s, d, i + |d|, false)
      case None => None
      case Some(j) => if NoLineTerminator(s[i + |d|..j]) then Some(j) else None
  }

  /** The lazy match closes at the first delimiter after the opening one: none lies in between. */
  lemma ClosingIsFirst(s: string, d: string, i: nat)
    requires i <= |s| && ClosingAt(s, d, i).Some?
    ensures forall k :: i + |d| <= k < ClosingAt(s, d, i).value ==> !LitAt(s, k, d, false)
  {
    assert IndexOf(s, d, i + |d|, false) == Some(ClosingAt(s, d, i).value);
  }

  function OpenTag(tag: string): string { "<" + tag + ">" }
  function CloseTag(tag: string): string { "</" + tag + ">" }

  /** A stretch of text between its tags, followed by the rest. */
  function Tagged(tag: string, m: string, rest: string): string {
    OpenTag(tag) + m + CloseTag(tag) + rest
  }

  /** `s.replace(/d(.*?)d/g, '<tag>$1</tag>')`, scanning from `i`. */
  function WrapFrom(s: string, d: string, tag: string, i: nat): (r: string)
    requires |d| > 0 && i <= |s|
    decreases |s| - i, 1
  {
    if i == |s| then [] else WrapStep(s, d, tag, i, ClosingAt(s, d, i))
  }

  /** One step of the scan at `i`, given where the match opened there closes. */
  function WrapStep(s: string, d: string, tag: string, i: nat, c: Option<nat>): (r: string)
    requires |d| > 0 && i < |s|
    requires c.Some? ==> i + |d| <= c.value && c.value + |d| <= |s|
    decreases |s| - i, 0
  {
    match c
    case Some(j) => Tagged(tag, s[i + |d|..j], WrapFrom(s, d, tag, j + |d|))
    case None => [s[i]] + WrapFrom(s, d, tag, i + 1)
  }

  function Wrap(s: string, d: string, tag: string): string
    requires |d| > 0
  {
    WrapFrom(s, d, tag, 0)
  }

  /** `formatInline`: bold, italics, code, strike-through and underline, in that order. */
  function FormatInline(s: string): string {
    Wrap(Wrap(Wrap(Wrap(Wrap(s, "**", "strong"), "*", "em"), "`", "code"), "~~", "del"), "__", "u")
  }

  /** Turns the tags back into the delimiter. */
  function Unwrap(x: string, d: string, tag: string): string
    decreases |x|
  {
    if x == [] then []
    else if OpenTag(tag) <= x then d + Unwrap(x[|OpenTag(tag)|..], d, tag)
    else if CloseTag(tag) <= x then d + Unwrap(x[|CloseTag(tag)|..], d, tag)
    else [x[0]] + Unwrap(x[1..], d, tag)
  }

  /** Text without `<` passes through `Unwrap` unchanged, whatever follows it. */
  lemma {:induction false} UnwrapPlain(m: string, y: string, d: string, tag: string)
    requires Lacks(m, '<')
    ensures Unwrap(m + y, d, tag) == m + Unwrap(y, d, tag)
    decreases |m|
  {
    if m != [] {
      var x := m + y;
      assert x[0] == m[0] && m[0] != '<';
      assert !(OpenTag(tag) <= x) by { assert OpenTag(tag)[0] == '<'; }
      assert !(CloseTag(tag) <= x) by { assert CloseTag(tag)[0] == '<'; }
      assert x[1..] == m[1..] + y;
      UnwrapPlain(m[1..], y, d, tag);
      assert m == [m[0]] + m[1..];
    } else {
      assert m + y == y;
    }
  }

  /** A tag name: lower-case letters only. */
  predicate TagName(tag: string) {
    |tag| > 0 && forall k :: 0 <= k < |tag| ==> 'a' <= tag[k] <= 'z'
  }

  /**
   * On text without `<` (escaped text has none) the tags stand exactly where
   * the delimiters stood: wrapping loses no text.
   */
  lemma {:induction false} WrapRoundTrip(s: string, d: string, tag: string, i: nat)
    requires |d| > 0 && i <= |s| && Lacks(s, '<') && TagName(tag)
    ensures Unwrap(WrapFrom(s, d, tag, i), d, tag) == s[i..]
    decreases |s| - i, 1
  {
    if i < |s| {
      var c := ClosingAt(s, d, i);
      if c.Some? {
        WrapSegmentBack(s, d, tag, i, c.value);
      } else {
        WrapRoundTrip(s, d, tag, i + 1);
        WrapCopied(s, d, tag, i);
        UnwrapPlain([s[i]], WrapFrom(s, d, tag, i + 1), d, tag);
        assert s[i..] == [s[i]] + s[i + 1..];
      }
    }
  }

  /** A match at `i` becomes a tagged segment. */
  lemma {:induction false} WrapTagged(s: string, d: string, tag: string, i: nat, j: nat)
    requires |d| > 0 && i < |s|
    requires ClosingAt(s, d, i) == Some(j)
    ensures WrapFrom(s, d, tag, i) == Tagged(tag, s[i + |d|..j], WrapFrom(s, d, tag, j + |d|))
  {
  }

  /** Without a match at `i` the character there is copied. */
  lemma WrapCopied(s: string, d: string, tag: string, i: nat)
    requires |d| > 0 && i < |s|
    requires ClosingAt(s, d, i).None?
    ensures WrapFrom(s, d, tag, i) == [s[i]] + WrapFrom(s, d, tag, i + 1)
  {
  }

  /** One tagged segment of the output unwraps to its delimited stretch of input. */
  lemma {:induction false} WrapSegmentBack(s: string, d: string, tag: string, i: nat, j: nat)
    requires |d| > 0 && i < |s| && Lacks(s, '<') && TagName(tag)
    requires ClosingAt(s, d, i) == Some(j)
    ensures Unwrap(WrapFrom(s, d, tag, i), d, tag) == s[i..]
    decreases |s| - i, 0
  {
    var m := s[i + |d|..j];
    var rest := WrapFrom(s, d, tag, j + |d|);
    var tail := s[j + |d|..];
    assert Unwrap(rest, d, tag) == tail by { WrapRoundTrip(s, d, tag, j + |d|); }
    assert Unwrap(WrapFrom(s, d, tag, i), d, tag) == d + m + d + Unwrap(rest, d, tag) by {
      LacksSlice(s, i + |d|, j, '<');
      WrapTagged(s, d, tag, i, j);
      UnwrapSegment(m, rest, d, tag);
    }
    assert s[i..] == d + m + d + tail by { DelimitedSlice(s, d, i, j); }
  }

  /** A delimited stretch of text: the opening delimiter, the contents, the closing one, the rest. */
  lemma DelimitedSlice(s: string, d: string, i: nat, j: nat)
    requires LitAt(s, i, d, false) && i + |d| <= j && LitAt(s, j, d, false)
    ensures s[i..] == d + s[i + |d|..j] + d + s[j + |d|..]
  {
    DelimiterSlice(s, i, d);
    DelimiterSlice(s, j, d);
    assert s[i..] == s[i..i + |d|] + s[i + |d|..j] + s[j..j + |d|] + s[j + |d|..];
  }

  /** A literal match of `d` at `i` is the slice there. */
  lemma DelimiterSlice(s: string, i: nat, d: string)
    requires LitAt(s, i, d, false)
    ensures s[i..i + |d|] == d
  {
    forall k | 0 <= k < |d| ensures s[i + k] == d[k] { assert CharEq(s[i + k], d[k], false); }
  }

  /** A tagged segment unwraps to the segment between two delimiters. */
  lemma UnwrapSegment(m: string, rest: string, d: string, tag: string)
    requires Lacks(m, '<') && TagName(tag)
    ensures Unwrap(Tagged(tag, m, rest), d, tag) == d + m + d + Unwrap(rest, d, tag)
  {
    var open, close := OpenTag(tag), CloseTag(tag);
    var y := close + rest;
    var u := Unwrap(rest, d, tag);
    calc {
      Unwrap(Tagged(tag, m, rest), d, tag);
      { assert Tagged(tag, m, rest) == open + (m + y); }
      Unwrap(open + (m + y), d, tag);
      { UnwrapOpen(m + y, d, tag); }
      d + Unwrap(m + y, d, tag);
      { UnwrapPlain(m, y, d, tag); }
      d + (m + Unwrap(y, d, tag));
      { UnwrapClose(rest, d, tag); }
      d + (m + (d + u));
      d + m + d + u;
    }
  }

  /** An opening tag unwraps to the delimiter. */
  lemma UnwrapOpen(z: string, d: string, tag: string)
    ensures Unwrap(OpenTag(tag) + z, d, tag) == d + Unwrap(z, d, tag)
  {
    var x := OpenTag(tag) + z;
    assert OpenTag(tag) <= x && x[|OpenTag(tag)|..] == z;
  }

  /** A closing tag unwraps to the delimiter: it cannot be read as an opening tag. */
  lemma UnwrapClose(z: string, d: string, tag: string)
    requires TagName(tag)
    ensures Unwrap(CloseTag(tag) + z, d, tag) == d + Unwrap(z, d, tag)
  {
    var y := CloseTag(tag) + z;
    assert !(OpenTag(tag) <= y) by { assert y[1] == '/' && OpenTag(tag)[1] == tag[0]; }
    assert CloseTag(tag) <= y && y[|CloseTag(tag)|..] == z;
  }

  /** Text without the delimiter comes through unchanged. */
  lemma {:induction false} WrapWithoutDelimiter(s: string, d: string, tag: string, i: nat)
    requires |d| > 0 && i <= |s|
    requires forall k :: 0 <= k <= |s| ==> !LitAt(s, k, d, false)
    ensures WrapFrom(s, d, tag, i) == s[i..]
    decreases |s| - i
  {
    if i < |s| {
      WrapWithoutDelimiter(s, d, tag, i + 1);
      assert s[i..] == [s[i]] + s[i + 1..];
    }
  }

  /** The tags add no double quote, so no attribute can be opened from the text. */
  lemma {:induction false} WrapAddsNoQuote(s: string, d: string, tag: string, i: nat)
    requires |d| > 0 && i <= |s| && Lacks(s, '"') && Lacks(tag, '"')
    ensures Lacks(WrapFrom(s, d, tag, i), '"')
    decreases |s| - i
  {
    if i < |s| {
      match ClosingAt(s, d, i)
      case Some(j) =>
        var rest := WrapFrom(s, d, tag, j + |d|);
        WrapAddsNoQuote(s, d, tag, j + |d|);
        LacksSlice(s, i + |d|, j, '"');
        TaggedLacks(s[i + |d|..j], tag, rest, '"');
        WrapTagged(s, d, tag, i, j);
      case None =>
        WrapAddsNoQuote(s, d, tag, i + 1);
        WrapCopied(s, d, tag, i);
        LacksConcat([s[i]], WrapFrom(s, d, tag, i + 1), '"');
    }
  }

  /** A tagged segment lacks a character that is no tag punctuation and that its parts lack. */
  lemma TaggedLacks(m: string, tag: string, rest: string, c: char)
    requires c != '<' && c != '>' && c != '/'
    requires Lacks(m, c) && Lacks(tag, c) && Lacks(rest, c)
    ensures Lacks(Tagged(tag, m, rest), c)
  {
    LacksConcat("<", tag, c);
    LacksConcat("<" + tag, ">", c);
    LacksConcat("</", tag, c);
    LacksConcat("</" + tag, ">", c);
    LacksConcat(OpenTag(tag), m, c);
    LacksConcat(OpenTag(tag) + m, CloseTag(tag), c);
    LacksConcat(OpenTag(tag) + m + CloseTag(tag), rest, c);
  }

  /** Inline formatting of escaped text holds no double quote. */
  lemma InlineHasNoQuote(s: string)
    ensures Lacks(FormatInline(EscapeHtml(s)), '"')
  {
    var e := EscapeHtml(s);
    var w1 := Wrap(e, "**", "strong");
    WrapAddsNoQuote(e, "**", "strong", 0);
    var w2 := Wrap(w1, "*", "em");
    WrapAddsNoQuote(w1, "*", "em", 0);
    var w3 := Wrap(w2, "`", "code");
    WrapAddsNoQuote(w2, "`", "code", 0);
    var w4 := Wrap(w3, "~~", "del");
    WrapAddsNoQuote(w3, "~~", "del", 0);
    WrapAddsNoQuote(w4, "__", "u", 0);
  }

  /* ---------- lines ---------- */

  /**
   * Where the text of `\s+(.+)$` starts when that part of a pattern begins
   * at `h`: the greedy `\s+` takes the whole whitespace run, and gives its
   * last character back when nothing else is left for `.+`.
   */
  function TextAfterSpace(line: string, h: nat): (r: Option<nat>)
    requires h <= |line|
    ensures r.Some? ==> h < r.value < |line| && AllSpace(line[h..r.value]) && NoLineTerminator(line[r.value..])
    ensures r.Some? ==> forall e :: r.value < e < |line| ==> !AllSpace(line[h..e]) || !NoLineTerminator(line[e..])
    ensures r.None? ==> forall e :: h < e < |line| ==> !AllSpace(line[h..e]) || !NoLineTerminator(line[e..])
  {
    if h == |line| || !IsSpace(line[h]) then
      assert forall e :: h < e < |line| ==> !AllSpace(line[h..e]) by {
        forall e | h < e < |line| ensures !AllSpace(line[h..e]) { assert line[h..e][0] == line[h]; }
      }
      None
    else
      var g := SkipSpace(line, h);
      SpacesBetween(line, h, g);
      if g < |line| then
        forall e | g < e < |line| ensures !AllSpace(line[h..e]) { assert line[h..e][g - h] == line[g]; }
        if NoLineTerminator(line[g..]) then
          Some(g)
        else
          forall e | h < e <= g ensures !NoLineTerminator(line[e..]) {
            var k :| 0 <= k < |line[g..]| && IsLineTerminator(line[g..][k]);
            assert line[e..][g - e + k] == line[g..][k];
          }
          None
      else
        var n := |line|;
        if n - h >= 2 && !IsLineTerminator(line[n - 1]) then
          SpacesBetween(line, h, n - 1);
          assert NoLineTerminator(line[n - 1..]) by { assert line[n - 1..] == [line[n - 1]]; }
          Some(n - 1)
        else
          forall e | h < e < n ensures !NoLineTerminator(line[e..]) {
            assert line[e..][n - 1 - e] == line[n - 1];
          }
          None
  }

  /** A stretch of whitespace characters, as a slice. */
  lemma SpacesBetween(s: string, a: nat, b: nat)
    requires a <= b <= |s| && forall k :: a <= k < b ==> IsSpace(s[k])
    ensures AllSpace(s[a..b])
  {
    forall k | 0 <= k < b - a ensures IsSpace(s[a..b][k]) { assert s[a..b][k] == s[a + k]; }
  }

  /** Whether the trimmed line is three or more hyphens (`/^---+$/`). */
  predicate IsRule(line: string) {
    var t := Trim(line);
    |t| >= 3 && forall k :: 0 <= k < |t| ==> t[k] == '-'
  }

  /** Each string trimmed. */
  function TrimAll(xs: seq<string>): (r: seq<string>)
    ensures |r| == |xs| && forall i :: 0 <= i < |r| ==> r[i] == Trim(xs[i])
  {
    if xs == [] then [] else [Trim(xs[0])] + TrimAll(xs[1..])
  }

  /** The trimmed cells of a `/^\|(.+)\|$/` line, split at every inner `|`. */
  function TableCells(line: string): (r: Option<seq<string>>)
    ensures r.Some? ==> |line| >= 3 && line[0] == '|' && line[|line| - 1] == '|'
    ensures r.Some? ==> |r.value| >= 1 && forall i :: 0 <= i < |r.value| ==> IsTrimmed(r.value[i])
  {
    if |line| >= 3 && line[0] == '|' && line[|line| - 1] == '|' && NoLineTerminator(line[1..|line| - 1])
    then Some(TrimAll(Split(line[1..|line| - 1], '|')))
    else None
  }

  /** A cell of the alignment row: `/^[-:\s]+$/`. */
  predicate IsSeparatorCell(c: string) {
    |c| > 0 && forall k :: 0 <= k < |c| ==> c[k] == '-' || c[k] == ':' || IsSpace(c[k])
  }

  predicate IsSeparatorRow(cells: seq<string>) {
    forall i :: 0 <= i < |cells| ==> IsSeparatorCell(cells[i])
  }

  /** What a line is, in the order the renderer tests. */
  datatype LineKind =
    | Rule
    | TableRow(cells: seq<string>)
    | Heading(level: nat, text: string)
    | Bullet(text: string)
    | Numbered(text: string)
    | Blank
    | Paragraph

  /** The text that `\s+(.+)$` captures when it starts matching at `h`. */
  function TextOf(line: string, h: nat): (r: Option<string>)
    requires h <= |line|
    ensures r.Some? ==> 0 < |r.value| < |line| - h && r.value == line[|line| - |r.value|..]
    ensures r.Some? ==> NoLineTerminator(r.value)
  {
    match TextAfterSpace(line, h)
    case Some(e) => Some(line[e..])
    case None => None
  }

  /** `/^(#{1,4})\s+(.+)$/`: a fifth `#` would leave no whitespace where `\s+` needs it. */
  function HeadingOf(line: string): (r: Option<(nat, string)>)
    ensures r.Some? ==> 1 <= r.value.0 <= 4 && HashRun(line, 0) == r.value.0
    ensures r.Some? ==> TextOf(line, r.value.0) == Some(r.value.1)
  {
    var h := HashRun(line, 0);
    if 1 <= h <= 4 && TextOf(line, h).Some? then Some((h, TextOf(line, h).value)) else None
  }

  /** `/^[-*]\s+(.+)$/`. */
  function BulletOf(line: string): (r: Option<string>)
    ensures r.Some? ==> |line| > 0 && (line[0] == '-' || line[0] == '*') && TextOf(line, 1) == r
  {
    if |line| > 0 && (line[0] == '-' || line[0] == '*') then TextOf(line, 1) else None
  }

  /** `/^\d+\.\s+(.+)$/`: the digits must run up to the dot. */
  function NumberedOf(line: string): (r: Option<string>)
    ensures r.Some? ==> var d := SkipDigits(line, 0); 0 < d < |line| && line[d] == '.' && TextOf(line, d + 1) == r
  {
    var d := SkipDigits(line, 0);
    if 0 < d < |line| && line[d] == '.' then TextOf(line, d + 1) else None
  }

  /**
   * The tests of one line, in the renderer's order: a rule, a table row, a
   * heading, an item, a numbered item, a blank line, or else a paragraph.
   */
  function Classify(line: string): (k: LineKind)
    ensures k.Heading? ==> 1 <= k.level <= 4 && HashRun(line, 0) == k.level
    ensures k.Heading? || k.Bullet? || k.Numbered? ==>
              0 < |k.text| < |line| && k.text == line[|line| - |k.text|..] && NoLineTerminator(k.text)
    ensures k.Rule? <==> IsRule(line)
    ensures k.TableRow? <==> !IsRule(line) && TableCells(line).Some?
    ensures k.Blank? ==> AllSpace(line)
    ensures k.Paragraph? ==> !AllSpace(line)
  {
    if IsRule(line) then Rule
    else if TableCells(line).Some? then TableRow(TableCells(line).value)
    else Marked(line)
  }

  /** A line that is no rule and no table row: a heading, an item, blank, or a paragraph. */
  function Marked(line: string): (k: LineKind)
    ensures k.Heading? ==> 1 <= k.level <= 4 && HashRun(line, 0) == k.level
    ensures k.Heading? || k.Bullet? || k.Numbered? ==>
              0 < |k.text| < |line| && k.text == line[|line| - |k.text|..] && NoLineTerminator(k.text)
    ensures !k.Rule? && !k.TableRow?
    ensures k.Blank? ==> AllSpace(line)
    ensures k.Paragraph? ==> !AllSpace(line)
  {
    if HeadingOf(line).Some? then Heading(HeadingOf(line).value.0, HeadingOf(line).value.1)
    else if BulletOf(line).Some? then Bullet(BulletOf(line).value)
    else if NumberedOf(line).Some? then Numbered(NumberedOf(line).value)
    else if AllSpace(line) then Blank
    else Paragraph
  }

  /** A line whose first character is neither whitespace nor a hyphen is no rule. */
  lemma NotRule(line: string)
    requires |line| > 0 && !IsSpace(line[0]) && line[0] != '-'
    ensures !IsRule(line)
  {
    SkipSpaceIs(line, 0, 0);
    var t := Trim(line);
    if |t| > 0 { assert t[0] == line[0]; }
  }

  /** `\s+(.+)$` from `h` captures the text after a run of whitespace that ends at a non-space. */
  lemma TextAfterRun(line: string, h: nat, g: nat)
    requires h < g < |line|
    requires forall k :: h <= k < g ==> IsSpace(line[k])
    requires !IsSpace(line[g]) && NoLineTerminator(line[g..])
    ensures TextOf(line, h) == Some(line[g..])
  {
    SkipSpaceIs(line, h, g);
  }

  /** The same, for a line built from a prefix, the whitespace and the text. */
  lemma GapText(pre: string, gap: string, text: string)
    requires |gap| >= 1 && AllSpace(gap)
    requires |text| > 0 && !IsSpace(text[0]) && NoLineTerminator(text)
    ensures TextOf(pre + gap + text, |pre|) == Some(text)
  {
    var line := pre + gap + text;
    var g := |pre| + |gap|;
    forall k | |pre| <= k < g ensures IsSpace(line[k]) {
      assert line[k] == gap[k - |pre|];
    }
    assert line[g..] == text;
    TextAfterRun(line, |pre|, g);
  }

  function Hashes(n: nat): (r: string)
    ensures |r| == n && forall k :: 0 <= k < n ==> r[k] == '#'
  {
    seq(n, _ => '#')
  }

  /** One to four `#`, whitespace, then text: a heading of that level with that text. */
  lemma HeadingLine(n: nat, gap: string, text: string)
    requires 1 <= n <= 4 && |gap| >= 1 && AllSpace(gap)
    requires |text| > 0 && !IsSpace(text[0]) && NoLineTerminator(text)
    ensures Classify(Hashes(n) + gap + text) == Heading(n, text)
  {
    var line := Hashes(n) + gap + text;
    assert line[0] == '#' && line[n] == gap[0];
    HashRunIs(line, 0, n);
    GapText(Hashes(n), gap, text);
    ClassifyHeading(line, n, text);
  }

  /** `-` or `*`, whitespace, then text: an unordered item with that text. */
  lemma BulletLine(marker: char, gap: string, text: string)
    requires marker == '-' || marker == '*'
    requires |gap| >= 1 && AllSpace(gap)
    requires |text| > 0 && !IsSpace(text[0]) && NoLineTerminator(text)
    ensures Classify([marker] + gap + text) == Bullet(text)
  {
    var line := [marker] + gap + text;
    assert line[0] == marker && line[1] == gap[0];
    assert !IsRule(line) by {
      SkipSpaceIs(line, 0, 0);
      var t := Trim(line);
      if |t| >= 3 {
        assert t[1] == line[1];
      }
    }
    GapText([marker], gap, text);
    ClassifyBullet(line, text);
  }

  /** Digits, a dot, whitespace, then text: an ordered item with that text. */
  lemma NumberedLine(digits: string, gap: string, text: string)
    requires |digits| >= 1 && forall k :: 0 <= k < |digits| ==> IsDigit(digits[k])
    requires |gap| >= 1 && AllSpace(gap)
    requires |text| > 0 && !IsSpace(text[0]) && NoLineTerminator(text)
    ensures Classify(digits + "." + gap + text) == Numbered(text)
  {
    var pre := digits + ".";
    var line := pre + gap + text;
    DigitRun(digits, pre, line);
    GapText(pre, gap, text);
    ClassifyNumbered(line, |digits|, text);
  }

  /** The digit run of a line that starts with digits and a dot stops at the dot. */
  lemma DigitRun(digits: string, pre: string, line: string)
    requires forall k :: 0 <= k < |digits| ==> IsDigit(digits[k])
    requires pre == digits + "." && pre <= line
    ensures SkipDigits(line, 0) == |digits| && line[|digits|] == '.'
    ensures |digits| > 0 ==> line[0] == digits[0]
  {
    assert forall k :: 0 <= k < |digits| ==> line[k] == pre[k] == digits[k];
    assert line[|digits|] == pre[|digits|];
    SkipDigitsIs(line, 0, |digits|);
  }

  /** What a line that is no rule and no table row, starting with `#`, classifies as. */
  lemma ClassifyHeading(line: string, n: nat, text: string)
    requires |line| > 0 && line[0] == '#'
    requires 1 <= n <= 4 && HashRun(line, 0) == n && TextOf(line, n) == Some(text)
    ensures Classify(line) == Heading(n, text)
  {
    NotRule(line);
  }

  lemma ClassifyBullet(line: string, text: string)
    requires |line| > 1 && (line[0] == '-' || line[0] == '*') && !IsRule(line)
    requires TextOf(line, 1) == Some(text)
    ensures Classify(line) == Bullet(text)
  {
    HashRunIs(line, 0, 0);
  }

  lemma ClassifyNumbered(line: string, d: nat, text: string)
    requires |line| > 0 && IsDigit(line[0])
    requires SkipDigits(line, 0) == d && d < |line| && line[d] == '.' && TextOf(line, d + 1) == Some(text)
    ensures Classify(line) == Numbered(text)
  {
    PlainStart(line);
  }

  /** A line that starts with none of the markers is no rule, table row, heading or item. */
  lemma PlainStart(line: string)
    requires |line| > 0 && !IsSpace(line[0])
    requires line[0] != '|' && line[0] != '-' && line[0] != '*' && line[0] != '#'
    ensures !IsRule(line) && TableCells(line).None? && HeadingOf(line).None? && BulletOf(line).None?
  {
    NotRule(line);
    HashRunIs(line, 0, 0);
  }

  /** A line that starts with a letter is a paragraph. */
  lemma LetterLine(line: string)
    requires |line| > 0 && ('a' <= line[0] <= 'z' || 'A' <= line[0] <= 'Z')
    ensures Classify(line) == Paragraph
  {
    PlainStart(line);
    SkipDigitsIs(line, 0, 0);
  }

  /* ---------- output pieces ---------- */

  /** Escaped text with its inline markers turned into tags. */
  function Inline(s: string): string {
    FormatInline(EscapeHtml(s))
  }

  /** `<tag>inner</tag>`: the second character of the element is the tag's first. */
  function Element(tag: string, inner: string): (r: string)
    requires |tag| > 0
    ensures |r| > 1 && r[1] == tag[0]
  {
    assert ("<" + tag)[1] == tag[0];
    "<" + tag + ">" + inner + "</" + tag + ">"
  }

  function HeadingHtml(level: nat, text: string): (r: string)
    ensures |r| > 1 && r[1] == 'h'
  {
    Element("h" + NatToString(level), Inline(text))
  }

  function ItemHtml(text: string): (r: string)
    ensures |r| > 1 && r[1] == 'l'
  {
    Element("li", Inline(text))
  }

  function ParagraphHtml(line: string): (r: string)
    ensures |r| > 1 && r[1] == 'p'
  {
    Element("p", Inline(line))
  }

  /** The cells of one row, each in a `th` or `td` element. */
  function CellsHtml(cells: seq<string>, tag: string): string {
    if cells == [] then []
    else "<" + tag + ">" + Inline(cells[0]) + "</" + tag + ">" + CellsHtml(cells[1..], tag)
  }

  function BodyRowsHtml(rows: seq<seq<string>>): string {
    if rows == [] then []
    else "<tr>" + CellsHtml(rows[0], "td") + "</tr>" + BodyRowsHtml(rows[1..])
  }

  const TableDiv: string := "<div"
  const TableOpen: string := TableDiv + " class=\"md-table-wrapper\"><table class=\"md-table\">"
  const TableClose: string := "</tbody></table></div>"

  /** `buildTable`: nothing without rows; the first row is the head when the table had an alignment row. */
  function BuildTable(rows: seq<seq<string>>, hasHeader: bool): (r: string)
    ensures rows == [] <==> r == []
    ensures rows != [] ==> TableOpen <= r && (hasHeader <==> LitAt(r, |TableOpen|, "<thead>", false))
  {
    if rows == [] then []
    else
      var head := if hasHeader then "<thead><tr>" + CellsHtml(rows[0], "th") + "</tr></thead>" else "";
      var body := "<tbody>" + BodyRowsHtml(if hasHeader then rows[1..] else rows) + TableClose;
      TableHeadMark(head, body, hasHeader);
      TableOpen + head + body
  }

  /** The table's markup says right after its opening whether a head follows. */
  lemma TableHeadMark(head: string, body: string, hasHeader: bool)
    requires hasHeader ==> "<thead>" <= head
    requires !hasHeader ==> head == [] && "<tbody>" <= body
    ensures var r := TableOpen + head + body;
            TableOpen <= r && (hasHeader <==> LitAt(r, |TableOpen|, "<thead>", false))
  {
    var r := TableOpen + head + body;
    assert r[..|TableOpen|] == TableOpen;
    if hasHeader {
      forall k | 0 <= k < 7 ensures CharEq(r[|TableOpen| + k], "<thead>"[k], false) {
        assert r[|TableOpen| + k] == head[k];
      }
    } else {
      assert r[|TableOpen| + 2] == body[2];
      assert !CharEq(r[|TableOpen| + 2], "<thead>"[2], false);
    }
  }

  /* ---------- the line loop ---------- */

  /** The loop's variables: the pieces pushed so far, the open list, the table being gathered. */
  datatype State = State(out: seq<string>, inList: bool, inTable: bool, rows: seq<seq<string>>, hasHeader: bool)

  const Start: State := State([], false, false, [], false)

  predicate IsListOpen(p: string) { p == "<ul>" || p == "<ol>" }
  predicate IsListTag(p: string) { IsListOpen(p) || p == "</ul>" || p == "</ol>" }

  function CloseOf(open: string): string {
    if open == "<ol>" then "</ol>" else "</ul>"
  }

  /** `findLastListTag`: the last `<ul>` or `<ol>` pushed, or `</ul>` when there is none. */
  function LastListOpen(out: seq<string>): (r: string)
    ensures IsListOpen(r) || r == "</ul>"
  {
    if out == [] then "</ul>"
    else if IsListOpen(out[|out| - 1]) then out[|out| - 1]
    else LastListOpen(out[..|out| - 1])
  }

  /** `closeList`: the closing tag of the list opened last. */
  function CloseList(out: seq<string>): seq<string> {
    out + [CloseOf(LastListOpen(out))]
  }

  function EndList(st: State): (r: State)
    ensures !r.inList && r.inTable == st.inTable && r.rows == st.rows && r.hasHeader == st.hasHeader
  {
    if st.inList then st.(out := CloseList(st.out), inList := false) else st
  }

  function FlushTable(st: State): (r: State)
    ensures !r.inTable && r.inList == st.inList
    ensures st.inTable ==> r.rows == [] && !r.hasHeader && r.out == st.out + [BuildTable(st.rows, st.hasHeader)]
    ensures !st.inTable ==> r == st
  {
    if st.inTable then st.(out := st.out + [BuildTable(st.rows, st.hasHeader)], inTable := false, rows := [], hasHeader := false)
    else st
  }

  function Push(st: State, piece: string): State {
    st.(out := st.out + [piece])
  }

  /** One pass of the loop over the lines. */
  function Step(st: State, line: string): State {
    match Classify(line)
    case Rule => Push(FlushTable(EndList(st)), "<hr>")
    case TableRow(cells) =>
      var s1 := if st.inTable then st else EndList(st).(inTable := true, rows := [], hasHeader := false);
      if IsSeparatorRow(cells) then s1.(hasHeader := true) else s1.(rows := s1.rows + [cells])
    case Heading(level, text) => Push(EndList(FlushTable(st)), HeadingHtml(level, text))
    case Bullet(text) =>
      var s1 := FlushTable(st);
      var s2 := if s1.inList then s1 else Push(s1, "<ul>").(inList := true);
      Push(s2, ItemHtml(text))
    case Numbered(text) =>
      var s1 := FlushTable(st);
      var s2 := if s1.inList then s1 else Push(s1, "<ol>").(inList := true);
      Push(s2, ItemHtml(text))
    case Blank => EndList(FlushTable(st))
    case Paragraph => Push(EndList(FlushTable(st)), ParagraphHtml(line))
  }

  function Run(st: State, lines: seq<string>): State
    decreases |lines|
  {
    if lines == [] then st else Run(Step(st, lines[0]), lines[1..])
  }

  /** After the last line: close an open list, then flush a pending table. */
  function Finish(st: State): State {
    FlushTable(EndList(st))
  }

  function Concat(pieces: seq<string>): string {
    if pieces == [] then [] else pieces[0] + Concat(pieces[1..])
  }

  function RenderPieces(text: string): seq<string> {
    Finish(Run(Start, Split(text, '\n'))).out
  }

  /** `transform`: no text (null, undefined or empty) renders as the empty string. */
  function Transform(value: Option<string>): (r: string)
    ensures value.None? || value == Some([]) ==> r == []
  {
    if value.None? || value.value == [] then [] else Concat(RenderPieces(value.value))
  }

  /* ---------- list tags stay balanced ---------- */

  /** The list tags among the pieces, in order. */
  function ListTags(out: seq<string>): seq<string> {
    if out == [] then []
    else ListTags(out[..|out| - 1]) + (if IsListTag(out[|out| - 1]) then [out[|out| - 1]] else [])
  }

  /** Opening and closing tags in matching pairs, one list after another. */
  predicate Paired(tags: seq<string>) {
    if tags == [] then true
    else |tags| >= 2 && IsListOpen(tags[|tags| - 2]) && tags[|tags| - 1] == CloseOf(tags[|tags| - 2])
         && Paired(tags[..|tags| - 2])
  }

  /** Paired lists, followed by one open list when `open` holds. */
  predicate Nested(tags: seq<string>, open: bool) {
    if open then |tags| >= 1 && IsListOpen(tags[|tags| - 1]) && Paired(tags[..|tags| - 1])
    else Paired(tags)
  }

  /** What holds between lines: list tags nested as the flag says, never a list and a table at once. */
  predicate Inv(st: State) {
    && Nested(ListTags(st.out), st.inList)
    && !(st.inList && st.inTable)
    && (!st.inTable ==> st.rows == [] && !st.hasHeader)
  }

  lemma ListTagsPush(out: seq<string>, p: string)
    ensures ListTags(out + [p]) == ListTags(out) + (if IsListTag(p) then [p] else [])
  {
    assert (out + [p])[..|out|] == out;
  }

  /** A piece whose second character is none of `u`, `o`, `/` is no list tag. */
  lemma NotListTag(p: string)
    requires |p| < 2 || (p[1] != 'u' && p[1] != 'o' && p[1] != '/')
    ensures !IsListTag(p)
  {
  }

  lemma PushOther(out: seq<string>, p: string)
    requires |p| < 2 || (p[1] != 'u' && p[1] != 'o' && p[1] != '/')
    ensures ListTags(out + [p]) == ListTags(out)
  {
    NotListTag(p);
    ListTagsPush(out, p);
  }

  /** With a list open, `findLastListTag` finds the tag that opened it. */
  lemma {:induction false} LastOpenIsOpenList(out: seq<string>)
    requires Nested(ListTags(out), true)
    ensures LastListOpen(out) == ListTags(out)[|ListTags(out)| - 1]
    decreases |out|
  {
    var n := |out|;
    var init := out[..n - 1];
    assert out == init + [out[n - 1]];
    ListTagsPush(init, out[n - 1]);
    if !IsListOpen(out[n - 1]) {
      assert !IsListTag(out[n - 1]);
      assert ListTags(out) == ListTags(init);
      LastOpenIsOpenList(init);
    }
  }

  /** Closing the open list pairs it off. */
  lemma EndListPairs(st: State)
    requires Nested(ListTags(st.out), st.inList)
    ensures Paired(ListTags(EndList(st).out))
  {
    if st.inList {
      var tags := ListTags(st.out);
      LastOpenIsOpenList(st.out);
      var c := CloseOf(LastListOpen(st.out));
      ListTagsPush(st.out, c);
      var tags' := tags + [c];
      assert tags'[..|tags'| - 2] == tags[..|tags| - 1];
    }
  }

  lemma FlushTableKeepsTags(st: State)
    ensures ListTags(FlushTable(st).out) == ListTags(st.out)
  {
    if st.inTable {
      var b := BuildTable(st.rows, st.hasHeader);
      if b != [] { TableOpenStart(); assert b[1] == TableOpen[1]; }
      PushOther(st.out, b);
    }
  }

  lemma TableOpenStart()
    ensures |TableOpen| > 1 && TableOpen[1] == 'd'
  {
    assert TableOpen[1] == TableDiv[1];
  }

  /** Opening a list after paired ones. */
  lemma OpenList(out: seq<string>, open: string)
    requires Paired(ListTags(out)) && IsListOpen(open)
    ensures Nested(ListTags(out + [open]), true)
  {
    ListTagsPush(out, open);
    assert (ListTags(out) + [open])[..|ListTags(out)|] == ListTags(out);
  }

  lemma HeadingNotListTag(level: nat, text: string)
    ensures ListTags([HeadingHtml(level, text)]) == []
  {
    PushOther([], HeadingHtml(level, text));
  }

  /** Every line keeps the invariant. */
  lemma StepInv(st: State, line: string)
    requires Inv(st)
    ensures Inv(Step(st, line))
  {
    var k := Classify(line);
    if k.Rule? {
      RuleStep(st);
    } else if k.TableRow? {
      TableStep(st, line);
    } else if k.Heading? {
      HeadingStep(st, line);
    } else if k.Bullet? {
      ItemStep(st, k.text, "<ul>");
    } else if k.Numbered? {
      ItemStep(st, k.text, "<ol>");
    } else if k.Blank? {
      FlushTableKeepsTags(st);
      EndListPairs(FlushTable(st));
    } else {
      ParagraphStep(st, line);
    }
  }

  lemma TableStep(st: State, line: string)
    requires Inv(st) && Classify(line).TableRow?
    ensures Inv(Step(st, line))
  {
    if !st.inTable { EndListPairs(st); }
  }

  lemma HeadingStep(st: State, line: string)
    requires Inv(st) && Classify(line).Heading?
    ensures Inv(Step(st, line))
  {
    var k := Classify(line);
    var piece := HeadingHtml(k.level, k.text);
    assert Step(st, line) == Push(EndList(FlushTable(st)), piece);
    ClosingStep(st, piece);
  }

  lemma ParagraphStep(st: State, line: string)
    requires Inv(st) && Classify(line).Paragraph?
    ensures Inv(Step(st, line))
  {
    ClosingStep(st, ParagraphHtml(line));
  }

  lemma RuleStep(st: State)
    requires Inv(st)
    ensures Inv(Push(FlushTable(EndList(st)), "<hr>"))
  {
    var s1 := EndList(st);
    EndListPairs(st);
    FlushTableKeepsTags(s1);
    PushOther(FlushTable(s1).out, "<hr>");
  }

  /** A heading or paragraph: the table is flushed, the list closed, the piece pushed. */
  lemma ClosingStep(st: State, piece: string)
    requires Inv(st)
    requires |piece| < 2 || (piece[1] != 'u' && piece[1] != 'o' && piece[1] != '/')
    ensures Inv(Push(EndList(FlushTable(st)), piece))
  {
    var s1 := FlushTable(st);
    FlushTableKeepsTags(st);
    EndListPairs(s1);
    PushOther(EndList(s1).out, piece);
  }

  /** An item opens a list of the given kind only when none is open. */
  lemma {:induction false} ItemStep(st: State, text: string, open: string)
    requires Inv(st) && IsListOpen(open)
    ensures var s1 := FlushTable(st);
            var s2 := if s1.inList then s1 else Push(s1, open).(inList := true);
            Inv(Push(s2, ItemHtml(text)))
  {
    var s1 := FlushTable(st);
    FlushTableKeepsTags(st);
    var s2 := if s1.inList then s1 else Push(s1, open).(inList := true);
    if !s1.inList { OpenList(s1.out, open); }
    PushOther(s2.out, ItemHtml(text));
  }

  lemma {:induction false} RunInv(st: State, lines: seq<string>)
    requires Inv(st)
    ensures Inv(Run(st, lines))
    decreases |lines|
  {
    if lines != [] {
      StepInv(st, lines[0]);
      RunInv(Step(st, lines[0]), lines[1..]);
    }
  }

  /** Every list the renderer opens is closed, by the tag that matches the one that opened it. */
  lemma ListsBalanced(text: string)
    ensures Paired(ListTags(RenderPieces(text)))
  {
    RunInv(Start, Split(text, '\n'));
    var st := Run(Start, Split(text, '\n'));
    EndListPairs(st);
    FlushTableKeepsTags(EndList(st));
  }

  /* ---------- what one line does ---------- */

  /** A rule closes the open list, flushes the table and ends the output with `<hr>`. */
  lemma RuleLine(st: State, line: string)
    requires IsRule(line)
    ensures var r := Step(st, line);
            !r.inList && !r.inTable && |r.out| > 0 && r.out[|r.out| - 1] == "<hr>"
  {
  }

  /** A blank line flushes a pending table, closes an open list, and adds nothing else. */
  lemma BlankLine(st: State, line: string)
    requires Classify(line).Blank?
    ensures var r := Step(st, line);
            var flushed := if st.inTable then st.out + [BuildTable(st.rows, st.hasHeader)] else st.out;
            && !r.inList && !r.inTable
            && r.out == (if st.inList then flushed + [CloseOf(LastListOpen(flushed))] else flushed)
  {
  }

  /**
   * A paragraph line flushes a pending table, closes an open list, and adds
   * exactly one `<p>` piece with the line's inline text.
   */
  lemma ParagraphLine(st: State, line: string)
    requires Classify(line).Paragraph?
    ensures var r := Step(st, line);
            var flushed := if st.inTable then st.out + [BuildTable(st.rows, st.hasHeader)] else st.out;
            && !r.inList && !r.inTable
            && r.out == (if st.inList then flushed + [CloseOf(LastListOpen(flushed))] else flushed)
                          + ["<p>" + Inline(line) + "</p>"]
  {
    ParagraphHtmlIs(line);
  }

  lemma ParagraphHtmlIs(line: string)
    ensures ParagraphHtml(line) == "<p>" + Inline(line) + "</p>"
  {
    var inner := Inline(line);
    assert "<" + "p" + ">" == "<p>" && "</" + "p" + ">" == "</p>";
    assert Element("p", inner) == "<p>" + inner + "</p>";
  }

  /**
   * An ordered item under an open list only adds its `<li>`: it continues the
   * list that is open, even an unordered one.
   */
  lemma {:induction false} OrderedItemContinuesList(st: State, line: string)
    requires Classify(line).Numbered? && st.inList
    ensures var r := Step(st, line);
            var flushed := if st.inTable then st.out + [BuildTable(st.rows, st.hasHeader)] else st.out;
            r.inList && !r.inTable && r.out == flushed + [ItemHtml(Classify(line).text)]
            && LastListOpen(r.out) == LastListOpen(st.out)
  {
    var item := ItemHtml(Classify(line).text);
    var s1 := FlushTable(st);
    assert Step(st, line) == Push(s1, item);
    if st.inTable {
      TableIsNoListOpen(st.rows, st.hasHeader);
      LastOpenAfterPiece(st.out, BuildTable(st.rows, st.hasHeader));
    }
    assert LastListOpen(s1.out) == LastListOpen(st.out);
    LastOpenAfterPiece(s1.out, item);
  }

  /** A piece that opens no list leaves the last opened list as it was. */
  lemma LastOpenAfterPiece(out: seq<string>, p: string)
    requires !IsListOpen(p)
    ensures LastListOpen(out + [p]) == LastListOpen(out)
  {
    assert (out + [p])[..|out|] == out;
  }

  /** A table's markup is never a list opening. */
  lemma TableIsNoListOpen(rows: seq<seq<string>>, hasHeader: bool)
    ensures !IsListOpen(BuildTable(rows, hasHeader))
  {
    var t := BuildTable(rows, hasHeader);
    if rows != [] {
      assert t[..|TableOpen|] == TableOpen;
      assert |t| > 4 && t[1] == TableOpen[1];
    }
  }

  /** Table rows gather: a non-separator row is appended, a separator marks the header; nothing is output. */
  lemma TableRowLine(st: State, line: string)
    requires Classify(line).TableRow? && st.inTable
    ensures var r := Step(st, line);
            var cells := Classify(line).cells;
            r.out == st.out && r.inTable
            && (IsSeparatorRow(cells) ==> r.hasHeader && r.rows == st.rows)
            && (!IsSeparatorRow(cells) ==> r.hasHeader == st.hasHeader && r.rows == st.rows + [cells])
  {
  }

  /** No text renders as nothing. */
  lemma EmptyRendersEmpty()
    ensures Transform(None) == [] && Transform(Some([])) == []
  {
  }
}

=== FILE: response_text.dfy ===
/**
 * How the tutor turns one raw completion into the English and Hebrew text it
 * displays: the `BLOCKS:` tail and stray block tags are cut off, the rest is
 * split into an English and a Hebrew part by one of three tiers (bracketed
 * `English: [..] Hebrew: [..]`, a line that starts with `Hebrew:`, or all of
 * it as English), and each part has its protocol artifacts removed.
 *
 * Every regular expression is written out as a matcher with the same
 * leftmost-match and greedy/lazy choices the JavaScript engine makes.
 */
module ResponseText {
  import opened Text
  import opened Blocks

  /** The four tags the display side cuts at. */
  const DisplayTags: seq<string> := ["[GRAMMAR]", "[USAGE]", "[WARNING]", "[PRACTICE]"]

  /** Every tag that opens a learning block. */
  const BlockTags: seq<string> := ["[GRAMMAR]", "[USAGE]", "[WARNING]", "[PRACTICE]", "[VOCABULARY]"]

  /** The field markers of a learning block. */
  const FieldMarkers: seq<string> := ["EN:", "HE:", "EX:"]

  /** No word of the list is empty, starts with whitespace or holds a newline. */
  predicate LineWords(ws: seq<string>) {
    forall t :: 0 <= t < |ws| ==> |ws[t]| > 0 && !IsSpace(ws[t][0]) && '\n' !in ws[t]
  }

  lemma ProtocolWordsAreLineWords()
    ensures LineWords(DisplayTags) && LineWords(BlockTags) && LineWords(FieldMarkers)
  {
  }

  /* ---------- the position of a pattern ---------- */

  /** The patterns the parser searches for. */
  datatype Pattern =
    | Opener                             // `BLOCKS:`, whitespace, `[`
    | ClosedOpener                       // an opener whose `[` precedes the final `]` of the text
    | Words(words: seq<string>, ci: bool) // any of the words, ASCII case-insensitive with `ci`

  /** The patterns whose matches do not depend on what follows them. */
  predicate Local(pat: Pattern) {
    pat.Opener? || (pat.Words? && LineWords(pat.words))
  }

  /** `BLOCKS:` at `q`, then optional whitespace, then `[`. */
  predicate OpenerAt(s: string, q: nat) {
    LitAt(s, q, "BLOCKS:", false) && SkipSpace(s, q + 7) < |s| && s[SkipSpace(s, q + 7)] == '['
  }

  /** The text ends, up to trailing whitespace, with a `]` at index `e`. */
  predicate EndsWithBracketAt(s: string, e: nat) {
    e < |s| && s[e] == ']' && forall k :: e < k < |s| ==> IsSpace(s[k])
  }

  /** The index of the final `]` of the text, when its last non-whitespace character is one. */
  function FinalBracket(s: string): (r: Option<nat>)
    ensures r.Some? ==> EndsWithBracketAt(s, r.value)
    ensures r.None? ==> forall e: nat :: !EndsWithBracketAt(s, e)
  {
    var t := SpaceRunStart(s, |s|);
    if t > 0 && s[t - 1] == ']' then Some(t - 1)
    else
      assert forall e: nat | EndsWithBracketAt(s, e) :: t > 0 && e == t - 1 by {
        forall e: nat | EndsWithBracketAt(s, e) ensures t > 0 && e == t - 1 {
          EndsWithBracketUnique(s, e, t);
        }
      }
      None
  }

  /** The `]` that ends a text sits just before its trailing whitespace run. */
  lemma EndsWithBracketUnique(s: string, e: nat, t: nat)
    requires EndsWithBracketAt(s, e)
    requires t <= |s| && (forall k :: t <= k < |s| ==> IsSpace(s[k])) && (t > 0 ==> !IsSpace(s[t - 1]))
    ensures t > 0 && e == t - 1
  {
    assert !IsSpace(s[e]);
    assert t > 0 && e < t;
    assert !IsSpace(s[t - 1]);
  }

  /** At most one index ends the text with `]`. */
  lemma FinalBracketIs(s: string, e: nat)
    requires EndsWithBracketAt(s, e)
    ensures FinalBracket(s) == Some(e)
  {
    EndsWithBracketUnique(s, e, SpaceRunStart(s, |s|));
  }

  /** `BLOCKS:\s*\[[\s\S]*\]\s*$` starts its `BLOCKS:` at `q`. */
  predicate ClosedOpenerAt(s: string, q: nat) {
    OpenerAt(s, q) && FinalBracket(s).Some? && FinalBracket(s).value > SkipSpace(s, q + 7)
  }

  predicate MatchAt(s: string, pat: Pattern, q: nat) {
    match pat
    case Opener => OpenerAt(s, q)
    case ClosedOpener => ClosedOpenerAt(s, q)
    case Words(ws, ci) => AnyAt(s, q, ws, ci)
  }

  /** A match begins with a character that is neither whitespace nor a newline, so it starts inside the text. */
  lemma MatchStart(s: string, pat: Pattern, q: nat)
    requires pat.Words? ==> LineWords(pat.words)
    ensures MatchAt(s, pat, q) ==> q < |s| && !IsSpace(s[q])
  {
    if MatchAt(s, pat, q) {
      match pat
      case Opener =>
        assert CharEq(s[q + 0], "BLOCKS:"[0], false);
      case ClosedOpener =>
        assert CharEq(s[q + 0], "BLOCKS:"[0], false);
      case Words(ws, ci) =>
        var t :| 0 <= t < |ws| && LitAt(s, q, ws[t], ci);
        assert CharEq(s[q + 0], ws[t][0], ci);
        CharEqNewline(s[q], ws[t][0], ci);
    }
  }

  /** The first position at or after `i` where the pattern matches. */
  function FirstMatch(s: string, pat: Pattern, i: nat): (r: Option<nat>)
    requires i <= |s|
    ensures r.Some? ==> i <= r.value <= |s| && MatchAt(s, pat, r.value)
    ensures r.Some? ==> forall k :: i <= k < r.value ==> !MatchAt(s, pat, k)
    ensures r.None? ==> forall k :: i <= k <= |s| ==> !MatchAt(s, pat, k)
    decreases |s| - i
  {
    if MatchAt(s, pat, i) then Some(i)
    else if i == |s| then None
    else FirstMatch(s, pat, i + 1)
  }

  /** An opener or a word inside a slice is one in the whole text. */
  lemma MatchSlice(s: string, a: nat, b: nat, pat: Pattern, k: nat)
    requires a <= b <= |s| && Local(pat)
    ensures MatchAt(s[a..b], pat, k) ==> MatchAt(s, pat, a + k) && k < b - a
  {
    MatchStart(s[a..b], pat, k);
    if MatchAt(s[a..b], pat, k) {
      match pat
      case Opener =>
        LitAtSlice(s, a, b, k, "BLOCKS:", false);
        SkipSpaceSlice(s, a, b, k + 7);
      case Words(ws, ci) =>
        var t :| 0 <= t < |ws| && LitAt(s[a..b], k, ws[t], ci);
        LitAtSlice(s, a, b, k, ws[t], ci);
    }
  }

  /** The text holds no match of the pattern. */
  predicate NoMatch(r: string, pat: Pattern) {
    forall k :: 0 <= k <= |r| ==> !MatchAt(r, pat, k)
  }

  /** A stretch of the text in which no match starts has no match as a slice. */
  lemma NoMatchBetween(s: string, a: nat, b: nat, pat: Pattern)
    requires a <= b <= |s| && Local(pat)
    requires forall k :: a <= k < b ==> !MatchAt(s, pat, k)
    ensures NoMatch(s[a..b], pat)
  {
    forall k | 0 <= k <= b - a ensures !MatchAt(s[a..b], pat, k) {
      MatchSlice(s, a, b, pat, k);
    }
  }

  /** A text without a match keeps that property in every slice. */
  lemma NoMatchSlice(s: string, a: nat, b: nat, pat: Pattern)
    requires a <= b <= |s| && Local(pat)
    requires NoMatch(s, pat)
    ensures NoMatch(s[a..b], pat)
  {
    NoMatchBetween(s, a, b, pat);
  }

  /** Joining two texts without a line word at a newline creates none. */
  lemma NoMatchConcat(x: string, y: string, ws: seq<string>, ci: bool)
    requires LineWords(ws)
    requires NoMatch(x, Words(ws, ci)) && NoMatch(y, Words(ws, ci))
    requires y == [] || y[0] == '\n'
    ensures NoMatch(x + y, Words(ws, ci))
  {
    forall j | 0 <= j <= |x + y| ensures !AnyAt(x + y, j, ws, ci) {
      forall t | 0 <= t < |ws| ensures !LitAt(x + y, j, ws[t], ci) {
        if LitAt(x + y, j, ws[t], ci) {
          assert j <= |x| ==> !MatchAt(x, Words(ws, ci), j);
          assert j >= |x| ==> !MatchAt(y, Words(ws, ci), j - |x|);
          LitAtConcat(x, y, j, ws[t], ci);
        }
      }
    }
  }

  /**
   * `s.replace(/\n?\s*PATTERN[\s\S]*$/, '')`: everything from the whitespace
   * run before the first match of the pattern is cut off.
   */
  function Cut(s: string, pat: Pattern): (r: string)
    requires pat.Words? ==> LineWords(pat.words)
    ensures |r| <= |s| && r == s[..|r|]
    ensures r != s ==> MatchAt(s, pat, SkipSpace(s, |r|))
    ensures r != s && |r| > 0 ==> !IsSpace(s[|r| - 1])
    ensures r != s ==> forall k :: 0 <= k < SkipSpace(s, |r|) ==> !MatchAt(s, pat, k)
    ensures r == s ==> forall k :: 0 <= k <= |s| ==> !MatchAt(s, pat, k)
  {
    match FirstMatch(s, pat, 0)
    case None => s
    case Some(q) =>
      var p := SpaceRunStart(s, q);
      MatchStart(s, pat, q);
      SkipSpaceIs(s, p, q);
      s[..p]
  }

  /**
   * A leading optional newline and whitespace run make the match start at the
   * beginning of the whitespace that precedes the pattern.
   */
  predicate MatchStartsAt(s: string, pat: Pattern, p: nat) {
    exists q :: p <= q <= |s| && (forall k :: p <= k < q ==> IsSpace(s[k])) && MatchAt(s, pat, q)
  }

  /** The cut point is the least `p` from which only whitespace leads to a match. */
  lemma CutIsLeftmostMatch(s: string, pat: Pattern)
    requires pat.Words? ==> LineWords(pat.words)
    ensures Cut(s, pat) != s ==> MatchStartsAt(s, pat, |Cut(s, pat)|)
    ensures forall p :: 0 <= p < |Cut(s, pat)| ==> !MatchStartsAt(s, pat, p)
  {
    var c := Cut(s, pat);
    forall p | 0 <= p < |c| ensures !MatchStartsAt(s, pat, p) {
      forall q | p <= q <= |s| && (forall k :: p <= k < q ==> IsSpace(s[k]))
        ensures !MatchAt(s, pat, q)
      {
        if c != s {
          assert p <= |c| - 1;
        }
      }
    }
  }

  /** After a cut, no opener or word of the cut pattern is left. */
  lemma CutRemovesPattern(s: string, pat: Pattern)
    requires Local(pat)
    ensures NoMatch(Cut(s, pat), pat)
  {
    var c := Cut(s, pat);
    assert s[0..|c|] == c;
    NoMatchBetween(s, 0, |c|, pat);
  }

  /* ---------- the text before splitting ---------- */

  /**
   * The completion with its blocks section cut off: the closed `BLOCKS: [..]`
   * tail, then an unclosed `BLOCKS: [` tail, then everything from the first
   * display tag, and finally trimmed.
   */
  function CleanedText(s: string): (r: string)
    ensures IsTrimmed(r)
  {
    ProtocolWordsAreLineWords();
    Trim(Cut(Cut(Cut(s, ClosedOpener), Opener), Words(DisplayTags, true)))
  }

  /** The cleaned text is a trimmed prefix of the completion with no blocks opener and no display tag. */
  lemma CleanedTextFacts(s: string)
    ensures exists n :: 0 <= n <= |s| && CleanedText(s) == Trim(s[..n])
    ensures NoMatch(CleanedText(s), Opener) && NoMatch(CleanedText(s), Words(DisplayTags, true))
  {
    CleanedTextPrefix(s);
    CleanedTextClean(s);
  }

  lemma CleanedTextPrefix(s: string)
    ensures exists n :: 0 <= n <= |s| && CleanedText(s) == Trim(s[..n])
  {
    ProtocolWordsAreLineWords();
    var c1 := Cut(s, ClosedOpener);
    var c2 := Cut(c1, Opener);
    var c3 := Cut(c2, Words(DisplayTags, true));
    PrefixOfPrefix(s, c1, c2);
    PrefixOfPrefix(s, c2, c3);
    assert CleanedText(s) == Trim(s[..|c3|]);
  }

  lemma PrefixOfPrefix(a: string, b: string, c: string)
    requires |b| <= |a| && b == a[..|b|] && |c| <= |b| && c == b[..|c|]
    ensures c == a[..|c|]
  {
  }

  lemma CleanedTextClean(s: string)
    ensures NoMatch(CleanedText(s), Opener) && NoMatch(CleanedText(s), Words(DisplayTags, true))
  {
    ProtocolWordsAreLineWords();
    var c1 := Cut(s, ClosedOpener);
    var c2 := Cut(c1, Opener);
    var c3 := Cut(c2, Words(DisplayTags, true));
    CutRemovesPattern(c1, Opener);
    CutRemovesPattern(c2, Words(DisplayTags, true));
    assert c2[0..|c3|] == c3;
    NoMatchSlice(c2, 0, |c3|, Opener);
    TrimKeepsNoMatch(c3, Opener);
    TrimKeepsNoMatch(c3, Words(DisplayTags, true));
  }

  /* ---------- removing protocol artifacts from a display text ---------- */

  /** The two global line strips of the display cleaner. */
  datatype LineKind = TagLine | FieldLine

  function KindWords(k: LineKind): seq<string> {
    if k == TagLine then BlockTags else FieldMarkers
  }

  function KindPattern(k: LineKind): (r: Pattern)
    ensures Local(r)
  {
    ProtocolWordsAreLineWords();
    Words(KindWords(k), k == TagLine)
  }

  /**
   * Where a strip that found its word at `q` stops: a tag is removed with the
   * rest of its line (`\[TAG\][^\n]*`); a field marker first swallows the
   * whitespace after it, newlines included, and then the rest of that line
   * (`(EN|HE|EX):\s*[^\n]*`).
   */
  function MatchEnd(s: string, q: nat, k: LineKind): (r: nat)
    requires q < |s| && s[q] != '\n'
    ensures q < r <= |s|
    ensures r == |s| || s[r] == '\n'
  {
    if k == TagLine then NextNewline(s, q)
    else NextNewline(s, SkipSpace(s, if q + 3 <= |s| then q + 3 else |s|))
  }

  /** The start of a removed match: the whitespace before the word, but not before `i`. */
  function StripStart(s: string, i: nat, q: nat): (r: nat)
    requires i <= q <= |s|
    ensures i <= r <= q
  {
    if SpaceRunStart(s, q) < i then i else SpaceRunStart(s, q)
  }

  /**
   * `s.replace(/\n?\s*WORD…/g, '')` from position `i`: each match starts at
   * the whitespace run before the next word (but not before `i`, where the
   * previous match ended) and runs to `MatchEnd`.
   */
  function Strip(s: string, k: LineKind, i: nat): (r: string)
    requires i <= |s|
    ensures |r| <= |s| - i
    decreases |s| - i
  {
    match FirstMatch(s, KindPattern(k), i)
    case None => s[i..]
    case Some(q) =>
      MatchStart(s, KindPattern(k), q);
      s[i..StripStart(s, i, q)] + Strip(s, k, MatchEnd(s, q, k))
  }

  /** What follows a removed match begins with the newline the match stopped at. */
  lemma {:induction false} StripStartsAtNewline(s: string, k: LineKind, i: nat)
    requires i <= |s|
    requires i == |s| || s[i] == '\n'
    ensures Strip(s, k, i) == [] || Strip(s, k, i)[0] == '\n'
    decreases |s| - i
  {
    var f := FirstMatch(s, KindPattern(k), i);
    if f.Some? {
      var q := f.value;
      MatchStart(s, KindPattern(k), q);
      var p := StripStart(s, i, q);
      var m := MatchEnd(s, q, k);
      StripStep(s, k, i, q);
      StripStartsAtNewline(s, k, m);
      NewlineFirst(s[i..p], Strip(s, k, m));
    }
  }

  /** One removed match: the text before it, then the strip from where it ends. */
  lemma StripStep(s: string, k: LineKind, i: nat, q: nat)
    requires i <= |s| && FirstMatch(s, KindPattern(k), i) == Some(q) && q < |s| && s[q] != '\n'
    ensures Strip(s, k, i) == s[i..StripStart(s, i, q)] + Strip(s, k, MatchEnd(s, q, k))
  {
  }

  /** Two pieces that each start with a newline, or are empty, join into one that does too. */
  lemma NewlineFirst(a: string, b: string)
    requires a == [] || a[0] == '\n'
    requires b == [] || b[0] == '\n'
    ensures a + b == [] || (a + b)[0] == '\n'
  {
    if a != [] {
      assert (a + b)[0] == a[0];
    } else {
      assert a + b == b;
    }
  }

  /** The strip leaves no occurrence of its own words. */
  lemma {:induction false} StripRemovesWords(s: string, k: LineKind, i: nat)
    requires i <= |s|
    ensures NoMatch(Strip(s, k, i), KindPattern(k))
    decreases |s| - i
  {
    var pat := KindPattern(k);
    match FirstMatch(s, pat, i)
    case None =>
      NoMatchBetween(s, i, |s|, pat);
      assert s[i..] == s[i..|s|];
    case Some(q) =>
      MatchStart(s, pat, q);
      var p := StripStart(s, i, q);
      var m := MatchEnd(s, q, k);
      StripStep(s, k, i, q);
      NoMatchBetween(s, i, p, pat);
      StripRemovesWords(s, k, m);
      StripStartsAtNewline(s, k, m);
      NoMatchConcat(s[i..p], Strip(s, k, m), pat.words, pat.ci);
  }

  /** The strip creates no occurrence of a line word that the text did not hold. */
  lemma {:induction false} StripKeepsAbsent(s: string, k: LineKind, i: nat, ws: seq<string>, ci: bool)
    requires i <= |s| && LineWords(ws)
    requires NoMatch(s, Words(ws, ci))
    ensures NoMatch(Strip(s, k, i), Words(ws, ci))
    decreases |s| - i
  {
    match FirstMatch(s, KindPattern(k), i)
    case None =>
      NoMatchSlice(s, i, |s|, Words(ws, ci));
      assert s[i..] == s[i..|s|];
    case Some(q) =>
      MatchStart(s, KindPattern(k), q);
      var p := StripStart(s, i, q);
      var m := MatchEnd(s, q, k);
      StripStep(s, k, i, q);
      NoMatchSlice(s, i, p, Words(ws, ci));
      StripKeepsAbsent(s, k, m, ws, ci);
      StripStartsAtNewline(s, k, m);
      NoMatchConcat(s[i..p], Strip(s, k, m), ws, ci);
  }

  /** A strip finds nothing to remove in a text without its words. */
  lemma StripOfPlain(s: string, k: LineKind)
    requires NoMatch(s, KindPattern(k))
    ensures Strip(s, k, 0) == s
  {
    assert FirstMatch(s, KindPattern(k), 0).None?;
  }

  /** The text is trimmed and holds no block tag and no field marker. */
  predicate DisplayReady(t: string) {
    IsTrimmed(t) && NoMatch(t, Words(FieldMarkers, false)) && NoMatch(t, Words(BlockTags, true))
  }

  /**
   * `cleanDisplayText`: cut an unclosed blocks tail, delete every tag line and
   * every `EN:`/`HE:`/`EX:` field, and trim.
   */
  function CleanDisplay(t: string): (r: string)
    ensures DisplayReady(r)
    ensures |r| <= |t|
  {
    var y := StripArtifacts(t);
    TrimKeepsNoMatch(y, Words(FieldMarkers, false));
    TrimKeepsNoMatch(y, Words(BlockTags, true));
    Trim(y)
  }

  /** The three removals of `cleanDisplayText`, before the final trim. */
  function StripArtifacts(t: string): (r: string)
    ensures NoMatch(r, Words(FieldMarkers, false)) && NoMatch(r, Words(BlockTags, true))
    ensures |r| <= |t|
  {
    ProtocolWordsAreLineWords();
    var y1 := Cut(t, Opener);
    var y2 := Strip(y1, TagLine, 0);
    StripRemovesWords(y1, TagLine, 0);
    StripRemovesWords(y2, FieldLine, 0);
    StripKeepsAbsent(y2, FieldLine, 0, BlockTags, true);
    Strip(y2, FieldLine, 0)
  }

  /** Trimming keeps a text free of openers and words. */
  lemma TrimKeepsNoMatch(s: string, pat: Pattern)
    requires Local(pat) && NoMatch(s, pat)
    ensures NoMatch(Trim(s), pat)
  {
    var a := SkipSpace(s, 0);
    NoMatchSlice(s, a, a + |Trim(s)|, pat);
  }

  /** A text without blocks tail, tags or fields is only trimmed. */
  lemma CleanDisplayOfPlain(t: string)
    requires NoMatch(t, Opener)
    requires NoMatch(t, Words(BlockTags, true)) && NoMatch(t, Words(FieldMarkers, false))
    ensures CleanDisplay(t) == Trim(t)
  {
    ProtocolWordsAreLineWords();
    assert Cut(t, Opener) == t;
    StripOfPlain(t, TagLine);
    assert StripArtifacts(t) == Strip(Strip(t, TagLine, 0), FieldLine, 0);
    StripOfPlain(t, FieldLine);
  }

  /** `.replace(/^\s*\[/, '')`. */
  function DropOpenBracket(s: string): (r: string)
    ensures r == s || (SkipSpace(s, 0) < |s| && s[SkipSpace(s, 0)] == '[' && r == s[SkipSpace(s, 0) + 1..])
  {
    var j := SkipSpace(s, 0);
    if j < |s| && s[j] == '[' then s[j + 1..] else s
  }

  /** `.replace(/\]\s*$/, '')`. */
  function DropCloseBracket(s: string): (r: string)
    ensures r == s || (FinalBracket(s).Some? && r == s[..FinalBracket(s).value])
  {
    match FinalBracket(s)
    case None => s
    case Some(e) => s[..e]
  }

  /** `stripBrackets`: one leading `[` and one trailing `]` removed, then trimmed. */
  function StripBrackets(s: string): (r: string)
    ensures IsTrimmed(r)
  {
    Trim(DropCloseBracket(DropOpenBracket(s)))
  }

  /** Brackets around a trimmed text are exactly what `stripBrackets` removes. */
  lemma StripBracketsOfBracketed(x: string, lead: string, trail: string)
    requires IsTrimmed(x) && AllSpace(lead) && AllSpace(trail)
    ensures StripBrackets(lead + "[" + x + "]" + trail) == x
  {
    var s := lead + "[" + x + "]" + trail;
    assert forall k :: 0 <= k < |lead| ==> s[k] == lead[k];
    assert s[|lead|] == '[';
    SkipSpaceIs(s, 0, |lead|);
    var u := x + "]" + trail;
    assert s[|lead| + 1..] == u;
    assert DropOpenBracket(s) == u;
    assert forall k :: |x| < k < |u| ==> u[k] == trail[k - |x| - 1];
    FinalBracketIs(u, |x|);
    assert u[..|x|] == x;
    TrimOfTrimmed(x);
  }

  /** Without surrounding brackets `stripBrackets` is `trim`. */
  lemma StripBracketsOfPlain(s: string)
    requires SkipSpace(s, 0) == |s| || s[SkipSpace(s, 0)] != '['
    requires FinalBracket(s).None?
    ensures StripBrackets(s) == Trim(s)
  {
  }

  /** Drops a leading `English:` label (any case) with the whitespace around it. */
  function DropEnglishLabel(s: string): (r: string)
    ensures r == s || (LitAt(s, SkipSpace(s, 0), "English:", true) && r == s[SkipSpace(s, SkipSpace(s, 0) + 8)..])
  {
    var j := SkipSpace(s, 0);
    if LitAt(s, j, "English:", true) then s[SkipSpace(s, j + 8)..] else s
  }

  /* ---------- the bracket tier ---------- */

  /** `English:`, whitespace, `[` at `p`. */
  predicate EnglishOpenAt(s: string, p: nat) {
    LitAt(s, p, "English:", false) && SkipSpace(s, p + 8) < |s| && s[SkipSpace(s, p + 8)] == '['
  }

  /** The `[` after `Hebrew:` that follows the `]` at `b`. */
  function HebrewBracket(s: string, b: nat): nat
    requires b < |s| && LitAt(s, SkipSpace(s, b + 1), "Hebrew:", false)
  {
    SkipSpace(s, SkipSpace(s, b + 1) + 7)
  }

  /**
   * At `b` the text continues `]`, whitespace, `Hebrew:`, whitespace, `[`, and
   * after that `[` comes the final `]` of the text:
   * `\]\s*Hebrew:\s*\[([\s\S]*)\]\s*$`.
   */
  predicate HebrewTailAt(s: string, b: nat) {
    b < |s| && s[b] == ']' && LitAt(s, SkipSpace(s, b + 1), "Hebrew:", false)
    && HebrewBracket(s, b) < |s| && s[HebrewBracket(s, b)] == '['
    && FinalBracket(s).Some? && FinalBracket(s).value > HebrewBracket(s, b)
  }

  /** `English:\s*\[([\s\S]*)\]\s*Hebrew:\s*\[([\s\S]*)\]\s*$` with `English:` at `p` and the first group ending at `b`. */
  predicate BracketMatch(s: string, p: nat, b: nat) {
    EnglishOpenAt(s, p) && SkipSpace(s, p + 8) < b && HebrewTailAt(s, b)
  }

  /** The largest `b` in `[lo, hi)` that starts a Hebrew tail: the greedy first group. */
  function LastHebrewTail(s: string, lo: nat, hi: nat): (r: Option<nat>)
    requires lo <= hi
    ensures r.Some? ==> lo <= r.value < hi && HebrewTailAt(s, r.value)
    ensures r.Some? ==> forall b: nat :: r.value < b < hi ==> !HebrewTailAt(s, b)
    ensures r.None? ==> forall b: nat :: lo <= b < hi ==> !HebrewTailAt(s, b)
    decreases hi - lo
  {
    if lo == hi then None
    else if HebrewTailAt(s, hi - 1) then Some(hi - 1)
    else LastHebrewTail(s, lo, hi - 1)
  }

  /** The lowest index at which the first group of the bracket tier may end. */
  function GroupStart(s: string, p: nat): nat
    requires EnglishOpenAt(s, p)
  {
    SkipSpace(s, p + 8) + 1
  }

  /** The greedy end of the first group for an `English: [` at `p`, if the tail matches at all. */
  function GreedyEnd(s: string, p: nat): (r: Option<nat>)
    requires EnglishOpenAt(s, p)
    ensures r.Some? ==> BracketMatch(s, p, r.value)
    ensures r.Some? ==> forall b: nat :: r.value < b ==> !BracketMatch(s, p, b)
    ensures r.None? ==> forall b: nat :: !BracketMatch(s, p, b)
  {
    LastHebrewTail(s, GroupStart(s, p), |s|)
  }

  /** The bracket pattern matches with `English:` at `p`. */
  predicate BracketMatchesAt(s: string, p: nat) {
    EnglishOpenAt(s, p) && GreedyEnd(s, p).Some?
  }

  /** The leftmost `English:` at which the bracket pattern matches. */
  function FindBracket(s: string, i: nat): (r: Option<nat>)
    requires i <= |s|
    ensures r.Some? ==> i <= r.value && BracketMatchesAt(s, r.value)
    ensures r.Some? ==> forall p: nat :: i <= p < r.value ==> !BracketMatchesAt(s, p)
    ensures r.None? ==> forall p: nat :: i <= p <= |s| ==> !BracketMatchesAt(s, p)
  {
    var flags := BracketFlags(s);
    var r := FirstTrue(flags, i);
    assert r.Some? ==> flags[r.value];
    r
  }

  /** Whether the bracket pattern matches at each position of `s`, end included. */
  function BracketFlags(s: string): (r: seq<bool>)
    ensures |r| == |s| + 1
    ensures forall p :: 0 <= p <= |s| ==> r[p] == BracketMatchesAt(s, p)
  {
    seq(|s| + 1, p requires 0 <= p <= |s| => BracketMatchesAt(s, p))
  }

  /** The pattern matches at `p` exactly when some end of the first group works. */
  lemma BracketMatchesAtIff(s: string, p: nat)
    ensures BracketMatchesAt(s, p) <==> exists b: nat :: BracketMatch(s, p, b)
  {
    if EnglishOpenAt(s, p) && GreedyEnd(s, p).Some? {
      assert BracketMatch(s, p, GreedyEnd(s, p).value);
    }
  }

  /** An `English:` past the end of the text cannot match. */
  lemma BracketMatchInside(s: string, p: nat, b: nat)
    ensures BracketMatch(s, p, b) ==> p < |s|
  {
  }

  /* ---------- the line tier ---------- */

  /**
   * `(?:^|\n)\s*Hebrew:` under the `m` flag matches with the lazy first group
   * ending at `k`: `k` is at a line start (or holds a newline), and after the
   * whitespace from `k` comes `Hebrew:`.
   */
  predicate HebrewLineAt(s: string, k: nat) {
    k <= |s|
    && (k == 0 || IsLineTerminator(s[k - 1]) || (k < |s| && s[k] == '\n'))
    && LitAt(s, SkipSpace(s, k), "Hebrew:", false)
  }

  function FirstHebrewLine(s: string, i: nat): (r: Option<nat>)
    requires i <= |s|
    ensures r.Some? ==> i <= r.value && HebrewLineAt(s, r.value)
    ensures r.Some? ==> forall k: nat :: i <= k < r.value ==> !HebrewLineAt(s, k)
    ensures r.None? ==> forall k: nat :: i <= k ==> !HebrewLineAt(s, k)
    decreases |s| - i
  {
    if HebrewLineAt(s, i) then Some(i)
    else if i == |s| then None
    else FirstHebrewLine(s, i + 1)
  }

  /* ---------- parseContent ---------- */

  /** The English and Hebrew of the bracket tier. */
  function BracketParts(c: string, p: nat, b: nat): (r: Bilingual)
    requires BracketMatch(c, p, b)
    ensures BothReady(r)
  {
    var a := SkipSpace(c, p + 8);
    var d := HebrewBracket(c, b);
    var e := FinalBracket(c).value;
    Bilingual(CleanDisplay(Trim(c[a + 1..b])), CleanDisplay(Trim(c[d + 1..e])))
  }

  /** The English and Hebrew of the line tier. */
  function LineParts(c: string, k: nat): (r: Bilingual)
    requires HebrewLineAt(c, k)
    ensures BothReady(r)
  {
    var h := SkipSpace(c, k);
    var english := StripBrackets(Trim(DropEnglishLabel(c[..k])));
    var hebrew := StripBrackets(Trim(c[SkipSpace(c, h + 7)..]));
    Bilingual(CleanDisplay(english), CleanDisplay(hebrew))
  }

  /** The last-resort tier: everything is English. */
  function AllEnglish(c: string): (r: Bilingual)
    ensures BothReady(r) && r.hebrew == []
  {
    EmptyIsReady();
    Bilingual(CleanDisplay(StripBrackets(Trim(DropEnglishLabel(c)))), [])
  }

  lemma EmptyIsReady()
    ensures DisplayReady([])
  {
    ProtocolWordsAreLineWords();
    MatchStart([], Words(FieldMarkers, false), 0);
    MatchStart([], Words(BlockTags, true), 0);
  }

  /** Both halves of a reply are ready for display. */
  predicate BothReady(r: Bilingual) {
    DisplayReady(r.english) && DisplayReady(r.hebrew)
  }

  /** `parseContent`: the displayed English and Hebrew of a completion. */
  function ParseContent(s: string): (r: Bilingual)
    ensures BothReady(r)
  {
    var c := CleanedText(s);
    match FindBracket(c, 0)
    case Some(p) => BracketParts(c, p, GreedyEnd(c, p).value)
    case None =>
      match FirstHebrewLine(c, 0)
      case Some(k) => LineParts(c, k)
      case None => AllEnglish(c)
  }

  /** The bracket tier: the leftmost `English: [` and, for it, the last `] Hebrew: [` decide the split. */
  lemma BracketTier(s: string, p: nat, b: nat)
    requires BracketMatch(CleanedText(s), p, b)
    requires forall p': nat, b': nat :: p' < p ==> !BracketMatch(CleanedText(s), p', b')
    requires forall b': nat :: b < b' ==> !BracketMatch(CleanedText(s), p, b')
    ensures ParseContent(s) == BracketParts(CleanedText(s), p, b)
  {
    var c := CleanedText(s);
    BracketMatchesAtIff(c, p);
    BracketMatchInside(c, p, b);
    var r := FindBracket(c, 0);
    assert r.Some?;
    forall p': nat | p' < p ensures !BracketMatchesAt(c, p') {
      BracketMatchesAtIff(c, p');
    }
    assert r.value == p;
    var e := GreedyEnd(c, p);
    assert e.value == b;
  }

  /** The line tier: without a bracket match, the first `Hebrew:` line splits the text. */
  lemma LineTier(s: string, k: nat)
    requires forall p: nat, b: nat :: !BracketMatch(CleanedText(s), p, b)
    requires HebrewLineAt(CleanedText(s), k)
    requires forall k': nat :: k' < k ==> !HebrewLineAt(CleanedText(s), k')
    ensures ParseContent(s) == LineParts(CleanedText(s), k)
  {
    var c := CleanedText(s);
    NoBracketMatch(c);
    var f := FirstHebrewLine(c, 0);
    assert f.Some?;
    assert f.value == k;
  }

  /** Without `English: [..] Hebrew: [..]` and without a `Hebrew:` line the whole text is English. */
  lemma AllEnglishTier(s: string)
    requires forall p: nat, b: nat :: !BracketMatch(CleanedText(s), p, b)
    requires forall k: nat :: !HebrewLineAt(CleanedText(s), k)
    ensures ParseContent(s) == AllEnglish(CleanedText(s))
    ensures ParseContent(s).hebrew == []
  {
    NoBracketMatch(CleanedText(s));
  }

  /** Without any bracket match the search finds nothing. */
  lemma NoBracketMatch(c: string)
    requires forall p: nat, b: nat :: !BracketMatch(c, p, b)
    ensures FindBracket(c, 0).None?
  {
    forall p: nat ensures !BracketMatchesAt(c, p) {
      BracketMatchesAtIff(c, p);
    }
  }

  /** Hebrew text is only ever found after a `Hebrew:` label. */
  lemma HebrewNeedsLabel(s: string)
    requires forall k: nat :: !LitAt(CleanedText(s), k, "Hebrew:", false)
    ensures ParseContent(s).hebrew == []
  {
    var c := CleanedText(s);
    forall p: nat, b: nat ensures !BracketMatch(c, p, b) {
    }
    forall k: nat ensures !HebrewLineAt(c, k) {
    }
    AllEnglishTier(s);
  }
}

=== FILE: structured_blocks.dfy ===
/**
 * `parseStructuredBlocks`: the learning blocks a completion declares in its
 * `BLOCKS: [ … ]` section. The payload is split before every block tag, each
 * segment's header gives the type and title, and its `EN:`/`HE:`/`EX:` lines
 * give the content and the examples.
 */
module StructuredBlocks {
  import opened Text
  import opened Blocks
  import opened ResponseText

  /* ---------- locating the payload ---------- */

  /** `q` is the leftmost position where a match of `pat` starts. */
  predicate FirstAt(s: string, pat: Pattern, q: nat) {
    MatchAt(s, pat, q) && forall p :: 0 <= p < q ==> !MatchAt(s, pat, p)
  }

  /** The search from the start finds exactly the leftmost match. */
  lemma FirstMatchIsFirst(s: string, pat: Pattern, q: nat)
    requires FirstAt(s, pat, q)
    ensures FirstMatch(s, pat, 0) == Some(q)
  {
    var m := FirstMatch(s, pat, 0);
    assert m.Some? && !(m.value < q) && !(q < m.value);
  }

  /**
   * `BLOCKS:\s*\[([\s\S]*)\]\s*$`: the trimmed text between the `[` of the
   * leftmost opener that precedes the final `]` and that `]`; empty without one.
   */
  function ClosedPayload(s: string): (r: string)
    ensures r != [] ==> exists q :: ClosedOpenerAt(s, q)
    ensures NoMatch(s, ClosedOpener) ==> r == []
    ensures forall q: nat :: FirstAt(s, ClosedOpener, q) ==>
              r == Trim(s[SkipSpace(s, q + 7) + 1..FinalBracket(s).value])
  {
    forall q: nat | FirstAt(s, ClosedOpener, q) ensures FirstMatch(s, ClosedOpener, 0) == Some(q) {
      FirstMatchIsFirst(s, ClosedOpener, q);
    }
    match FirstMatch(s, ClosedOpener, 0)
    case None => []
    case Some(q) => Trim(s[SkipSpace(s, q + 7) + 1..FinalBracket(s).value])
  }

  /** `BLOCKS:\s*\[([\s\S]*)$`: the trimmed text after the `[` of the leftmost opener; empty without one. */
  function OpenPayload(s: string): (r: string)
    ensures r != [] ==> exists q :: OpenerAt(s, q)
    ensures NoMatch(s, Opener) ==> r == []
    ensures forall q: nat :: FirstAt(s, Opener, q) ==> r == Trim(AfterOpener(s, q))
  {
    forall q: nat | FirstAt(s, Opener, q) ensures FirstMatch(s, Opener, 0) == Some(q) {
      FirstMatchIsFirst(s, Opener, q);
    }
    match FirstMatch(s, Opener, 0)
    case None => []
    case Some(q) => Trim(AfterOpener(s, q))
  }

  /** The text after the `[` of an opener at `q`. */
  function AfterOpener(s: string, q: nat): string
    requires OpenerAt(s, q)
  {
    s[SkipSpace(s, q + 7) + 1..]
  }

  /** `content.substring(content.lastIndexOf(']') + 1)`. */
  function AfterLastBracket(s: string): (r: string)
    ensures ']' !in r
  {
    match LastIndexOfChar(s, ']')
    case None => s
    case Some(h) => s[h + 1..]
  }

  /** The third way of finding a payload: the text after the last `]`, if it holds a display tag. */
  function TagPayload(s: string): string {
    var after := AfterLastBracket(s);
    if FirstMatch(after, Words(DisplayTags, true), 0).Some? then after else []
  }

  /** Every block tag ends with `]`, so a text without `]` holds no tag. */
  lemma NoBracketNoTag(s: string, ws: seq<string>)
    requires ']' !in s
    requires forall t :: 0 <= t < |ws| ==> |ws[t]| > 0 && ws[t][|ws[t]| - 1] == ']'
    ensures NoMatch(s, Words(ws, true))
  {
    forall k | 0 <= k <= |s| ensures !AnyAt(s, k, ws, true) {
      forall t | 0 <= t < |ws| ensures !LitAt(s, k, ws[t], true) {
        var n := |ws[t]|;
        if k + n <= |s| {
          assert s[k + (n - 1)] in s;
          assert !CharEq(s[k + (n - 1)], ws[t][n - 1], true);
        }
      }
    }
  }

  /** The third way never yields a payload: a tag after the last `]` would contain a later `]`. */
  lemma TagPayloadNeverFires(s: string)
    ensures TagPayload(s) == []
  {
    var after := AfterLastBracket(s);
    NoBracketNoTag(after, DisplayTags);
  }

  /** The block payload: the closed form, else the unclosed form, else the (unreachable) tag form. */
  function BlocksPayload(s: string): (r: string)
    ensures r != [] ==> exists q :: OpenerAt(s, q)
  {
    var p1 := ClosedPayload(s);
    if p1 != [] then p1
    else
      var p2 := OpenPayload(s);
      if p2 != [] then p2
      else
        TagPayloadNeverFires(s);
        TagPayload(s)
  }

  /** The `BLOCKS: [ … ]` section as the tutor's instructions ask for it, after some text. */
  function Section(pre: string, body: string, ws: string): string {
    pre + ("BLOCKS:" + (" [" + body + "]" + ws))
  }

  /** A word written between two texts occurs where it was written. */
  lemma LitAtJoin(x: string, w: string, y: string)
    ensures LitAt(x + (w + y), |x|, w, false)
  {
    forall t | 0 <= t < |w| ensures (x + (w + y))[|x| + t] == w[t] {
    }
  }

  /** `BLOCKS:` holds no second `B`, so no occurrence starts before a `B` and overlaps it. */
  lemma NoLabelAcross(s: string, p: nat, a: nat)
    requires p < a < p + 7 && a < |s| && s[a] == 'B'
    ensures !LitAt(s, p, "BLOCKS:", false)
  {
    assert !CharEq(s[p + (a - p)], "BLOCKS:"[a - p], false);
  }

  /** The opener the section writes is the first one of the completion. */
  lemma SectionOpener(pre: string, body: string, ws: string)
    requires forall q :: !LitAt(pre, q, "BLOCKS:", false)
    ensures var s := Section(pre, body, ws);
      && OpenerAt(s, |pre|) && SkipSpace(s, |pre| + 7) == |pre| + 8
      && forall p :: 0 <= p < |pre| ==> !OpenerAt(s, p)
  {
    var rest := " [" + body + "]" + ws;
    var s := Section(pre, body, ws);
    var a := |pre|;
    LitAtJoin(pre, "BLOCKS:", rest);
    assert s[a + 7] == rest[0] == ' ' && s[a + 8] == rest[1] == '[';
    assert SkipSpace(s, a + 7) == a + 8 by {
      assert SkipSpace(s, a + 8) == a + 8;
    }
    assert s[a] == 'B';
    forall p | 0 <= p < a ensures !LitAt(s, p, "BLOCKS:", false) {
      if LitAt(s, p, "BLOCKS:", false) {
        LitAtConcat(pre, "BLOCKS:" + rest, p, "BLOCKS:", false);
        if a < p + 7 {
          NoLabelAcross(s, p, a);
        }
      }
    }
  }

  /**
   * A completion that ends with a `BLOCKS: [ … ]` section, after text that
   * holds no `BLOCKS:` label, has the trimmed text between the brackets as
   * its payload whenever that text is not blank.
   */
  lemma SectionPayload(pre: string, body: string, ws: string)
    requires forall q :: !LitAt(pre, q, "BLOCKS:", false)
    requires AllSpace(ws)
    requires Trim(body) != []
    ensures BlocksPayload(Section(pre, body, ws)) == Trim(body)
  {
    var s := Section(pre, body, ws);
    var a := |pre|;
    var e := a + 9 + |body|;
    SectionOpener(pre, body, ws);
    assert EndsWithBracketAt(s, e) by {
      assert s[e] == ']';
      forall k | e < k < |s| ensures IsSpace(s[k]) {
        assert s[k] == ws[k - e - 1];
      }
    }
    FinalBracketIs(s, e);
    assert FirstAt(s, ClosedOpener, a);
    assert s[a + 9..e] == body;
  }

  /* ---------- splitting the payload ---------- */

  /** A block tag starts at `k`. */
  predicate TagAt(s: string, k: nat) {
    MatchAt(s, Words(BlockTags, true), k)
  }

  /**
   * `s.split(/(?=\[(?:GRAMMAR|…|VOCABULARY)\])/i)` from position `p`: a cut
   * before every tag that does not start the text.
   */
  function SplitAtTags(s: string, p: nat): (r: seq<string>)
    requires p <= |s|
    ensures |r| >= 1
    decreases |s| - p
  {
    if p == |s| then [[]]
    else
      match FirstMatch(s, Words(BlockTags, true), p + 1)
      case None => [s[p..]]
      case Some(q) =>
        ProtocolWordsAreLineWords();
        MatchStart(s, Words(BlockTags, true), q);
        [s[p..q]] + SplitAtTags(s, q)
  }

  /** Every segment but the first starts with a tag, and no segment holds a tag after its start. */
  predicate TagSegments(parts: seq<string>) {
    && (forall i :: 1 <= i < |parts| ==> TagAt(parts[i], 0))
    && (forall i, k :: 0 <= i < |parts| && 0 < k <= |parts[i]| ==> !TagAt(parts[i], k))
  }

  /** The segments put back together give the text, and they are cut exactly before the tags. */
  lemma {:induction false} SplitAtTagsParts(s: string, p: nat)
    requires p < |s|
    ensures Join(SplitAtTags(s, p), []) == s[p..]
    ensures TagSegments(SplitAtTags(s, p))
    decreases |s| - p
  {
    var m := FirstMatch(s, Words(BlockTags, true), p + 1);
    if m.None? {
      LastSegment(s, p);
    } else {
      ProtocolWordsAreLineWords();
      MatchStart(s, Words(BlockTags, true), m.value);
      SplitAtTagsParts(s, m.value);
      InnerSegment(s, p, m.value);
    }
  }

  /** With no later tag, the rest of the text is one segment. */
  lemma LastSegment(s: string, p: nat)
    requires p < |s| && FirstMatch(s, Words(BlockTags, true), p + 1).None?
    ensures Join(SplitAtTags(s, p), []) == s[p..]
    ensures TagSegments(SplitAtTags(s, p))
  {
    assert SplitAtTags(s, p) == [s[p..]];
    NoTagInside(s, p, |s|);
    assert s[p..] == s[p..|s|];
  }

  /** A tag at `q` cuts the segment `s[p..q]` off the front of the segments from `q`. */
  lemma InnerSegment(s: string, p: nat, q: nat)
    requires p < q < |s| && FirstMatch(s, Words(BlockTags, true), p + 1) == Some(q)
    requires Join(SplitAtTags(s, q), []) == s[q..] && TagSegments(SplitAtTags(s, q))
    ensures Join(SplitAtTags(s, p), []) == s[p..]
    ensures TagSegments(SplitAtTags(s, p))
  {
    var rest := SplitAtTags(s, q);
    SplitAtTagsStep(s, p, q);
    FirstPieceHasTag(s, q);
    NoTagInside(s, p, q);
    SegmentsCons(s[p..q], rest);
    JoinEmptyCons(s[p..q], rest);
    SliceAt(s, p, q);
  }

  /** A tag at `q` ends the first segment. */
  lemma SplitAtTagsStep(s: string, p: nat, q: nat)
    requires p < q < |s| && FirstMatch(s, Words(BlockTags, true), p + 1) == Some(q)
    ensures SplitAtTags(s, p) == [s[p..q]] + SplitAtTags(s, q)
  {
  }

  /** A stretch with no tag after its first character has no tag after its start as a slice either. */
  lemma NoTagInside(s: string, a: nat, b: nat)
    requires a < b <= |s|
    requires forall k :: a < k <= |s| && k < b ==> !MatchAt(s, Words(BlockTags, true), k)
    ensures forall k :: 0 < k <= |s[a..b]| ==> !TagAt(s[a..b], k)
  {
    forall k | 0 < k <= |s[a..b]| ensures !TagAt(s[a..b], k) {
      MatchSlice(s, a, b, Words(BlockTags, true), k);
    }
  }

  /** A tag-free first piece in front of segments that start with a tag keeps the segments well cut. */
  lemma SegmentsCons(first: string, rest: seq<string>)
    requires TagSegments(rest) && |rest| >= 1 && TagAt(rest[0], 0)
    requires forall k :: 0 < k <= |first| ==> !TagAt(first, k)
    ensures TagSegments([first] + rest)
  {
    var parts := [first] + rest;
    forall i | 1 <= i < |parts| ensures TagAt(parts[i], 0) {
      assert parts[i] == rest[i - 1];
    }
    forall i, k | 0 <= i < |parts| && 0 < k <= |parts[i]| ensures !TagAt(parts[i], k) {
      if i > 0 {
        assert parts[i] == rest[i - 1];
      }
    }
  }

  /** Only the first character of a block tag is `[`. */
  lemma TagBrackets()
    ensures forall t, j :: 0 <= t < |BlockTags| && 0 < j < |BlockTags[t]| ==> BlockTags[t][j] != '['
    ensures forall t :: 0 <= t < |BlockTags| ==> |BlockTags[t]| > 0 && BlockTags[t][0] == '['
  {
  }

  /** Two block tags never overlap: a tag cannot start inside another one. */
  lemma TagsDoNotOverlap(s: string, q: nat, t: nat, q2: nat)
    requires t < |BlockTags| && LitAt(s, q, BlockTags[t], true)
    requires q < q2 && TagAt(s, q2)
    ensures q2 >= q + |BlockTags[t]|
  {
    TagBrackets();
    var u :| 0 <= u < |BlockTags| && LitAt(s, q2, BlockTags[u], true);
    assert CharEq(s[q2 + 0], BlockTags[u][0], true);
    if q2 < q + |BlockTags[t]| {
      var j := q2 - q;
      assert CharEq(s[q + j], BlockTags[t][j], true);
      LowerBracket(BlockTags[t][j]);
    }
  }

  lemma LowerBracket(c: char)
    ensures Lower(c) == '[' <==> c == '['
  {
  }

  /** The segment that starts at a tag holds that whole tag. */
  lemma FirstPieceHasTag(s: string, q: nat)
    requires TagAt(s, q)
    ensures TagAt(SplitAtTags(s, q)[0], 0)
  {
    ProtocolWordsAreLineWords();
    MatchStart(s, Words(BlockTags, true), q);
    var t :| 0 <= t < |BlockTags| && LitAt(s, q, BlockTags[t], true);
    var w := BlockTags[t];
    match FirstMatch(s, Words(BlockTags, true), q + 1)
    case None =>
      assert SplitAtTags(s, q)[0] == s[q..];
      assert LitAt(s[q..], 0, w, true);
    case Some(q2) =>
      MatchStart(s, Words(BlockTags, true), q2);
      TagsDoNotOverlap(s, q, t, q2);
      assert SplitAtTags(s, q)[0] == s[q..q2];
      assert LitAt(s[q..q2], 0, w, true);
  }

  /* ---------- the header of a segment ---------- */

  /** The type and title a segment's header line declares. */
  datatype Header = Header(kind: BlockType, title: string)

  /** The block type of the tag `BlockTags[t]`; `[VOCABULARY]` counts as usage. */
  function TagKind(t: nat): BlockType
    requires t < |BlockTags|
  {
    if t == 0 then Grammar
    else if t == 2 then Warning
    else if t == 3 then Practice
    else Usage
  }

  /** At most one block tag matches at a position: their second letters differ even up to case. */
  lemma TagUnique(s: string, k: nat, t: nat, u: nat)
    requires t < |BlockTags| && u < |BlockTags|
    requires LitAt(s, k, BlockTags[t], true) && LitAt(s, k, BlockTags[u], true)
    ensures t == u
  {
    assert CharEq(s[k + 1], BlockTags[t][1], true);
    assert CharEq(s[k + 1], BlockTags[u][1], true);
  }

  /** Some character of `s` is not a line terminator, so `.+` can match somewhere. */
  predicate HasLineText(s: string) {
    exists i :: 0 <= i < |s| && !IsLineTerminator(s[i])
  }

  /**
   * `part.match(/^\[(GRAMMAR|…|VOCABULARY)\]\s*(.+)/i)`. The `\s*` may run
   * over line breaks, so the title is the rest of the first line that holds
   * anything but whitespace. When only whitespace follows, the greedy `\s*`
   * gives back one character to `.+` and the trimmed title is empty; when only
   * line terminators follow, there is no match.
   */
  function ParseHeader(part: string): (r: Option<Header>)
    ensures r.Some? ==> TagAt(part, 0)
    ensures r.Some? ==> IsTrimmed(r.value.title) && NoLineTerminator(r.value.title)
    ensures r.Some? ==> exists t :: 0 <= t < |BlockTags| && LitAt(part, 0, BlockTags[t], true) && r.value.kind == TagKind(t)
  {
    match FirstWordAt(part, 0, BlockTags, true, 0)
    case None => None
    case Some(t) =>
      assert TagAt(part, 0) by { assert AnyAt(part, 0, BlockTags, true); }
      TagHeader(part, t)
  }

  /** The header after the tag `BlockTags[t]` that starts the segment. */
  function TagHeader(part: string, t: nat): (r: Option<Header>)
    requires t < |BlockTags| && LitAt(part, 0, BlockTags[t], true)
    ensures r.Some? ==> r.value.kind == TagKind(t)
    ensures r.Some? ==> IsTrimmed(r.value.title) && NoLineTerminator(r.value.title)
  {
    var j := |BlockTags[t]|;
    var m := SkipSpace(part, j);
    if m < |part| then Some(Header(TagKind(t), LineTitle(part, m)))
    else if HasLineText(part[j..]) then Some(Header(TagKind(t), []))
    else None
  }

  /** The trimmed rest of the line that starts at `m`. */
  function LineTitle(s: string, m: nat): (r: string)
    requires m <= |s|
    ensures IsTrimmed(r) && NoLineTerminator(r)
  {
    var line := s[m..NextLineTerminator(s, m)];
    assert NoLineTerminator(line) by {
      forall k | 0 <= k < |line| ensures !IsLineTerminator(line[k]) {
        assert line[k] == s[m + k];
      }
    }
    TrimNoLineTerminator(line);
    Trim(line)
  }

  /** A segment that starts with no tag has no header. */
  lemma HeaderNeedsTag(part: string)
    requires !TagAt(part, 0)
    ensures ParseHeader(part).None?
  {
  }

  /**
   * The title is the first non-blank line after the tag, even when that line
   * is the next one: `[GRAMMAR]\nEN: x` has the title `EN: x`.
   */
  lemma HeaderTitle(t: nat, gap: string, line: string, rest: string)
    requires t < |BlockTags|
    requires AllSpace(gap) && NoLineTerminator(line) && |line| > 0 && !IsSpace(line[0])
    requires rest == [] || IsLineTerminator(rest[0])
    ensures ParseHeader(BlockTags[t] + gap + line + rest) == Some(Header(TagKind(t), Trim(line)))
  {
    var part := BlockTags[t] + gap + line + rest;
    var j := |BlockTags[t]|;
    var m := j + |gap|;
    assert LitAt(part, 0, BlockTags[t], true) by {
      forall i | 0 <= i < j ensures CharEq(part[0 + i], BlockTags[t][i], true) {
        assert part[i] == BlockTags[t][i];
      }
    }
    var u := FirstWordAt(part, 0, BlockTags, true, 0).value;
    TagUnique(part, 0, t, u);
    assert part[m] == line[0];
    SkipSpaceIs(part, j, m);
    var e := m + |line|;
    forall k | m <= k < e ensures !IsLineTerminator(part[k]) {
      assert part[k] == line[k - m];
    }
    if e < |part| {
      assert part[e] == rest[0];
    }
    assert NextLineTerminator(part, m) == e by {
      NextLineTerminatorIs(part, m, e);
    }
    assert part[m..e] == line;
  }

  /** A tag followed only by line breaks has no header: `.+` has nothing to match. */
  lemma HeaderNeedsText(t: nat, breaks: string)
    requires t < |BlockTags|
    requires forall i :: 0 <= i < |breaks| ==> IsLineTerminator(breaks[i])
    ensures ParseHeader(BlockTags[t] + breaks).None?
  {
    var part := BlockTags[t] + breaks;
    var j := |BlockTags[t]|;
    assert LitAt(part, 0, BlockTags[t], true) by {
      forall i | 0 <= i < j ensures CharEq(part[0 + i], BlockTags[t][i], true) {
        assert part[i] == BlockTags[t][i];
      }
    }
    var u := FirstWordAt(part, 0, BlockTags, true, 0).value;
    TagUnique(part, 0, t, u);
    assert part[j..] == breaks;
    SkipSpaceIs(part, j, |part|);
  }

  /* ---------- the field lines of a segment ---------- */

  /** The `EN:`, `HE:` and `EX:` values collected from a segment's lines. */
  datatype Fields = Fields(english: string, hebrew: string, examples: seq<Bilingual>)

  /** The trimmed line starts with the three-character `marker` (case-sensitive `startsWith`). */
  predicate IsFieldLine(line: string, marker: string) {
    LitAt(Trim(line), 0, marker, false)
  }

  /** What follows the marker: `trimmed.substring(3).trim()`. */
  function FieldValue(line: string): (r: string)
    requires |Trim(line)| >= 3
    ensures IsTrimmed(r)
  {
    Trim(Trim(line)[3..])
  }

  /**
   * One `EX:` value: the trimmed text before and after the first `|`, or the
   * whole value with an empty translation when there is no `|`.
   */
  function ExampleOf(x: string): (r: Bilingual)
    ensures '|' !in x ==> r == Bilingual(x, [])
    ensures '|' in x ==> '|' !in r.english && IsTrimmed(r.english) && IsTrimmed(r.hebrew)
  {
    match IndexOfChar(x, '|')
    case None => Bilingual(x, [])
    case Some(i) =>
      var e := Trim(x[..i]);
      assert '|' !in e by {
        forall k | 0 <= k < |e| ensures e[k] != '|' {
          assert e[k] == x[..i][SkipSpace(x[..i], 0) + k];
        }
      }
      Bilingual(e, Trim(x[i + 1..]))
  }

  /** The effect of one line: the markers are tried in the order `EN:`, `HE:`, `EX:`. */
  function ReadLine(f: Fields, line: string): Fields {
    if IsFieldLine(line, "EN:") then f.(english := FieldValue(line))
    else if IsFieldLine(line, "HE:") then f.(hebrew := FieldValue(line))
    else if IsFieldLine(line, "EX:") then f.(examples := f.examples + [ExampleOf(FieldValue(line))])
    else f
  }

  /** The loop over the lines after the header, as a left fold. */
  function ReadFields(lines: seq<string>): Fields {
    if lines == [] then Fields([], [], [])
    else ReadLine(ReadFields(lines[..|lines| - 1]), lines[|lines| - 1])
  }

  /** The `EN:` or `HE:` value a field set holds. */
  function FieldOf(f: Fields, marker: string): string {
    if marker == "EN:" then f.english else f.hebrew
  }

  /** One line sets the `EN:` (or `HE:`) value exactly when it carries that marker. */
  lemma ReadLineField(f: Fields, line: string, marker: string)
    requires marker == "EN:" || marker == "HE:"
    ensures FieldOf(ReadLine(f, line), marker)
      == if IsFieldLine(line, marker) then FieldValue(line) else FieldOf(f, marker)
  {
    MarkersExclusive(line);
  }

  /** The last `EN:` (or `HE:`) line wins. */
  lemma {:induction false} LastFieldWins(lines: seq<string>, marker: string, i: nat)
    requires marker == "EN:" || marker == "HE:"
    requires i < |lines| && IsFieldLine(lines[i], marker)
    requires forall j {:trigger IsFieldLine(lines[j], marker)} :: i < j < |lines| ==> !IsFieldLine(lines[j], marker)
    ensures FieldOf(ReadFields(lines), marker) == FieldValue(lines[i])
    decreases |lines|
  {
    var n := |lines| - 1;
    if i == n {
      MarkedLastLine(lines, marker);
    } else {
      var init := lines[..n];
      UnmarkedLastLine(lines, marker);
      assert init[i] == lines[i];
      assert forall j :: i < j < |init| ==> init[j] == lines[j];
      LastFieldWins(init, marker, i);
    }
  }

  /** A last line with the marker sets the value. */
  lemma MarkedLastLine(lines: seq<string>, marker: string)
    requires marker == "EN:" || marker == "HE:"
    requires lines != [] && IsFieldLine(lines[|lines| - 1], marker)
    ensures FieldOf(ReadFields(lines), marker) == FieldValue(lines[|lines| - 1])
  {
    ReadFieldsLast(lines, marker);
  }

  /** A last line without the marker keeps the value. */
  lemma UnmarkedLastLine(lines: seq<string>, marker: string)
    requires marker == "EN:" || marker == "HE:"
    requires lines != [] && !IsFieldLine(lines[|lines| - 1], marker)
    ensures FieldOf(ReadFields(lines), marker) == FieldOf(ReadFields(lines[..|lines| - 1]), marker)
  {
    ReadFieldsLast(lines, marker);
  }

  /** Reading a further line keeps the `EN:` (or `HE:`) value unless it carries that marker. */
  lemma ReadFieldsLast(lines: seq<string>, marker: string)
    requires marker == "EN:" || marker == "HE:"
    requires lines != []
    ensures IsFieldLine(lines[|lines| - 1], marker) ==>
      FieldOf(ReadFields(lines), marker) == FieldValue(lines[|lines| - 1])
    ensures !IsFieldLine(lines[|lines| - 1], marker) ==>
      FieldOf(ReadFields(lines), marker) == FieldOf(ReadFields(lines[..|lines| - 1]), marker)
  {
    var n := |lines| - 1;
    assert ReadFields(lines) == ReadLine(ReadFields(lines[..n]), lines[n]);
    ReadLineField(ReadFields(lines[..n]), lines[n], marker);
  }

  /** Without an `EN:` (or `HE:`) line the value stays empty. */
  lemma {:induction false} AbsentFieldEmpty(lines: seq<string>, marker: string)
    requires marker == "EN:" || marker == "HE:"
    requires forall j {:trigger IsFieldLine(lines[j], marker)} :: 0 <= j < |lines| ==> !IsFieldLine(lines[j], marker)
    ensures FieldOf(ReadFields(lines), marker) == []
    decreases |lines|
  {
    if lines != [] {
      var n := |lines| - 1;
      var init := lines[..n];
      UnmarkedLastLine(lines, marker);
      assert forall j :: 0 <= j < |init| ==> init[j] == lines[j];
      AbsentFieldEmpty(init, marker);
    }
  }

  /** A trimmed line starts with at most one of the markers. */
  lemma MarkersExclusive(line: string)
    ensures !(IsFieldLine(line, "EN:") && IsFieldLine(line, "HE:"))
    ensures !(IsFieldLine(line, "EN:") && IsFieldLine(line, "EX:"))
    ensures !(IsFieldLine(line, "HE:") && IsFieldLine(line, "EX:"))
  {
    var t := Trim(line);
    if IsFieldLine(line, "EN:") {
      assert t[0] == 'E' && t[1] == 'N' by {
        assert CharEq(t[0 + 0], "EN:"[0], false);
        assert CharEq(t[0 + 1], "EN:"[1], false);
      }
    }
    if IsFieldLine(line, "HE:") {
      assert t[0] == 'H' by {
        assert CharEq(t[0 + 0], "HE:"[0], false);
      }
    }
    if IsFieldLine(line, "EX:") {
      assert t[0] == 'E' && t[1] == 'X' by {
        assert CharEq(t[0 + 0], "EX:"[0], false);
        assert CharEq(t[0 + 1], "EX:"[1], false);
      }
    }
  }

  /** The example one line contributes: one for an `EX:` line, none otherwise. */
  function LineExample(line: string): seq<Bilingual> {
    if IsFieldLine(line, "EX:") then [ExampleOf(FieldValue(line))] else []
  }

  /** The examples of a list of lines, read front to back: a reference for the fold. */
  function ExampleLines(lines: seq<string>): seq<Bilingual> {
    FlatMap(LineExample, lines)
  }

  lemma ExampleLinesSnoc(lines: seq<string>, x: string)
    ensures ExampleLines(lines + [x]) == ExampleLines(lines) + LineExample(x)
  {
    FlatMapSnoc(LineExample, lines, x);
  }

  /** Every `EX:` line contributes one example, in line order. */
  lemma {:induction false} ReadFieldsExamples(lines: seq<string>)
    ensures ReadFields(lines).examples == ExampleLines(lines)
    decreases |lines|
  {
    if lines != [] {
      var n := |lines| - 1;
      var init := lines[..n];
      assert init + [lines[n]] == lines;
      calc {
        ReadFields(lines).examples;
        ReadLine(ReadFields(init), lines[n]).examples;
        == { ReadLineExamples(ReadFields(init), lines[n]); }
        ReadFields(init).examples + LineExample(lines[n]);
        == { ReadFieldsExamples(init); }
        ExampleLines(init) + LineExample(lines[n]);
        == { ExampleLinesSnoc(init, lines[n]); }
        ExampleLines(lines);
      }
    }
  }

  /** One line adds its example, if any, after the ones read so far. */
  lemma ReadLineExamples(f: Fields, line: string)
    ensures ReadLine(f, line).examples == f.examples + LineExample(line)
  {
    MarkersExclusive(line);
  }

  /* ---------- blocks ---------- */

  /** What every emitted block satisfies. */
  predicate Emitted(b: LearningBlock) {
    && b.content.english != []
    && (b.examples.Some? ==> |b.examples.value| > 0)
    && IsTrimmed(b.title) && NoLineTerminator(b.title)
  }

  /**
   * The block one segment yields: none without a header, or when both the
   * `EN:` value and the title are empty. The title stands in for a missing
   * `EN:` value, and `examples` is left out when there are none.
   */
  function BlockOf(part: string): (r: Option<LearningBlock>)
    ensures r.Some? ==> Emitted(r.value) && TagAt(part, 0)
  {
    match ParseHeader(part)
    case None => None
    case Some(h) =>
      var f := ReadFields(Split(part, '\n')[1..]);
      if f.english == [] && h.title == [] then None
      else
        Some(LearningBlock(
          h.kind, h.title,
          Bilingual(if f.english != [] then f.english else h.title, f.hebrew),
          if |f.examples| > 0 then Some(f.examples) else None))
  }

  /** The blocks of the segments, in order, skipping the segments that yield none. */
  function BlocksOfParts(parts: seq<string>): (r: seq<LearningBlock>)
    ensures |r| <= |parts|
    ensures forall i :: 0 <= i < |r| ==> Emitted(r[i])
  {
    if parts == [] then []
    else
      (match BlockOf(parts[0]) case Some(b) => [b] case None => [])
      + BlocksOfParts(parts[1..])
  }

  /** Whether the payload is the word `none`, in any case. */
  predicate IsNone(p: string) {
    ToLower(p) == "none"
  }

  /** `parseStructuredBlocks`: the blocks the `BLOCKS:` section declares. */
  function ParseStructuredBlocks(s: string): (r: seq<LearningBlock>)
    ensures forall i :: 0 <= i < |r| ==> Emitted(r[i])
    ensures r != [] ==> (exists q :: OpenerAt(s, q)) && !IsNone(BlocksPayload(s))
  {
    var p := BlocksPayload(s);
    if p == [] || IsNone(p) then []
    else BlocksOfParts(SplitAtTags(p, 0))
  }

  /** Without a `BLOCKS:` label followed by `[` there are no structured blocks. */
  lemma NoLabelNoBlocks(s: string)
    requires forall q :: !OpenerAt(s, q)
    ensures ParseStructuredBlocks(s) == []
  {
  }

  /* ---------- a rendered block decodes to itself ---------- */

  /** The tag that declares a block type (`[USAGE]` for usage). */
  function KindTag(k: BlockType): (t: nat)
    ensures t < |BlockTags| && TagKind(t) == k
  {
    match k
    case Grammar => 0
    case Usage => 1
    case Warning => 2
    case Practice => 3
  }

  /** An example the `EX:` line can carry: a non-empty English side without `|`. */
  predicate ExampleOk(x: Bilingual) {
    && x.english != [] && IsTrimmed(x.english) && '|' !in x.english && Lacks(x.english, '\n')
    && IsTrimmed(x.hebrew) && Lacks(x.hebrew, '\n')
  }

  /** A block the line format can carry without loss. */
  predicate WellFormed(b: LearningBlock) {
    && b.title != [] && IsTrimmed(b.title) && NoLineTerminator(b.title)
    && b.content.english != [] && IsTrimmed(b.content.english) && Lacks(b.content.english, '\n')
    && IsTrimmed(b.content.hebrew) && Lacks(b.content.hebrew, '\n')
    && (b.examples.Some? ==>
          |b.examples.value| > 0 && forall k :: 0 <= k < |b.examples.value| ==> ExampleOk(b.examples.value[k]))
  }

  /** The `EX:` text of an example: `english | hebrew`, or just the English side. */
  function ExampleText(x: Bilingual): string {
    if x.hebrew == [] then x.english else x.english + " | " + x.hebrew
  }

  function ExampleLinesOf(xs: seq<Bilingual>): (r: seq<string>)
    ensures |r| == |xs|
  {
    if xs == [] then [] else ["EX: " + ExampleText(xs[0])] + ExampleLinesOf(xs[1..])
  }

  /** The examples of a block, empty when it has none. */
  function ExamplesOf(b: LearningBlock): seq<Bilingual> {
    if b.examples.Some? then b.examples.value else []
  }

  /** The field lines of a block in the format the tutor's instructions ask for. */
  function BodyLines(b: LearningBlock): seq<string> {
    ["EN: " + b.content.english, "HE: " + b.content.hebrew] + ExampleLinesOf(ExamplesOf(b))
  }

  /** The header line and the field lines of a block. */
  function BlockLines(b: LearningBlock): seq<string> {
    [BlockTags[KindTag(b.kind)] + " " + b.title] + BodyLines(b)
  }

  function RenderBlock(b: LearningBlock): string {
    Join(BlockLines(b), "\n")
  }

  /** A marker, a space and a trimmed value read back as that value. */
  lemma MarkerLine(m: string, v: string, line: string)
    requires |m| == 3 && !IsSpace(m[0]) && !IsSpace(m[2]) && IsTrimmed(v)
    requires line == m + " " + v
    ensures IsFieldLine(line, m) && |Trim(line)| >= 3
    ensures FieldValue(line) == v
  {
    if v == [] {
      BareMarker(m, line);
    } else {
      FilledMarker(m, v, line);
    }
    var t := Trim(line);
    assert LitAt(t, 0, m, false) by {
      forall i | 0 <= i < 3 ensures CharEq(t[0 + i], m[i], false) {
        assert t[i] == t[..3][i];
      }
    }
  }

  /** A marker with no value trims to the marker alone. */
  lemma BareMarker(m: string, line: string)
    requires |m| == 3 && !IsSpace(m[0]) && !IsSpace(m[2])
    requires line == m + " "
    ensures Trim(line) == m && Trim(m[3..]) == []
  {
    assert line[..0] == [] && line[3..] == " " && line[0..3] == m;
    TrimIs(line, 0, 3);
    TrimIs([], 0, 0);
  }

  /** A marker with a value is already trimmed, and its value follows the space. */
  lemma FilledMarker(m: string, v: string, line: string)
    requires |m| == 3 && !IsSpace(m[0]) && IsTrimmed(v) && v != []
    requires line == m + " " + v
    ensures Trim(line) == line && line[..3] == m && Trim(line[3..]) == v
  {
    TrimOfTrimmed(line);
    var tail := line[3..];
    assert tail == " " + v;
    assert tail[..1] == " " && tail[|v| + 1..] == [] && tail[1..|v| + 1] == v;
    TrimIs(tail, 1, |v| + 1);
  }

  /** Padding a trimmed string with whitespace on either side does not change its trim. */
  lemma TrimPadded(lead: string, x: string, trail: string)
    requires AllSpace(lead) && AllSpace(trail) && IsTrimmed(x)
    ensures Trim(lead + x + trail) == x
  {
    var s := lead + x + trail;
    assert s[..|lead|] == lead && s[|lead| + |x|..] == trail && s[|lead|..|lead| + |x|] == x;
    TrimIs(s, |lead|, |lead| + |x|);
  }

  /** The first `|` of `english | hebrew` is the one after the English side. */
  lemma PipeAfterEnglish(e: string, h: string)
    requires '|' !in e
    ensures IndexOfChar(e + " | " + h, '|') == Some(|e| + 1)
  {
    var s := e + " | " + h;
    assert s[|e| + 1] == '|';
    assert s[..|e| + 1] == e + " ";
    assert '|' !in e + " ";
    IndexOfCharAt(s, '|', |e| + 1);
  }

  /** An `EX:` text reads back as the example it was written from. */
  lemma ExampleRoundTrip(x: Bilingual)
    requires ExampleOk(x)
    ensures ExampleOf(ExampleText(x)) == x
  {
    if x.hebrew != [] {
      PairRoundTrip(x.english, x.hebrew);
    }
  }

  /** `english | hebrew` splits back at its first `|`. */
  lemma PairRoundTrip(e: string, h: string)
    requires IsTrimmed(e) && IsTrimmed(h) && '|' !in e
    ensures ExampleOf(e + " | " + h) == Bilingual(e, h)
  {
    var s := e + " | " + h;
    PipeAfterEnglish(e, h);
    PairSides(e, h);
    TrimPadded([], e, " ");
    TrimPadded(" ", h, []);
  }

  /** The two sides of `english | hebrew`, each with the space next to the `|`. */
  lemma PairSides(e: string, h: string)
    ensures var s := e + " | " + h; s[..|e| + 1] == [] + e + " " && s[|e| + 2..] == " " + h + []
  {
    var s := e + " | " + h;
    assert s[..|e| + 1] == [] + e + " ";
    assert s[|e| + 2..] == " " + h + [];
  }

  lemma ExampleTextShape(x: Bilingual)
    requires ExampleOk(x)
    ensures IsTrimmed(ExampleText(x)) && Lacks(ExampleText(x), '\n')
  {
    if x.hebrew != [] {
      var s := x.english + " | " + x.hebrew;
      assert s[0] == x.english[0];
      assert s[|s| - 1] == x.hebrew[|x.hebrew| - 1];
      assert Lacks(" | ", '\n');
      LacksConcat(x.english, " | ", '\n');
      LacksConcat(x.english + " | ", x.hebrew, '\n');
    }
  }

  /** One `EX:` line of a well-formed example. */
  lemma ExampleLineReads(x: Bilingual)
    requires ExampleOk(x)
    ensures IsFieldLine("EX: " + ExampleText(x), "EX:") && Lacks("EX: " + ExampleText(x), '\n')
    ensures |Trim("EX: " + ExampleText(x))| >= 3 && ExampleOf(FieldValue("EX: " + ExampleText(x))) == x
    ensures LineExample("EX: " + ExampleText(x)) == [x]
  {
    var line := "EX: " + ExampleText(x);
    ExampleTextShape(x);
    assert Lacks("EX: ", '\n');
    LacksConcat("EX: ", ExampleText(x), '\n');
    assert line == "EX:" + " " + ExampleText(x);
    MarkerLine("EX:", ExampleText(x), line);
    ExampleRoundTrip(x);
  }

  /** Every line `ExampleLinesOf` writes is a newline-free `EX:` line. */
  lemma ExampleLinesShape(xs: seq<Bilingual>)
    requires forall k :: 0 <= k < |xs| ==> ExampleOk(xs[k])
    ensures forall j :: 0 <= j < |xs| ==> IsFieldLine(ExampleLinesOf(xs)[j], "EX:") && Lacks(ExampleLinesOf(xs)[j], '\n')
  {
    forall j | 0 <= j < |xs|
      ensures ExampleLinesOf(xs)[j] == "EX: " + ExampleText(xs[j])
    {
      ExampleLinesAt(xs, j);
    }
    forall j | 0 <= j < |xs|
      ensures IsFieldLine(ExampleLinesOf(xs)[j], "EX:") && Lacks(ExampleLinesOf(xs)[j], '\n')
    {
      ExampleLineReads(xs[j]);
    }
  }

  lemma {:induction false} ExampleLinesAt(xs: seq<Bilingual>, j: nat)
    requires j < |xs|
    ensures ExampleLinesOf(xs)[j] == "EX: " + ExampleText(xs[j])
    decreases j
  {
    if j > 0 {
      ExampleLinesAt(xs[1..], j - 1);
    }
  }

  /** The `EX:` lines of well-formed examples read back as those examples. */
  lemma {:induction false} ExampleLinesRoundTrip(xs: seq<Bilingual>)
    requires forall k :: 0 <= k < |xs| ==> ExampleOk(xs[k])
    ensures ExampleLines(ExampleLinesOf(xs)) == xs
    decreases |xs|
  {
    if xs != [] {
      ExampleLinesRoundTrip(xs[1..]);
      ExampleLineStep(xs[0], xs[1..]);
      assert xs == [xs[0]] + xs[1..];
    }
  }

  lemma ExampleLineStep(x: Bilingual, xs: seq<Bilingual>)
    requires ExampleOk(x)
    ensures ExampleLines(ExampleLinesOf([x] + xs)) == [x] + ExampleLines(ExampleLinesOf(xs))
  {
    var line := "EX: " + ExampleText(x);
    assert ([x] + xs)[0] == x && ([x] + xs)[1..] == xs;
    assert ExampleLinesOf([x] + xs) == [line] + ExampleLinesOf(xs);
    ExampleLinesCons(line, ExampleLinesOf(xs));
    ExampleLineReads(x);
  }

  lemma ExampleLinesCons(line: string, rest: seq<string>)
    ensures ExampleLines([line] + rest) == LineExample(line) + ExampleLines(rest)
  {
    FlatMapCons(LineExample, line, rest);
  }

  /** The header of a rendered block gives back its type and title. */
  lemma RenderedHeader(b: LearningBlock)
    requires WellFormed(b)
    ensures ParseHeader(RenderBlock(b)) == Some(Header(b.kind, b.title))
  {
    var t := KindTag(b.kind);
    var body := BodyLines(b);
    assert RenderBlock(b) == BlockTags[t] + " " + b.title + ("\n" + Join(body, "\n"));
    HeaderTitle(t, " ", b.title, "\n" + Join(body, "\n"));
    TrimOfTrimmed(b.title);
  }

  /** Splitting a rendered block at line breaks gives back its lines. */
  lemma RenderedLines(b: LearningBlock)
    requires WellFormed(b)
    ensures Split(RenderBlock(b), '\n') == BlockLines(b)
  {
    var lines := BlockLines(b);
    var exs := ExampleLinesOf(ExamplesOf(b));
    ExampleLinesShape(ExamplesOf(b));
    assert Lacks(BlockTags[KindTag(b.kind)], '\n');
    assert Lacks(b.title, '\n');
    LacksConcat(BlockTags[KindTag(b.kind)], " ", '\n');
    LacksConcat(BlockTags[KindTag(b.kind)] + " ", b.title, '\n');
    LacksConcat("EN: ", b.content.english, '\n');
    LacksConcat("HE: ", b.content.hebrew, '\n');
    forall i | 0 <= i < |lines| ensures '\n' !in lines[i] {
      if i >= 3 { assert lines[i] == exs[i - 3]; }
      LacksNotIn(lines[i], '\n');
    }
    SplitJoin(lines, '\n');
  }

  /** Past the first two, the field lines of a well-formed block are `EX:` lines. */
  lemma BodyTail(b: LearningBlock, j: nat)
    requires WellFormed(b) && 2 <= j < |BodyLines(b)|
    ensures !IsFieldLine(BodyLines(b)[j], "EN:") && !IsFieldLine(BodyLines(b)[j], "HE:")
  {
    var xs := ExamplesOf(b);
    var line := BodyLines(b)[j];
    assert line == ExampleLinesOf(xs)[j - 2];
    ExampleLinesAt(xs, j - 2);
    ExampleLineReads(xs[j - 2]);
    MarkersExclusive(line);
  }

  /** The first two field lines of a rendered block: `EN:` and then `HE:`. */
  lemma BodyHead(b: LearningBlock)
    requires WellFormed(b)
    ensures IsFieldLine(BodyLines(b)[0], "EN:") && FieldValue(BodyLines(b)[0]) == b.content.english
    ensures IsFieldLine(BodyLines(b)[1], "HE:") && FieldValue(BodyLines(b)[1]) == b.content.hebrew
  {
    var body := BodyLines(b);
    assert body[0] == "EN: " + b.content.english && body[1] == "HE: " + b.content.hebrew;
    assert "EN: " == "EN:" + " " && "HE: " == "HE:" + " ";
    WrittenField("EN:", b.content.english);
    WrittenField("HE:", b.content.hebrew);
  }

  /** An `EN:` or `HE:` line as the renderer writes it. */
  lemma WrittenField(m: string, v: string)
    requires m == "EN:" || m == "HE:"
    requires IsTrimmed(v)
    ensures IsFieldLine(m + " " + v, m) && FieldValue(m + " " + v) == v
  {
    MarkerLine(m, v, m + " " + v);
  }

  /** No field line after the `EN:` line of a rendered block is an `EN:` line. */
  lemma OneEnglishLine(b: LearningBlock)
    requires WellFormed(b)
    ensures forall j :: 0 < j < |BodyLines(b)| ==> !IsFieldLine(BodyLines(b)[j], "EN:")
  {
    var body := BodyLines(b);
    assert !IsFieldLine(body[1], "EN:") by {
      BodyHead(b);
      MarkersExclusive(body[1]);
    }
    forall j | 2 <= j < |body| ensures !IsFieldLine(body[j], "EN:") {
      BodyTail(b, j);
    }
  }

  lemma RenderedEnglish(b: LearningBlock)
    requires WellFormed(b)
    ensures ReadFields(BodyLines(b)).english == b.content.english
  {
    BodyHead(b);
    OneEnglishLine(b);
    LastFieldWins(BodyLines(b), "EN:", 0);
  }

  lemma RenderedHebrew(b: LearningBlock)
    requires WellFormed(b)
    ensures ReadFields(BodyLines(b)).hebrew == b.content.hebrew
  {
    var body := BodyLines(b);
    BodyHead(b);
    assert forall j :: 2 <= j < |body| ==> !IsFieldLine(body[j], "HE:") by {
      forall j | 2 <= j < |body| ensures !IsFieldLine(body[j], "HE:") {
        BodyTail(b, j);
      }
    }
    LastFieldWins(body, "HE:", 1);
  }

  lemma RenderedExamples(b: LearningBlock)
    requires WellFormed(b)
    ensures ReadFields(BodyLines(b)).examples == ExamplesOf(b)
  {
    ReadFieldsExamples(BodyLines(b));
    BodyExamples(b);
  }

  /** Only the `EX:` lines of a rendered block carry examples, and they carry the block's own. */
  lemma BodyExamples(b: LearningBlock)
    requires WellFormed(b)
    ensures ExampleLines(BodyLines(b)) == ExamplesOf(b)
  {
    var xs := ExamplesOf(b);
    var body := BodyLines(b);
    var exs := ExampleLinesOf(xs);
    assert body == [body[0]] + ([body[1]] + exs);
    BodyHead(b);
    FieldLineNoExample(body[0], "EN:");
    FieldLineNoExample(body[1], "HE:");
    ExampleLinesRoundTrip(xs);
    ExamplesAfterFields(body[0], body[1], exs);
  }

  lemma ExamplesAfterFields(en: string, he: string, exs: seq<string>)
    requires LineExample(en) == [] && LineExample(he) == []
    ensures ExampleLines([en] + ([he] + exs)) == ExampleLines(exs)
  {
    ExampleLinesCons(en, [he] + exs);
    ExampleLinesCons(he, exs);
  }

  /** An `EN:` or `HE:` line adds no example. */
  lemma FieldLineNoExample(line: string, marker: string)
    requires marker == "EN:" || marker == "HE:"
    requires IsFieldLine(line, marker)
    ensures LineExample(line) == []
  {
    MarkersExclusive(line);
  }

  /** The field lines of a well-formed block read back as its content and examples. */
  lemma RenderedFields(b: LearningBlock)
    requires WellFormed(b)
    ensures ReadFields(BodyLines(b)) == Fields(b.content.english, b.content.hebrew, ExamplesOf(b))
  {
    RenderedEnglish(b);
    RenderedHebrew(b);
    RenderedExamples(b);
  }

  /** A well-formed block, written out in the line format, decodes to itself. */
  lemma BlockRoundTrip(b: LearningBlock)
    requires WellFormed(b)
    ensures BlockOf(RenderBlock(b)) == Some(b)
  {
    RenderedHeader(b);
    RenderedLines(b);
    RenderedFields(b);
    assert BlockLines(b)[1..] == BodyLines(b);
  }

  /* ---------- a declared block list decodes to itself ---------- */

  /** No text of the block holds `[`, so no block tag can appear inside its written form. */
  predicate BracketFree(b: LearningBlock) {
    && Lacks(b.title, '[') && Lacks(b.content.english, '[') && Lacks(b.content.hebrew, '[')
    && forall k :: 0 <= k < |ExamplesOf(b)| ==> Lacks(ExamplesOf(b)[k].english, '[') && Lacks(ExamplesOf(b)[k].hebrew, '[')
  }

  /** The last written line of the block is not an `HE:` field left blank. */
  predicate EndsWithText(b: LearningBlock) {
    b.content.hebrew != [] || b.examples.Some?
  }


  /** A word found in a text is found where it was in any longer text. */
  lemma LitAtPrefix(x: string, y: string, k: nat, w: string, ci: bool)
    requires LitAt(x, k, w, ci)
    ensures LitAt(x + y, k, w, ci)
  {
    forall t | 0 <= t < |w| ensures CharEq((x + y)[k + t], w[t], ci) {
      assert (x + y)[k + t] == x[k + t];
    }
  }

  /** A word occurs in a suffix of a text exactly where it occurs in the text, shifted. */
  lemma LitAtSuffix(s: string, n: nat, k: nat, w: string, ci: bool)
    requires n <= |s|
    ensures LitAt(s, n + k, w, ci) <==> LitAt(s[n..], k, w, ci)
  {
    if LitAt(s[n..], k, w, ci) {
      forall t | 0 <= t < |w| ensures CharEq(s[n + k + t], w[t], ci) {
        assert s[n..][k + t] == s[n + k + t];
      }
    }
    if LitAt(s, n + k, w, ci) {
      forall t | 0 <= t < |w| ensures CharEq(s[n..][k + t], w[t], ci) {
        assert s[n..][k + t] == s[n + k + t];
      }
    }
  }

  lemma WordsSuffix(s: string, n: nat, k: nat, ws: seq<string>, ci: bool)
    requires n <= |s|
    ensures MatchAt(s, Words(ws, ci), n + k) <==> MatchAt(s[n..], Words(ws, ci), k)
  {
    forall j | 0 <= j < |ws| ensures LitAt(s, n + k, ws[j], ci) <==> LitAt(s[n..], k, ws[j], ci) {
      LitAtSuffix(s, n, k, ws[j], ci);
    }
  }

  /** The search from `i` stops at the first match at or after `i`. */
  lemma FirstMatchFrom(s: string, pat: Pattern, i: nat, q: nat)
    requires i <= q <= |s| && MatchAt(s, pat, q)
    requires forall p :: i <= p < q ==> !MatchAt(s, pat, p)
    ensures FirstMatch(s, pat, i) == Some(q)
  {
    var m := FirstMatch(s, pat, i);
    assert m.Some? && !(m.value < q) && !(q < m.value);
  }

  /** The search from `i` finds nothing when nothing matches from `i` on. */
  lemma NoMatchFrom(s: string, pat: Pattern, i: nat)
    requires i <= |s|
    requires forall k :: i <= k <= |s| ==> !MatchAt(s, pat, k)
    ensures FirstMatch(s, pat, i).None?
  {
    if FirstMatch(s, pat, i).Some? {
      assert false;
    }
  }

  /** A tag starts with `[`, so a position without `[` starts no tag. */
  lemma TagNeedsBracket(s: string, k: nat)
    ensures TagAt(s, k) ==> k < |s| && s[k] == '['
  {
    if TagAt(s, k) {
      TagBrackets();
      var t :| 0 <= t < |BlockTags| && LitAt(s, k, BlockTags[t], true);
      assert CharEq(s[k + 0], BlockTags[t][0], true);
      LowerBracket(s[k]);
    }
  }

  /** A written block starts with its tag and holds no other `[`. */
  lemma RenderedBrackets(b: LearningBlock)
    requires WellFormed(b) && BracketFree(b)
    ensures var r := RenderBlock(b); TagAt(r, 0) && r[0] == '[' && Lacks(r[1..], '[')
  {
    var r := RenderBlock(b);
    RenderedHeader(b);
    TagNeedsBracket(r, 0);
    RenderedTail(b);
  }

  /** After the `[` of its tag, a written bracket-free block holds no `[`. */
  lemma RenderedTail(b: LearningBlock)
    requires WellFormed(b) && BracketFree(b)
    ensures |RenderBlock(b)| > 0 && Lacks(RenderBlock(b)[1..], '[')
  {
    var tag := BlockTags[KindTag(b.kind)];
    var lines := Join(BodyLines(b), "\n");
    var rest := " " + b.title + ("\n" + lines);
    assert RenderBlock(b) == tag + rest;
    BodyBracketFree(b);
    LacksJoin(BodyLines(b), "\n", '[');
    HeaderRestLacks(b.title, lines);
    TagTailLacks(KindTag(b.kind));
    TailLacks(tag, rest);
  }

  lemma HeaderRestLacks(title: string, lines: string)
    requires Lacks(title, '[') && Lacks(lines, '[')
    ensures Lacks(" " + title + ("\n" + lines), '[')
  {
    LacksConcat("\n", lines, '[');
    LacksConcat(" ", title, '[');
    LacksConcat(" " + title, "\n" + lines, '[');
  }

  lemma TagTailLacks(t: nat)
    requires t < |BlockTags|
    ensures |BlockTags[t]| > 0 && Lacks(BlockTags[t][1..], '[')
  {
    TagBrackets();
  }

  lemma TailLacks(x: string, y: string)
    requires |x| > 0 && Lacks(x[1..], '[') && Lacks(y, '[')
    ensures Lacks((x + y)[1..], '[')
  {
    assert (x + y)[1..] == x[1..] + y;
    LacksConcat(x[1..], y, '[');
  }

  /** No field line of a bracket-free block holds `[`. */
  lemma BodyBracketFree(b: LearningBlock)
    requires BracketFree(b)
    ensures forall j :: 0 <= j < |BodyLines(b)| ==> Lacks(BodyLines(b)[j], '[')
  {
    var body := BodyLines(b);
    var xs := ExamplesOf(b);
    LacksConcat("EN: ", b.content.english, '[');
    LacksConcat("HE: ", b.content.hebrew, '[');
    forall j | 2 <= j < |body| ensures Lacks(body[j], '[') {
      ExampleLineBracketFree(xs, j - 2);
    }
  }

  lemma ExampleLineBracketFree(xs: seq<Bilingual>, k: nat)
    requires k < |xs| && Lacks(xs[k].english, '[') && Lacks(xs[k].hebrew, '[')
    ensures Lacks(ExampleLinesOf(xs)[k], '[')
  {
    ExampleLinesAt(xs, k);
    ExampleLineLacks(xs[k]);
  }

  lemma ExampleLineLacks(x: Bilingual)
    requires Lacks(x.english, '[') && Lacks(x.hebrew, '[')
    ensures Lacks("EX: " + ExampleText(x), '[')
  {
    ExampleBracketFree(x);
    assert Lacks("EX: ", '[');
    LacksConcat("EX: ", ExampleText(x), '[');
  }

  lemma ExampleBracketFree(x: Bilingual)
    requires Lacks(x.english, '[') && Lacks(x.hebrew, '[')
    ensures Lacks(ExampleText(x), '[')
  {
    if x.hebrew != [] {
      LacksConcat(x.english, " | ", '[');
      LacksConcat(x.english + " | ", x.hebrew, '[');
    }
  }

  /** After its first character, a text without `[` starts no tag. */
  lemma NoTagAfterFirst(s: string, a: nat, b: nat)
    requires a < b <= |s| && Lacks(s[a + 1..b], '[')
    ensures forall k :: a < k < b ==> !TagAt(s, k)
  {
    forall k | a < k < b ensures !TagAt(s, k) {
      assert s[a + 1..b][k - a - 1] == s[k];
      TagNeedsBracket(s, k);
    }
  }

  /** Every block of the list can be written in the line format and read back. */
  predicate AllWritable(bs: seq<LearningBlock>) {
    forall i :: 0 <= i < |bs| ==> WellFormed(bs[i]) && BracketFree(bs[i])
  }

  /** The written form of each block of a list. */
  function Rendered(bs: seq<LearningBlock>): (rs: seq<string>)
    ensures |rs| == |bs|
    ensures forall i :: 0 <= i < |bs| ==> rs[i] == RenderBlock(bs[i])
  {
    if bs == [] then [] else [RenderBlock(bs[0])] + Rendered(bs[1..])
  }

  /** Blocks written in the line format, one after another on consecutive lines. */
  function WriteBlocks(bs: seq<LearningBlock>): string {
    Join(Rendered(bs), "\n")
  }

  /** The pieces a joined text should be cut into: each piece with the line break after it, the last without. */
  function Segments(rs: seq<string>): (r: seq<string>)
    ensures |r| == |rs|
  {
    if |rs| <= 1 then rs else [rs[0] + "\n"] + Segments(rs[1..])
  }

  /** Pieces that each start with a tag and hold no other `[`. */
  predicate Cuttable(rs: seq<string>) {
    forall i :: 0 <= i < |rs| ==> |rs[i]| > 0 && TagAt(rs[i], 0) && Lacks(rs[i][1..], '[')
  }

  /** A tag found in a text is found where it was in any longer text. */
  lemma TagAtPrefix(x: string, y: string, k: nat)
    requires TagAt(x, k)
    ensures TagAt(x + y, k)
  {
    var j :| 0 <= j < |BlockTags| && LitAt(x, k, BlockTags[j], true);
    LitAtPrefix(x, y, k, BlockTags[j], true);
  }


  /** The last character of a written block is not whitespace when its last line carries text. */
  lemma RenderedEnd(b: LearningBlock)
    requires WellFormed(b) && EndsWithText(b)
    ensures var r := RenderBlock(b); |r| > 0 && !IsSpace(r[|r| - 1])
  {
    var lines := BlockLines(b);
    var xs := ExamplesOf(b);
    var last := lines[|lines| - 1];
    JoinEndsWithLast(lines, "\n");
    if xs == [] {
      assert last == "HE: " + b.content.hebrew;
    } else {
      ExampleLinesAt(xs, |xs| - 1);
      assert last == "EX: " + ExampleText(xs[|xs| - 1]);
      ExampleTextShape(xs[|xs| - 1]);
    }
    var r := RenderBlock(b);
    assert r[|r| - 1] == r[|r| - |last|..][|last| - 1];
  }



  /** A line break after a written block leaves its header as it was. */
  lemma HeaderThenNewline(b: LearningBlock)
    requires WellFormed(b)
    ensures ParseHeader(RenderBlock(b) + "\n") == Some(Header(b.kind, b.title))
  {
    var t := KindTag(b.kind);
    var lines := Join(BodyLines(b), "\n");
    assert RenderBlock(b) + "\n" == BlockTags[t] + " " + b.title + ("\n" + lines + "\n");
    HeaderTitle(t, " ", b.title, "\n" + lines + "\n");
    TrimOfTrimmed(b.title);
  }

  /** A line break after a written block adds one blank line, which sets no field. */
  lemma FieldsThenNewline(b: LearningBlock)
    requires WellFormed(b)
    ensures ReadFields(Split(RenderBlock(b) + "\n", '\n')[1..]) == ReadFields(Split(RenderBlock(b), '\n')[1..])
  {
    var r := RenderBlock(b);
    var lines := Split(r, '\n');
    SplitEndingSep(r, '\n');
    RenderedLines(b);
    assert Split(r + "\n", '\n') == lines + [[]];
    assert (lines + [[]])[1..] == lines[1..] + [[]];
    assert ReadFields(lines[1..] + [[]]) == ReadLine(ReadFields(lines[1..]), []);
    assert !IsFieldLine([], "EN:") && !IsFieldLine([], "HE:") && !IsFieldLine([], "EX:");
  }

  /** A written block followed by a line break still reads back as itself. */
  lemma BlockThenNewline(b: LearningBlock)
    requires WellFormed(b)
    ensures BlockOf(RenderBlock(b) + "\n") == Some(b)
  {
    RenderedHeader(b);
    HeaderThenNewline(b);
    FieldsThenNewline(b);
    BlockRoundTrip(b);
  }

  /** The written blocks of a writable list can be cut apart again. */
  lemma RenderedCuttable(bs: seq<LearningBlock>)
    requires AllWritable(bs)
    ensures Cuttable(Rendered(bs))
  {
    var rs := Rendered(bs);
    forall i | 0 <= i < |rs| ensures |rs[i]| > 0 && TagAt(rs[i], 0) && Lacks(rs[i][1..], '[') {
      RenderedBrackets(bs[i]);
    }
  }

  /** Joined pieces start with the tag of the first piece. */
  lemma JoinedStart(rs: seq<string>)
    requires |rs| >= 1 && TagAt(rs[0], 0)
    ensures TagAt(Join(rs, "\n"), 0)
  {
    TagAtPrefix(rs[0], "\n", 0);
    if |rs| > 1 {
      TagAtPrefix(rs[0] + "\n", Join(rs[1..], "\n"), 0);
    }
  }

  /** A text that runs from `p` as one piece without a second `[` is left in one piece. */
  lemma SplitLast(s: string, r: string, p: nat)
    requires |r| > 0 && Lacks(r[1..], '[') && p <= |s| && s[p..] == r
    ensures SplitAtTags(s, p) == [r]
  {
    var pat := Words(BlockTags, true);
    assert s[p + 1..|s|] == r[1..];
    NoTagAfterFirst(s, p, |s|);
    TagNeedsBracket(s, |s|);
    forall k | p + 1 <= k <= |s| ensures !MatchAt(s, pat, k) {
      assert !TagAt(s, k);
    }
    NoMatchFrom(s, pat, p + 1);
  }

  /**
   * A text that runs from `p` as a piece, a line break and a tagged rest is
   * cut after the line break, at `q`.
   */
  lemma SplitFirst(s: string, r: string, rest: string, p: nat, q: nat)
    requires |r| > 0 && Lacks(r[1..], '[') && TagAt(rest, 0)
    requires p <= |s| && s[p..] == r + "\n" + rest && q == p + |r| + 1
    ensures q <= |s| && s[q..] == rest
    ensures SplitAtTags(s, p) == [r + "\n"] + SplitAtTags(s, q)
  {
    PieceThenRest(s, p, q, r + "\n", rest);
    TagInRest(s, q, rest);
    NoTagInPiece(s, r, p, q);
    SplitAtNext(s, p, q, r + "\n");
  }

  /** A text that runs from `p` as `x` then `rest` holds `x` up to `q`, the end of `x`, and `rest` after. */
  lemma PieceThenRest(s: string, p: nat, q: nat, x: string, rest: string)
    requires p <= |s| && s[p..] == x + rest && q == p + |x|
    ensures q <= |s| && s[p..q] == x && s[q..] == rest
  {
    assert s[p..q] == (x + rest)[..|x|];
  }

  /** A tag that starts the rest of a text from `q` is a tag of the text at `q`. */
  lemma TagInRest(s: string, q: nat, rest: string)
    requires q <= |s| && s[q..] == rest && TagAt(rest, 0)
    ensures q < |s| && MatchAt(s, Words(BlockTags, true), q)
  {
    TagNeedsBracket(rest, 0);
    WordsSuffix(s, q, 0, BlockTags, true);
  }

  /** Inside a piece without a second `[`, and on the line break after it up to `q`, no tag starts. */
  lemma NoTagInPiece(s: string, r: string, p: nat, q: nat)
    requires |r| > 0 && Lacks(r[1..], '[') && q == p + |r| + 1 && q <= |s| && s[p..q] == r + "\n"
    ensures forall k :: p + 1 <= k < q ==> !MatchAt(s, Words(BlockTags, true), k)
  {
    assert s[p + 1..q] == r[1..] + "\n";
    LacksConcat(r[1..], "\n", '[');
    NoTagAfterFirst(s, p, q);
    forall k | p + 1 <= k < q ensures !MatchAt(s, Words(BlockTags, true), k) {
      assert !TagAt(s, k);
    }
  }

  /** Where the next tag after `p` is at `q`, the first segment from `p` runs up to it. */
  lemma SplitAtNext(s: string, p: nat, q: nat, x: string)
    requires p < q < |s| && MatchAt(s, Words(BlockTags, true), q)
    requires forall k :: p + 1 <= k < q ==> !MatchAt(s, Words(BlockTags, true), k)
    requires s[p..q] == x
    ensures SplitAtTags(s, p) == [x] + SplitAtTags(s, q)
  {
    FirstMatchFrom(s, Words(BlockTags, true), p + 1, q);
    SplitAtTagsStep(s, p, q);
  }

  /** A text that runs from `p` as cuttable pieces joined by line breaks is cut into exactly those pieces. */
  lemma {:induction false} SplitJoined(s: string, rs: seq<string>, p: nat)
    requires |rs| >= 1 && Cuttable(rs) && p <= |s| && s[p..] == Join(rs, "\n")
    ensures SplitAtTags(s, p) == Segments(rs)
    decreases |rs|
  {
    if |rs| == 1 {
      SplitLast(s, rs[0], p);
    } else {
      var q := p + |rs[0]| + 1;
      JoinedStart(rs[1..]);
      SplitFirst(s, rs[0], Join(rs[1..], "\n"), p, q);
      SplitJoined(s, rs[1..], q);
    }
  }

  /** The segments of a list of several blocks: the first block with its line break, then the rest's. */
  lemma SegmentsOfRest(bs: seq<LearningBlock>)
    requires |bs| > 1
    ensures Segments(Rendered(bs)) == [RenderBlock(bs[0]) + "\n"] + Segments(Rendered(bs[1..]))
  {
    assert Rendered(bs)[1..] == Rendered(bs[1..]);
  }

  /** A part that reads as a block contributes that block in front of the rest's. */
  lemma BlocksOfPartsCons(x: string, tail: seq<string>, b: LearningBlock)
    requires BlockOf(x) == Some(b)
    ensures BlocksOfParts([x] + tail) == [b] + BlocksOfParts(tail)
  {
    assert ([x] + tail)[1..] == tail;
  }

  /** The segments of a written list read back as its first block and then what the rest's segments read as. */
  lemma FirstSegment(bs: seq<LearningBlock>)
    requires |bs| > 1 && WellFormed(bs[0])
    ensures BlocksOfParts(Segments(Rendered(bs))) == [bs[0]] + BlocksOfParts(Segments(Rendered(bs[1..])))
  {
    SegmentsOfRest(bs);
    BlockThenNewline(bs[0]);
    BlocksOfPartsCons(RenderBlock(bs[0]) + "\n", Segments(Rendered(bs[1..])), bs[0]);
  }

  /** The one segment of a one-block list reads back as the block. */
  lemma OnlySegment(bs: seq<LearningBlock>)
    requires |bs| == 1 && WellFormed(bs[0])
    ensures BlocksOfParts(Segments(Rendered(bs))) == bs
  {
    BlockRoundTrip(bs[0]);
    BlocksOfPartsCons(RenderBlock(bs[0]), [], bs[0]);
    assert Segments(Rendered(bs)) == [RenderBlock(bs[0])] + [];
  }

  /** The segments of a written list read back as the list. */
  lemma {:induction false} BlocksOfWritten(bs: seq<LearningBlock>)
    requires AllWritable(bs)
    ensures BlocksOfParts(Segments(Rendered(bs))) == bs
    decreases |bs|
  {
    if |bs| == 1 {
      OnlySegment(bs);
    } else if |bs| > 1 {
      FirstSegment(bs);
      BlocksOfWritten(bs[1..]);
    }
  }

  /** A written list starts with `[`, ends with text, and so is its own trimmed payload and not `none`. */
  lemma WrittenShape(bs: seq<LearningBlock>)
    requires |bs| >= 1 && AllWritable(bs) && EndsWithText(bs[|bs| - 1])
    ensures var body := WriteBlocks(bs); body != [] && Trim(body) == body && !IsNone(body)
  {
    var body := WriteBlocks(bs);
    WrittenStart(bs);
    WrittenEnd(bs);
    TrimOfTrimmed(body);
    assert ToLower(body)[0] == '[';
  }

  /** A written list opens with its first block's bracket. */
  lemma WrittenStart(bs: seq<LearningBlock>)
    requires |bs| >= 1 && AllWritable(bs)
    ensures var body := WriteBlocks(bs); |body| > 0 && body[0] == '['
  {
    var rs := Rendered(bs);
    RenderedBrackets(bs[0]);
    JoinedStart(rs);
    TagNeedsBracket(Join(rs, "\n"), 0);
  }

  /** A written list closes with its last block's last, non-blank character. */
  lemma WrittenEnd(bs: seq<LearningBlock>)
    requires |bs| >= 1 && AllWritable(bs) && EndsWithText(bs[|bs| - 1])
    ensures var body := WriteBlocks(bs); |body| > 0 && !IsSpace(body[|body| - 1])
  {
    var b := bs[|bs| - 1];
    var rs := Rendered(bs);
    assert WellFormed(b);
    RenderedEnd(b);
    assert rs[|rs| - 1] == RenderBlock(b);
    JoinEndsWithText(rs);
  }

  lemma JoinEndsWithText(rs: seq<string>)
    requires |rs| >= 1 && |rs[|rs| - 1]| > 0 && !IsSpace(rs[|rs| - 1][|rs[|rs| - 1]| - 1])
    ensures var j := Join(rs, "\n"); |j| > 0 && !IsSpace(j[|j| - 1])
  {
    JoinEndsWithLast(rs, "\n");
    SameLastChar(Join(rs, "\n"), rs[|rs| - 1]);
  }

  lemma SameLastChar(s: string, r: string)
    requires 0 < |r| <= |s| && s[|s| - |r|..] == r
    ensures s[|s| - 1] == r[|r| - 1]
  {
    assert s[|s| - |r|..][|r| - 1] == s[|s| - 1];
  }

  /** The payload of such a section is the written list itself. */
  lemma DeclaredPayload(pre: string, bs: seq<LearningBlock>, ws: string)
    requires forall q :: !LitAt(pre, q, "BLOCKS:", false)
    requires AllSpace(ws)
    requires |bs| >= 1 && AllWritable(bs) && EndsWithText(bs[|bs| - 1])
    ensures var body := WriteBlocks(bs);
      BlocksPayload(Section(pre, body, ws)) == body && body != [] && !IsNone(body)
  {
    WrittenShape(bs);
    SectionPayload(pre, WriteBlocks(bs), ws);
  }

  /** A written list is cut into its blocks' segments. */
  lemma WrittenCut(bs: seq<LearningBlock>)
    requires |bs| >= 1 && AllWritable(bs)
    ensures SplitAtTags(WriteBlocks(bs), 0) == Segments(Rendered(bs))
  {
    var body := WriteBlocks(bs);
    RenderedCuttable(bs);
    assert body[0..] == body;
    SplitJoined(body, Rendered(bs), 0);
  }

  /**
   * A completion that ends with a `BLOCKS: [ … ]` section listing well-formed
   * blocks, one after another in the line format the tutor's instructions ask
   * for, declares exactly those blocks, in order.
   */
  lemma DeclaredBlocksRoundTrip(pre: string, bs: seq<LearningBlock>, ws: string)
    requires forall q :: !LitAt(pre, q, "BLOCKS:", false)
    requires AllSpace(ws)
    requires |bs| >= 1 && AllWritable(bs) && EndsWithText(bs[|bs| - 1])
    ensures ParseStructuredBlocks(Section(pre, WriteBlocks(bs), ws)) == bs
  {
    DeclaredPayload(pre, bs, ws);
    WrittenCut(bs);
    BlocksOfWritten(bs);
    PayloadBlocks(Section(pre, WriteBlocks(bs), ws));
  }


  /** A payload that is neither empty nor `none` is cut at its tags and read block by block. */
  lemma PayloadBlocks(s: string)
    requires BlocksPayload(s) != [] && !IsNone(BlocksPayload(s))
    ensures ParseStructuredBlocks(s) == BlocksOfParts(SplitAtTags(BlocksPayload(s), 0))
  {
  }

}

=== FILE: summary.dfy ===
/**
 * The end-of-session summary (`SummaryComponent`): how many messages the
 * learner sent, every learning block the tutor attached, and how many of those
 * blocks were corrections.
 */
module SessionSummary {
  import opened Text
  import opened Blocks

  /** A block as the summary lists it: the bilingual content flattened, examples never missing. */
  datatype SummaryBlock = SummaryBlock(
    kind: BlockType,
    title: string,
    english: string,
    hebrew: string,
    examples: seq<Bilingual>)

  datatype Summary = Summary(
    blocks: seq<SummaryBlock>,
    messageCount: nat,
    correctionCount: nat)

  /** One block, with `block.examples || []`. */
  function Flatten(b: LearningBlock): (r: SummaryBlock)
    ensures r.kind == b.kind && r.title == b.title
    ensures r.english == b.content.english && r.hebrew == b.content.hebrew
    ensures b.examples.None? ==> r.examples == []
    ensures b.examples.Some? ==> r.examples == b.examples.value
  {
    SummaryBlock(b.kind, b.title, b.content.english, b.content.hebrew,
      match b.examples case Some(es) => es case None => [])
  }

  function FlattenAll(bs: seq<LearningBlock>): (r: seq<SummaryBlock>)
    ensures |r| == |bs|
    ensures forall i :: 0 <= i < |bs| ==> r[i] == Flatten(bs[i])
  {
    if bs == [] then [] else [Flatten(bs[0])] + FlattenAll(bs[1..])
  }

  /** The blocks one message contributes: only an assistant message's, and none when it has none. */
  function BlocksOfMessage(m: ChatMessage): (r: seq<SummaryBlock>)
    ensures m.sender == User ==> r == []
    ensures m.learningBlocks.None? ==> r == []
    ensures m.sender == Assistant && m.learningBlocks.Some? ==> r == FlattenAll(m.learningBlocks.value)
  {
    if m.sender == Assistant && m.learningBlocks.Some? then FlattenAll(m.learningBlocks.value) else []
  }

  /** The blocks of every assistant message, in message order and, within a message, in block order. */
  function CollectBlocks(ms: seq<ChatMessage>): seq<SummaryBlock> {
    if ms == [] then [] else BlocksOfMessage(ms[0]) + CollectBlocks(ms[1..])
  }

  /** The messages the learner sent. */
  function UserMessages(ms: seq<ChatMessage>): (r: seq<ChatMessage>)
    ensures forall i :: 0 <= i < |r| ==> r[i].sender == User
    ensures |r| <= |ms|
  {
    if ms == [] then []
    else if ms[0].sender == User then [ms[0]] + UserMessages(ms[1..])
    else UserMessages(ms[1..])
  }

  /** `assistantMessages`: the messages the tutor sent. */
  function AssistantMessages(ms: seq<ChatMessage>): (r: seq<ChatMessage>)
    ensures forall i :: 0 <= i < |r| ==> r[i].sender == Assistant
    ensures |r| <= |ms|
  {
    if ms == [] then []
    else if ms[0].sender == Assistant then [ms[0]] + AssistantMessages(ms[1..])
    else AssistantMessages(ms[1..])
  }

  /** Each filter keeps exactly the conversation's messages from its sender. */
  lemma {:induction false} SenderFiltersKeep(ms: seq<ChatMessage>)
    ensures forall m :: m in UserMessages(ms) <==> m in ms && m.sender == User
    ensures forall m :: m in AssistantMessages(ms) <==> m in ms && m.sender == Assistant
  {
    if ms != [] {
      SenderFiltersKeep(ms[1..]);
      assert ms == [ms[0]] + ms[1..];
    }
  }

  /** Both filters distribute over concatenation, so each keeps the conversation's order. */
  lemma {:induction false} SenderFiltersAppend(a: seq<ChatMessage>, b: seq<ChatMessage>)
    ensures UserMessages(a + b) == UserMessages(a) + UserMessages(b)
    ensures AssistantMessages(a + b) == AssistantMessages(a) + AssistantMessages(b)
  {
    if a == [] {
      assert a + b == b;
    } else {
      var m := a[0];
      var user := if m.sender == User then [m] else [];
      var assistant := if m.sender == Assistant then [m] else [];
      assert (a + b)[0] == m;
      assert (a + b)[1..] == a[1..] + b;
      assert UserMessages(a + b) == user + UserMessages(a[1..] + b);
      assert AssistantMessages(a + b) == assistant + AssistantMessages(a[1..] + b);
      SenderFiltersAppend(a[1..], b);
      Regroup(user, UserMessages(a[1..]), UserMessages(b));
      Regroup(assistant, AssistantMessages(a[1..]), AssistantMessages(b));
    }
  }

  predicate IsCorrection(b: SummaryBlock) {
    b.kind == Grammar || b.kind == Warning
  }

  /** The blocks of grammar or warning type. */
  function Corrections(bs: seq<SummaryBlock>): (r: seq<SummaryBlock>)
    ensures |r| <= |bs|
    ensures forall i :: 0 <= i < |r| ==> IsCorrection(r[i])
  {
    if bs == [] then []
    else if IsCorrection(bs[0]) then [bs[0]] + Corrections(bs[1..])
    else Corrections(bs[1..])
  }

  /** The blocks of one type. */
  function OfKind(bs: seq<SummaryBlock>, t: BlockType): (r: seq<SummaryBlock>)
    ensures forall i :: 0 <= i < |r| ==> r[i].kind == t
  {
    if bs == [] then []
    else if bs[0].kind == t then [bs[0]] + OfKind(bs[1..], t)
    else OfKind(bs[1..], t)
  }

  /**
   * `buildSummary`: the summary of a conversation, rebuilt from the messages alone.
   * Every block comes from some assistant message, and every block of an
   * assistant message is listed.
   */
  function BuildSummary(ms: seq<ChatMessage>): (r: Summary)
    ensures r.messageCount == |ms| - |AssistantMessages(ms)|
    ensures r.correctionCount == |OfKind(r.blocks, Grammar)| + |OfKind(r.blocks, Warning)|
    ensures r.correctionCount <= |r.blocks|
    ensures r.blocks == CollectBlocks(ms)
  {
    var blocks := CollectBlocks(AssistantMessages(ms));
    UsersAndAssistants(ms);
    CorrectionsByKind(blocks);
    AssistantsCarryTheBlocks(ms);
    Summary(blocks, |UserMessages(ms)|, |Corrections(blocks)|)
  }

  /** Every message is from the learner or from the tutor. */
  lemma {:induction false} UsersAndAssistants(ms: seq<ChatMessage>)
    ensures |UserMessages(ms)| + |AssistantMessages(ms)| == |ms|
  {
    if ms != [] {
      UsersAndAssistants(ms[1..]);
    }
  }

  /** The correction count is the grammar blocks plus the warning blocks. */
  lemma {:induction false} CorrectionsByKind(bs: seq<SummaryBlock>)
    ensures |Corrections(bs)| == |OfKind(bs, Grammar)| + |OfKind(bs, Warning)|
  {
    if bs != [] {
      CorrectionsByKind(bs[1..]);
    }
  }

  /** Dropping the learner's messages first changes nothing: they carry no blocks. */
  lemma {:induction false} AssistantsCarryTheBlocks(ms: seq<ChatMessage>)
    ensures CollectBlocks(AssistantMessages(ms)) == CollectBlocks(ms)
  {
    if ms != [] {
      AssistantsCarryTheBlocks(ms[1..]);
      if ms[0].sender == Assistant {
        assert AssistantMessages(ms) == [ms[0]] + AssistantMessages(ms[1..]);
        assert ([ms[0]] + AssistantMessages(ms[1..]))[1..] == AssistantMessages(ms[1..]);
      }
    }
  }

  /** The blocks of a longer conversation are the blocks of its parts, in order. */
  lemma {:induction false} CollectAppend(a: seq<ChatMessage>, b: seq<ChatMessage>)
    ensures CollectBlocks(a + b) == CollectBlocks(a) + CollectBlocks(b)
  {
    if a == [] {
      assert a + b == b;
    } else {
      assert (a + b)[1..] == a[1..] + b;
      CollectAppend(a[1..], b);
    }
  }

  /** Block `j` of assistant message `i` appears in the summary, after the blocks of the earlier messages. */
  lemma {:induction false} EveryBlockListed(ms: seq<ChatMessage>, i: nat, j: nat)
    requires i < |ms| && ms[i].sender == Assistant && ms[i].learningBlocks.Some?
    requires j < |ms[i].learningBlocks.value|
    ensures var bs := BuildSummary(ms).blocks;
      var at := |CollectBlocks(ms[..i])| + j;
      at < |bs| && bs[at] == Flatten(ms[i].learningBlocks.value[j])
  {
    AssistantsCarryTheBlocks(ms);
    assert ms == ms[..i] + ([ms[i]] + ms[i + 1..]);
    CollectAppend(ms[..i], [ms[i]] + ms[i + 1..]);
    CollectAppend([ms[i]], ms[i + 1..]);
    assert CollectBlocks([ms[i]]) == BlocksOfMessage(ms[i]) + CollectBlocks([]);
  }

  /** `b` is block `j` of assistant message `i`. */
  predicate BlockOf(ms: seq<ChatMessage>, i: int, j: int, b: SummaryBlock) {
    && 0 <= i < |ms| && ms[i].sender == Assistant && ms[i].learningBlocks.Some?
    && 0 <= j < |ms[i].learningBlocks.value| && b == Flatten(ms[i].learningBlocks.value[j])
  }

  ghost predicate AssistantBlock(ms: seq<ChatMessage>, b: SummaryBlock) {
    exists i, j :: BlockOf(ms, i, j, b)
  }

  /** Every listed block is some block of some assistant message. */
  lemma {:induction false} OnlyAssistantBlocks(ms: seq<ChatMessage>, k: nat)
    requires k < |CollectBlocks(ms)|
    ensures AssistantBlock(ms, CollectBlocks(ms)[k])
  {
    var head := BlocksOfMessage(ms[0]);
    if k < |head| {
      assert ms[0].sender == Assistant && ms[0].learningBlocks.Some?;
      assert BlockOf(ms, 0, k, CollectBlocks(ms)[k]);
    } else {
      OnlyAssistantBlocks(ms[1..], k - |head|);
      var i, j :| BlockOf(ms[1..], i, j, CollectBlocks(ms[1..])[k - |head|]);
      assert BlockOf(ms, i + 1, j, CollectBlocks(ms)[k]);
    }
  }

  /** A conversation in which only the learner spoke has no blocks and no corrections. */
  lemma LearnerOnly(ms: seq<ChatMessage>)
    requires forall i :: 0 <= i < |ms| ==> ms[i].sender == User
    ensures BuildSummary(ms).blocks == []
    ensures BuildSummary(ms).correctionCount == 0
    ensures BuildSummary(ms).messageCount == |ms|
  {
    NoAssistants(ms);
  }

  lemma {:induction false} NoAssistants(ms: seq<ChatMessage>)
    requires forall i :: 0 <= i < |ms| ==> ms[i].sender == User
    ensures AssistantMessages(ms) == []
  {
    if ms != [] {
      NoAssistants(ms[1..]);
    }
  }

  /**
   * The names `labels[type]` finds on `Object.prototype` rather than in the
   * record literal; every one of them is a function or an object, so truthy.
   */
  const PrototypeKeys: seq<string> := [
    "constructor", "__defineGetter__", "__defineSetter__", "hasOwnProperty",
    "__lookupGetter__", "__lookupSetter__", "isPrototypeOf", "propertyIsEnumerable",
    "toString", "valueOf", "__proto__", "toLocaleString"]

  /**
   * What `getTypeLabel` returns: a text, or the inherited member that a
   * prototype key reads from the label record (not a string at all).
   */
  datatype Label = Shown(text: string) | Inherited(key: string)

  /**
   * `getTypeLabel`: the capitalised name of a known type; a key of
   * `Object.prototype` yields the inherited member; any other type unchanged.
   */
  function TypeLabel(t: string): (r: Label)
    ensures t == "grammar" ==> r == Shown("Grammar")
    ensures t == "usage" ==> r == Shown("Usage")
    ensures t == "warning" ==> r == Shown("Warning")
    ensures t == "practice" ==> r == Shown("Practice")
    ensures r.Inherited? <==> t in PrototypeKeys
    ensures t !in ["grammar", "usage", "warning", "practice"] && t !in PrototypeKeys ==> r == Shown(t)
  {
    if t == "grammar" then Shown("Grammar")
    else if t == "usage" then Shown("Usage")
    else if t == "warning" then Shown("Warning")
    else if t == "practice" then Shown("Practice")
    else if t in PrototypeKeys then Inherited(t)
    else Shown(t)
  }

  /** The label of every block type is its name with the first letter in upper case. */
  lemma TypeLabelCapitalises(k: BlockType)
    ensures var name := TypeName(k);
      var r := TypeLabel(name).text;
      TypeLabel(name).Shown? && |r| == |name| && IsUpper(r[0]) && Lower(r[0]) == name[0] && r[1..] == name[1..]
  {
  }
}

=== FILE: text.dfy ===
/**
 * Character classes and string primitives with the meaning JavaScript gives
 * them: the `\s` class (which is also what `String.prototype.trim` removes),
 * the line terminators that `.` refuses to match, the `\w` class of a
 * non-unicode regular expression, case folding for ASCII letters, literal
 * search, and `split` on a one-character separator.
 */
module Text {

  datatype Option<+T> = None | Some(value: T)

  /** The `\s` class of a JavaScript regular expression; `trim` removes exactly these. */
  predicate IsSpace(c: char) {
    || c == ' ' || c == '\t' || c == '\n' || c == '\r'
    || c == '\U{000B}' || c == '\U{000C}' || c == '\U{00A0}' || c == '\U{1680}'
    || ('\U{2000}' <= c <= '\U{200A}')
    || c == '\U{2028}' || c == '\U{2029}' || c == '\U{202F}' || c == '\U{205F}'
    || c == '\U{3000}' || c == '\U{FEFF}'
  }

  /** The characters `.` does not match and at which a multiline `^`/`$` anchors. */
  predicate IsLineTerminator(c: char) {
    c == '\n' || c == '\r' || c == '\U{2028}' || c == '\U{2029}'
  }

  /** The `\w` class of a regular expression without the `u` flag. */
  predicate IsWordChar(c: char) {
    ('a' <= c <= 'z') || ('A' <= c <= 'Z') || ('0' <= c <= '9') || c == '_'
  }

  predicate IsDigit(c: char) {
    '0' <= c <= '9'
  }

  predicate AllDigits(s: string) {
    forall k :: 0 <= k < |s| ==> IsDigit(s[k])
  }

  predicate IsUpper(c: char) {
    'A' <= c <= 'Z'
  }

  /** ASCII lower-casing of one character. */
  function Lower(c: char): (r: char)
    ensures !IsUpper(r)
    ensures IsUpper(c) ==> r as int == c as int + 32
    ensures !IsUpper(c) ==> r == c
    ensures IsWordChar(c) <==> IsWordChar(r)
  {
    if IsUpper(c) then (c as int + 32) as char else c
  }

  function ToLower(s: string): (r: string)
    ensures |r| == |s|
    ensures forall i :: 0 <= i < |s| ==> r[i] == Lower(s[i])
  {
    if s == [] then [] else [Lower(s[0])] + ToLower(s[1..])
  }

  lemma {:induction false} ToLowerSlice(s: string, a: nat, b: nat)
    requires a <= b <= |s|
    ensures ToLower(s[a..b]) == ToLower(s)[a..b]
  {
  }

  predicate AllSpace(s: string) {
    forall i :: 0 <= i < |s| ==> IsSpace(s[i])
  }

  predicate NoLineTerminator(s: string) {
    forall i :: 0 <= i < |s| ==> !IsLineTerminator(s[i])
  }

  /** No character of `s` is `c`, stated index by index. */
  predicate Lacks(s: string, c: char) {
    forall i :: 0 <= i < |s| ==> s[i] != c
  }

  lemma LacksConcat(a: string, b: string, c: char)
    requires Lacks(a, c) && Lacks(b, c)
    ensures Lacks(a + b, c)
  {
    forall i | 0 <= i < |a + b| ensures (a + b)[i] != c {
      if i < |a| { assert (a + b)[i] == a[i]; } else { assert (a + b)[i] == b[i - |a|]; }
    }
  }

  lemma LacksSlice(s: string, a: nat, b: nat, c: char)
    requires a <= b <= |s| && Lacks(s, c)
    ensures Lacks(s[a..b], c)
  {
    forall k | 0 <= k < b - a ensures s[a..b][k] != c { assert s[a..b][k] == s[a + k]; }
  }

  lemma LacksNotIn(s: string, c: char)
    requires Lacks(s, c)
    ensures c !in s
  {
  }

  /** A trimmed string neither starts nor ends with whitespace. */
  predicate IsTrimmed(s: string) {
    |s| == 0 || (!IsSpace(s[0]) && !IsSpace(s[|s| - 1]))
  }

  /** The first position at or after `i` that does not hold whitespace (or `|s|`). */
  function SkipSpace(s: string, i: nat): (r: nat)
    requires i <= |s|
    ensures i <= r <= |s|
    ensures forall k :: i <= k < r ==> IsSpace(s[k])
    ensures r < |s| ==> !IsSpace(s[r])
    decreases |s| - i
  {
    if i < |s| && IsSpace(s[i]) then SkipSpace(s, i + 1) else i
  }

  /** The start of the maximal whitespace run that ends at position `q`. */
  function SpaceRunStart(s: string, q: nat): (r: nat)
    requires q <= |s|
    ensures r <= q
    ensures forall k :: r <= k < q ==> IsSpace(s[k])
    ensures r > 0 ==> !IsSpace(s[r - 1])
  {
    if q > 0 && IsSpace(s[q - 1]) then SpaceRunStart(s, q - 1) else q
  }

  /** `String.prototype.trimStart`. */
  function TrimStart(s: string): (r: string)
    ensures r == s[SkipSpace(s, 0)..]
    ensures |r| == 0 || !IsSpace(r[0])
  {
    s[SkipSpace(s, 0)..]
  }

  /** `String.prototype.trimEnd`. */
  function TrimEnd(s: string): (r: string)
    ensures r == s[..SpaceRunStart(s, |s|)]
    ensures AllSpace(s[|r|..])
    ensures |r| == 0 || !IsSpace(r[|r| - 1])
  {
    s[..SpaceRunStart(s, |s|)]
  }

  /** `String.prototype.trim`: the text between the leading and the trailing whitespace. */
  function Trim(s: string): (r: string)
    ensures IsTrimmed(r)
    ensures SkipSpace(s, 0) + |r| <= |s|
    ensures r == s[SkipSpace(s, 0)..SkipSpace(s, 0) + |r|]
    ensures AllSpace(s[..SkipSpace(s, 0)]) && AllSpace(s[SkipSpace(s, 0) + |r|..])
    ensures |r| <= |s|
  {
    var a := SkipSpace(s, 0);
    var t := TrimEnd(s[a..]);
    assert AllSpace(s[a + |t|..]) by {
      assert s[a + |t|..] == s[a..][|t|..];
    }
    t
  }

  /** Trimming a string that has no surrounding whitespace leaves it unchanged. */
  lemma TrimOfTrimmed(s: string)
    requires IsTrimmed(s)
    ensures Trim(s) == s
  {
    assert SkipSpace(s, 0) == 0;
    assert SpaceRunStart(s, |s|) == |s|;
  }

  /** Trimming keeps a string free of line terminators. */
  lemma TrimNoLineTerminator(s: string)
    requires NoLineTerminator(s)
    ensures NoLineTerminator(Trim(s))
  {
    var t := Trim(s);
    forall i | 0 <= i < |t| ensures !IsLineTerminator(t[i]) {
      assert t[i] == s[SkipSpace(s, 0) + i];
    }
  }

  /** A string is all whitespace exactly when trimming it yields the empty string. */
  lemma TrimEmptyIffAllSpace(s: string)
    ensures Trim(s) == [] <==> AllSpace(s)
  {
    var a := SkipSpace(s, 0);
    assert a < |s| ==> s[a..][0] == s[a];
    if Trim(s) == [] {
      assert AllSpace(s[a..]);
      assert a == |s|;
      assert s == s[..a];
    }
  }

  /** `Trim` is determined by its characterisation: whitespace around a trimmed middle. */
  lemma TrimIs(s: string, a: nat, b: nat)
    requires a <= b <= |s|
    requires AllSpace(s[..a]) && AllSpace(s[b..]) && IsTrimmed(s[a..b])
    ensures Trim(s) == s[a..b]
  {
    var r := Trim(s);
    var a0 := SkipSpace(s, 0);
    if a < b {
      assert s[a..b][0] == s[a];
      assert forall k :: 0 <= k < a ==> IsSpace(s[..a][k]);
      SkipSpaceIs(s, 0, a);
      assert a0 == a;
    } else {
      forall k | 0 <= k < |s| ensures IsSpace(s[k]) {
        if k < a { assert s[..a][k] == s[k]; } else { assert s[b..][k - b] == s[k]; }
      }
      TrimEmptyIffAllSpace(s);
    }
  }

  /** Two characters agree, exactly or, with `ci`, up to ASCII case. */
  predicate CharEq(a: char, b: char, ci: bool) {
    if ci then Lower(a) == Lower(b) else a == b
  }

  /** `w` occurs at position `k`, compared exactly or, with `ci`, up to ASCII case. */
  predicate LitAt(s: string, k: nat, w: string, ci: bool) {
    k + |w| <= |s| && forall t :: 0 <= t < |w| ==> CharEq(s[k + t], w[t], ci)
  }

  /** One of the alternatives `ws` occurs at position `k`. */
  predicate AnyAt(s: string, k: nat, ws: seq<string>, ci: bool) {
    exists j :: 0 <= j < |ws| && LitAt(s, k, ws[j], ci)
  }

  /** The index of the first alternative, from `ws[t]` on, that occurs at `k`: the one a regular-expression alternation picks. */
  function FirstWordAt(s: string, k: nat, ws: seq<string>, ci: bool, t: nat): (r: Option<nat>)
    requires t <= |ws|
    ensures r.Some? ==> t <= r.value < |ws| && LitAt(s, k, ws[r.value], ci)
    ensures r.Some? ==> forall u :: t <= u < r.value ==> !LitAt(s, k, ws[u], ci)
    ensures r.None? ==> forall u :: t <= u < |ws| ==> !LitAt(s, k, ws[u], ci)
    decreases |ws| - t
  {
    if t == |ws| then None
    else if LitAt(s, k, ws[t], ci) then Some(t)
    else FirstWordAt(s, k, ws, ci, t + 1)
  }

  /** The first position from `i` on whose flag is set: a left-to-right scan. */
  function FirstTrue(b: seq<bool>, i: nat): (r: Option<nat>)
    requires i <= |b|
    ensures r.Some? ==> i <= r.value < |b| && b[r.value]
    ensures r.Some? ==> forall k :: i <= k < r.value ==> !b[k]
    ensures r.None? ==> forall k :: i <= k < |b| ==> !b[k]
    decreases |b| - i
  {
    if i == |b| then None
    else if b[i] then Some(i)
    else FirstTrue(b, i + 1)
  }

  /** `s.includes(w)` (or its ASCII case-insensitive counterpart). */
  predicate Contains(s: string, w: string, ci: bool) {
    exists k :: 0 <= k <= |s| && LitAt(s, k, w, ci)
  }

  predicate ContainsAny(s: string, ws: seq<string>, ci: bool) {
    exists j :: 0 <= j < |ws| && Contains(s, ws[j], ci)
  }

  /** `w` occurs at `k` from its character `t` on: a recursive test the verifier can evaluate on literals. */
  function MatchFrom(s: string, w: string, k: nat, t: nat, ci: bool): bool
    requires k + |w| <= |s| && t <= |w|
    decreases |w| - t
  {
    t == |w| || (CharEq(s[k + t], w[t], ci) && MatchFrom(s, w, k, t + 1, ci))
  }

  /** `w` occurs at `k` or later: the recursive counterpart of `Contains`. */
  function Occurs(s: string, w: string, k: nat, ci: bool): bool
    decreases |s| - k
  {
    if k + |w| > |s| then false else MatchFrom(s, w, k, 0, ci) || Occurs(s, w, k + 1, ci)
  }

  lemma {:induction false} MatchFromIff(s: string, w: string, k: nat, t: nat, ci: bool)
    requires k + |w| <= |s| && t <= |w|
    ensures MatchFrom(s, w, k, t, ci) <==> forall u :: t <= u < |w| ==> CharEq(s[k + u], w[u], ci)
    decreases |w| - t
  {
    if t < |w| {
      MatchFromIff(s, w, k, t + 1, ci);
    }
  }

  lemma {:induction false} OccursIff(s: string, w: string, k: nat, ci: bool)
    ensures Occurs(s, w, k, ci) <==> exists j :: k <= j <= |s| && LitAt(s, j, w, ci)
    decreases |s| - k
  {
    if k + |w| <= |s| {
      MatchFromIff(s, w, k, 0, ci);
      OccursIff(s, w, k + 1, ci);
      if MatchFrom(s, w, k, 0, ci) {
        assert LitAt(s, k, w, ci);
      }
      if exists j :: k <= j <= |s| && LitAt(s, j, w, ci) {
        var j :| k <= j <= |s| && LitAt(s, j, w, ci);
        if j > k {
          assert k + 1 <= j <= |s| && LitAt(s, j, w, ci);
        }
      }
    }
  }

  /** `Contains` decided by the recursive test. */
  lemma ContainsByOccurs(s: string, w: string, ci: bool)
    ensures Contains(s, w, ci) <==> Occurs(s, w, 0, ci)
  {
    OccursIff(s, w, 0, ci);
  }

  /** `Lacks` decided by the recursive test, which evaluates on literal strings. */
  lemma LacksByOccurs(s: string, c: char)
    requires !Occurs(s, [c], 0, false)
    ensures Lacks(s, c)
  {
    ContainsByOccurs(s, [c], false);
    forall i | 0 <= i < |s| ensures s[i] != c {
      assert !LitAt(s, i, [c], false);
    }
  }

  /** `s.indexOf(w, from)` as an option. */
  function IndexOf(s: string, w: string, from: nat, ci: bool): (r: Option<nat>)
    requires from <= |s|
    decreases |s| - from
    ensures r.Some? ==> from <= r.value && LitAt(s, r.value, w, ci)
    ensures r.Some? ==> forall k :: from <= k < r.value ==> !LitAt(s, k, w, ci)
    ensures r.None? ==> forall k :: from <= k <= |s| ==> !LitAt(s, k, w, ci)
  {
    if LitAt(s, from, w, ci) then Some(from)
    else if from == |s| then None
    else IndexOf(s, w, from + 1, ci)
  }

  /** `s.indexOf(c)` for one character. */
  function IndexOfChar(s: string, c: char): (r: Option<nat>)
    ensures r.Some? ==> r.value < |s| && s[r.value] == c && c !in s[..r.value]
    ensures r.None? ==> c !in s
  {
    if s == [] then None
    else if s[0] == c then Some(0)
    else match IndexOfChar(s[1..], c)
      case None => None
      case Some(i) => assert s[..i + 1] == [s[0]] + s[1..][..i]; Some(i + 1)
  }

  /** `s.lastIndexOf(c)` for one character. */
  function LastIndexOfChar(s: string, c: char): (r: Option<nat>)
    ensures r.Some? ==> r.value < |s| && s[r.value] == c && c !in s[r.value + 1..]
    ensures r.None? ==> c !in s
  {
    if s == [] then None
    else if s[|s| - 1] == c then Some(|s| - 1)
    else match LastIndexOfChar(s[..|s| - 1], c)
      case None => None
      case Some(i) =>
        assert s[i + 1..] == s[..|s| - 1][i + 1..] + [s[|s| - 1]];
        Some(i)
  }

  /** The number of `#` characters starting at `p`. */
  function HashRun(s: string, p: nat): (r: nat)
    requires p <= |s|
    ensures p + r <= |s|
    ensures forall k :: p <= k < p + r ==> s[k] == '#'
    ensures p + r < |s| ==> s[p + r] != '#'
    decreases |s| - p
  {
    if p < |s| && s[p] == '#' then 1 + HashRun(s, p + 1) else 0
  }

  /** `HashRun` is determined by its characterisation. */
  lemma {:induction false} HashRunIs(s: string, p: nat, n: nat)
    requires p + n <= |s|
    requires forall k :: p <= k < p + n ==> s[k] == '#'
    requires p + n < |s| ==> s[p + n] != '#'
    ensures HashRun(s, p) == n
    decreases n
  {
    if n > 0 {
      HashRunIs(s, p + 1, n - 1);
    }
  }

  /** The first position at or after `i` that is not a decimal digit. */
  function SkipDigits(s: string, i: nat): (r: nat)
    requires i <= |s|
    ensures i <= r <= |s|
    ensures forall k :: i <= k < r ==> IsDigit(s[k])
    ensures r < |s| ==> !IsDigit(s[r])
    decreases |s| - i
  {
    if i < |s| && IsDigit(s[i]) then SkipDigits(s, i + 1) else i
  }

  /** `xs.flatMap(f)`: the pieces `f` gives for each element, in order. */
  function FlatMap<T, U>(f: T -> seq<U>, xs: seq<T>): seq<U> {
    if xs == [] then [] else f(xs[0]) + FlatMap(f, xs[1..])
  }

  lemma FlatMapCons<T, U>(f: T -> seq<U>, x: T, xs: seq<T>)
    ensures FlatMap(f, [x] + xs) == f(x) + FlatMap(f, xs)
  {
    assert ([x] + xs)[0] == x && ([x] + xs)[1..] == xs;
  }

  /** Appending an element appends its pieces. */
  lemma {:induction false} FlatMapSnoc<T, U>(f: T -> seq<U>, xs: seq<T>, x: T)
    ensures FlatMap(f, xs + [x]) == FlatMap(f, xs) + f(x)
    decreases |xs|
  {
    if xs == [] {
      FlatMapCons(f, x, []);
      assert [x] + [] == [x];
    } else {
      var rest := xs[1..];
      assert xs + [x] == [xs[0]] + (rest + [x]);
      assert xs == [xs[0]] + rest;
      calc {
        FlatMap(f, xs + [x]);
        == { FlatMapCons(f, xs[0], rest + [x]); }
        f(xs[0]) + FlatMap(f, rest + [x]);
        == { FlatMapSnoc(f, rest, x); }
        f(xs[0]) + (FlatMap(f, rest) + f(x));
        == { FlatMapCons(f, xs[0], rest); }
        FlatMap(f, xs) + f(x);
      }
    }
  }

  /** `parts.join(sep)`. */
  function Join(parts: seq<string>, sep: string): string {
    if |parts| == 0 then []
    else if |parts| == 1 then parts[0]
    else parts[0] + sep + Join(parts[1..], sep)
  }

  /** The rest of a text from `p` is its stretch up to `q` followed by the rest from `q`. */
  lemma SliceAt(s: string, p: nat, q: nat)
    requires p <= q <= |s|
    ensures s[p..] == s[p..q] + s[q..]
  {
  }

  /** With nothing between them, the first part is followed directly by the join of the rest. */
  lemma JoinEmptyCons(first: string, rest: seq<string>)
    requires |rest| >= 1
    ensures Join([first] + rest, []) == first + Join(rest, [])
  {
    var parts := [first] + rest;
    assert |parts| > 1 && parts[0] == first && parts[1..] == rest;
    assert first + [] == first;
  }

  /** `s.split(sep)` for a one-character separator: never empty, and no piece holds `sep`. */
  function Split(s: string, sep: char): (r: seq<string>)
    ensures |r| >= 1
    ensures forall i :: 0 <= i < |r| ==> sep !in r[i]
    ensures |r| == 1 <==> sep !in s
    decreases |s|
  {
    match IndexOfChar(s, sep)
    case None => [s]
    case Some(i) => [s[..i]] + Split(s[i + 1..], sep)
  }

  /** The first occurrence of `c` is at `i` when `s[i] == c` and no earlier character is `c`. */
  lemma {:induction false} IndexOfCharAt(s: string, c: char, i: nat)
    requires i < |s| && s[i] == c && c !in s[..i]
    ensures IndexOfChar(s, c) == Some(i)
  {
    if i > 0 {
      assert s[0] == s[..i][0];
      assert s[1..][..i - 1] == s[..i][1..];
      IndexOfCharAt(s[1..], c, i - 1);
    }
  }

  /** The last occurrence of `c` is at `i` when `s[i] == c` and no later character is `c`. */
  lemma {:induction false} LastIndexOfCharAt(s: string, c: char, i: nat)
    requires i < |s| && s[i] == c && c !in s[i + 1..]
    ensures LastIndexOfChar(s, c) == Some(i)
    decreases |s|
  {
    if i < |s| - 1 {
      var init := s[..|s| - 1];
      assert s[|s| - 1] == s[i + 1..][|s| - 2 - i];
      assert init[i + 1..] == s[i + 1..][..|s| - 2 - i];
      LastIndexOfCharAt(init, c, i);
    }
  }

  /** A string is its part before `i`, its character at `i`, and the rest. */
  lemma CutAt(s: string, i: nat)
    requires i < |s|
    ensures s == s[..i] + [s[i]] + s[i + 1..]
  {
    assert s[i..] == [s[i]] + s[i + 1..];
    assert s == s[..i] + s[i..];
  }

  /** A separator at the very end adds one empty piece to the split. */
  lemma {:induction false} SplitEndingSep(s: string, sep: char)
    ensures Split(s + [sep], sep) == Split(s, sep) + [[]]
    decreases |s|
  {
    var t := s + [sep];
    match IndexOfChar(s, sep)
    case None =>
      IndexOfCharAt(t, sep, |s|);
      assert t[..|s|] == s && t[|s| + 1..] == [];
    case Some(i) =>
      IndexOfCharAt(t, sep, i);
      assert t[..i] == s[..i] && t[i + 1..] == s[i + 1..] + [sep];
      SplitEndingSep(s[i + 1..], sep);
  }

  /** A join of pieces that lack `c`, with a separator that lacks it, lacks it too. */
  lemma {:induction false} LacksJoin(parts: seq<string>, sep: string, c: char)
    requires Lacks(sep, c) && forall i :: 0 <= i < |parts| ==> Lacks(parts[i], c)
    ensures Lacks(Join(parts, sep), c)
    decreases |parts|
  {
    if |parts| > 1 {
      LacksJoin(parts[1..], sep, c);
      LacksConcat(parts[0], sep, c);
      LacksConcat(parts[0] + sep, Join(parts[1..], sep), c);
    }
  }

  /** A join ends with its last piece. */
  lemma {:induction false} JoinEndsWithLast(parts: seq<string>, sep: string)
    requires |parts| >= 1
    ensures var j := Join(parts, sep); var last := parts[|parts| - 1];
      |last| <= |j| && j[|j| - |last|..] == last
    decreases |parts|
  {
    if |parts| > 1 {
      JoinEndsWithLast(parts[1..], sep);
      assert parts[1..][|parts[1..]| - 1] == parts[|parts| - 1];
    }
  }

  /** Joining the pieces of a split with the separator gives back the string. */
  lemma {:induction false} JoinSplit(s: string, sep: char)
    ensures Join(Split(s, sep), [sep]) == s
    decreases |s|
  {
    match IndexOfChar(s, sep)
    case None =>
    case Some(i) =>
      var rest := Split(s[i + 1..], sep);
      var parts := [s[..i]] + rest;
      assert Split(s, sep) == parts;
      assert |parts| >= 2 && parts[0] == s[..i] && parts[1..] == rest;
      JoinSplit(s[i + 1..], sep);
      assert Join(parts, [sep]) == s[..i] + [sep] + Join(rest, [sep]);
      CutAt(s, i);
  }

  /** The middle of three concatenated strings, and what lies before it. */
  lemma MiddleSlice(a: string, b: string, c: string)
    ensures var s := a + b + c;
      s[..|a|] == a && s[|a|..|a| + |b|] == b && s[|a| + |b|..] == c
  {
  }

  /** The parts on either side of a separator can be sliced back out. */
  lemma AroundSeparator(a: string, c: char, b: string)
    ensures var s := a + [c] + b;
      |a| < |s| && s[..|a|] == a && s[|a|] == c && s[|a| + 1..] == b
  {
  }

  /** Splitting a join of separator-free pieces gives back the pieces. */
  lemma {:induction false} SplitJoin(parts: seq<string>, sep: char)
    requires |parts| >= 1
    requires forall i :: 0 <= i < |parts| ==> sep !in parts[i]
    ensures Split(Join(parts, [sep]), sep) == parts
    decreases |parts|
  {
    if |parts| > 1 {
      var tail := Join(parts[1..], [sep]);
      calc {
        Split(Join(parts, [sep]), sep);
        Split(parts[0] + [sep] + tail, sep);
        == { SplitAtFirst(parts[0], sep, tail); }
        [parts[0]] + Split(tail, sep);
        == { SplitJoin(parts[1..], sep); }
        [parts[0]] + parts[1..];
        parts;
      }
    }
  }

  /** A split cuts at the first separator. */
  lemma SplitAtFirst(a: string, sep: char, b: string)
    requires sep !in a
    ensures Split(a + [sep] + b, sep) == [a] + Split(b, sep)
  {
    var s := a + [sep] + b;
    AroundSeparator(a, sep, b);
    IndexOfCharAt(s, sep, |a|);
  }

  /** The decimal digits of a natural number, as `String(n)` writes them. */
  function NatToString(n: nat): (r: string)
    ensures |r| >= 1
    ensures forall i :: 0 <= i < |r| ==> IsDigit(r[i])
    ensures n < 10 ==> |r| == 1
    ensures n >= 10 ==> |r| >= 2
    decreases n
  {
    if n < 10 then [('0' as int + n) as char]
    else NatToString(n / 10) + [('0' as int + n % 10) as char]
  }

  function Power10(w: nat): (r: nat)
    ensures r >= 1
  {
    if w == 0 then 1 else 10 * Power10(w - 1)
  }

  /** The value of a string of decimal digits. */
  function DigitsValue(s: string): nat
    requires forall i :: 0 <= i < |s| ==> IsDigit(s[i])
  {
    if s == [] then 0
    else
      assert IsDigit(s[|s| - 1]);
      DigitsValue(s[..|s| - 1]) * 10 + (s[|s| - 1] as int - '0' as int)
  }

  /** Reading back the digits `NatToString` writes gives the number. */
  lemma {:induction false} NatToStringRoundTrip(n: nat)
    ensures DigitsValue(NatToString(n)) == n
    decreases n
  {
    if n >= 10 {
      var r := NatToString(n);
      NatToStringRoundTrip(n / 10);
      assert r[..|r| - 1] == NatToString(n / 10);
    }
  }

  /** The first `'\n'` at or after `i`, or `|s|`: where `[^\n]*` stops. */
  function NextNewline(s: string, i: nat): (r: nat)
    requires i <= |s|
    ensures i <= r <= |s|
    ensures forall k :: i <= k < r ==> s[k] != '\n'
    ensures r < |s| ==> s[r] == '\n'
    decreases |s| - i
  {
    if i < |s| && s[i] != '\n' then NextNewline(s, i + 1) else i
  }

  /** The first line terminator at or after `i`, or `|s|`: where `.*` stops. */
  function NextLineTerminator(s: string, i: nat): (r: nat)
    requires i <= |s|
    ensures i <= r <= |s|
    ensures forall k :: i <= k < r ==> !IsLineTerminator(s[k])
    ensures r < |s| ==> IsLineTerminator(s[r])
    decreases |s| - i
  {
    if i < |s| && !IsLineTerminator(s[i]) then NextLineTerminator(s, i + 1) else i
  }

  /** `SkipSpace` is determined by its characterisation. */
  lemma {:induction false} SkipSpaceIs(s: string, i: nat, j: nat)
    requires i <= j <= |s|
    requires forall k :: i <= k < j ==> IsSpace(s[k])
    requires j < |s| ==> !IsSpace(s[j])
    ensures SkipSpace(s, i) == j
    decreases j - i
  {
    if i < j {
      SkipSpaceIs(s, i + 1, j);
    }
  }

  /** `SkipDigits` is determined by its characterisation. */
  lemma {:induction false} SkipDigitsIs(s: string, i: nat, j: nat)
    requires i <= j <= |s|
    requires forall k :: i <= k < j ==> IsDigit(s[k])
    requires j < |s| ==> !IsDigit(s[j])
    ensures SkipDigits(s, i) == j
    decreases j - i
  {
    if i < j {
      SkipDigitsIs(s, i + 1, j);
    }
  }

  /** `NextNewline` is determined by its characterisation. */
  lemma {:induction false} NextNewlineIs(s: string, i: nat, j: nat)
    requires i <= j <= |s|
    requires forall k :: i <= k < j ==> s[k] != '\n'
    requires j < |s| ==> s[j] == '\n'
    ensures NextNewline(s, i) == j
    decreases j - i
  {
    if i < j {
      NextNewlineIs(s, i + 1, j);
    }
  }

  /** `NextLineTerminator` is determined by its characterisation. */
  lemma {:induction false} NextLineTerminatorIs(s: string, i: nat, j: nat)
    requires i <= j <= |s|
    requires forall k :: i <= k < j ==> !IsLineTerminator(s[k])
    requires j < |s| ==> IsLineTerminator(s[j])
    ensures NextLineTerminator(s, i) == j
    decreases j - i
  {
    if i < j {
      NextLineTerminatorIs(s, i + 1, j);
    }
  }

  /** Skipping whitespace inside a slice agrees with skipping it in the whole string,
      as long as the slice does not end inside the whitespace run. */
  lemma SkipSpaceSlice(s: string, a: nat, b: nat, i: nat)
    requires a <= b <= |s| && i <= b - a
    requires SkipSpace(s[a..b], i) < b - a
    ensures SkipSpace(s, a + i) == a + SkipSpace(s[a..b], i)
  {
    var j := SkipSpace(s[a..b], i);
    SkipSpaceIs(s, a + i, a + j);
  }

  /** An occurrence inside a slice is an occurrence in the whole string. */
  lemma LitAtSlice(s: string, a: nat, b: nat, k: nat, w: string, ci: bool)
    requires a <= b <= |s|
    requires LitAt(s[a..b], k, w, ci)
    ensures LitAt(s, a + k, w, ci)
  {
    forall t | 0 <= t < |w| ensures CharEq(s[a + k + t], w[t], ci) {
      assert s[a..b][k + t] == s[a + k + t];
    }
  }

  /** Case folding never produces or removes a newline or other whitespace. */
  lemma CharEqNewline(c: char, d: char, ci: bool)
    requires CharEq(c, d, ci)
    ensures c == '\n' <==> d == '\n'
    ensures IsSpace(c) <==> IsSpace(d)
  {
  }

  /** An occurrence in a concatenation lies in one side, or spans the joint. */
  lemma LitAtConcat(x: string, y: string, j: nat, w: string, ci: bool)
    requires LitAt(x + y, j, w, ci)
    ensures j + |w| <= |x| ==> LitAt(x, j, w, ci)
    ensures j >= |x| ==> LitAt(y, j - |x|, w, ci)
    ensures j < |x| < j + |w| && y[0] == '\n' ==> '\n' in w
  {
    if j + |w| <= |x| {
      forall t | 0 <= t < |w| ensures CharEq(x[j + t], w[t], ci) {
        assert (x + y)[j + t] == x[j + t];
      }
    }
    if j >= |x| {
      forall t | 0 <= t < |w| ensures CharEq(y[j - |x| + t], w[t], ci) {
        assert (x + y)[j + t] == y[j - |x| + t];
      }
    }
    if j < |x| < j + |w| && y[0] == '\n' {
      var t := |x| - j;
      assert (x + y)[j + t] == y[0];
      CharEqNewline(y[0], w[t], ci);
    }
  }

  /** `s.toLowerCase().includes(w)` for one of the words. */
  predicate Mentions(s: string, words: seq<string>) {
    ContainsAny(ToLower(s), words, false)
  }

  predicate NoUpper(words: seq<string>) {
    forall j, t :: 0 <= j < |words| && 0 <= t < |words[j]| ==> !IsUpper(words[j][t])
  }

  /** Lower-casing the text and then searching for lower-case words is a case-insensitive search. */
  lemma MentionsIsCaseInsensitive(s: string, words: seq<string>)
    requires NoUpper(words)
    ensures Mentions(s, words) <==> ContainsAny(s, words, true)
  {
    var l := ToLower(s);
    forall j, k | 0 <= j < |words| && 0 <= k <= |s|
      ensures LitAt(l, k, words[j], false) <==> LitAt(s, k, words[j], true)
    {
      var w := words[j];
      if k + |w| <= |s| {
        forall t | 0 <= t < |w| ensures CharEq(l[k + t], w[t], false) <==> CharEq(s[k + t], w[t], true) {
          assert !IsUpper(w[t]);
        }
      }
    }
    if Mentions(s, words) {
      var j :| 0 <= j < |words| && Contains(l, words[j], false);
      var k :| 0 <= k <= |l| && LitAt(l, k, words[j], false);
      assert Contains(s, words[j], true);
    }
    if ContainsAny(s, words, true) {
      var j :| 0 <= j < |words| && Contains(s, words[j], true);
      var k :| 0 <= k <= |s| && LitAt(s, k, words[j], true);
      assert Contains(l, words[j], false);
    }
  }

  /** An occurrence of a word holds an occurrence of each of its slices. */
  lemma LitAtInner(s: string, k: nat, w: string, a: nat, v: string, ci: bool)
    requires LitAt(s, k, w, ci)
    requires a + |v| <= |w| && w[a..a + |v|] == v
    ensures LitAt(s, k + a, v, ci)
  {
    forall t | 0 <= t < |v| ensures CharEq(s[k + a + t], v[t], ci) {
      assert v[t] == w[a + t];
    }
  }

  /** A text that contains a word contains each of its slices. */
  lemma ContainsInner(s: string, w: string, a: nat, v: string, ci: bool)
    requires Contains(s, w, ci)
    requires a + |v| <= |w| && w[a..a + |v|] == v
    ensures Contains(s, v, ci)
  {
    var k :| 0 <= k <= |s| && LitAt(s, k, w, ci);
    LitAtInner(s, k, w, a, v, ci);
  }

  /** Concatenation regroups freely. */
  lemma Regroup<T>(x: seq<T>, y: seq<T>, z: seq<T>)
    ensures x + (y + z) == (x + y) + z
  {
  }
}

=== FILE: vocab_cards.dfy ===
/**
 * The flash-card store (`VocabularyService`): cards, suggested cards from
 * the conversation, spaced review and statistics. Storage, clocks and id
 * generation are parameters; times are epoch milliseconds.
 */
module VocabCards {
  import opened Text

  datatype Category =
    | Nouns | Verbs | Adjectives | Adverbs | Phrases | Idioms | Academic | Business | DailyLife

  /** The category's name as stored (`VocabCategory`). */
  function CategoryName(c: Category): (r: string)
    ensures |r| > 0
  {
    match c
    case Nouns => "nouns"
    case Verbs => "verbs"
    case Adjectives => "adjectives"
    case Adverbs => "adverbs"
    case Phrases => "phrases"
    case Idioms => "idioms"
    case Academic => "academic"
    case Business => "business"
    case DailyLife => "daily_life"
  }

  datatype Example = Example(english: string, hebrew: string, context: Option<string>)

  datatype Card = Card(
    id: string,
    english: string,
    hebrew: string,
    pronunciation: string,
    examples: seq<Example>,
    tags: seq<string>,
    level: real,
    category: Category,
    createdAt: int,
    updatedAt: int,
    correctCount: nat,
    incorrectCount: nat,
    lastReviewed: Option<int>,
    nextReview: Option<int>)

  /** A card suggested from the conversation (`AutoVocabCard`). */
  datatype Suggestion = Suggestion(
    english: string,
    hebrew: string,
    context: string,
    examples: seq<Example>,
    suggestedLevel: real,
    suggestedCategory: Category,
    confidence: real)

  datatype Store = Store(cards: seq<Card>, suggested: seq<Suggestion>)

  const DayMs: int := 24 * 60 * 60 * 1000

  predicate HasId(cards: seq<Card>, id: string) {
    exists i :: 0 <= i < |cards| && cards[i].id == id
  }

  /* ---------- adding, updating, deleting ---------- */

  /** What `addCard` is given: everything but the id and the timestamps. */
  datatype Draft = Draft(
    english: string,
    hebrew: string,
    pronunciation: string,
    examples: seq<Example>,
    tags: seq<string>,
    level: real,
    category: Category,
    lastReviewed: Option<int>,
    nextReview: Option<int>)

  /** `addCard`: the draft with a fresh id, zeroed counters and both timestamps `now`, appended. */
  function AddCard(cards: seq<Card>, d: Draft, id: string, now: int): (r: seq<Card>)
    ensures |r| == |cards| + 1 && r[..|cards|] == cards
    ensures var c := r[|cards|];
            && c.id == id && c.english == d.english && c.hebrew == d.hebrew && c.pronunciation == d.pronunciation
            && c.examples == d.examples && c.tags == d.tags && c.level == d.level && c.category == d.category
            && c.correctCount == 0 && c.incorrectCount == 0 && c.createdAt == now && c.updatedAt == now
            && c.lastReviewed == d.lastReviewed && c.nextReview == d.nextReview
  {
    cards + [Card(id, d.english, d.hebrew, d.pronunciation, d.examples, d.tags, d.level, d.category,
                  now, now, 0, 0, d.lastReviewed, d.nextReview)]
  }

  /** The fields a `Partial<VocabularyCard>` may carry; `None` leaves the field as it is. */
  datatype Patch = Patch(
    english: Option<string>,
    hebrew: Option<string>,
    pronunciation: Option<string>,
    examples: Option<seq<Example>>,
    tags: Option<seq<string>>,
    level: Option<real>,
    category: Option<Category>,
    correctCount: Option<nat>,
    incorrectCount: Option<nat>,
    lastReviewed: Option<Option<int>>,
    nextReview: Option<Option<int>>)

  const NoChange: Patch := Patch(None, None, None, None, None, None, None, None, None, None, None)

  function Pick<T>(o: Option<T>, d: T): T {
    if o.Some? then o.value else d
  }

  /** `{ ...card, ...updates }`. */
  function Apply(p: Patch, c: Card): (r: Card)
    ensures r.id == c.id && r.createdAt == c.createdAt && r.updatedAt == c.updatedAt
  {
    c.(english := Pick(p.english, c.english),
       hebrew := Pick(p.hebrew, c.hebrew),
       pronunciation := Pick(p.pronunciation, c.pronunciation),
       examples := Pick(p.examples, c.examples),
       tags := Pick(p.tags, c.tags),
       level := Pick(p.level, c.level),
       category := Pick(p.category, c.category),
       correctCount := Pick(p.correctCount, c.correctCount),
       incorrectCount := Pick(p.incorrectCount, c.incorrectCount),
       lastReviewed := Pick(p.lastReviewed, c.lastReviewed),
       nextReview := Pick(p.nextReview, c.nextReview))
  }

  /** `updateCard`: every card with the id gets the patch and `updatedAt := now`; the rest stay. */
  function UpdateCard(cards: seq<Card>, id: string, p: Patch, now: int): (r: seq<Card>)
    ensures |r| == |cards|
    ensures forall i :: 0 <= i < |r| ==> r[i].id == cards[i].id && r[i].createdAt == cards[i].createdAt
    ensures forall i :: 0 <= i < |r| && cards[i].id != id ==> r[i] == cards[i]
    ensures forall i :: 0 <= i < |r| && cards[i].id == id ==> r[i] == Apply(p, cards[i]).(updatedAt := now)
  {
    if cards == [] then []
    else
      var c := cards[0];
      var rest := UpdateCard(cards[1..], id, p, now);
      assert forall i :: 0 < i < |cards| ==> cards[1..][i - 1] == cards[i];
      [if c.id == id then Apply(p, c).(updatedAt := now) else c] + rest
  }

  /** `deleteCard`: the cards without the id, in their order. */
  function DeleteCard(cards: seq<Card>, id: string): (r: seq<Card>)
    ensures |r| <= |cards|
    ensures forall i :: 0 <= i < |r| ==> r[i].id != id
    ensures forall c :: c in r <==> c in cards && c.id != id
  {
    if cards == [] then []
    else (if cards[0].id == id then [] else [cards[0]]) + DeleteCard(cards[1..], id)
  }

  lemma {:induction false} DeleteAppend(cards: seq<Card>, c: Card, id: string)
    ensures DeleteCard(cards + [c], id) == DeleteCard(cards, id) + (if c.id == id then [] else [c])
  {
    if cards != [] {
      assert (cards + [c])[1..] == cards[1..] + [c];
      DeleteAppend(cards[1..], c, id);
    } else {
      assert cards + [c] == [c];
    }
  }

  lemma {:induction false} DeleteAbsent(cards: seq<Card>, id: string)
    requires !HasId(cards, id)
    ensures DeleteCard(cards, id) == cards
  {
    if cards != [] {
      assert !HasId(cards[1..], id) by {
        forall i | 0 <= i < |cards[1..]| ensures cards[1..][i].id != id { assert cards[1..][i] == cards[i + 1]; }
      }
      DeleteAbsent(cards[1..], id);
      assert cards[0].id != id;
    }
  }

  /** Adding a card under a fresh id and deleting that id restores the store. */
  lemma AddThenDelete(cards: seq<Card>, d: Draft, id: string, now: int)
    requires !HasId(cards, id)
    ensures DeleteCard(AddCard(cards, d, id, now), id) == cards
  {
    DeleteAppend(cards, AddCard(cards, d, id, now)[|cards|], id);
    DeleteAbsent(cards, id);
  }

  /** Updating a card and then deleting it is deleting it. */
  lemma {:induction false} UpdateThenDelete(cards: seq<Card>, id: string, p: Patch, now: int)
    ensures DeleteCard(UpdateCard(cards, id, p, now), id) == DeleteCard(cards, id)
  {
    if cards != [] {
      UpdateThenDelete(cards[1..], id, p, now);
    }
  }

  /** Deleting twice is deleting once. */
  lemma DeleteIdempotent(cards: seq<Card>, id: string)
    ensures DeleteCard(DeleteCard(cards, id), id) == DeleteCard(cards, id)
  {
    DeleteAbsent(DeleteCard(cards, id), id);
  }

  /* ---------- reviews ---------- */

  /** `find(c => c.id === cardId)`. */
  function FindCard(cards: seq<Card>, id: string): (r: Option<Card>)
    ensures r.Some? ==> r.value in cards && r.value.id == id
    ensures r.None? <==> !HasId(cards, id)
  {
    if cards == [] then None
    else if cards[0].id == id then Some(cards[0])
    else
      var r := FindCard(cards[1..], id);
      assert HasId(cards[1..], id) ==> HasId(cards, id) by {
        if HasId(cards[1..], id) {
          var i :| 0 <= i < |cards[1..]| && cards[1..][i].id == id;
          assert cards[i + 1].id == id;
        }
      }
      assert HasId(cards, id) ==> HasId(cards[1..], id) by {
        if HasId(cards, id) {
          var i :| 0 <= i < |cards| && cards[i].id == id;
          assert i > 0 && cards[1..][i - 1].id == id;
        }
      }
      r
  }

  /** The share of correct answers once this answer is counted. */
  function Accuracy(card: Card, wasCorrect: bool): (r: real)
    ensures 0.0 <= r <= 1.0
  {
    var right := card.correctCount + (if wasCorrect then 1 else 0);
    right as real / (card.correctCount + card.incorrectCount + 1) as real
  }

  /** The spacing before the level adjustment: 30, 14, 7 or 3 days by accuracy. */
  function BaseInterval(accuracy: real): (r: real)
    ensures r == 30.0 || r == 14.0 || r == 7.0 || r == 3.0
    ensures r == 30.0 <==> accuracy >= 0.9
    ensures r == 3.0 <==> accuracy < 0.5
  {
    if accuracy >= 0.9 then 30.0
    else if accuracy >= 0.7 then 14.0
    else if accuracy >= 0.5 then 7.0
    else 3.0
  }

  /** `Math.max(1, level * 0.5)`. */
  function LevelFactor(level: real): (r: real)
    ensures r >= 1.0 && r >= level * 0.5
    ensures r == 1.0 || r == level * 0.5
  {
    if level * 0.5 > 1.0 then level * 0.5 else 1.0
  }

  /** The review interval in days (`calculateNextReview`). */
  function IntervalDays(card: Card, wasCorrect: bool): (r: real)
    ensures r >= 3.0
    ensures 1.0 <= card.level <= 4.0 ==> r <= 60.0
  {
    BaseInterval(Accuracy(card, wasCorrect)) * LevelFactor(card.level)
  }

  /** The next review time: `now` plus the interval, cut to whole milliseconds. */
  function NextReview(card: Card, wasCorrect: bool, now: nat): (r: int)
    ensures r >= now + 3 * DayMs
  {
    (now as real + IntervalDays(card, wasCorrect) * DayMs as real).Floor
  }

  /** A better accuracy never means a shorter base interval. */
  lemma BaseMonotone(a: real, b: real)
    requires a <= b
    ensures BaseInterval(a) <= BaseInterval(b)
  {
  }

  /** A right answer never schedules the next review sooner than a wrong one would. */
  lemma RightWaitsLonger(card: Card)
    ensures IntervalDays(card, true) >= IntervalDays(card, false)
  {
    var d := (card.correctCount + card.incorrectCount + 1) as real;
    var x, y := Accuracy(card, false), Accuracy(card, true);
    assert x * d == card.correctCount as real;
    assert y * d == card.correctCount as real + 1.0;
    assert (y - x) * d == 1.0;
    BaseMonotone(x, y);
  }

  /** The patch `recordReviewResult` applies. */
  function ReviewPatch(card: Card, correct: bool, now: nat): Patch {
    NoChange.(
      lastReviewed := Some(Some(now)),
      nextReview := Some(Some(NextReview(card, correct, now))),
      correctCount := Some(if correct then card.correctCount + 1 else card.correctCount),
      incorrectCount := Some(if correct then card.incorrectCount else card.incorrectCount + 1))
  }

  /**
   * `recordReviewResult`: an unknown id changes nothing; otherwise every card
   * with the id gets one more answer counted on the side of `correct`, from
   * the first such card's counters.
   */
  function RecordReviewResult(cards: seq<Card>, id: string, correct: bool, now: nat): (r: seq<Card>)
    ensures !HasId(cards, id) ==> r == cards
    ensures |r| == |cards|
    ensures forall i :: 0 <= i < |r| && cards[i].id != id ==> r[i] == cards[i]
  {
    match FindCard(cards, id)
    case None => cards
    case Some(card) => UpdateCard(cards, id, ReviewPatch(card, correct, now), now)
  }

  /** With one card under the id, a review counts exactly one more answer and schedules it. */
  lemma ReviewCountsOne(cards: seq<Card>, i: nat, correct: bool, now: nat)
    requires i < |cards| && FindCard(cards, cards[i].id) == Some(cards[i])
    ensures var r := RecordReviewResult(cards, cards[i].id, correct, now)[i];
            && r.correctCount + r.incorrectCount == cards[i].correctCount + cards[i].incorrectCount + 1
            && (correct <==> r.correctCount == cards[i].correctCount + 1)
            && r.lastReviewed == Some(now)
            && r.nextReview.Some? && r.nextReview.value >= now + 3 * DayMs
  {
  }

  /* ---------- suggestions ---------- */

  /** `rejectSuggestion`: every suggestion with the same English text goes. */
  function RejectSuggestion(suggested: seq<Suggestion>, card: Suggestion): (r: seq<Suggestion>)
    ensures forall s :: s in r <==> s in suggested && s.english != card.english
    ensures |r| <= |suggested|
  {
    if suggested == [] then []
    else (if suggested[0].english != card.english then [suggested[0]] else [])
         + RejectSuggestion(suggested[1..], card)
  }

  /** Rejecting distributes over concatenation, so the other suggestions keep their order. */
  lemma {:induction false} RejectAppend(a: seq<Suggestion>, b: seq<Suggestion>, card: Suggestion)
    ensures RejectSuggestion(a + b, card) == RejectSuggestion(a, card) + RejectSuggestion(b, card)
  {
    if a == [] {
      assert a + b == b;
    } else {
      assert (a + b)[1..] == a[1..] + b;
      RejectAppend(a[1..], b, card);
    }
  }

  /** Whether a card with the same English text, ignoring case, is in the store. */
  predicate Known(cards: seq<Card>, english: string) {
    exists i :: 0 <= i < |cards| && ToLower(cards[i].english) == ToLower(english)
  }

  /** `filterExistingVocab`: the suggestions the store does not know yet, in order. */
  function FilterExistingVocab(items: seq<Suggestion>, cards: seq<Card>): (r: seq<Suggestion>)
    ensures forall s :: s in r <==> s in items && !Known(cards, s.english)
    ensures |r| <= |items|
  {
    if items == [] then []
    else (if Known(cards, items[0].english) then [] else [items[0]])
         + FilterExistingVocab(items[1..], cards)
  }

  /** `ensureValidLevel`: a level outside 1..4 becomes 1. */
  function EnsureValidLevel(level: real): (r: real)
    ensures 1.0 <= r <= 4.0
    ensures 1.0 <= level <= 4.0 <==> r == level
  {
    if 1.0 <= level <= 4.0 then level else 1.0
  }

  /** The maximal runs of word characters (`[A-Za-z0-9_]`) in `s`, in order: what `split(/\W+/)` keeps apart from empty pieces. */
  function Words(s: string): (r: seq<string>)
    ensures forall i :: 0 <= i < |r| ==> |r[i]| > 0 && forall k :: 0 <= k < |r[i]| ==> IsWordChar(r[i][k])
    ensures forall i :: 0 <= i < |r| ==> Contains(s, r[i], false)
    decreases |s|
  {
    var a := SkipNonWord(s, 0);
    if a == |s| then []
    else
      var b := SkipWordChars(s, a);
      var rest := Words(s[b..]);
      assert LitAt(s, a, s[a..b], false);
      forall i | 0 <= i < |rest| ensures Contains(s, rest[i], false) {
        var k :| 0 <= k <= |s[b..]| && LitAt(s[b..], k, rest[i], false);
        LitAtSlice(s, b, |s|, k, rest[i], false);
      }
      [s[a..b]] + rest
  }

  function SkipNonWord(s: string, i: nat): (r: nat)
    requires i <= |s|
    ensures i <= r <= |s| && (r < |s| ==> IsWordChar(s[r]))
    ensures forall k :: i <= k < r ==> !IsWordChar(s[k])
    decreases |s| - i
  {
    if i < |s| && !IsWordChar(s[i]) then SkipNonWord(s, i + 1) else i
  }

  function SkipWordChars(s: string, i: nat): (r: nat)
    requires i <= |s|
    ensures i <= r <= |s| && forall k :: i <= k < r ==> IsWordChar(s[k])
    ensures r < |s| ==> !IsWordChar(s[r])
    decreases |s| - i
  {
    if i < |s| && IsWordChar(s[i]) then SkipWordChars(s, i + 1) else i
  }

  lemma {:induction false} SkipNonWordIs(s: string, i: nat, j: nat)
    requires i <= j <= |s| && (j < |s| ==> IsWordChar(s[j]))
    requires forall k :: i <= k < j ==> !IsWordChar(s[k])
    ensures SkipNonWord(s, i) == j
    decreases j - i
  {
    if i < j {
      SkipNonWordIs(s, i + 1, j);
    }
  }

  lemma {:induction false} SkipWordCharsIs(s: string, i: nat, j: nat)
    requires i <= j <= |s| && (j < |s| ==> !IsWordChar(s[j]))
    requires forall k :: i <= k < j ==> IsWordChar(s[k])
    ensures SkipWordChars(s, i) == j
    decreases j - i
  {
    if i < j {
      SkipWordCharsIs(s, i + 1, j);
    }
  }

  /** The words longer than three characters. */
  function LongWords(ws: seq<string>): (r: seq<string>)
    ensures forall i :: 0 <= i < |r| ==> |r[i]| > 3 && r[i] in ws
  {
    if ws == [] then [] else (if |ws[0]| > 3 then [ws[0]] else []) + LongWords(ws[1..])
  }

  /** `generateTags`: at most five lower-cased words of the context, each longer than three characters. */
  function GenerateTags(context: string): (r: seq<string>)
    ensures |r| <= 5
    ensures forall i :: 0 <= i < |r| ==> |r[i]| > 3
    ensures forall i :: 0 <= i < |r| ==> forall k :: 0 <= k < |r[i]| ==> IsWordChar(r[i][k]) && !IsUpper(r[i][k])
    ensures forall i :: 0 <= i < |r| ==> Contains(ToLower(context), r[i], false)
  {
    var lower := ToLower(context);
    var ws := Words(lower);
    var long := LongWords(ws);
    var r := if |long| <= 5 then long else long[..5];
    forall i | 0 <= i < |r|
      ensures forall k :: 0 <= k < |r[i]| ==> IsWordChar(r[i][k]) && !IsUpper(r[i][k])
      ensures Contains(lower, r[i], false)
    {
      TagFromWords(lower, ws, long, r[i]);
    }
    r
  }

  lemma TagFromWords(lower: string, ws: seq<string>, long: seq<string>, w: string)
    requires ws == Words(lower) && long == LongWords(ws) && w in long
    requires forall k :: 0 <= k < |lower| ==> !IsUpper(lower[k])
    ensures forall k :: 0 <= k < |w| ==> IsWordChar(w[k]) && !IsUpper(w[k])
    ensures Contains(lower, w, false)
  {
    var j :| 0 <= j < |ws| && ws[j] == w;
    var a :| 0 <= a <= |lower| && LitAt(lower, a, w, false);
    forall k | 0 <= k < |w| ensures !IsUpper(w[k]) {
      assert w[k] == lower[a + k];
    }
  }

  /** A text of word characters only, the form a tag takes. */
  predicate IsWord(w: string) {
    |w| > 0 && forall k :: 0 <= k < |w| ==> IsWordChar(w[k])
  }

  predicate NoUpperIn(s: string) {
    forall k :: 0 <= k < |s| ==> !IsUpper(s[k])
  }

  /** A word followed by a non-word character, or by nothing, is the first word. */
  lemma WordsOfWordThen(w: string, t: string)
    requires IsWord(w) && (t != [] ==> !IsWordChar(t[0]))
    ensures Words(w + t) == [w] + Words(t)
  {
    var s := w + t;
    assert SkipNonWord(s, 0) == 0;
    SkipWordCharsIs(s, 0, |w|);
    assert s[0..|w|] == w && s[|w|..] == t;
  }

  /** Leading non-word characters separate no word. */
  lemma WordsAfterSeparators(p: string, t: string)
    requires forall k :: 0 <= k < |p| ==> !IsWordChar(p[k])
    ensures Words(p + t) == Words(t)
  {
    var s := p + t;
    var a' := SkipNonWord(t, 0);
    SkipNonWordShift(p, t);
    if a' < |t| {
      var b' := SkipWordChars(t, a');
      SkipWordCharsShift(p, t, a');
      SuffixSlices(p, t, a', b');
      SameWords(s, |p| + a', |p| + b', t, a', b');
    }
  }

  lemma SkipNonWordShift(p: string, t: string)
    requires forall k :: 0 <= k < |p| ==> !IsWordChar(p[k])
    ensures SkipNonWord(p + t, 0) == |p| + SkipNonWord(t, 0)
  {
    SuffixChars(p, t);
    SkipNonWordIs(p + t, 0, |p| + SkipNonWord(t, 0));
  }

  lemma SkipWordCharsShift(p: string, t: string, a: nat)
    requires a <= |t|
    ensures SkipWordChars(p + t, |p| + a) == |p| + SkipWordChars(t, a)
  {
    SuffixChars(p, t);
    SkipWordCharsIs(p + t, |p| + a, |p| + SkipWordChars(t, a));
  }

  /** Two texts whose first words and rests agree have the same words. */
  lemma SameWords(s: string, a: nat, b: nat, t: string, a': nat, b': nat)
    requires a < |s| && a == SkipNonWord(s, 0) && b == SkipWordChars(s, a)
    requires a' < |t| && a' == SkipNonWord(t, 0) && b' == SkipWordChars(t, a')
    requires s[a..b] == t[a'..b'] && s[b..] == t[b'..]
    ensures Words(s) == Words(t)
  {
    WordsUnfold(s, a, b);
    WordsUnfold(t, a', b');
  }

  lemma SuffixChars(p: string, t: string)
    ensures forall k :: 0 <= k < |t| ==> (p + t)[|p| + k] == t[k]
  {
  }

  lemma SuffixSlices(p: string, t: string, x: nat, y: nat)
    requires x <= y <= |t|
    ensures (p + t)[|p| + x..|p| + y] == t[x..y] && (p + t)[|p| + y..] == t[y..]
  {
    assert (p + t)[|p|..] == t;
    assert (p + t)[|p| + x..|p| + y] == (p + t)[|p|..][x..y];
    assert (p + t)[|p| + y..] == (p + t)[|p|..][y..];
  }

  /** One step of `Words`: the first word and the words of what follows it. */
  lemma WordsUnfold(s: string, a: nat, b: nat)
    requires a < |s| && a == SkipNonWord(s, 0) && b == SkipWordChars(s, a)
    ensures Words(s) == [s[a..b]] + Words(s[b..])
  {
  }

  /** Words joined by spaces split back into the same words. */
  lemma {:induction false} WordsOfJoin(ws: seq<string>)
    requires forall i :: 0 <= i < |ws| ==> IsWord(ws[i])
    ensures Words(Join(ws, " ")) == ws
  {
    if |ws| == 1 {
      WordsOfWordThen(ws[0], []);
      assert ws[0] + [] == ws[0];
    } else if |ws| > 1 {
      var rest := Join(ws[1..], " ");
      WordsOfJoin(ws[1..]);
      assert Join(ws, " ") == ws[0] + (" " + rest);
      WordsOfWordThen(ws[0], " " + rest);
      WordsAfterSeparators(" ", rest);
    }
  }

  lemma {:induction false} JoinNoUpper(ws: seq<string>)
    requires forall i :: 0 <= i < |ws| ==> NoUpperIn(ws[i])
    ensures NoUpperIn(Join(ws, " "))
  {
    if |ws| > 1 {
      JoinNoUpper(ws[1..]);
      var rest := Join(ws[1..], " ");
      var s := ws[0] + " " + rest;
      forall k | 0 <= k < |s| ensures !IsUpper(s[k]) {
        if k > |ws[0]| { assert s[k] == rest[k - |ws[0]| - 1]; }
      }
    }
  }

  lemma {:induction false} LongWordsOfLong(ws: seq<string>)
    requires forall i :: 0 <= i < |ws| ==> |ws[i]| > 3
    ensures LongWords(ws) == ws
  {
    if ws != [] {
      LongWordsOfLong(ws[1..]);
      assert ws == [ws[0]] + ws[1..];
    }
  }

  /**
   * Lower-case words of more than three characters, written with spaces
   * between them, come back as the tags: the first five of them, in order.
   */
  lemma TagsOfWords(ws: seq<string>)
    requires forall i :: 0 <= i < |ws| ==> IsWord(ws[i]) && NoUpperIn(ws[i]) && |ws[i]| > 3
    ensures GenerateTags(Join(ws, " ")) == if |ws| <= 5 then ws else ws[..5]
  {
    var context := Join(ws, " ");
    JoinNoUpper(ws);
    assert ToLower(context) == context;
    WordsOfJoin(ws);
    LongWordsOfLong(ws);
  }

  /**
   * `addSuggestedCard`: the suggestion becomes a stored card (its examples,
   * or the generated ones when it has none; its level made valid; tags from
   * its context; the id is the decimal clock), and leaves the suggestions.
   */
  function AddSuggestedCard(st: Store, s: Suggestion, generated: seq<Example>, now: nat): (r: Store)
    ensures |r.cards| == |st.cards| + 1 && r.cards[..|st.cards|] == st.cards
    ensures var c := r.cards[|st.cards|];
            && c.english == s.english && c.hebrew == s.hebrew && c.category == s.suggestedCategory
            && c.examples == (if |s.examples| > 0 then s.examples else generated)
            && 1.0 <= c.level <= 4.0 && c.tags == GenerateTags(s.context)
            && c.correctCount == 0 && c.incorrectCount == 0 && c.lastReviewed.None? && c.nextReview.None?
    ensures forall x :: x in r.suggested <==> x in st.suggested && x.english != s.english
  {
    var examples := if |s.examples| > 0 then s.examples else generated;
    var card := Card(NatToString(now), s.english, s.hebrew, "", examples, GenerateTags(s.context),
                     EnsureValidLevel(s.suggestedLevel), s.suggestedCategory, now, now, 0, 0, None, None);
    Store(st.cards + [card], RejectSuggestion(st.suggested, s))
  }

  /** Once a suggestion is added, the store knows its word: it is never suggested again. */
  lemma AddedIsKnown(st: Store, s: Suggestion, generated: seq<Example>, now: nat, items: seq<Suggestion>)
    ensures forall x :: x in FilterExistingVocab(items, AddSuggestedCard(st, s, generated, now).cards) ==>
              ToLower(x.english) != ToLower(s.english)
  {
    var cards := AddSuggestedCard(st, s, generated, now).cards;
    assert cards[|st.cards|].english == s.english;
    forall x | x in FilterExistingVocab(items, cards) ensures ToLower(x.english) != ToLower(s.english) {
      assert !Known(cards, x.english);
    }
  }

  /* ---------- queries and statistics ---------- */

  /** `getCardsForReview`: the cards whose next review is due. */
  function CardsForReview(cards: seq<Card>, now: int): (r: seq<Card>)
    ensures forall c :: c in r <==> c in cards && c.nextReview.Some? && c.nextReview.value <= now
    ensures |r| <= |cards|
  {
    if cards == [] then []
    else
      var c := cards[0];
      (if c.nextReview.Some? && c.nextReview.value <= now then [c] else []) + CardsForReview(cards[1..], now)
  }

  /** The match `searchCards` tests: the query, lower-cased, in the English text, the Hebrew text or a tag. */
  predicate MatchesQuery(c: Card, query: string) {
    var q := ToLower(query);
    || Contains(ToLower(c.english), q, false)
    || Contains(c.hebrew, q, false)
    || exists i :: 0 <= i < |c.tags| && Contains(ToLower(c.tags[i]), q, false)
  }

  /** `searchCards`. */
  function SearchCards(cards: seq<Card>, query: string): (r: seq<Card>)
    ensures forall c :: c in r <==> c in cards && MatchesQuery(c, query)
    ensures |r| <= |cards|
  {
    if cards == [] then []
    else (if MatchesQuery(cards[0], query) then [cards[0]] else []) + SearchCards(cards[1..], query)
  }

  function CountLevel(cards: seq<Card>, level: real): (r: nat)
    ensures r <= |cards|
  {
    if cards == [] then 0 else (if cards[0].level == level then 1 else 0) + CountLevel(cards[1..], level)
  }

  datatype CardStats = CardStats(total: nat, byLevel: seq<nat>)

  /** `getCardStats`: the number of cards, and per level 1 to 4 the cards at exactly that level. */
  function GetCardStats(cards: seq<Card>): (r: CardStats)
    ensures r.total == |cards| && |r.byLevel| == 4
    ensures forall k :: 0 <= k < 4 ==> r.byLevel[k] == CountLevel(cards, (k + 1) as real)
  {
    CardStats(|cards|, seq(4, k requires 0 <= k < 4 => CountLevel(cards, (k + 1) as real)))
  }

  predicate WholeLevels(cards: seq<Card>) {
    forall i :: 0 <= i < |cards| ==> cards[i].level == 1.0 || cards[i].level == 2.0 || cards[i].level == 3.0 || cards[i].level == 4.0
  }

  /** When every level is one of 1 to 4, the per-level counts add up to the total. */
  lemma {:induction false} LevelCountsAddUp(cards: seq<Card>)
    requires WholeLevels(cards)
    ensures CountLevel(cards, 1.0) + CountLevel(cards, 2.0) + CountLevel(cards, 3.0) + CountLevel(cards, 4.0) == |cards|
  {
    if cards != [] {
      assert WholeLevels(cards[1..]) by {
        forall i | 0 <= i < |cards[1..]| ensures cards[1..][i].level in {1.0, 2.0, 3.0, 4.0} {
          assert cards[1..][i] == cards[i + 1];
        }
      }
      LevelCountsAddUp(cards[1..]);
    }
  }

  function CountCategory(cards: seq<Card>, c: Category): (r: nat)
    ensures r <= |cards|
  {
    if cards == [] then 0 else (if cards[0].category == c then 1 else 0) + CountCategory(cards[1..], c)
  }

  /** Mastered: answered at least once, with at least 90% right. */
  predicate Mastered(c: Card) {
    var total := c.correctCount + c.incorrectCount;
    total > 0 && c.correctCount as real / total as real >= 0.9
  }

  function CountMastered(cards: seq<Card>): (r: nat)
    ensures r <= |cards|
  {
    if cards == [] then 0 else (if Mastered(cards[0]) then 1 else 0) + CountMastered(cards[1..])
  }

  function TotalAttempts(cards: seq<Card>): nat {
    if cards == [] then 0 else cards[0].correctCount + cards[0].incorrectCount + TotalAttempts(cards[1..])
  }

  function TotalCorrect(cards: seq<Card>): (r: nat)
    ensures r <= TotalAttempts(cards)
  {
    if cards == [] then 0 else cards[0].correctCount + TotalCorrect(cards[1..])
  }

  datatype LearningStats = LearningStats(
    totalCards: nat,
    masteredCards: nat,
    cardsToReview: nat,
    averageAccuracy: real,
    categoryBreakdown: map<Category, nat>,
    levelBreakdown: map<real, nat>)

  /** The reduce over the cards: a count per category that occurs. */
  function CategoryBreakdown(cards: seq<Card>): (r: map<Category, nat>)
    ensures forall c :: c in r <==> CountCategory(cards, c) > 0
    ensures forall c :: c in r ==> r[c] == CountCategory(cards, c)
    decreases |cards|
  {
    if cards == [] then map[]
    else
      var init := cards[..|cards| - 1];
      var last := cards[|cards| - 1];
      var m := CategoryBreakdown(init);
      CountCategoryAppend(init, last);
      assert cards == init + [last];
      m[last.category := (if last.category in m then m[last.category] else 0) + 1]
  }

  lemma {:induction false} CountCategoryAppend(cards: seq<Card>, x: Card)
    ensures forall c :: CountCategory(cards + [x], c) == CountCategory(cards, c) + (if x.category == c then 1 else 0)
  {
    if cards != [] {
      assert (cards + [x])[1..] == cards[1..] + [x];
      CountCategoryAppend(cards[1..], x);
    } else {
      assert cards + [x] == [x];
    }
  }

  function LevelBreakdown(cards: seq<Card>): (r: map<real, nat>)
    ensures forall l :: l in r <==> CountLevel(cards, l) > 0
    ensures forall l :: l in r ==> r[l] == CountLevel(cards, l)
    decreases |cards|
  {
    if cards == [] then map[]
    else
      var init := cards[..|cards| - 1];
      var last := cards[|cards| - 1];
      var m := LevelBreakdown(init);
      CountLevelAppend(init, last);
      assert cards == init + [last];
      m[last.level := (if last.level in m then m[last.level] else 0) + 1]
  }

  lemma {:induction false} CountLevelAppend(cards: seq<Card>, x: Card)
    ensures forall l :: CountLevel(cards + [x], l) == CountLevel(cards, l) + (if x.level == l then 1 else 0)
  {
    if cards != [] {
      assert (cards + [x])[1..] == cards[1..] + [x];
      CountLevelAppend(cards[1..], x);
    } else {
      assert cards + [x] == [x];
    }
  }

  /**
   * `getLearningStats` without the seven-day history: totals, mastered and
   * due cards, overall accuracy in percent, and the per-category and
   * per-level counts.
   */
  function GetLearningStats(cards: seq<Card>, now: int): (r: LearningStats)
    ensures r.totalCards == |cards|
    ensures r.masteredCards <= r.totalCards && r.cardsToReview <= r.totalCards
    ensures 0.0 <= r.averageAccuracy <= 100.0
    ensures TotalAttempts(cards) == 0 ==> r.averageAccuracy == 0.0
    ensures forall c :: c in r.categoryBreakdown <==> exists i :: 0 <= i < |cards| && cards[i].category == c
    ensures forall c :: c in r.categoryBreakdown ==> r.categoryBreakdown[c] == CountCategory(cards, c)
    ensures forall l :: l in r.levelBreakdown <==> CountLevel(cards, l) > 0
    ensures forall l :: l in r.levelBreakdown ==> r.levelBreakdown[l] == CountLevel(cards, l)
    ensures r.masteredCards == CountMastered(cards)
    ensures r.cardsToReview == |CardsForReview(cards, now)|
    ensures TotalAttempts(cards) > 0 ==>
              r.averageAccuracy == Percent(TotalCorrect(cards), TotalAttempts(cards))
  {
    var breakdown := CategoryBreakdown(cards);
    forall c ensures c in breakdown <==> exists i :: 0 <= i < |cards| && cards[i].category == c {
      CountCategoryPositive(cards, c);
    }
    var attempts := TotalAttempts(cards);
    var accuracy := if attempts > 0 then Percent(TotalCorrect(cards), attempts) else 0.0;
    LearningStats(
      |cards|,
      CountMastered(cards),
      |CardsForReview(cards, now)|,
      accuracy,
      breakdown,
      LevelBreakdown(cards))
  }

  /** `correct / attempts * 100`, a percentage since no more answers are right than given. */
  function Percent(correct: nat, attempts: nat): (r: real)
    requires 0 < attempts && correct <= attempts
    ensures 0.0 <= r <= 100.0
    ensures r * attempts as real == correct as real * 100.0
  {
    var q := correct as real / attempts as real;
    assert q * attempts as real == correct as real;
    assert (1.0 - q) * attempts as real == (attempts - correct) as real;
    q * 100.0
  }

  lemma {:induction false} CountCategoryPositive(cards: seq<Card>, c: Category)
    ensures CountCategory(cards, c) > 0 <==> exists i :: 0 <= i < |cards| && cards[i].category == c
  {
    if cards != [] {
      CountCategoryPositive(cards[1..], c);
      if exists i :: 0 <= i < |cards[1..]| && cards[1..][i].category == c {
        var i :| 0 <= i < |cards[1..]| && cards[1..][i].category == c;
        assert cards[i + 1].category == c;
      }
      if exists i :: 0 <= i < |cards| && cards[i].category == c {
        var i :| 0 <= i < |cards| && cards[i].category == c;
        if i > 0 { assert cards[1..][i - 1].category == c; }
      }
    }
  }

  /** Every card falls in exactly one category: the nine counts add up to the total. */
  lemma {:induction false} CategoryCountsAddUp(cards: seq<Card>)
    ensures CountCategory(cards, Nouns) + CountCategory(cards, Verbs) + CountCategory(cards, Adjectives)
            + CountCategory(cards, Adverbs) + CountCategory(cards, Phrases) + CountCategory(cards, Idioms)
            + CountCategory(cards, Academic) + CountCategory(cards, Business) + CountCategory(cards, DailyLife)
            == |cards|
  {
    if cards != [] {
      CategoryCountsAddUp(cards[1..]);
    }
  }

  /* ---------- lookups and review priority ---------- */

  /** `getCardsByCategory`: the cards of that category, in store order. */
  function CardsByCategory(cards: seq<Card>, c: Category): (r: seq<Card>)
    ensures forall x :: x in r <==> x in cards && x.category == c
    ensures |r| == CountCategory(cards, c)
  {
    if cards == [] then []
    else (if cards[0].category == c then [cards[0]] else []) + CardsByCategory(cards[1..], c)
  }

  /** `getCardsByLevel`: the cards at that level, in store order. */
  function CardsByLevel(cards: seq<Card>, level: real): (r: seq<Card>)
    ensures forall x :: x in r <==> x in cards && x.level == level
    ensures |r| == CountLevel(cards, level)
  {
    if cards == [] then []
    else (if cards[0].level == level then [cards[0]] else []) + CardsByLevel(cards[1..], level)
  }

  /** The share of correct answers so far, with `|| 1` guarding the empty count. */
  function Share(c: Card): (r: real)
    ensures 0.0 <= r <= 1.0
    ensures c.correctCount + c.incorrectCount == 0 ==> r == 0.0
  {
    var attempts := c.correctCount + c.incorrectCount;
    c.correctCount as real / (if attempts == 0 then 1 else attempts) as real
  }

  /** Days, as a fraction, from `t` to `now`. */
  function DaysSince(t: int, now: int): real {
    (now - t) as real / DayMs as real
  }

  /**
   * `calculateReviewPriority` at time `now`: the missed share in percent plus
   * the days since the last review; `None` is `Infinity`, for a card never
   * reviewed.
   */
  function ReviewPriority(c: Card, now: int): (r: Option<real>)
    ensures r.None? <==> c.lastReviewed.None?
    ensures r.Some? ==> DaysSince(c.lastReviewed.value, now) <= r.value <= DaysSince(c.lastReviewed.value, now) + 100.0
    ensures r.Some? && c.correctCount + c.incorrectCount == 0 ==> r.value == DaysSince(c.lastReviewed.value, now) + 100.0
  {
    match c.lastReviewed
    case None => None
    case Some(t) => Some((1.0 - Share(c)) * 100.0 + DaysSince(t, now))
  }

  /** Of two cards answered equally well, the one reviewed longer ago comes first. */
  lemma StalerFirst(a: Card, b: Card, now: int)
    requires a.lastReviewed.Some? && b.lastReviewed.Some? && Share(a) == Share(b)
    requires a.lastReviewed.value < b.lastReviewed.value
    ensures ReviewPriority(a, now).value > ReviewPriority(b, now).value
  {
  }

  /** Of two cards reviewed at the same time, the one answered worse comes first. */
  lemma WorseFirst(a: Card, b: Card, now: int)
    requires a.lastReviewed.Some? && a.lastReviewed == b.lastReviewed && Share(a) < Share(b)
    ensures ReviewPriority(a, now).value > ReviewPriority(b, now).value
  {
  }
}

=== FILE: vocab_extraction.dfy ===
/**
 * Reading the vocabulary the model extracts from a conversation
 * (`VocabularyClaudeService.parseVocabularyResponse`): code fences are
 * removed, the text from the first `{` to the last `}` is parsed, and each
 * item of its `vocabulary` array is normalised into a suggestion.
 * `JSON.parse` is the parameter `parse`; `None` is a parse error.
 */
module VocabExtraction {
  import opened Text
  import opened Json
  import opened VocabCards

  /* ---------- code fences ---------- */

  /** `replace(/<fence>\n?/g, '')`: every occurrence, left to right, with one newline after it. */
  function StripFence(s: string, fence: string): (r: string)
    requires |fence| > 0
    ensures |r| <= |s|
    decreases |s|
  {
    if s == [] then []
    else if LitAt(s, 0, fence, false) then
      var rest := s[|fence|..];
      if rest != [] && rest[0] == '\n' then StripFence(rest[1..], fence) else StripFence(rest, fence)
    else [s[0]] + StripFence(s[1..], fence)
  }

  const Ticks: string := "```"

  /** The cleaning step: json fences, then bare fences, then the surrounding whitespace. */
  function Clean(content: string): string {
    Trim(StripFence(StripFence(content, "```json"), Ticks))
  }

  ghost predicate NoTicks(t: string) {
    forall k: nat :: !LitAt(t, k, Ticks, false)
  }

  predicate TwoTicks(t: string) {
    |t| >= 2 && t[0] == '`' && t[1] == '`'
  }

  /** Three backticks at `k`, character by character. */
  lemma TicksAt(s: string, k: nat)
    ensures LitAt(s, k, Ticks, false) <==> k + 3 <= |s| && s[k] == '`' && s[k + 1] == '`' && s[k + 2] == '`'
  {
    assert |Ticks| == 3 && Ticks[0] == '`' && Ticks[1] == '`' && Ticks[2] == '`';
  }

  /** A text that does not start with a backtick keeps its first character. */
  lemma StripKeepsFirst(s: string)
    requires |s| > 0 && s[0] != '`'
    ensures var r := StripFence(s, Ticks); |r| > 0 && r[0] == s[0]
  {
    TicksAt(s, 0);
  }

  /** Without a fence at the start, what follows a leading backtick does not open with two more. */
  lemma NoTwoTicksAfter(s: string)
    requires |s| > 0 && s[0] == '`' && !LitAt(s, 0, Ticks, false)
    ensures !TwoTicks(StripFence(s[1..], Ticks))
  {
    TicksAt(s, 0);
    var t := s[1..];
    if |t| > 0 {
      if t[0] != '`' {
        StripKeepsFirst(t);
      } else {
        TicksAt(t, 0);
        assert StripFence(t, Ticks) == [t[0]] + StripFence(t[1..], Ticks);
        if |t| > 1 {
          StripKeepsFirst(t[1..]);
        }
      }
    }
  }

  lemma PrependNoTicks(c: char, t: string)
    requires NoTicks(t) && !(c == '`' && TwoTicks(t))
    ensures NoTicks([c] + t)
  {
    var u := [c] + t;
    forall k: nat ensures !LitAt(u, k, Ticks, false) {
      TicksAt(u, k);
      if k > 0 {
        TicksAt(t, k - 1);
        assert !LitAt(t, k - 1, Ticks, false);
      }
    }
  }

  /** After removing the bare fences no three backticks in a row are left. */
  lemma {:induction false} StripLeavesNoTicks(s: string)
    ensures NoTicks(StripFence(s, Ticks))
    decreases |s|
  {
    if s == [] {
    } else if LitAt(s, 0, Ticks, false) {
      var rest := s[3..];
      if rest != [] && rest[0] == '\n' { StripLeavesNoTicks(rest[1..]); } else { StripLeavesNoTicks(rest); }
    } else {
      StripLeavesNoTicks(s[1..]);
      if s[0] == '`' { NoTwoTicksAfter(s); }
      PrependNoTicks(s[0], StripFence(s[1..], Ticks));
    }
  }

  /** `substring(a, b)`: the arguments are swapped when `a > b`. */
  function Substring(s: string, a: nat, b: nat): (r: string)
    requires a <= |s| && b <= |s|
    ensures a <= b ==> r == s[a..b]
    ensures b < a ==> r == s[b..a]
  {
    if a <= b then s[a..b] else s[b..a]
  }

  /* ---------- normalising one item ---------- */

  /** The categories the extraction accepts, in the order it lists them. */
  const Accepted: seq<Category> := [Nouns, Verbs, Adjectives, Phrases, Idioms]

  /** `validateCategory(item.suggestedCategory || '')`: an accepted name, ignoring case, or else nouns. */
  function ValidateCategory(v: Value): (r: Category)
    ensures r in Accepted
  {
    CategoryFromName(ToLower(StringOf(v)))
  }

  /** The category a lower-cased name selects, nouns when it names none of the accepted ones. */
  function CategoryFromName(normalized: string): (r: Category)
    ensures r in Accepted
  {
    if normalized == "nouns" then Nouns
    else if normalized == "verbs" then Verbs
    else if normalized == "adjectives" then Adjectives
    else if normalized == "phrases" then Phrases
    else if normalized == "idioms" then Idioms
    else Nouns
  }

  /**
   * The category is the lower-cased text's own when that names an accepted
   * category, and nouns otherwise.
   */
  lemma ValidateCategoryMeaning(v: Value)
    ensures (exists c :: c in Accepted && CategoryName(c) == ToLower(StringOf(v))) <==>
              ToLower(StringOf(v)) == CategoryName(ValidateCategory(v))
    ensures (forall c :: c in Accepted ==> CategoryName(c) != ToLower(StringOf(v))) ==> ValidateCategory(v) == Nouns
  {
    var n := ToLower(StringOf(v));
    var r := ValidateCategory(v);
    if exists c :: c in Accepted && CategoryName(c) == n {
      var c :| c in Accepted && CategoryName(c) == n;
      NameSelectsCategory(c);
    } else {
      assert CategoryName(r) != n by {
        assert r in Accepted;
      }
    }
  }

  /** Each accepted category's name selects that category. */
  lemma NameSelectsCategory(c: Category)
    requires c in Accepted
    ensures CategoryFromName(CategoryName(c)) == c
  {
    assert c == Nouns || c == Verbs || c == Adjectives || c == Phrases || c == Idioms;
  }

  /** Accepted names written in lower case come back as their category. */
  lemma CategoryRoundTrip(c: Category)
    requires c in Accepted
    ensures ValidateCategory(Str(CategoryName(c))) == c
  {
    NameIsLower(c);
    LowerOfLower(CategoryName(c));
  }

  /** An accepted name in any mix of cases gives its category: `Str("Verbs")` gives `Verbs`. */
  lemma CategoryIgnoresCase(text: string, c: Category)
    requires c in Accepted && ToLower(text) == CategoryName(c)
    ensures ValidateCategory(Str(text)) == c
  {
  }

  /** Every category name is written in lower case. */
  lemma NameIsLower(c: Category)
    ensures forall k :: 0 <= k < |CategoryName(c)| ==> !IsUpper(CategoryName(c)[k])
  {
    var n := CategoryName(c);
    forall k | 0 <= k < |n| ensures !IsUpper(n[k]) {
      assert n[k] in "abcdefghijklmnopqrstuvwxyz_";
    }
  }

  /** The store's other categories are not accepted: they fall back to nouns. */
  lemma OtherCategoriesBecomeNouns(c: Category)
    requires c !in Accepted
    ensures ValidateCategory(Str(CategoryName(c))) == Nouns
  {
    NameIsLower(c);
    LowerOfLower(CategoryName(c));
  }

  lemma LowerOfLower(s: string)
    requires forall k :: 0 <= k < |s| ==> !IsUpper(s[k])
    ensures ToLower(s) == s
  {
  }

  /** `Math.min(Math.max(lo, x), hi)`. */
  function Clamp(x: real, lo: real, hi: real): (r: real)
    requires lo <= hi
    ensures lo <= r <= hi
    ensures lo <= x <= hi ==> r == x
  {
    if x < lo then lo else if x > hi then hi else x
  }

  /** `String(x || '')` of a property read. */
  function TextField(v: Value, key: string): string {
    StringOf(Or(Get(v, key), Str("")))
  }

  /** The examples of one item; reading a property of a `null` example throws (`None`). */
  function MapExamples(exs: seq<Value>): (r: Option<seq<Example>>)
    ensures r.Some? ==> |r.value| == |exs|
    ensures r.None? <==> exists i :: 0 <= i < |exs| && exs[i].Null?
  {
    if exs == [] then Some([])
    else if exs[0].Null? then None
    else
      match MapExamples(exs[1..])
      case None => None
      case Some(rest) =>
        assert forall i :: 0 <= i < |exs[1..]| ==> exs[1..][i] == exs[i + 1];
        Some([Example(TextField(exs[0], "english"), TextField(exs[0], "hebrew"), None)] + rest)
  }

  /**
   * One item of `vocabulary`: texts default to "", a non-array `examples`
   * to none, the level to 1..4 (0 and NaN counting as 1), the confidence to
   * 0..1 (NaN counting as 0). A `null` item or example throws (`None`).
   */
  function MapItem(item: Value): (r: Option<Suggestion>)
    ensures r.Some? ==> 1.0 <= r.value.suggestedLevel <= 4.0
    ensures r.Some? ==> 0.0 <= r.value.confidence <= 1.0
    ensures r.Some? ==> r.value.suggestedCategory in Accepted
    ensures item.Null? ==> r.None?
  {
    if item.Null? then None
    else
      var examples :=
        match Get(item, "examples")
        case Some(Arr(exs)) => MapExamples(exs)
        case _ => Some([]);
      if examples.None? then None
      else Some(Suggestion(
        TextField(item, "english"),
        TextField(item, "hebrew"),
        TextField(item, "context"),
        examples.value,
        Clamp(NumberOr(Get(item, "suggestedLevel"), 1.0), 1.0, 4.0),
        ValidateCategory(Or(Get(item, "suggestedCategory"), Str(""))),
        Clamp(NumberOr(Get(item, "confidence"), 0.0), 0.0, 1.0)))
  }

  /** All items, or `None` when one of them throws. */
  function MapItems(items: seq<Value>): (r: Option<seq<Suggestion>>)
    ensures r.Some? ==> |r.value| == |items| && forall i :: 0 <= i < |items| ==> MapItem(items[i]) == Some(r.value[i])
    ensures r.None? <==> exists i :: 0 <= i < |items| && MapItem(items[i]).None?
  {
    if items == [] then Some([])
    else
      assert forall i :: 0 <= i < |items[1..]| ==> items[1..][i] == items[i + 1];
      match MapItem(items[0])
      case None => None
      case Some(s) =>
        match MapItems(items[1..])
        case None => None
        case Some(rest) => Some([s] + rest)
  }

  /** `filter(item => item.english && item.hebrew)`. */
  function KeepNamed(ss: seq<Suggestion>): (r: seq<Suggestion>)
    ensures forall s :: s in r <==> s in ss && s.english != [] && s.hebrew != []
    ensures |r| <= |ss|
  {
    if ss == [] then []
    else (if ss[0].english != [] && ss[0].hebrew != [] then [ss[0]] else []) + KeepNamed(ss[1..])
  }

  /** The value parsed: its `vocabulary` array, normalised and filtered; anything else gives none. */
  function FromRoot(root: Value): (r: seq<Suggestion>)
  {
    if root.Null? then []
    else match Get(root, "vocabulary")
      case Some(Arr(items)) =>
        (match MapItems(items) case None => [] case Some(ss) => KeepNamed(ss))
      case _ => []
  }

  /**
   * The text handed to `JSON.parse`: the stretch of the cleaned reply from
   * its first `{` to its last `}` (with `substring`'s swap when the last `}`
   * comes before the first `{`), or `None` when a brace is missing.
   */
  function JsonSpan(content: string): (r: Option<string>)
    ensures r.None? <==> '{' !in Clean(content) || '}' !in Clean(content)
    ensures r.Some? ==>
              var c := Clean(content);
              exists i: nat, j: nat :: i < |c| && j < |c|
                && c[i] == '{' && '{' !in c[..i] && c[j] == '}' && '}' !in c[j + 1..]
                && r.value == Substring(c, i, j + 1)
  {
    BraceSpan(Clean(content))
  }

  /** The first-`{`-to-last-`}` stretch of an already cleaned text. */
  function BraceSpan(c: string): (r: Option<string>)
    ensures r.None? <==> '{' !in c || '}' !in c
    ensures r.Some? ==>
              exists i: nat, j: nat :: i < |c| && j < |c|
                && c[i] == '{' && '{' !in c[..i] && c[j] == '}' && '}' !in c[j + 1..]
                && r.value == Substring(c, i, j + 1)
  {
    var open := IndexOfChar(c, '{');
    var close := LastIndexOfChar(c, '}');
    if open.None? || close.None? then None
    else
      var i, j := open.value, close.value;
      assert c[i] == '{' && '{' !in c[..i] && c[j] == '}' && '}' !in c[j + 1..];
      Some(Substring(c, i, j + 1))
  }

  /**
   * `parseVocabularyResponse`: every suggestion it returns has an English
   * and a Hebrew text, a level in 1..4, a confidence in 0..1 and an accepted
   * category.
   */
  function ParseVocabularyResponse(content: string, parse: string -> Option<Value>): (r: seq<Suggestion>)
    ensures forall i :: 0 <= i < |r| ==>
              && r[i].english != [] && r[i].hebrew != []
              && 1.0 <= r[i].suggestedLevel <= 4.0 && 0.0 <= r[i].confidence <= 1.0
              && r[i].suggestedCategory in Accepted
    ensures JsonSpan(content).None? ==> r == []
  {
    match JsonSpan(content)
    case None => []
    case Some(span) =>
      match parse(span)
      case None => []
      case Some(root) =>
        FromRootIsNormal(root);
        FromRoot(root)
  }

  /** Every suggestion read from a parsed value is named and within range. */
  lemma FromRootIsNormal(root: Value)
    ensures forall i :: 0 <= i < |FromRoot(root)| ==>
              && FromRoot(root)[i].english != [] && FromRoot(root)[i].hebrew != []
              && 1.0 <= FromRoot(root)[i].suggestedLevel <= 4.0 && 0.0 <= FromRoot(root)[i].confidence <= 1.0
              && FromRoot(root)[i].suggestedCategory in Accepted
  {
    var r := FromRoot(root);
    forall i | 0 <= i < |r|
      ensures 1.0 <= r[i].suggestedLevel <= 4.0 && 0.0 <= r[i].confidence <= 1.0
      ensures r[i].suggestedCategory in Accepted && r[i].english != [] && r[i].hebrew != []
    {
      assert r[i] in r;
      var items := Get(root, "vocabulary").value.items;
      var ss := MapItems(items).value;
      assert r[i] in ss;
      var j :| 0 <= j < |ss| && ss[j] == r[i];
      assert MapItem(items[j]) == Some(r[i]);
    }
  }

  /** A `vocabulary` that is missing or not an array gives no suggestions. */
  lemma NotArrayNoSuggestions(content: string, parse: string -> Option<Value>, root: Value)
    requires JsonSpan(content).Some? && parse(JsonSpan(content).value) == Some(root)
    requires !(Get(root, "vocabulary").Some? && Get(root, "vocabulary").value.Arr?)
    ensures ParseVocabularyResponse(content, parse) == []
  {
  }

  /** One `null` item makes the whole call throw, which gives no suggestions at all. */
  lemma NullItemDropsAll(items: seq<Value>, i: nat)
    requires i < |items| && items[i].Null?
    ensures FromRoot(Obj(map["vocabulary" := Arr(items)])) == []
  {
    assert MapItem(items[i]).None?;
  }

  /* ---------- the JSON a normalised suggestion is written as ---------- */

  /** A suggestion as the model is asked to write it. */
  function ToJson(s: Suggestion): Value {
    Obj(map[
      "english" := Str(s.english),
      "hebrew" := Str(s.hebrew),
      "context" := Str(s.context),
      "examples" := Arr(ExamplesJson(s.examples)),
      "suggestedLevel" := Num(s.suggestedLevel),
      "suggestedCategory" := Str(CategoryName(s.suggestedCategory)),
      "confidence" := Num(s.confidence)])
  }

  function ExamplesJson(exs: seq<Example>): (r: seq<Value>)
    ensures |r| == |exs| && forall i :: 0 <= i < |r| ==> r[i].Obj?
  {
    if exs == [] then []
    else [Obj(map["english" := Str(exs[0].english), "hebrew" := Str(exs[0].hebrew)])] + ExamplesJson(exs[1..])
  }

  /** An example written as an object reads back through its two text fields. */
  lemma ExampleFieldsBack(e: Example, o: Value)
    requires e.context.None? && o == Obj(map["english" := Str(e.english), "hebrew" := Str(e.hebrew)])
    ensures !o.Null? && Example(TextField(o, "english"), TextField(o, "hebrew"), None) == e
  {
    assert TextField(o, "english") == e.english;
    assert TextField(o, "hebrew") == e.hebrew;
  }

  /** A suggestion in the normal form the extraction produces. */
  predicate Normal(s: Suggestion) {
    && 1.0 <= s.suggestedLevel <= 4.0 && 0.0 <= s.confidence <= 1.0
    && s.suggestedCategory in Accepted
    && forall i :: 0 <= i < |s.examples| ==> s.examples[i].context.None?
  }

  lemma {:induction false} ExamplesRoundTrip(exs: seq<Example>)
    requires forall i :: 0 <= i < |exs| ==> exs[i].context.None?
    ensures MapExamples(ExamplesJson(exs)) == Some(exs)
  {
    if exs != [] {
      assert forall i :: 0 <= i < |exs[1..]| ==> exs[1..][i] == exs[i + 1];
      ExamplesRoundTrip(exs[1..]);
      var j := ExamplesJson(exs);
      assert j[1..] == ExamplesJson(exs[1..]);
      ExampleFieldsBack(exs[0], j[0]);
      assert MapExamples(j) == Some([exs[0]] + exs[1..]);
      assert [exs[0]] + exs[1..] == exs;
    }
  }

  /** The fields of the JSON a suggestion is written as. */
  lemma ToJsonFields(s: Suggestion)
    ensures var j := ToJson(s);
            && !j.Null?
            && TextField(j, "english") == s.english
            && TextField(j, "hebrew") == s.hebrew
            && TextField(j, "context") == s.context
            && Get(j, "examples") == Some(Arr(ExamplesJson(s.examples)))
            && Get(j, "suggestedLevel") == Some(Num(s.suggestedLevel))
            && Get(j, "suggestedCategory") == Some(Str(CategoryName(s.suggestedCategory)))
            && Get(j, "confidence") == Some(Num(s.confidence))
  {
  }

  /** Normalising a normal suggestion written as JSON gives it back unchanged. */
  lemma ItemRoundTrip(s: Suggestion)
    requires Normal(s)
    ensures MapItem(ToJson(s)) == Some(s)
  {
    var j := ToJson(s);
    ToJsonFields(s);
    ExamplesRoundTrip(s.examples);
    ItemWithExamples(j, ExamplesJson(s.examples), s.examples);
    CategoryRoundTrip(s.suggestedCategory);
    assert Or(Get(j, "suggestedCategory"), Str("")) == Str(CategoryName(s.suggestedCategory));
    assert Clamp(NumberOr(Get(j, "suggestedLevel"), 1.0), 1.0, 4.0) == s.suggestedLevel;
    assert Clamp(NumberOr(Get(j, "confidence"), 0.0), 0.0, 1.0) == s.confidence;
  }

  /** An item whose examples all normalise gives a suggestion with those examples. */
  lemma ItemWithExamples(item: Value, exs: seq<Value>, e: seq<Example>)
    requires !item.Null? && Get(item, "examples") == Some(Arr(exs)) && MapExamples(exs) == Some(e)
    ensures MapItem(item).Some? && MapItem(item).value.examples == e
    ensures MapItem(item).value.english == TextField(item, "english")
    ensures MapItem(item).value.hebrew == TextField(item, "hebrew")
    ensures MapItem(item).value.context == TextField(item, "context")
    ensures MapItem(item).value.suggestedLevel == Clamp(NumberOr(Get(item, "suggestedLevel"), 1.0), 1.0, 4.0)
    ensures MapItem(item).value.suggestedCategory == ValidateCategory(Or(Get(item, "suggestedCategory"), Str("")))
    ensures MapItem(item).value.confidence == Clamp(NumberOr(Get(item, "confidence"), 0.0), 0.0, 1.0)
  {
  }

  lemma {:induction false} KeepNamedKeepsAll(ss: seq<Suggestion>)
    requires forall i :: 0 <= i < |ss| ==> ss[i].english != [] && ss[i].hebrew != []
    ensures KeepNamed(ss) == ss
  {
    if ss != [] {
      KeepNamedKeepsAll(ss[1..]);
      assert [ss[0]] + ss[1..] == ss;
    }
  }

  /** Items written from normal suggestions normalise back to those suggestions, in order. */
  lemma {:induction false} MapItemsRoundTrip(ss: seq<Suggestion>, items: seq<Value>)
    requires |items| == |ss| && forall i :: 0 <= i < |ss| ==> items[i] == ToJson(ss[i])
    requires forall i :: 0 <= i < |ss| ==> Normal(ss[i])
    ensures MapItems(items) == Some(ss)
  {
    if ss != [] {
      ItemRoundTrip(ss[0]);
      forall i | 0 <= i < |ss[1..]| ensures items[1..][i] == ToJson(ss[1..][i]) && Normal(ss[1..][i]) {
        assert items[1..][i] == items[i + 1] && ss[1..][i] == ss[i + 1];
      }
      MapItemsRoundTrip(ss[1..], items[1..]);
      assert MapItems(items) == Some([ss[0]] + ss[1..]);
      assert [ss[0]] + ss[1..] == ss;
    }
  }

  /**
   * A reply whose JSON lists normal, named suggestions yields exactly those
   * suggestions, in order.
   */
  lemma ResponseRoundTrip(content: string, parse: string -> Option<Value>, ss: seq<Suggestion>, items: seq<Value>)
    requires |items| == |ss| && forall i :: 0 <= i < |ss| ==> items[i] == ToJson(ss[i])
    requires JsonSpan(content).Some?
    requires parse(JsonSpan(content).value) == Some(Obj(map["vocabulary" := Arr(items)]))
    requires forall i :: 0 <= i < |ss| ==> Normal(ss[i]) && ss[i].english != [] && ss[i].hebrew != []
    ensures ParseVocabularyResponse(content, parse) == ss
  {
    var root := Obj(map["vocabulary" := Arr(items)]);
    RootRoundTrip(ss, items);
    assert ParseVocabularyResponse(content, parse) == FromRoot(root);
  }

  /** A `vocabulary` array of normal, named suggestions reads back as exactly those suggestions. */
  lemma RootRoundTrip(ss: seq<Suggestion>, items: seq<Value>)
    requires |items| == |ss| && forall i :: 0 <= i < |ss| ==> items[i] == ToJson(ss[i])
    requires forall i :: 0 <= i < |ss| ==> Normal(ss[i]) && ss[i].english != [] && ss[i].hebrew != []
    ensures FromRoot(Obj(map["vocabulary" := Arr(items)])) == ss
  {
    var root := Obj(map["vocabulary" := Arr(items)]);
    assert forall i :: 0 <= i < |ss| ==> Normal(ss[i]);
    MapItemsRoundTrip(ss, items);
    KeepNamedKeepsAll(ss);
    assert Get(root, "vocabulary") == Some(Arr(items));
  }
}

=== FILE: vocab_view.dfy ===
/**
 * The vocabulary screen (`VocabularyComponent`): the filter and sort
 * controls, the review session, the example and tag fields of the card
 * form, and the progress and timer texts. Dialogs, views and storage are
 * left out; the store is passed in and handed back.
 */
module VocabView {
  import opened Text
  import opened VocabCards

  /* ---------- filters and sorting ---------- */

  datatype SortKey = ByDate | ByLevel | ByCategory
  datatype Direction = Asc | Desc

  datatype Filters = Filters(
    query: string,
    category: Option<Category>,
    level: Option<real>,
    sortBy: SortKey,
    direction: Direction)

  /** The controls as the screen starts and as `clearFilters` leaves them. */
  const Cleared: Filters := Filters("", None, None, ByDate, Desc)

  /** `toggleSort`: the same criterion flips the direction, a new one starts ascending. */
  function ToggleSort(f: Filters, criterion: SortKey): (r: Filters)
    ensures r.sortBy == criterion
    ensures f.sortBy == criterion ==> r.direction != f.direction
    ensures f.sortBy != criterion ==> r.direction == Asc
    ensures r.(sortBy := f.sortBy, direction := f.direction) == f
  {
    if f.sortBy == criterion then f.(direction := if f.direction == Asc then Desc else Asc)
    else f.(sortBy := criterion, direction := Asc)
  }

  /** Clicking the current criterion twice restores the order. */
  lemma ToggleTwice(f: Filters, criterion: SortKey)
    requires f.sortBy == criterion
    ensures ToggleSort(ToggleSort(f, criterion), criterion) == f
  {
  }

  /** Clicking a new criterion twice ends descending. */
  lemma NewCriterionTwice(f: Filters, criterion: SortKey)
    requires f.sortBy != criterion
    ensures ToggleSort(ToggleSort(f, criterion), criterion).direction == Desc
  {
  }

  /** `clearFilters`: whatever the controls were. */
  function ClearFilters(f: Filters): (r: Filters)
    ensures r.query == [] && r.category.None? && r.level.None?
    ensures r.sortBy == ByDate && r.direction == Desc
  {
    Cleared
  }

  /** Three-way comparison of two texts, character code by character code. */
  function LexCompare(a: string, b: string): (r: int)
    ensures -1 <= r <= 1
    ensures r == 0 <==> a == b
  {
    if a == [] && b == [] then 0
    else if a == [] then -1
    else if b == [] then 1
    else if a[0] < b[0] then -1
    else if a[0] > b[0] then 1
    else
      var r := LexCompare(a[1..], b[1..]);
      assert a == [a[0]] + a[1..] && b == [b[0]] + b[1..];
      r
  }

  /**
   * The position of a category's name in alphabetical order. For these
   * nine lower-case names `localeCompare` agrees with character order.
   */
  function CategoryRank(c: Category): (r: nat)
    ensures r < 9
  {
    match c
    case Academic => 0
    case Adjectives => 1
    case Adverbs => 2
    case Business => 3
    case DailyLife => 4
    case Idioms => 5
    case Nouns => 6
    case Phrases => 7
    case Verbs => 8
  }

  lemma {:induction false} LexAntisymmetric(a: string, b: string)
    ensures LexCompare(b, a) == -LexCompare(a, b)
  {
    if a != [] && b != [] && a[0] == b[0] {
      LexAntisymmetric(a[1..], b[1..]);
    }
  }

  lemma {:induction false} LexTransitive(a: string, b: string, c: string)
    requires LexCompare(a, b) < 0 && LexCompare(b, c) < 0
    ensures LexCompare(a, c) < 0
  {
    if a != [] && b != [] && c != [] && a[0] == b[0] && b[0] == c[0] {
      LexTransitive(a[1..], b[1..], c[1..]);
    }
  }

  /** The category with alphabetical position `n`. */
  function CategoryAt(n: nat): (c: Category)
    requires n < 9
    ensures CategoryRank(c) == n
  {
    match n
    case 0 => Academic
    case 1 => Adjectives
    case 2 => Adverbs
    case 3 => Business
    case 4 => DailyLife
    case 5 => Idioms
    case 6 => Nouns
    case 7 => Phrases
    case _ => Verbs
  }

  /** Each name comes before the next one in alphabetical position. */
  lemma NeighboursInOrder(n: nat)
    requires n < 8
    ensures LexCompare(CategoryName(CategoryAt(n)), CategoryName(CategoryAt(n + 1))) < 0
  {
    var x, y := CategoryName(CategoryAt(n)), CategoryName(CategoryAt(n + 1));
    if n == 0 {
      assert x[0] == y[0] && x[1] < y[1];
      assert LexCompare(x, y) == LexCompare(x[1..], y[1..]);
    } else if n == 1 {
      assert x[0] == y[0] && x[1] == y[1] && x[2] < y[2];
      assert LexCompare(x, y) == LexCompare(x[1..], y[1..]);
      assert LexCompare(x[1..], y[1..]) == LexCompare(x[2..], y[2..]);
    } else {
      assert x[0] < y[0];
    }
  }

  lemma {:induction false} RankOrder(i: nat, j: nat)
    requires i < j < 9
    ensures LexCompare(CategoryName(CategoryAt(i)), CategoryName(CategoryAt(j))) < 0
    decreases j - i
  {
    NeighboursInOrder(i);
    if i + 1 < j {
      RankOrder(i + 1, j);
      LexTransitive(CategoryName(CategoryAt(i)), CategoryName(CategoryAt(i + 1)), CategoryName(CategoryAt(j)));
    }
  }

  /** The ranks follow the names' alphabetical order. */
  lemma {:induction false} RankIsAlphabetical(a: Category, b: Category)
    ensures LexCompare(CategoryName(a), CategoryName(b)) < 0 <==> CategoryRank(a) < CategoryRank(b)
    ensures LexCompare(CategoryName(a), CategoryName(b)) == 0 <==> a == b
  {
    var i, j := CategoryRank(a), CategoryRank(b);
    assert CategoryAt(i) == a && CategoryAt(j) == b;
    if i < j {
      RankOrder(i, j);
    } else if j < i {
      RankOrder(j, i);
      LexAntisymmetric(CategoryName(a), CategoryName(b));
    }
  }

  /** The comparator `sortCards` hands to `Array.prototype.sort`. */
  function Comparison(a: Card, b: Card, key: SortKey): real {
    match key
    case ByDate => (b.createdAt - a.createdAt) as real
    case ByLevel => a.level - b.level
    case ByCategory => LexCompare(CategoryName(a.category), CategoryName(b.category)) as real
  }

  function Compare(a: Card, b: Card, key: SortKey, dir: Direction): real {
    if dir == Asc then Comparison(a, b, key) else -Comparison(a, b, key)
  }

  /** The number the comparator orders by: smaller comes first. */
  function SortValue(c: Card, key: SortKey, dir: Direction): real {
    var v := match key
      case ByDate => -c.createdAt as real
      case ByLevel => c.level
      case ByCategory => CategoryRank(c.category) as real;
    if dir == Asc then v else -v
  }

  /** The comparator says "before", "tie" or "after" exactly as the sort values do. */
  lemma CompareBySortValue(a: Card, b: Card, key: SortKey, dir: Direction)
    ensures Compare(a, b, key, dir) < 0.0 <==> SortValue(a, key, dir) < SortValue(b, key, dir)
    ensures Compare(a, b, key, dir) == 0.0 <==> SortValue(a, key, dir) == SortValue(b, key, dir)
  {
    RankIsAlphabetical(a.category, b.category);
  }

  predicate SortedBy(cards: seq<Card>, key: SortKey, dir: Direction) {
    forall i, j :: 0 <= i < j < |cards| ==> SortValue(cards[i], key, dir) <= SortValue(cards[j], key, dir)
  }

  /** Puts `c` before the first card that does not sort below it. */
  function Insert(c: Card, cards: seq<Card>, key: SortKey, dir: Direction): (r: seq<Card>)
    requires SortedBy(cards, key, dir)
    ensures SortedBy(r, key, dir)
    ensures multiset(r) == multiset(cards) + multiset{c}
  {
    if cards == [] || SortValue(c, key, dir) <= SortValue(cards[0], key, dir) then [c] + cards
    else
      var h := cards[0];
      var rest := Insert(c, cards[1..], key, dir);
      assert cards == [h] + cards[1..];
      InsertBound(h, c, cards[1..], rest, key, dir);
      [h] + rest
  }

  lemma InsertBound(h: Card, c: Card, tail: seq<Card>, rest: seq<Card>, key: SortKey, dir: Direction)
    requires SortedBy([h] + tail, key, dir) && SortedBy(rest, key, dir)
    requires SortValue(h, key, dir) < SortValue(c, key, dir)
    requires multiset(rest) == multiset(tail) + multiset{c}
    ensures SortedBy([h] + rest, key, dir)
  {
    forall x | x in rest ensures SortValue(h, key, dir) <= SortValue(x, key, dir) {
      assert x in multiset(rest);
      if x != c {
        assert x in multiset(tail);
        var k :| 0 <= k < |tail| && tail[k] == x;
        assert ([h] + tail)[0] == h && ([h] + tail)[k + 1] == x;
      }
    }
    var r := [h] + rest;
    forall i, j | 0 <= i < j < |r| ensures SortValue(r[i], key, dir) <= SortValue(r[j], key, dir) {
      if i == 0 { assert r[j] in rest; } else { assert r[i] == rest[i - 1] && r[j] == rest[j - 1]; }
    }
  }

  /** `sortCards`: a stable insertion sort by the comparator. */
  function SortCards(cards: seq<Card>, key: SortKey, dir: Direction): (r: seq<Card>)
    ensures SortedBy(r, key, dir)
    ensures multiset(r) == multiset(cards)
  {
    if cards == [] then []
    else
      assert cards == [cards[0]] + cards[1..];
      Insert(cards[0], SortCards(cards[1..], key, dir), key, dir)
  }

  /** No neighbour pair in the result is one the comparator would swap. */
  lemma SortedAgreesWithComparator(cards: seq<Card>, key: SortKey, dir: Direction, i: nat, j: nat)
    requires i < j < |SortCards(cards, key, dir)|
    ensures var r := SortCards(cards, key, dir); Compare(r[i], r[j], key, dir) <= 0.0
  {
    var r := SortCards(cards, key, dir);
    CompareBySortValue(r[i], r[j], key, dir);
  }

  /**
   * The initial order (date, descending) shows the oldest card first: the
   * date comparator already puts newer cards first, and descending reverses it.
   */
  lemma DefaultOrderIsOldestFirst(cards: seq<Card>, i: nat, j: nat)
    requires i < j < |cards|
    ensures var r := SortCards(cards, ByDate, Desc); |r| == |cards| && r[i].createdAt <= r[j].createdAt
  {
    var r := SortCards(cards, ByDate, Desc);
    assert |r| == |multiset(r)| == |cards|;
    assert SortValue(r[i], ByDate, Desc) <= SortValue(r[j], ByDate, Desc);
  }

  function FilterCategory(cards: seq<Card>, c: Category): (r: seq<Card>)
    ensures forall x :: x in r <==> x in cards && x.category == c
  {
    if cards == [] then []
    else (if cards[0].category == c then [cards[0]] else []) + FilterCategory(cards[1..], c)
  }

  function FilterLevel(cards: seq<Card>, level: real): (r: seq<Card>)
    ensures forall x :: x in r <==> x in cards && x.level == level
  {
    if cards == [] then []
    else (if cards[0].level == level then [cards[0]] else []) + FilterLevel(cards[1..], level)
  }

  /** `applyFilters`: the cards that match every control, in the chosen order. */
  function ApplyFilters(cards: seq<Card>, f: Filters): (r: seq<Card>)
    ensures forall c :: c in r <==>
              && c in cards && MatchesQuery(c, f.query)
              && (f.category.None? || c.category == f.category.value)
              && (f.level.None? || c.level == f.level.value)
    ensures SortedBy(r, f.sortBy, f.direction)
  {
    var found := SearchCards(cards, f.query);
    var byCategory := if f.category.Some? then FilterCategory(found, f.category.value) else found;
    var byLevel := if f.level.Some? then FilterLevel(byCategory, f.level.value) else byCategory;
    var r := SortCards(byLevel, f.sortBy, f.direction);
    assert forall c :: c in r <==> c in byLevel by {
      forall c ensures c in r <==> c in byLevel { assert c in r <==> c in multiset(r); }
    }
    r
  }

  /** Every card matches the empty query. */
  lemma {:induction false} EmptyQueryFindsAll(cards: seq<Card>)
    ensures SearchCards(cards, "") == cards
  {
    if cards != [] {
      var c := cards[0];
      assert LitAt(ToLower(c.english), 0, "", false);
      EmptyQueryFindsAll(cards[1..]);
      assert cards == [c] + cards[1..];
    }
  }

  /** After `clearFilters` every card is listed, each once. */
  lemma ClearedShowsAll(cards: seq<Card>, f: Filters)
    ensures multiset(ApplyFilters(cards, ClearFilters(f))) == multiset(cards)
  {
    EmptyQueryFindsAll(cards);
  }

  /* ---------- the review session ---------- */

  datatype Review = Review(
    cards: seq<Card>,
    index: nat,
    showAnswer: bool,
    inProgress: bool,
    correct: nat,
    incorrect: nat,
    lastReviewDate: LastReview)

  /**
   * `startReviewSession` at time `now`: the due cards, from the first, nothing
   * answered, and the review date stamped `now`.
   */
  function StartReviewSession(store: seq<Card>, now: int): (r: Review)
    ensures r.inProgress && !r.showAnswer && r.index == 0 && r.correct == 0 && r.incorrect == 0
    ensures forall c :: c in r.cards <==> c in store && c.nextReview.Some? && c.nextReview.value <= now
    ensures r.lastReviewDate == ReviewedAt(now)
  {
    Review(CardsForReview(store, now), 0, false, true, 0, 0, ReviewedAt(now))
  }

  /** Right after a session starts, the timer names the full four hours. */
  lemma StartedSessionWaitsFourHours(store: seq<Card>, now: int)
    ensures TimeUntilNextReview(StartReviewSession(store, now).lastReviewDate, now) == "Next review in 4 hours"
  {
    assert HoursLeft(4 * HourMs) == 4;
    assert NatToString(4) == "4";
  }

  /** The session and store after an answer; `Crashed` when there is no current card to read. */
  datatype Answered = Crashed | Answered(session: Review, store: seq<Card>)

  /**
   * `reviewAnswer`: outside a session nothing happens; otherwise the current
   * card's result is recorded, the tally grows, and the session moves to the
   * next card or completes after the last one.
   */
  function ReviewAnswer(s: Review, store: seq<Card>, correct: bool, now: nat): (r: Answered)
    ensures !s.inProgress ==> r == Answered(s, store)
    ensures s.inProgress && s.index >= |s.cards| ==> r.Crashed?
    ensures s.inProgress && s.index < |s.cards| ==>
              && r.Answered?
              && r.store == RecordReviewResult(store, s.cards[s.index].id, correct, now)
              && r.session.correct + r.session.incorrect == s.correct + s.incorrect + 1
              && (correct ==> r.session.correct == s.correct + 1)
              && (!correct ==> r.session.incorrect == s.incorrect + 1)
              && (r.session.inProgress <==> s.index < |s.cards| - 1)
    ensures r.Answered? ==> r.session.lastReviewDate == s.lastReviewDate
  {
    if !s.inProgress then Answered(s, store)
    else if s.index >= |s.cards| then Crashed
    else
      var card := s.cards[s.index];
      var store' := RecordReviewResult(store, card.id, correct, now);
      var tallied := if correct then s.(correct := s.correct + 1) else s.(incorrect := s.incorrect + 1);
      if s.index < |s.cards| - 1 then Answered(tallied.(index := s.index + 1, showAnswer := false), store')
      else Answered(tallied.(inProgress := false), store')
  }

  /** With no card due, the first answer reads past the end. */
  lemma NothingDueCrashes(store: seq<Card>, now: int, correct: bool, t: nat)
    requires forall c :: c in store ==> c.nextReview.None? || c.nextReview.value > now
    ensures ReviewAnswer(StartReviewSession(store, now), store, correct, t).Crashed?
  {
    NoElementMeansEmpty(StartReviewSession(store, now).cards);
  }

  lemma NoElementMeansEmpty(cards: seq<Card>)
    ensures (forall c :: c !in cards) ==> cards == []
  {
    if cards != [] {
      assert cards[0] in cards;
    }
  }

  /** Answers given one after another; the same clock reading for all of them. */
  function RunAnswers(s: Review, store: seq<Card>, answers: seq<bool>, now: nat): (r: Answered)
    decreases |answers|
  {
    if answers == [] then Answered(s, store)
    else
      match ReviewAnswer(s, store, answers[0], now)
      case Crashed => Crashed
      case Answered(s', store') => RunAnswers(s', store', answers[1..], now)
  }

  function CountTrue(bs: seq<bool>): (r: nat)
    ensures r <= |bs|
  {
    if bs == [] then 0 else (if bs[0] then 1 else 0) + CountTrue(bs[1..])
  }

  /** Mid-session: one answer per remaining card ends the session with every answer counted. */
  lemma {:induction false} RunToEnd(s: Review, store: seq<Card>, answers: seq<bool>, now: nat)
    requires s.inProgress && s.index < |s.cards| && |answers| == |s.cards| - s.index
    ensures var r := RunAnswers(s, store, answers, now);
            && r.Answered? && !r.session.inProgress && r.session.cards == s.cards
            && r.session.correct == s.correct + CountTrue(answers)
            && r.session.incorrect == s.incorrect + |answers| - CountTrue(answers)
    decreases |answers|
  {
    var a := ReviewAnswer(s, store, answers[0], now);
    if |answers| > 1 {
      RunToEnd(a.session, a.store, answers[1..], now);
    }
  }

  /** A session over `n` due cards, answered `n` times, completes with every answer in the tally. */
  lemma FullSession(store: seq<Card>, now: int, answers: seq<bool>, t: nat)
    requires |answers| == |StartReviewSession(store, now).cards| > 0
    ensures var r := RunAnswers(StartReviewSession(store, now), store, answers, t);
            && r.Answered? && !r.session.inProgress
            && r.session.correct == CountTrue(answers)
            && r.session.correct + r.session.incorrect == |r.session.cards|
  {
    RunToEnd(StartReviewSession(store, now), store, answers, t);
  }

  /* ---------- percentages ---------- */

  /** `Math.round`: the nearest integer, halves rounding up. */
  function Round(x: real): (r: int)
    ensures r as real - 0.5 <= x < r as real + 0.5
  {
    (x + 0.5).Floor
  }

  /** `Math.round(part / total * 100)` for a part of a positive total. */
  function Percent(part: nat, total: nat): (r: int)
    requires 0 < total && part <= total
    ensures 0 <= r <= 100
    ensures part == 0 ==> r == 0
    ensures part == total ==> r == 100
  {
    var q := part as real / total as real;
    assert 0.0 <= q <= 1.0;
    assert part == total ==> q == 1.0;
    Round(q * 100.0)
  }

  /** `getCardProgress`: the card's share of correct answers in whole percent, 0 before any answer. */
  function CardProgress(c: Card): (r: int)
    ensures 0 <= r <= 100
    ensures c.correctCount + c.incorrectCount == 0 ==> r == 0
    ensures c.incorrectCount == 0 && c.correctCount > 0 ==> r == 100
  {
    var total := c.correctCount + c.incorrectCount;
    if total == 0 then 0 else Percent(c.correctCount, total)
  }

  /** The percentage is the nearest whole number to the exact share. */
  lemma ProgressIsNearest(c: Card)
    requires c.correctCount + c.incorrectCount > 0
    ensures var exact := c.correctCount as real * 100.0 / (c.correctCount + c.incorrectCount) as real;
            CardProgress(c) as real - 0.5 <= exact < CardProgress(c) as real + 0.5
  {
    var total := (c.correctCount + c.incorrectCount) as real;
    assert c.correctCount as real / total * 100.0 == c.correctCount as real * 100.0 / total;
  }

  /** The accuracy `showReviewSummary` reports when a session completes. */
  function SessionAccuracy(s: Review): (r: int)
    requires |s.cards| > 0 && s.correct <= |s.cards|
    ensures 0 <= r <= 100
    ensures s.correct == |s.cards| ==> r == 100
  {
    Percent(s.correct, |s.cards|)
  }

  /* ---------- the card form ---------- */

  /** One example row of the form; `context` is `None` when the field is `undefined`. */
  datatype ExampleForm = ExampleForm(english: string, hebrew: string, context: Option<string>)

  /** An example as `processExamples` leaves it: texts trimmed, no empty context. */
  predicate Tidy(e: Example) {
    && e.english != [] && IsTrimmed(e.english)
    && e.hebrew != [] && IsTrimmed(e.hebrew)
    && (e.context.Some? ==> e.context.value != [] && IsTrimmed(e.context.value))
  }

  function ProcessExample(f: ExampleForm): Example {
    var c := if f.context.Some? then Trim(f.context.value) else [];
    Example(Trim(f.english), Trim(f.hebrew), if c == [] then None else Some(c))
  }

  /** `processExamples`: rows with an empty English or Hebrew text are dropped, the rest trimmed. */
  function ProcessExamples(forms: seq<ExampleForm>): (r: seq<Example>)
    ensures forall i :: 0 <= i < |r| ==> Tidy(r[i])
    ensures |r| <= |forms|
  {
    if forms == [] then []
    else
      var f := forms[0];
      (if Filled(f) then [ProcessExample(f)] else []) + ProcessExamples(forms[1..])
  }

  /** A row `processExamples` keeps: both texts non-blank. */
  predicate Filled(f: ExampleForm) {
    Trim(f.english) != [] && Trim(f.hebrew) != []
  }

  /** Every example kept comes from a filled row. */
  lemma {:induction false} ProcessExamplesSound(forms: seq<ExampleForm>)
    ensures forall e :: e in ProcessExamples(forms) ==>
              exists j :: 0 <= j < |forms| && Filled(forms[j]) && e == ProcessExample(forms[j])
  {
    if forms != [] {
      var rest := forms[1..];
      ProcessExamplesSound(rest);
      var head := if Filled(forms[0]) then [ProcessExample(forms[0])] else [];
      assert ProcessExamples(forms) == head + ProcessExamples(rest);
      forall e | e in ProcessExamples(forms)
        ensures exists j :: 0 <= j < |forms| && Filled(forms[j]) && e == ProcessExample(forms[j])
      {
        if e !in head {
          var j :| 0 <= j < |rest| && Filled(rest[j]) && e == ProcessExample(rest[j]);
          assert rest[j] == forms[j + 1];
        }
      }
    }
  }

  /** Every filled row gives its processed example. */
  lemma ProcessExamplesComplete(forms: seq<ExampleForm>)
    ensures forall j :: 0 <= j < |forms| && Filled(forms[j]) ==> ProcessExample(forms[j]) in ProcessExamples(forms)
  {
    forall j | 0 <= j < |forms| && Filled(forms[j]) ensures ProcessExample(forms[j]) in ProcessExamples(forms) {
      FilledRowKept(forms, j);
    }
  }

  lemma {:induction false} FilledRowKept(forms: seq<ExampleForm>, j: nat)
    requires j < |forms| && Filled(forms[j])
    ensures ProcessExample(forms[j]) in ProcessExamples(forms)
  {
    var rest := forms[1..];
    var head := if Filled(forms[0]) then [ProcessExample(forms[0])] else [];
    assert ProcessExamples(forms) == head + ProcessExamples(rest);
    if j > 0 {
      assert forms[j] == rest[j - 1];
      FilledRowKept(rest, j - 1);
    }
  }

  /** Processing distributes over concatenation, so the kept rows stay in order. */
  lemma {:induction false} ProcessExamplesAppend(a: seq<ExampleForm>, b: seq<ExampleForm>)
    ensures ProcessExamples(a + b) == ProcessExamples(a) + ProcessExamples(b)
  {
    if a == [] {
      assert a + b == b;
    } else {
      var head := if Filled(a[0]) then [ProcessExample(a[0])] else [];
      assert (a + b)[0] == a[0];
      assert (a + b)[1..] == a[1..] + b;
      assert ProcessExamples(a + b) == head + ProcessExamples(a[1..] + b);
      ProcessExamplesAppend(a[1..], b);
      Regroup(head, ProcessExamples(a[1..]), ProcessExamples(b));
    }
  }

  /** `editCard`'s example rows: a missing context becomes an empty field. */
  function EditForms(exs: seq<Example>): (r: seq<ExampleForm>)
    ensures |r| == |exs|
  {
    if exs == [] then []
    else [EditForm(exs[0])] + EditForms(exs[1..])
  }

  /** Opening a card for editing and saving it unchanged keeps its examples. */
  lemma {:induction false} EditThenSaveKeepsExamples(exs: seq<Example>)
    requires forall i :: 0 <= i < |exs| ==> Tidy(exs[i])
    ensures ProcessExamples(EditForms(exs)) == exs
  {
    if exs != [] {
      var e := exs[0];
      var forms := EditForms(exs);
      assert forms[0] == EditForm(e) && forms[1..] == EditForms(exs[1..]);
      EditThenSaveOne(e);
      assert ProcessExamples(forms) == [e] + ProcessExamples(forms[1..]);
      forall i | 0 <= i < |exs[1..]| ensures Tidy(exs[1..][i]) {
        assert exs[1..][i] == exs[i + 1];
      }
      EditThenSaveKeepsExamples(exs[1..]);
      assert exs == [e] + exs[1..];
    }
  }

  function EditForm(e: Example): ExampleForm {
    ExampleForm(e.english, e.hebrew, Some(Pick(e.context, "")))
  }

  /** A tidy example survives the round trip through its form row. */
  lemma EditThenSaveOne(e: Example)
    requires Tidy(e)
    ensures Trim(EditForm(e).english) != [] && Trim(EditForm(e).hebrew) != []
    ensures ProcessExample(EditForm(e)) == e
  {
    var f := EditForm(e);
    var c := Pick(e.context, "");
    assert Trim(f.english) == e.english by { TrimOfTrimmed(e.english); }
    assert Trim(f.hebrew) == e.hebrew by { TrimOfTrimmed(e.hebrew); }
    assert Trim(c) == c && (c == [] <==> e.context.None?) by {
      if e.context.Some? { TrimOfTrimmed(e.context.value); } else { TrimOfTrimmed(""); }
    }
  }

  /** Processing twice is processing once. */
  lemma ProcessExamplesIdempotent(forms: seq<ExampleForm>)
    ensures ProcessExamples(EditForms(ProcessExamples(forms))) == ProcessExamples(forms)
  {
    EditThenSaveKeepsExamples(ProcessExamples(forms));
  }

  /** The pieces of a split, trimmed, without the empty ones. */
  function TrimAll(parts: seq<string>): (r: seq<string>)
    ensures forall i :: 0 <= i < |r| ==> r[i] != [] && IsTrimmed(r[i])
    ensures |r| <= |parts|
  {
    if parts == [] then []
    else (var t := Trim(parts[0]); if t != [] then [t] else []) + TrimAll(parts[1..])
  }

  /** The kept pieces are exactly the non-empty trimmed pieces of the input. */
  lemma {:induction false} TrimAllKeeps(parts: seq<string>)
    ensures forall t :: t in TrimAll(parts) ==> exists j :: 0 <= j < |parts| && t == Trim(parts[j])
    ensures forall j :: 0 <= j < |parts| && Trim(parts[j]) != [] ==> Trim(parts[j]) in TrimAll(parts)
  {
    if parts != [] {
      TrimAllKeeps(parts[1..]);
      var t0 := Trim(parts[0]);
      var head := if t0 != [] then [t0] else [];
      assert TrimAll(parts) == head + TrimAll(parts[1..]);
      forall t | t in TrimAll(parts) ensures exists j :: 0 <= j < |parts| && t == Trim(parts[j]) {
        if t in head {
          assert t == Trim(parts[0]);
        } else {
          var j :| 0 <= j < |parts[1..]| && t == Trim(parts[1..][j]);
          assert parts[1..][j] == parts[j + 1];
        }
      }
      forall j | 0 <= j < |parts| && Trim(parts[j]) != [] ensures Trim(parts[j]) in TrimAll(parts) {
        if j > 0 {
          assert parts[j] == parts[1..][j - 1];
        }
      }
    }
  }

  /** Trimming the pieces distributes over concatenation, so the kept pieces stay in order. */
  lemma {:induction false} TrimAllAppend(a: seq<string>, b: seq<string>)
    ensures TrimAll(a + b) == TrimAll(a) + TrimAll(b)
  {
    if a == [] {
      assert a + b == b;
    } else {
      var t := Trim(a[0]);
      var head := if t != [] then [t] else [];
      assert (a + b)[0] == a[0];
      assert (a + b)[1..] == a[1..] + b;
      assert TrimAll(a + b) == head + TrimAll(a[1..] + b);
      TrimAllAppend(a[1..], b);
      Regroup(head, TrimAll(a[1..]), TrimAll(b));
    }
  }

  /** `submitCard`'s tags: the field split at commas, each piece trimmed, empty pieces dropped. */
  function ParseTags(field: string): (r: seq<string>)
    ensures forall i :: 0 <= i < |r| ==> r[i] != [] && IsTrimmed(r[i]) && ',' !in r[i]
  {
    var r := TrimAll(Split(field, ','));
    assert forall i :: 0 <= i < |r| ==> ',' !in r[i] by {
      TrimAllNoComma(Split(field, ','));
    }
    r
  }

  lemma {:induction false} TrimAllNoComma(parts: seq<string>)
    requires forall i :: 0 <= i < |parts| ==> ',' !in parts[i]
    ensures forall i :: 0 <= i < |TrimAll(parts)| ==> ',' !in TrimAll(parts)[i]
  {
    if parts != [] {
      var t := Trim(parts[0]);
      assert forall k :: 0 <= k < |t| ==> t[k] in parts[0];
      TrimAllNoComma(parts[1..]);
    }
  }

  /** `editCard`'s tag field: the tags joined with a comma and a space. */
  function TagsField(tags: seq<string>): string {
    Join(tags, ", ")
  }

  /** The tags with the space that follows each separator moved into the next tag. */
  function Spaced(tags: seq<string>): (r: seq<string>)
    ensures |r| == |tags|
  {
    if |tags| <= 1 then tags else [tags[0]] + Prefixed(tags[1..])
  }

  function Prefixed(tags: seq<string>): (r: seq<string>)
    ensures |r| == |tags| && forall i :: 0 <= i < |r| ==> r[i] == " " + tags[i]
  {
    if tags == [] then [] else [" " + tags[0]] + Prefixed(tags[1..])
  }

  lemma {:induction false} JoinSpaced(tags: seq<string>)
    ensures Join(tags, ", ") == Join(Spaced(tags), ",")
  {
    if |tags| > 1 {
      var rest := tags[1..];
      var sp := Spaced(tags);
      calc {
        Join(sp, ",");
      == { assert sp[0] == tags[0] && sp[1..] == Prefixed(rest); }
        tags[0] + "," + Join(Prefixed(rest), ",");
      == { JoinPrefixed(rest); }
        tags[0] + "," + (" " + Join(rest, ", "));
      == { assert "," + " " == ", "; }
        tags[0] + ", " + Join(rest, ", ");
      }
    }
  }

  /** Joining the prefixed tags with commas is a space, then the tags joined with comma and space. */
  lemma {:induction false} JoinPrefixed(xs: seq<string>)
    requires xs != []
    ensures Join(Prefixed(xs), ",") == " " + Join(xs, ", ")
    decreases |xs|
  {
    var p := Prefixed(xs);
    if |xs| > 1 {
      calc {
        Join(p, ",");
      == { assert p[0] == " " + xs[0] && p[1..] == Prefixed(xs[1..]); }
        (" " + xs[0]) + "," + Join(Prefixed(xs[1..]), ",");
      == { JoinPrefixed(xs[1..]); }
        (" " + xs[0]) + "," + (" " + Join(xs[1..], ", "));
      == { assert "," + " " == ", "; }
        " " + (xs[0] + ", " + Join(xs[1..], ", "));
      }
    }
  }

  /** A space before a trimmed, non-empty text trims away. */
  lemma TrimSpaced(t: string)
    requires t != [] && IsTrimmed(t)
    ensures Trim(" " + t) == t
  {
    var s := " " + t;
    assert s[..1] == " " && s[1..] == t && s[|s|..] == [];
    assert s[1..|s|] == t;
    TrimIs(s, 1, |s|);
  }

  lemma {:induction false} TrimAllSpaced(tags: seq<string>)
    requires forall i :: 0 <= i < |tags| ==> tags[i] != [] && IsTrimmed(tags[i])
    ensures TrimAll(Prefixed(tags)) == tags
  {
    if tags != [] {
      TrimSpaced(tags[0]);
      assert Prefixed(tags)[1..] == Prefixed(tags[1..]);
      TrimAllSpaced(tags[1..]);
      assert tags == [tags[0]] + tags[1..];
    }
  }

  lemma SpacedNoComma(tags: seq<string>)
    requires forall i :: 0 <= i < |tags| ==> ',' !in tags[i]
    ensures forall i :: 0 <= i < |Spaced(tags)| ==> ',' !in Spaced(tags)[i]
  {
    var sp := Spaced(tags);
    if |tags| > 1 {
      forall i | 0 <= i < |sp| ensures ',' !in sp[i] {
        if i > 0 { assert sp[i] == Prefixed(tags[1..])[i - 1] == " " + tags[i]; }
      }
    }
  }

  lemma TrimAllOfSpaced(tags: seq<string>)
    requires forall i :: 0 <= i < |tags| ==> tags[i] != [] && IsTrimmed(tags[i])
    ensures TrimAll(Spaced(tags)) == tags
  {
    if tags != [] {
      TrimOfTrimmed(tags[0]);
      if |tags| > 1 {
        TrimAllSpaced(tags[1..]);
        assert Spaced(tags) == [tags[0]] + Prefixed(tags[1..]);
        assert TrimAll(Spaced(tags)) == [tags[0]] + TrimAll(Prefixed(tags[1..]));
        assert tags == [tags[0]] + tags[1..];
      }
    }
  }

  /** Editing a card and saving it keeps its tags, as long as no tag holds a comma. */
  lemma TagsRoundTrip(tags: seq<string>)
    requires forall i :: 0 <= i < |tags| ==> tags[i] != [] && IsTrimmed(tags[i]) && ',' !in tags[i]
    ensures ParseTags(TagsField(tags)) == tags
  {
    JoinSpaced(tags);
    if tags == [] {
      assert Split([], ',') == [[]];
    } else {
      SpacedNoComma(tags);
      SplitJoin(Spaced(tags), ',');
      TrimAllOfSpaced(tags);
    }
  }

  /* ---------- the review timer ---------- */

  /** The stored `lastReviewDate`: never set, set to a text that is no date, or a time. */
  datatype LastReview = NeverReviewed | Unreadable | ReviewedAt(ms: int)

  const HourMs: int := 60 * 60 * 1000
  const ReadyText: string := "Ready for review!"

  /** `Math.ceil(left / hour)` for a positive `left`. */
  function HoursLeft(left: int): (r: nat)
    requires left > 0
    ensures r >= 1 && (r - 1) * HourMs < left <= r * HourMs
  {
    (left + HourMs - 1) / HourMs
  }

  /**
   * `getTimeUntilNextReview` at `now`: within four hours of the last review
   * (or before it, if the clock went back) the whole hours left, rounded up.
   */
  function TimeUntilNextReview(last: LastReview, now: int): (r: string)
    ensures !last.ReviewedAt? ==> r == ReadyText
    ensures last.ReviewedAt? && now - last.ms >= 4 * HourMs ==> r == ReadyText
  {
    match last
    case ReviewedAt(t) =>
      var since := now - t;
      if since < 4 * HourMs then
        var h := HoursLeft(4 * HourMs - since);
        "Next review in " + NatToString(h) + " hour" + (if h > 1 then "s" else "")
      else ReadyText
    case _ => ReadyText
  }

  /** A review at most four hours ago leaves between one and four hours, and says so. */
  lemma TimerCountsDown(t: int, now: int)
    requires t <= now < t + 4 * HourMs
    ensures var h := HoursLeft(4 * HourMs - (now - t));
            && 1 <= h <= 4
            && (h - 1) * HourMs < t + 4 * HourMs - now <= h * HourMs
            && TimeUntilNextReview(ReviewedAt(t), now)
               == "Next review in " + NatToString(h) + (if h == 1 then " hour" else " hours")
  {
  }
}
